=== FILE: README.md ===
# Inventory audit: a Dafny model of the application state

This project models the browser application that supports a physical
inventory audit of an institution's goods. An operator logs in with an
employee number. They load the official inventory from spreadsheets and
register custodians (*resguardantes*) at numbered locations. They then mark
each good as located (*ubicado*), relabel it, or take it back, and record
additional goods found on site. Areas are closed with a report, and the
floor plan of each area is kept in a small layout editor.

Everything the application knows lives in one mutable object, `state`. Each
user action is one synchronous change of that object, usually followed by
a rebuild of the serial-number cache, an entry in the activity log and a
save to browser storage. The model follows that shape:

- `AppState.Session` is the mutable `state` object (a class with one field
  per group of properties, plus the serial cache and the autosave timer).
  `SnapshotStore` is the local-storage entry. `BlobStore` holds the two
  object stores of the photo database.
- Every handler is a method on these objects. Its `ensures` ties the new
  state to a function on values (`World`: memory plus stored entry). The
  properties the application promises are proved as lemmas about those
  functions.
- Pure parts of the source (filters, report selections, area extraction,
  text helpers) are functions with lemmas.

Modules follow the source files:

| module | models |
|---|---|
| `Entities` | the records kept in `state` (items, goods, custodians, areas, layout pages) |
| `AppState` | `state.js`: default state, save, load, reset, autosave, serial cache |
| `Logger` | `logger.js`: the activity log |
| `MainHandlers` | `main.js`: area and inventory completion, deletions, login, custodians, notes, additional goods |
| `InventoryUi` | `ui-inventory.js`: the inventory filter, paging, locate, relabel and unlocate |
| `FileHandlers` | `file-handlers.js`: spreadsheet ingestion, duplicate files, session export and import |
| `ModalsCore` | `ui-modals-core.js`: notes prompt, edit prefill, reassign, keep or delete on list removal, preprint options |
| `Reports` | `reports.js`: report selections, per-user counts, area closure, spreadsheet exports |
| `Render` | `ui-render.js`: area list, dashboard, loaded lists, area buttons, additional-goods filters |
| `LayoutEditor` | `ui-layout-editor.js`: pages, sidebar, shapes and images of the layout editor |
| `Utils` | `utils.js`: location icons, area colours, search highlighting |
| `JsText`, `Seqs`, `Sorting`, `Wrappers` | JavaScript string, array and sort behaviour the modules rely on |

Inputs the program takes from its environment become parameters:

- the clock (`Now`: local and ISO timestamps and epoch milliseconds);
- generated identifiers;
- the answer to each confirmation dialog (`Choice`); the reassignment dialogs that one locate action stacks up are answered by a single click, which runs or drops all of them;
- whether a storage or database write succeeds (`writeOk`, `dbOk`);
- the employee table (`verifiers`);
- the contents of uploaded files, as sheets of text cells and as archive entries.

## Model

| member | source | states |
|---|---|---|
| AppState.ResetForgetsInventory | state.js:143-169 | the reset state keeps the operator and theme, is logged in with the session clock started, writable, with an empty log, no items, goods, custodians, closure or completion records, and a well-formed page list |
| AppState.MergeSaved | state.js:62-64 | merging the document of a saved state into any current state gives back exactly the saved state |
| AppState.MergeEmpty | state.js:64 | a document without properties leaves every field at its current value |
| AppState.ComputeSerialCache | state.js:192-202 | the two loops build exactly `SerialCache(inventory, additional)` |
| AppState.AddInventoryKeys | state.js:194-197 | the inventory loop adds exactly the trimmed, lower-cased truthy `SERIE` and `CLAVE UNICA` of every item to what was there |
| AppState.AddAdditionalKeys | state.js:198-201 | the additional-goods loop adds exactly the trimmed, lower-cased truthy `serie` and `clave` of every good |
| AppState.InventoryKeysMembership | state.js:194-197 | a value comes from the inventory exactly when some item contributes it |
| AppState.AdditionalItemsKeysMembership | state.js:198-201 | a value comes from the additional goods exactly when some good contributes it |
| AppState.SerialCacheMembership | state.js:192-202 | a value is cached iff some item's truthy serial or key, or some good's truthy `serie` or `clave`, trims and lower-cases to it |
| AppState.CacheIgnoresAssignedKeys | state.js:198-201 | changing the assigned keys (`claveAsignada`) of the goods never changes the cache |
| AppState.BlankSerialCachesEmptyString | state.js:195 | a serial of white space only is truthy and puts the empty string in the cache |
| AppState.Refreshed | state.js:192-202 | after a rebuild the cache matches the items and nothing else in memory or storage changed |
| AppState.SaveKeepsData | state.js:80-102 | saving changes no part of the state but the read-only flag, which is on afterwards iff it was on or the write failed; the cache is kept |
| AppState.ReadOnlyIsSticky | state.js:81 | in read-only mode a save changes neither memory nor storage |
| AppState.FailedSaveIsFinal | state.js:92-100 | a failed write turns read-only mode on, and every later save is then a no-op |
| AppState.LoadAfterSave | state.js:58-68 | a successful save followed by a load reports success and restores the same memory |
| AppState.LoadRebuildsCache | state.js:67 | whenever a load succeeds the cache matches the loaded items |
| AppState.AutosaveIntervalNonZero | state.js:108 | the autosave period is never zero and is a whole number of seconds |
| AppState.AutosaveIntervalReadsSetting | state.js:108 | a setting with a non-zero number of seconds gives that many seconds |
| AppState.Session.constructor | state.js:5-49 | the state starts as the default state with an empty cache and no timer |
| AppState.Session.UpdateSerialNumberCache | state.js:192-202 | the cache is cleared and refilled to exactly `SerialCache` of the current items; nothing else changes |
| AppState.Session.SaveState | state.js:80-102 | memory and storage become `Save` of the previous world |
| AppState.Session.LoadState | state.js:58-75 | memory, storage and the returned flag are `Load` of the previous world (absent or empty entry: false and no change; unparsable: entry removed, false) |
| AppState.Session.StartAutosave | state.js:107-119 | the old timer is replaced by one with the configured period |
| AppState.Session.AutosaveTick | state.js:111-118 | one firing of the running timer saves unless read-only |
| AppState.Session.ResetInventoryState | state.js:143-187 | the state becomes the reset state; when the photo database can be dropped both its stores are empty and the state is saved, otherwise they are kept |
| Logger.LogEntryShape | logger.js:10 | an entry is `[`, the timestamp, `] `, the action, `: ` and the details, so it has that length and starts and ends with them |
| Logger.Appended | logger.js:13-18 | the new log ends with the entry and everything before it is the old log (the empty log when there was none) |
| Logger.LogOnlyAppends | logger.js:8-19 | logging changes no field but the log, which gains exactly one entry at the end |
| Logger.LogActivity | logger.js:8-19 | the state becomes `Log` of the previous state |
| MainHandlers.AreaCompleteIff | main.js:85-86 | an area is complete iff it has an item and every item of it is located |
| MainHandlers.AreaCompleteForward | main.js:85-86 | a complete area has an item and all its items located |
| MainHandlers.AreaCompleteBackward | main.js:85-86 | an area with an item and all its items located is complete |
| MainHandlers.AreaCheckSyncs | main.js:80-101 | the empty id and closed areas are left alone; otherwise the area is marked completed iff it is complete, and no other area, item or closure record changes |
| MainHandlers.AreaCheckIdempotent | main.js:87-100 | a second check with the same items changes nothing, not even the log |
| MainHandlers.CheckAreaCompletion | main.js:80-101 | memory and storage become `AreaCheck` of the previous world |
| MainHandlers.InventoryCheckOneShot | main.js:106-122 | afterwards the inventory is finished iff it was, or it is non-empty and all located; a finished inventory is never reopened and a second check changes nothing |
| MainHandlers.CheckInventoryCompletion | main.js:106-122 | memory and storage become `InventoryCheck` of the previous world |
| MainHandlers.AdditionalIndex | main.js:130 | the first position of a good with that id, or -1 when there is none |
| MainHandlers.OtherAdditional | main.js:133 | exactly the goods whose id differs |
| MainHandlers.DeleteAdditionalEffect | main.js:129-146 | an unknown id changes nothing; otherwise exactly the goods with that id and its photo flag go, the inventory and custodians stay and the cache is rebuilt |
| MainHandlers.DeleteAdditionalItem | main.js:129-146 | memory and storage become `DeleteAdditional`; the photo blob is deleted only for a known good whose photo was not transferred |
| MainHandlers.ListIndex | main.js:153 | the first position of an item of that list, or -1 when the list has none |
| MainHandlers.OtherLists | main.js:157 | exactly the items of other lists |
| MainHandlers.DeleteListEffect | main.js:152-167 | a list without items changes nothing; otherwise exactly its items go, goods and custodians stay, the cache and the area list are rebuilt |
| MainHandlers.AreaListIgnoresAreas | ui-render.js:349-352 | recomputing the area list does not depend on the previous area list |
| MainHandlers.DeleteListAndRefresh | main.js:152-167 | memory and storage become `DeleteList` of the previous world |
| MainHandlers.LoginEffect | main.js:172-218 | an unknown number changes nothing; a known one leaves that employee logged in as operator, and items and custodians are kept unless a new session was chosen |
| MainHandlers.HandleEmployeeLogin | main.js:172-218 | memory and storage become `Login` of the previous world |
| MainHandlers.CreateUserCounters | main.js:223-266 | every counter is kept or raised, never lowered; a created custodian is appended and activated and only its location's counter rises, by one; otherwise nothing changes |
| MainHandlers.RegisteredCounters | main.js:236-242 | registering raises the location's counter by one, lowers none, keeps the others, appends and activates the custodian |
| MainHandlers.SuccessiveLabelsDiffer | main.js:236-238 | two custodians created one after the other at a location get different labels, and stripping the number of a label gives back the location |
| MainHandlers.LabelsDiffer | main.js:237-238 | different counters give different labels at a location |
| MainHandlers.LabelStrips | main.js:237-238 | removing the number of a label gives back its location |
| MainHandlers.CreateUserAction | main.js:223-266 | memory and storage become `CreateUser` of the previous world |
| MainHandlers.RenamedInventory | main.js:349 | same length; exactly the items held under the old name are held under the new one, nothing else changes |
| MainHandlers.RenamedAdditional | main.js:350 | same length; exactly the goods held under the old name are held under the new one, nothing else changes |
| MainHandlers.RenameInventoryRoundTrip | main.js:348-351 | when no item had the new name, renaming back restores the inventory, and no item keeps the old name |
| MainHandlers.RenameAdditionalRoundTrip | main.js:348-351 | when no good had the new name, renaming back restores the goods |
| MainHandlers.RenameInInventory | main.js:349 | the loop gives `RenamedInventory` |
| MainHandlers.RenameInAdditional | main.js:350 | the loop gives `RenamedAdditional` |
| MainHandlers.EditUserEffect | main.js:335-366 | the edited custodian keeps its id and gets the trimmed name, the chosen label, the label's location without its number and the chosen area; the active custodian is refreshed exactly when it is the edited one; other custodians stay; exactly the items and goods under the old name move to the new one; counters stay; the area list is recomputed (main.js:362) |
| MainHandlers.ApplyUserEdit | main.js:341-356 | the state becomes `AfterEdit` of the previous state |
| MainHandlers.SaveUserEdit | main.js:335-366 | memory and storage become `EditUser` of the previous world: edit, area list, save, log |
| MainHandlers.NotesAfterEffect | main.js:376-382 | each selected key gets the note, or loses it when the text is empty; other keys keep theirs |
| MainHandlers.SaveNote | main.js:371-389 | memory and storage become `SaveNoteW` (nothing in read-only mode) |
| MainHandlers.AddAdditionalGuards | main.js:271-310 | a good is added only when writable, with an active custodian, a description and a blank or uncached serial; it is appended, held by the active custodian, the cache is rebuilt, and the same serial is then refused |
| MainHandlers.AddAdicionalItem | main.js:271-310 | memory and storage become `AddAdditional` of the previous world |
| MainHandlers.EditAdditionalEffect | main.js:315-330 | an unknown id changes nothing; otherwise only the first good with the id changes, only in its form fields, and the cache is rebuilt |
| MainHandlers.SaveAdicionalEdit | main.js:315-330 | memory and storage become `EditAdditional` of the previous world |
| MainHandlers.DeleteUndoRestores | main.js:701-716 | undo right after delete puts the custodian back at its index; neither step changes the counters; the custodian is not re-activated |
| MainHandlers.DeleteUserConfirmed | main.js:701-718 | memory and storage become `DeleteUser`; the undo record is the removed custodian and its index (none when refused) |
| MainHandlers.UndoDeleteUser | main.js:710-716 | memory and storage become `UndoDelete` of the previous world |
| MainHandlers.ActivateDeactivate | main.js:683-730 | activating makes the custodian active; deactivating afterwards clears it and keeps the custodian list |
| MainHandlers.ActivateUser | main.js:683-692 | the state becomes `Activate` of the previous state |
| MainHandlers.DeactivateUser | main.js:722-730 | the state becomes `Deactivate` of the previous state |
| MainHandlers.BeforeUnloadEffect | main.js:1008-1013 | unloading a logged-in, writable session stores the memory's document (or turns read-only mode on when the write fails); otherwise nothing changes |
| MainHandlers.OnBeforeUnload | main.js:1008-1013 | memory and storage become `BeforeUnload` of the previous world |
| InventoryUi.FilteredItems | ui-inventory.js:120-125 | an item is kept iff it matches the term and the three selects, in inventory order, never more often than in the inventory |
| InventoryUi.ClearedFiltersKeepAll | ui-inventory.js:309-315 | with the search cleared and every select on `all` the filter keeps the whole inventory in order |
| InventoryUi.DetailTarget | ui-inventory.js:130-134 | details open by themselves iff the term is non-empty, there is exactly one result and its key, lower-cased, is the term; the key is that result's |
| InventoryUi.AdditionalSearch | ui-inventory.js:140-152 | no goods are listed without a term; with one, exactly the goods with a non-empty field containing it |
| InventoryUi.TotalPages | ui-inventory.js:77 | at least one page; one page for no items; otherwise the fewest pages of 50 that hold all items |
| InventoryUi.PageContents | ui-inventory.js:77-104 | a page in range shows the items from `(page-1)*50` on, at most 50 and at least one when there are items; prev is disabled exactly on page 1 and next exactly on the last page |
| InventoryUi.EveryItemOnItsPage | ui-inventory.js:80-82 | every filtered item is shown on page `i/50+1`, which exists |
| InventoryUi.MovedStaysInRange | ui-inventory.js:296-304 | from a page in range a move stays in range, changes the page by at most one, and moves exactly when a neighbouring page exists |
| InventoryUi.InventoryView.constructor | ui-inventory.js:73-78 | the table starts on page 1 with no filtered items |
| InventoryUi.InventoryView.Render | ui-inventory.js:73-105 | a page past the end is pulled back to the last page, and the view is that page |
| InventoryUi.InventoryView.FilterAndRender | ui-inventory.js:113-134 | the filtered items are `FilteredItems`, the page is clamped, and the detail key is `DetailTarget` |
| InventoryUi.InventoryView.ChangePage | ui-inventory.js:296-304 | the page moves as `Moved` says and stays in range, by at most one |
| InventoryUi.InventoryView.ClearSearch | ui-inventory.js:309-317 | the inputs are cleared, the page is 1 and the whole inventory is listed |
| InventoryUi.InventoryView.SetPage | ui-inventory.js:323-324 | the current page becomes the given one |
| InventoryUi.ClaveIndex | ui-inventory.js:213 | the first item with that key, or -1 when none has it |
| InventoryUi.SameClavesSameIndex | ui-inventory.js:242 | the item a key selects depends only on the keys, so changing other fields never redirects a later key |
| InventoryUi.PlacedFields | ui-inventory.js:183-187 | a placed item is located, held by the custodian, dated, flagged iff the areas differ; relabel sets the label mark and locate clears a set one; nothing else changes |
| InventoryUi.UnlocatedFields | ui-inventory.js:214-219 | an unlocated item is not located, held by `''`, unmarked, undated and not flagged; nothing else changes |
| InventoryUi.ProcessItemGoods | ui-inventory.js:247-261 | processing changes exactly that item, as `Placed` says, and no other good |
| InventoryUi.DeferredClaves | ui-inventory.js:245 | exactly the selected keys whose first item another custodian holds |
| InventoryUi.PlacedInventory | ui-inventory.js:241-276 | same length; an item is placed iff it is the first with a selected key and nobody else holds it |
| InventoryUi.SelectedSnoc | ui-inventory.js:241-242 | one more key selects the items selected before plus that key's first item |
| InventoryUi.LocateStepEffect | ui-inventory.js:241-276 | one key: its first item is placed unless another custodian holds it, in which case it is reported for confirmation |
| InventoryUi.PlacedSnocAt | ui-inventory.js:241-276 | the item-wise effect of one more key at one position |
| InventoryUi.PlacedInventoryAt | ui-inventory.js:245 | placing keeps each key and whether another custodian holds the item |
| InventoryUi.PlacedSnoc | ui-inventory.js:241-276 | one more key places its first item as well, unless another custodian holds it |
| InventoryUi.PlacedTwice | ui-inventory.js:183-187 | placing an item again for the same custodian changes nothing more |
| InventoryUi.LocateAllDeferred | ui-inventory.js:263-266 | the keys left for confirmation are those whose item another custodian holds, in selection order |
| InventoryUi.LocateAllGoods | ui-inventory.js:241-276 | locate or relabel changes the goods exactly as `PlacedInventory` says |
| InventoryUi.LocateAllEffect | ui-inventory.js:241-276 | locate or relabel changes the goods as `PlacedInventory` says and returns the deferred keys |
| InventoryUi.UnlocatedInventory | ui-inventory.js:212-223 | same length; exactly the first item of each selected key is unlocated |
| InventoryUi.UnlocateStepEffect | ui-inventory.js:213-222 | one key: its first item is unlocated, no other good changes |
| InventoryUi.UnlocatedSnoc | ui-inventory.js:212-223 | one more key unlocates its first item as well |
| InventoryUi.UnlocateAllEffect | ui-inventory.js:212-223 | unlocate changes the goods exactly as `UnlocatedInventory` says |
| InventoryUi.InventoryActionsEffect | ui-inventory.js:201-290 | nothing changes in read-only mode, without a selection, when unlocate is cancelled, or for locate and relabel without an active custodian; otherwise the goods change as the item-wise functions say |
| InventoryUi.ConfirmReassignEffect | ui-inventory.js:265-272 | confirming moves the first item with the key to the active custodian, located, and changes no other good |
| InventoryUi.ProcessSelectedItem | ui-inventory.js:247-261 | memory and storage become `ProcessItem` of the previous world |
| InventoryUi.UnlocateSelected | ui-inventory.js:212-223 | memory and storage become `UnlocateAll` of the previous world |
| InventoryUi.LocateSelected | ui-inventory.js:241-276 | memory, storage and the deferred keys are `LocateAll` of the previous world |
| InventoryUi.HandleInventoryActions | ui-inventory.js:201-290 | memory, storage and the deferred keys are `InventoryActions`; the table is refiltered, and its page clamped, exactly when the action went through with nothing deferred |
| InventoryUi.ConfirmReassignItem | ui-inventory.js:265-272 | one stacked confirm handler: memory and storage become `ConfirmReassign` of the previous world |
| InventoryUi.ReassignedInventory | ui-inventory.js:265-272 | same length; exactly the first item of each deferred key is placed with the active custodian, the rest is kept |
| InventoryUi.ReassignedSnoc | ui-inventory.js:265-272 | one more deferred key reassigns its first item as well, and leaves the key's position unchanged |
| InventoryUi.ConfirmEachGoods | utils.js:156-173 | running the stacked confirm handlers in order changes the goods exactly as `ReassignedInventory` says |
| InventoryUi.ConfirmAllEffect | utils.js:156-173 | Cancel changes nothing; Confirm reassigns the goods as `ReassignedInventory` says, and each deferred key's first item ends located and held by the active custodian |
| InventoryUi.PlacedKeepsIndex | ui-inventory.js:241-276 | locating does not move any key's first item |
| InventoryUi.DeferredSelects | ui-inventory.js:263-266 | after locating, a deferred key selects exactly the items that were selected and held by another custodian |
| InventoryUi.LocateThenConfirmAll | ui-inventory.js:241-275 | locating and then confirming every deferred key leaves the goods as if every selected key had been placed outright |
| InventoryUi.ConfirmDeferred | utils.js:144-175 | the loop over the stacked handlers makes memory and storage `ConfirmAllDeferred` of the previous world |
| FileHandlers.ClaveUnicaIsTrimmed | file-handlers.js:72-76 | a text the key pattern accepts is non-empty and unpadded, so the trimmed first cell is the key itself |
| FileHandlers.FirstAreaMatch | file-handlers.js:53 | the leftmost position from `from` where `AREA`, one whitespace character and a digit occur, or -1 when there is none |
| FileHandlers.ExtractArea | file-handlers.js:52-53 | the area is never empty |
| FileHandlers.ExtractAreaMeaning | file-handlers.js:52-53 | the area is `Sin Área` iff the pattern matches nowhere; otherwise it is the whole digit run after the leftmost match |
| FileHandlers.AreaOfHeading | file-handlers.js:53 | a heading `AREA <digits>` names the area `<digits>` |
| FileHandlers.ContentRows | file-handlers.js:28 | every kept row has a cell with text other than white space |
| FileHandlers.FirstFilled | file-handlers.js:34-35 | the cell found is filled and belongs to the row |
| FileHandlers.ResponsibleIsClean | file-handlers.js:37-38 | a name and title found are trimmed, not blank, and not texts `Number` reads (so `isNaN` holds for them) |
| FileHandlers.ExponentAndInfinityAreNumeric | file-handlers.js:37 | `Infinity` and numerals with an exponent count as numbers, as `isNaN` treats them |
| FileHandlers.LetterStartIsNotNumeric | file-handlers.js:37 | a text starting with a letter other than `I` is not a number, so a name can pass |
| FileHandlers.ResponsibleFromLastRows | file-handlers.js:30-32 | rows before the last two content rows never change the result |
| FileHandlers.SameLastTwo | file-handlers.js:31-32 | appending rows after others keeps the last two rows of the appended part last |
| FileHandlers.ResponsibleIgnoresBlankRows | file-handlers.js:28 | rows without content, wherever they stand, never change the result |
| FileHandlers.NoContent | file-handlers.js:28 | rows without content leave nothing after the filter |
| FileHandlers.NewItems | file-handlers.js:74-86 | at most one item per row; each is built from a row whose trimmed first cell is a key, starts unlocated, unmarked and held by nobody, and carries the batch id, file name, book type and area |
| FileHandlers.NewItemsExactly | file-handlers.js:74-86 | an item is ingested iff it is the item built from an accepted row |
| FileHandlers.NewItemsCount | file-handlers.js:74-86 | exactly as many items as accepted rows |
| FileHandlers.AddItemsEffect | file-handlers.js:51-107 | the new items are appended after the old ones, the finished flag is cleared, area names and directory entries are only added where missing, custodians, goods and closure records stay, the cache is rebuilt, and the area list in memory is recomputed after the save (file-handlers.js:100-101) |
| FileHandlers.AddItemsFromSheet | file-handlers.js:51-107 | memory and storage become `AddItemsFromFile` of the previous world |
| FileHandlers.IngestSheet | file-handlers.js:52-89 | the state becomes `Ingested` of the previous one; the area is the one extracted from the heading and the count is the number of accepted rows |
| FileHandlers.FromFile | file-handlers.js:150 | exactly the items of that file |
| FileHandlers.OtherFiles | file-handlers.js:152 | exactly the items of other files |
| FileHandlers.ReplaceFileEffect | file-handlers.js:143-158 | a confirmed re-upload leaves the other files' items in order followed by the new ones, and every item with that file name is new |
| FileHandlers.ReplaceFileUnreadable | file-handlers.js:149-153 | when the new file cannot be read the old items are gone all the same and nothing is saved |
| FileHandlers.ProcessFileRefused | file-handlers.js:114-158 | nothing changes when the replacement is declined |
| FileHandlers.ProcessSheetFile | file-handlers.js:113-159 | memory and storage become `ProcessFile` of the previous world |
| FileHandlers.FolderFiles | file-handlers.js:184-198 | one file per stored entry, at `<folder>/<key>`, in store order |
| FileHandlers.ExportRoundTrip | file-handlers.js:174-180 | loading an export restores the state whatever was loaded before, read-only iff the export was final or the state was read-only |
| FileHandlers.ExportSession | file-handlers.js:165-220 | when the archive is generated it is built from the state and the stores, and the state changes only by one log entry; when generation fails there is no archive and no log entry |
| FileHandlers.LastSegment | file-handlers.js:258 | the text after the last slash: a suffix of the path without slashes |
| FileHandlers.LastSegmentSnoc | file-handlers.js:258 | a slash starts an empty segment; any other character extends the last one |
| FileHandlers.LastSegmentAfterSlash | file-handlers.js:258 | after a slash, the last segment lies inside the non-empty rest |
| FileHandlers.LastSegmentBehindSlash | file-handlers.js:258 | the last segment of `<folder>/<key>` is the last segment of the key |
| FileHandlers.LastSegmentOfPlain | file-handlers.js:258 | a key without slashes is its own last segment |
| FileHandlers.LastSegments | file-handlers.js:258 | each entry keeps its value and gets the last segment of its key |
| FileHandlers.PlainLastSegments | file-handlers.js:258 | entries whose keys have no slash are unchanged |
| FileHandlers.LastSegmentOfPlainKey | file-handlers.js:258 | a key without slashes survives the import's key derivation |
| FileHandlers.ImportKeyLosesFolders | file-handlers.js:258 | a photo key `<location>/<key>` whose location holds a slash comes back as `<key>` alone, not under its own key |
| FileHandlers.ImportKeyRoundTrip | file-handlers.js:253 | corrected key: taken relative to the folder, every exported key comes back unchanged |
| FileHandlers.WithEntries | file-handlers.js:256-260 | the store gains exactly the entries' keys, and the last entry's value wins |
| FileHandlers.KeysOf | file-handlers.js:256-260 | exactly the keys of the entries |
| FileHandlers.ImportAsWrittenFolder | file-handlers.js:247-280 | as written, importing the files an export wrote for a folder writes that folder's entries, in order, each under the last segment of its key |
| FileHandlers.ImportedLastFile | file-handlers.js:256-260 | the last exported file of a folder is written under the last segment of its key |
| FileHandlers.ImportExportedFolder | file-handlers.js:247-280 | corrected key: importing the files an export wrote for a folder writes exactly that folder's entries, in order |
| FileHandlers.ImportSkipsOtherFolder | file-handlers.js:247-280 | files of another folder are not written, with either key |
| FileHandlers.ImportedAppend | file-handlers.js:256-260 | importing a list of files is importing its first part and then the rest, with either key |
| FileHandlers.ExportImportBlobs | file-handlers.js:184-198 | as written, restoring an export writes back every photo and layout image it packed under the last segment of its key; keys without slashes come back unchanged |
| FileHandlers.ExportImportBlobsIntended | file-handlers.js:184-198 | corrected key: restoring an export writes back every photo and layout image it packed under its own key, slashes included |
| FileHandlers.ImportOrdering | file-handlers.js:226-283 | a rejected import writes no blob and no state; an accepted one writes the blobs, keyed by the last segment of their paths, whether or not the state write succeeds, and stores the archive's document exactly when it does; goods and area records in memory stay |
| FileHandlers.ImportPhotoFiles | file-handlers.js:256-266 | the photo store becomes `Imported` of the previous one: each photo under the last segment of its path |
| FileHandlers.ImportLayoutImageFiles | file-handlers.js:275-279 | the layout-image store becomes `Imported` of the previous one: each image under the last segment of its path |
| FileHandlers.ImportSessionZip | file-handlers.js:226-293 | memory, storage and both blob stores become `ImportSession` of the previous ones |
| FileHandlers.ImportUndoneOnReload | file-handlers.js:282-285 | as written, the reload after a completed import of a logged-in, writable session stores the document of the memory from before the import, not the imported one |
| FileHandlers.ImportSurvivesReload | file-handlers.js:282-285 | corrected reload: the imported document stays stored, and the next load merges it into the state |
| ModalsCore.NotesPromptShowsSaved | ui-modals-core.js:12-23 | the notes dialog refuses an empty selection and opens otherwise; after a note is saved for one good, opening it for that good alone shows the trimmed saved text |
| ModalsCore.EditUserPrefillRoundTrip | ui-modals-core.js:55-64 | the custodian form opens iff the session is writable and the index names a custodian; saving it unchanged gives back the trimmed custodian, its location being the label without its number |
| ModalsCore.EditAdditionalPrefillRoundTrip | ui-modals-core.js:70-87 | the additional-good form opens iff the session is writable and the id is known; saving it unchanged gives the good back, an empty personal flag becoming "No" |
| ModalsCore.ReassignChoicesExactly | ui-modals-core.js:126-134 | an area is offered iff it is an area of the session other than the list's own; nothing is offered iff every area is the list's own |
| ModalsCore.DeleteListKeepsCustody | main.js:152-167 | deleting a list keeps custodians, additional goods and persistent areas |
| ModalsCore.ConfirmReassignEffect | ui-modals-core.js:143-152 | without a chosen area nothing changes; otherwise exactly the affected custodians (matched by id) move to the new area, the others and every good are kept, and the list is deleted |
| ModalsCore.KeptAreasIdempotent | ui-modals-core.js:155-157 | the area is kept, the kept set is the old one plus the area, keeping twice equals keeping once, and no area is listed twice |
| ModalsCore.KeepAreaEffect | ui-modals-core.js:154-162 | the persistent areas gain the list's area; custodians and goods are kept and the list is deleted |
| ModalsCore.DeleteAllEffect | ui-modals-core.js:164-179 | a cancelled warning changes nothing; a confirmed one removes exactly the custodians with an affected id and the goods held by an affected name, keeping the rest in order |
| ModalsCore.ConfirmReassignHandler | ui-modals-core.js:143-152 | memory and storage become `ConfirmReassign` of the previous world |
| ModalsCore.KeepAreaHandler | ui-modals-core.js:154-162 | memory and storage become `KeepArea` of the previous world |
| ModalsCore.DeleteAllHandler | ui-modals-core.js:164-179 | memory and storage become `DeleteAll` of the previous world |
| ModalsCore.InputKeyOfField | ui-modals-core.js:305 | the key read from the input `preprint-<name>` is `<name>` |
| ModalsCore.MergedOptionsLookup | ui-modals-core.js:302-307 | the last input naming a key decides its value; a key no input names keeps its default; no key outside defaults and inputs appears |
| ModalsCore.MergedKeys | ui-modals-core.js:302-307 | the merged options hold exactly the default keys and the keys the inputs name |
| ModalsCore.MergedUntouched | ui-modals-core.js:302 | a default no input names is kept |
| ModalsCore.MergedLastWins | ui-modals-core.js:304-307 | the last input naming a key decides its value |
| ModalsCore.UneditedKeepsDefaults | ui-modals-core.js:302-307 | confirming a dialog whose inputs show the defaults returns the defaults |
| ModalsCore.ConfirmPreprintValidates | ui-modals-core.js:301-316 | a closure record without receiver or location is refused; anything else is accepted with the merged options, and an accepted closure carries both |
| ModalsCore.ReprintAccepted | ui-modals-core.js:227-237 | reprinting a closed area without edits is accepted and passes the recorded responsible and location |
| ModalsCore.ReadPreprintForm | ui-modals-core.js:301-316 | the loop over the inputs gives exactly `ConfirmPreprint` of the form |
| Reports.OfArea | reports.js:18 | exactly the items of that original area, none added |
| Reports.PendingItemsExactly | reports.js:15-19 | an item is listed iff it is in the inventory, unlocated and, when an area is selected, of that area; nothing is listed more often than it occurs |
| Reports.SimplePendingReport | reports.js:12-19 | returns the pending items of the selection and changes the state only as `SimplePending` says |
| Reports.GoodsToRegularizeExactly | reports.js:192 | a good must be regularised iff it is personal and its entry form is recorded as missing; a good with no answer recorded is not listed |
| Reports.TallyIndex | reports.js:175-176 | the position of the user's count, or -1 exactly when the user has none |
| Reports.CountOfSnoc | reports.js:173-177 | one more item adds one to its holder's count and nothing to anybody else's |
| Reports.TallyCounts | reports.js:173-177 | the tally has one entry per holder, none for items without a holder, and each entry's count is the number of that holder's items |
| Reports.InsertByCount | reports.js:184 | inserting keeps the counts descending and adds exactly the new entry |
| Reports.SortByCount | reports.js:184 | the entries in descending order of count, a permutation of the input |
| Reports.UserStatsCorrect | reports.js:167-184 | the per-user statistics of an area are in descending order and list exactly each holder of that area's items with the number of items held |
| Reports.CloseAreaEffect | reports.js:231-233 | the area is recorded as closed with the given responsible, location and time; other closures, goods and custody are kept; the completion check then leaves the state alone |
| Reports.ClosureRecordsPrefilledResponsible | reports.js:165-231 | the closure record stores the pre-filled responsible, whatever the receiver field was edited to |
| Reports.GenerateAreaClosureReport | reports.js:165-240 | returns the area's summary and makes memory and storage `CloseArea` of the previous world |
| Reports.InventoryReportExactly | reports.js:403-414 | an item is reported iff it passes both selected filters |
| Reports.InstitutionalReportExactly | reports.js:424-438 | a good is reported iff it is institutional, held by a custodian of the selected area and by the selected user |
| Reports.InstitutionalLoggedEffect | reports.js:445 | the report always appends exactly one log entry with the number of goods, an empty report included, and changes nothing else |
| Reports.InstitutionalAdditionalReport | reports.js:424-446 | returns the selection and the state becomes `InstitutionalLogged` of the previous state |
| Reports.ExportClaveInverse | reports.js:482 | a clave starting with `0.` loses exactly its leading zero; any other clave is exported unchanged |
| Reports.ExportScopeExactly | reports.js:454-467 | an item is exported iff it is of the selected area; a good iff its holder is a custodian of the selected area |
| Reports.AdditionalRows | reports.js:493-498 | one row of the additional-goods sheet per good in scope, in order |
| Reports.ExportWorkbookShape | reports.js:480-501 | one inventory row per item in scope; the additional-goods sheet is present iff goods are in scope, with one row per good whose blank clave, brand, model, serial, area and assigned clave read `N/A` and whose other fields are copied |
| Reports.ExportInventoryToXlsx | reports.js:454-511 | nothing is written and nothing logged iff there is nothing in scope; otherwise the workbook of the scope (both sheets) is written and one entry is logged |
| Reports.LabelRowsShape | reports.js:514-536 | one row per item due a label and per good with an assigned clave, in that order, item rows carrying the exported clave and good rows the assigned one |
| Reports.ExportLabelsToXlsx | reports.js:514-552 | nothing is written and nothing logged iff nothing is due a label; otherwise the label rows are written and one entry is logged |
| Render.AreaListContents | ui-render.js:348-352 | the area list is strictly sorted and holds exactly the non-blank areas of items, of custodians and of the persistent list |
| Render.PopulateAreaSelects | ui-render.js:348-352 | the session's area list becomes `AreaList` of the state, nothing else changes |
| Render.AreaSetMembership | ui-render.js:22 | an area is counted iff some item has it as original area |
| Render.AreaSetFacts | ui-render.js:22 | there are no more working areas than items, and none iff there are no items |
| Render.DashboardConsistent | ui-render.js:9-24 | located plus pending is the total; nothing is pending iff every item is located; the working areas number at most the items and are zero iff there are none |
| Render.ListIdsMembership | ui-render.js:212-222 | an id is listed iff some entry carries it |
| Render.FirstOfList | ui-render.js:214 | the first item of the list, or -1 iff no item belongs to it |
| Render.LoadedListsMembership | ui-render.js:212-222 | a list is shown iff some item belongs to it |
| Render.LoadedListsDistinct | ui-render.js:212-222 | no list is shown twice |
| Render.LoadedListsFromFirst | ui-render.js:214-221 | each list entry is built from the first item of that list |
| Render.LoadedListsOrdered | ui-render.js:212-222 | lists are shown in the order in which they first appear |
| Render.LoadedListsFacts | ui-render.js:212-222 | the loaded lists are distinct, exactly the lists present, each from its first item, in order of first appearance |
| Render.CollectLoadedLists | ui-render.js:212-222 | the loop over the inventory returns exactly `LoadedListsOf` the inventory |
| Render.AreaButton | ui-render.js:237-250 | reprint iff the area is closed; generate iff it is completed and not closed; no button otherwise |
| Render.CustodianNamesIn | ui-render.js:152-155 | exactly the names of custodians of that area |
| Render.VisibleAdditionalMembership | ui-render.js:149-161 | a good is listed iff it is held by a custodian of the active area filter and by the active user filter |
| Render.PersonalTagOf | ui-render.js:170-181 | not personal unless marked "Si"; personal goods are tagged with, without, or with no answer about their entry form, each iff that is recorded |
| Render.UpdateTheme | ui-render.js:454-458 | the theme becomes the chosen one and one settings entry is logged; nothing else changes |
| LayoutEditor.AtLocation | ui-layout-editor.js:23-32 | exactly the custodians whose numbered location is the given one |
| LayoutEditor.GroupIndex | ui-layout-editor.js:25 | the position of the location's group, or -1 exactly when no group has that location |
| LayoutEditor.AtLocationSnoc | ui-layout-editor.js:23-32 | one more custodian joins exactly the group of its own location |
| LayoutEditor.UngroupedIsEmpty | ui-layout-editor.js:23-32 | a location without a group has no custodians |
| LayoutEditor.NewGroupOf | ui-layout-editor.js:25-31 | the first custodian at a location opens its group with that custodian's base location, area and name |
| LayoutEditor.GrownGroupOf | ui-layout-editor.js:32 | a later custodian at the location is appended to that group's names |
| LayoutEditor.OtherGroupOf | ui-layout-editor.js:23-32 | a custodian elsewhere leaves a group unchanged |
| LayoutEditor.AddToGroupsContents | ui-layout-editor.js:23-32 | after one more custodian every group still lists exactly the names at its location, in order |
| LayoutEditor.AddToGroupsDistinct | ui-layout-editor.js:25 | no location gets two groups |
| LayoutEditor.AddToGroupsCovers | ui-layout-editor.js:23-32 | every custodian's location has a group |
| LayoutEditor.GroupsCorrect | ui-layout-editor.js:22-33 | the groups are one per location, in order of first appearance, each listing the names of its custodians in order, with the first one's base location and area |
| LayoutEditor.MemoAreasFacts | ui-layout-editor.js:49 | every area drawn gets a non-blank colour; colours of other areas are kept; an area that had a colour keeps it |
| LayoutEditor.SidebarDistinct | ui-layout-editor.js:37-54 | no location appears twice in the sidebar |
| LayoutEditor.SidebarCovers | ui-layout-editor.js:23-54 | every custodian's location appears in the sidebar |
| LayoutEditor.SidebarUsers | ui-layout-editor.js:23-54 | each sidebar entry lists the names of exactly the custodians at its location, in order, and shows the first one's base location |
| LayoutEditor.SidebarHidden | ui-layout-editor.js:35-45 | an entry is hidden iff its location is already on the current page |
| LayoutEditor.SidebarColored | ui-layout-editor.js:48-49 | every entry carries a non-blank area colour |
| LayoutEditor.GroupLocations | ui-layout-editor.js:22-33 | the loop over the custodians returns exactly `Groups` of them |
| LayoutEditor.DrawStep | ui-layout-editor.js:37-54 | drawing one more group keeps every drawn entry equal to its group's entry under the growing colour memo |
| LayoutEditor.DrawSidebar | ui-layout-editor.js:37-54 | one entry per group, in order, each built from its group with the memoised colour; the state changes only by the colours memoised for the drawn areas |
| LayoutEditor.PopulateLayoutSidebar | ui-layout-editor.js:18-55 | the entries are exactly `Sidebar` of the previous state and the state changes only by memoising colours |
| LayoutEditor.PageIndex | ui-layout-editor.js:68-69 | the page's position in the page order, or -1 exactly when it is not there |
| LayoutEditor.PageIndexOf | ui-layout-editor.js:68-69 | with distinct keys a page is found at its own position |
| LayoutEditor.SwitchLayoutPage | ui-layout-editor.js:80-85 | the current page becomes the chosen one, colours are memoised, and the pagination shown is that of the new layout |
| LayoutEditor.PrevPageHandler | ui-layout-editor.js:560-564 | memory and storage become `PrevPage` of the previous world |
| LayoutEditor.NextPageHandler | ui-layout-editor.js:566-570 | memory and storage become `NextPage` of the previous world |
| LayoutEditor.PrevNextNeighbours | ui-layout-editor.js:560-570 | previous moves to the page before, next to the page after, when there is one; neither changes the pages |
| LayoutEditor.NextThenPrev | ui-layout-editor.js:560-570 | going forward and back from a page that is not the last returns to it with the pages unchanged |
| LayoutEditor.AddedPage | ui-layout-editor.js:536-541 | a layout with a new empty page named after the page count, made current, whose page names stay consistent |
| LayoutEditor.AddPageHandler | ui-layout-editor.js:536-543 | memory and storage become `AddPage` of the previous world |
| LayoutEditor.AddPageEffect | ui-layout-editor.js:536-543 | the new page is current and empty, named `Página <n+1>`, appended to the order when new; other pages, goods, custody and areas are kept |
| LayoutEditor.RemainingPage | ui-layout-editor.js:551-552 | with more than one page some page remains after a removal |
| LayoutEditor.RemovedPage | ui-layout-editor.js:549-552 | a layout without the current page whose page names stay consistent, whose new current page is the first remaining one |
| LayoutEditor.RemovePageHandler | ui-layout-editor.js:545-556 | memory and storage become `RemovePage` of the previous world |
| LayoutEditor.RemovePageEffect | ui-layout-editor.js:545-556 | the last page or a cancelled dialog changes nothing; otherwise the current page and its name are gone, other pages are kept in order and the first remaining one is current |
| LayoutEditor.PutThenRemove | ui-layout-editor.js:540 | naming a new page and removing it again gives back the page names |
| LayoutEditor.AddThenRemove | ui-layout-editor.js:536-556 | adding a page and removing it again gives back the layout, with the first page current |
| LayoutEditor.PaginationMatchesButtons | ui-layout-editor.js:64-74 | each pagination button is disabled iff pressing it would change nothing |
| LayoutEditor.RenamePageHandler | ui-layout-editor.js:572-579 | memory and storage become `RenamePage` of the previous world |
| LayoutEditor.RenamePageEffect | ui-layout-editor.js:572-579 | a blank name changes nothing; otherwise the current page gets the trimmed name, keeps its place and shapes, and the name field shows it |
| LayoutEditor.RenameIdempotent | ui-layout-editor.js:572-579 | renaming twice with the same text equals renaming once |
| LayoutEditor.ResetCurrentLayoutPage | ui-layout-editor.js:374-386 | memory and storage become `ResetPage` of the previous world |
| LayoutEditor.ResetPageEffect | ui-layout-editor.js:374-386 | read-only mode or a cancelled dialog changes nothing; otherwise only the current page is emptied and every sidebar entry shows again |
| LayoutEditor.DrawnPageExactly | ui-layout-editor.js:90-138 | the canvas holds exactly the page's shapes except the locations nobody is at; each keeps its type, a location carries its first custodian's area and other shapes no area |
| LayoutEditor.DrawnPageIdempotent | ui-layout-editor.js:90-138 | drawing what was drawn changes nothing |
| LayoutEditor.AsDrawnPut | ui-layout-editor.js:118-138 | a shape drawn as it is can join a page that is drawn as it is |
| LayoutEditor.AsDrawnRemove | ui-layout-editor.js:624 | taking a shape off a page that is drawn as it is keeps it so |
| LayoutEditor.SaveLayoutPositions | ui-layout-editor.js:214-243 | the state becomes `PositionsSaved` of the previous one |
| LayoutEditor.PositionsSavedEffect | ui-layout-editor.js:214-243 | the current page holds exactly the shapes on the canvas, other pages are kept, and one entry is logged |
| LayoutEditor.SaveLayoutHandler | ui-layout-editor.js:528-533 | memory and storage become `SaveLayout` of the previous world |
| LayoutEditor.SaveLayoutEffect | ui-layout-editor.js:90-243 | the current page becomes the canvas: locations nobody is at are dropped and every location takes its first custodian's area; other pages, goods and custody are kept, and the saved page draws as it is |
| LayoutEditor.SaveLayoutKeepsPages | ui-layout-editor.js:528-533 | saving a page that draws as it is changes no page, and stores the state or falls back to read-only mode |
| LayoutEditor.SaveLayoutTwice | ui-layout-editor.js:528-533 | a second save right after a successful one changes no page |
| LayoutEditor.PlaceLocationHandler | ui-layout-editor.js:645-661 | memory and storage become `PlaceLocation` of the previous world (a sidebar entry dropped on the canvas, ui-layout-editor.js:469-474, does the same) |
| LayoutEditor.DropToolHandler | ui-layout-editor.js:453-488 | memory and storage become `DropTool` of the previous world |
| LayoutEditor.DropToolEffect | ui-layout-editor.js:475-488 | a note, arrow or text tool adds its shape `<tool>-<time>` with no area to the canvas's shapes; another tool saves the canvas alone; the page draws as it is and the other pages, goods and custody are kept |
| LayoutEditor.PlacedIsHidden | ui-layout-editor.js:645-661 | a clicked location with custodians is on the current page afterwards as a location shape of its first custodian's area (unless a shape of another type holds its id); the other shapes are the canvas's; the page draws as it is and the location's sidebar entry is hidden |
| LayoutEditor.DeleteShapeHandler | ui-layout-editor.js:613-642 | memory, storage and the image store become `DeleteShape` of the previous ones; photos are untouched |
| LayoutEditor.ForgetImage | ui-layout-editor.js:631-637 | an image shape with a known image loses its image record and its blob; any other shape leaves both, and nothing else changes |
| LayoutEditor.DeleteShapeEffect | ui-layout-editor.js:613-642 | the current page becomes the canvas without the shape (so the locations nobody is at go too) and draws as it is; other pages are kept; an image shape also loses its image record and stored blob, any other shape leaves both |
| LayoutEditor.AddImageHandler | ui-layout-editor.js:587-610 | memory, storage and the image store become `AddImage` of the previous ones; photos are untouched |
| LayoutEditor.AddImageEffect | ui-layout-editor.js:587-610 | the image is stored under `img_<time>` and placed as shape `image-img_<time>` pointing at it on the current page, which otherwise holds the canvas's shapes and draws as it is |
| LayoutEditor.AddImageThenDelete | ui-layout-editor.js:587-642 | deleting a freshly added image gives back the image records and the image store, and the current page as the canvas showed it: exactly the layout when the page drew as it was |
| LayoutEditor.OpenEditorHandler | ui-layout-editor.js:522-526 | memory and storage become `OpenEditor` of the previous world |
| LayoutEditor.OpenEditorEffect | ui-layout-editor.js:522-526 | read-only mode changes nothing; otherwise the current page, or `page1` when there is none, is shown and only colours are memoised |
| Utils.FirstRuleWins | utils.js:249-255 | the icon is that of the first rule whose keyword the base includes |
| Utils.NoRuleDefault | utils.js:256 | a base no rule matches gets the default icon |
| Utils.SomeRuleMatches | utils.js:249-256 | with no rule giving the default icon, the icon differs from the default iff some rule matches |
| Utils.LocationIconChoice | utils.js:246-257 | the icon of a location is that of the first matching rule on its upper-cased base; the default is given iff the base is empty or no rule matches |
| Utils.IconIgnoresCase | utils.js:248 | a base and its upper-cased form get the same icon |
| Utils.ToInt32 | utils.js:230 | the 32-bit signed value congruent to the input |
| Utils.JsRem | utils.js:232-234 | the remainder truncated toward zero: it has the sign of the dividend and agrees with the mathematical remainder for non-negative dividends |
| Utils.HslOf | utils.js:232-235 | hue, saturation and lightness stay within the bounds the remainders allow, and within 0-359, 70-89, 55-64 for a non-negative hash |
| Utils.ColorMemoStable | utils.js:225-238 | the area gets a non-blank colour, recorded in the memo; other areas are untouched; a recorded colour is returned as is, otherwise the computed one; asking again changes nothing |
| Utils.ColorMemoCommutes | utils.js:225-238 | asking for one area's colour does not change the colour later given to another |
| Utils.GetAreaColor | utils.js:225-238 | returns the memoised colour and changes only the colour memo, as `ColorMemo` says |
| Utils.EscapeRegex | utils.js:187 | escaping never shortens the term |
| Utils.EscapeRoundTrip | utils.js:187 | removing the escapes gives back the search term |
| Utils.EscapeLength | utils.js:187 | the escaped term is longer by one per metacharacter |
| Utils.HighlightGuard | utils.js:183-190 | the text is left alone iff the term is blank or the text is empty; otherwise the pattern is one group matching the term literally |
| JsText.PaddedCounterValue | main.js:237 | the zero-padded location counter is all digits and reads back as the counter |
| JsText.PaddedCounterInjective | main.js:237 | different counters give different padded numbers |
| JsText.StripNumberedLabel | main.js:343 | removing the trailing space and digits of a numbered location gives back its base |
| JsText.ParseIntOfIntToString | main.js:684 | an index written as text parses back to itself |
| JsText.TrimIdempotent | file-handlers.js:75 | trimming twice equals trimming once |
| Entities.PageNames.Put | ui-layout-editor.js:540 | naming a page keeps the page names consistent, sets that page's name, and keeps the order of a known page (a new one is appended) |
| Entities.PageNames.Remove | ui-layout-editor.js:549-550 | removing a page keeps the page names consistent, drops its name and leaves the other pages in order |
| Sorting.SortUnique | ui-render.js:352 | a strictly ascending list holding exactly the values of the input |
| Sorting.SortUniqueOrderFree | ui-render.js:352 | inputs with the same values give the same list, whatever their order or repetitions |
| AppState.BlobStore.constructor | db.js:16-48 | both stores start empty |
| AppState.BlobStore.SetPhoto | db.js:50-68 | the photo store maps the key to the value; other keys are kept |
| AppState.BlobStore.DeletePhoto | db.js:90-108 | the photo store loses exactly that key |
| AppState.BlobStore.SetLayoutImage | db.js:50-68 | the layout-image store maps the key to the value; other keys are kept |
| AppState.BlobStore.DeleteLayoutImage | db.js:90-108 | the layout-image store loses exactly that key |
| AppState.BlobStore.Drop | db.js:137-155 | deleting and reopening the database leaves both stores empty |

A confirmed re-upload removes the old items before the new file is read
(file-handlers.js:143-153), so an unreadable file leaves them removed
(`FileHandlers.ReplaceFileUnreadable`).

## Left out

- The DOM, the HTML of lists, reports and print templates, toasts and focus handling: the model keeps the state these functions read and write, not what they draw.
- ModalsCore.ClosureDefaults: models the area-closure form opened from an area's button (main.js:929-938), which always passes the area. Opened from the report toolbar (main.js:806-809) it gets no area and falls back to the report area filter or to the selected user's area (ui-modals-core.js:209); that call is not modelled.
- `printLayout` (ui-layout-editor.js:248-369) is not modelled: neither its log entry (ui-layout-editor.js:249) nor the area colours it memoises through `getAreaColor` (ui-layout-editor.js:332).
- Reading and writing XLSX workbooks and ZIP archives: sheets are sequences of rows of text cells, read from A1 (an empty or missing cell is `""`); archives are sequences of `(path, blob)` entries. Numeric cells, and the number-to-text conversion of the spreadsheet library, are not modelled.
- `importPhotos` and `restorePhotosZip` (file-handlers.js) and their counting loops: they are outside the session import the model covers.
- Timers and asynchrony: the autosave `setInterval` is a stored period plus an explicit tick; `debounce` and the asynchronous image read are one synchronous step each. The order in which promise callbacks interleave is not modelled.
- The reload after an import (file-handlers.js:285) is modelled only through the `beforeunload` save it triggers (`FileHandlers.ImportThenReload`). The page start-up that follows, beyond loading the stored state, is not modelled, and neither is an autosave tick firing in the 1.5 seconds before the reload.
- `populateReportFilters` (ui-render.js:372-398) rebuilds the area list, which the model does. With the report area filter on "all", it also sorts `state.resguardantes` in place by `localeCompare` (ui-render.js:393). The model keeps the custodians in their order, because locale collation is not modelled.
- The log entries of `generatePrintableResguardo`, `generateTasksReport` and `generateSessionSummary` (reports.js:89, 330, 347) are not modelled; those functions are print templates.
- JsText.ToLower and JsText.ToUpper: only ASCII and Latin-1 letters (plus `ß`, `ÿ`, `µ` upper-cased) are mapped. Other scripts and special cases are left as they are, such as `ı`, which JavaScript upper-cases to `I`. So `getLocationIcon` can pick a different icon for such a text.
- JsText.ParseInt: base 10 only. The `0x` prefix that `parseInt` without a radix accepts is not recognised; the model reads only the settings and index texts the application writes itself.
- FileHandlers.NumericText: cells are text. A numeric cell of the spreadsheet (a number, not a string) is not modelled, and `isNaN` on it is always false.
- The clock, `generateUUID` and `Date.now()` are parameters (`Now`, ids); their values are not constrained beyond being passed in.
- db.js (IndexedDB) is the two maps of `AppState.BlobStore`; open errors, version upgrades and a blocked deletion are not modelled. A failed blob write is the `dbOk` parameter of `LayoutEditor.AddImage`. The other blob writes are assumed to succeed.
- A failed storage write is the `writeOk` parameter of each handler, and every save inside one handler shares the same outcome.
- elements.js, ui-navigation.js, ui-modals-view.js, ui-modals-media.js, sw.js and constants.js are not part of this model, except the page size 50 and the employee table, which is the `verifiers` parameter.
- The checkbox memo maps of the state (selected rows) are not modelled.
- Object key order: `Object.keys` lists integer-like keys first in ascending order. The model keeps page keys in insertion order, which matches for the `page<time>` keys the editor creates. Area maps are maps, without order.
- Sorting.SortUnique: `Below` compares Unicode scalar values, where the default `sort()` of JavaScript compares UTF-16 code units. They differ when characters outside the Basic Multilingual Plane meet characters from U+E000 up: JavaScript puts U+1F600 before U+FF01, `Below` after.
- Reports.SortByCount: states descending counts and a permutation, not that equal counts keep their order, which `Array.prototype.sort` guarantees.
- `AreaHash` iterates over characters, where JavaScript iterates over UTF-16 code units; they differ for characters outside the Basic Multilingual Plane.
- The search highlighting builds the regular expression and stops there: the case-insensitive replacement itself (`String.replace` with a global regex) is not modelled.
- Layout geometry: positions, sizes, rotation, snapping and dragging. A shape is its type and area. `LayoutEditor.SaveLayoutPositions` takes the shapes on the canvas as a parameter.
- The canvas is not kept as a separate DOM: `LayoutEditor.Canvas` draws it from the state when a handler runs, where the source draws it when the page is shown. They agree because nothing between the two changes the custodians or the current page without redrawing. Loading images for the canvas, which is asynchronous, is not modelled.
- Moving, resizing and rotating a shape (ui-layout-editor.js:391-437, 492-519) only change geometry, so they are left out with it. Dropping on the canvas is modelled (`LayoutEditor.PlaceLocation`, `LayoutEditor.DropTool`).
- The text of note and text shapes (ui-layout-editor.js:227-229) is not part of a `Shape`.
- The colours that `loadSavedLayout` and `createShapeOnCanvas` memoise when drawing shapes are left out. Only the sidebar's colours are memoised (`LayoutEditor.Memoized`).
- Options whose values are not text (the `isForArea`/`isForUser` flags of the preprint dialog) are stored as text.
- ModalsCore.ConfirmReassignEffect: affected custodians are matched by id. The source mutates the very objects it was handed, which for ids that are unique is the same thing.
- Floating-point percentages (ui-render.js:48, file-handlers.js:262) and the camera and QR streams are not modelled.

## Findings

| source | as written | input that shows it | evidently intended | confidence | as-written member | corrected member |
|---|---|---|---|---|---|---|
| file-handlers.js:258 | an imported photo or layout image is stored under the last segment of its archive path | a location photo keyed `location-Edificio A/Sala 01` is exported as `photos/location-Edificio A/Sala 01` and imported under `Sala 01` | the key is the path relative to the store's folder, so every exported key comes back unchanged | not executed | FileHandlers.ImportKeyLosesFolders | FileHandlers.ExportImportBlobsIntended |
| file-handlers.js:282-285 | after storing the imported state the page reloads; the reload fires the `beforeunload` listener (main.js:1008-1013), which saves the memory, still the state from before the import, over it | a logged-in session that is not read-only imports any archive whose document differs from the current state's | the reload starts from the imported state | not executed | FileHandlers.ImportUndoneOnReload | FileHandlers.ImportSurvivesReload |

=== FILE: app_state.dfy ===
/**
 * The application's single mutable `state` object, its persistence in
 * browser storage (`saveState`, `loadState`), the autosave timer, the reset
 * to a new inventory, and the serial-number cache used to refuse duplicate
 * additional goods.
 *
 * Values: `State` is what `saveState` serialises, `Memory` adds the two
 * runtime-only parts (the serial cache and the autosave timer), and `World`
 * adds the stored entry. `Session` is the mutable object itself; each of its
 * methods is specified by a function over these values.
 */
module AppState {
  import opened Wrappers
  import opened JsText
  import opened Entities

  /**
   * The fields of the application state that `saveState` serialises, in five
   * groups: the operator's session, the goods, the custodians, the area
   * bookkeeping and the map layout. Each group keeps the source's property
   * names.
   */
  datatype State = State(session: SessionInfo, goods: Goods, custody: Custody, areaBook: AreaBook, layout: Layout)

  /** Who is working, since when, and how the session behaves. */
  datatype SessionInfo = SessionInfo(
    loggedIn: bool,
    currentUser: Option<Operator>,
    sessionStartTime: Option<string>,
    lastAutosave: Option<string>,
    readOnlyMode: bool,
    theme: string,
    activityLog: Option<seq<string>>)

  /** The loaded inventory, the additional goods, and what is attached to them. */
  datatype Goods = Goods(
    inventory: seq<InventoryItem>,
    additionalItems: seq<AdditionalItem>,
    notes: map<string, string>,
    photos: map<string, bool>,
    additionalPhotos: map<string, bool>,
    locationPhotos: map<string, bool>)

  /** The custodians, the active one, and the per-location counters. */
  datatype Custody = Custody(
    resguardantes: seq<Custodian>,
    activeResguardante: Option<Custodian>,
    locations: map<string, int>)

  /** Area names and lists, the directory, and closure and completion records. */
  datatype AreaBook = AreaBook(
    areas: seq<string>,
    areaNames: map<string, string>,
    areaDirectory: map<string, DirectoryEntry>,
    closedAreas: map<string, ClosedArea>,
    completedAreas: set<string>,
    persistentAreas: seq<string>,
    inventoryFinished: bool)

  /** The map layout editor's pages. */
  datatype Layout = Layout(
    mapLayout: map<string, map<string, Shape>>,
    currentLayoutPage: string,
    layoutPageNames: PageNames,
    layoutImages: map<string, string>,
    layoutPageColors: map<string, string>,
    layoutItemColors: map<string, string>)

  const FirstPage: string := "page1"

  /** The initial value of `state`. */
  function DefaultState(): State
  {
    State(SessionInfo(false, None, None, None, false, "light", Some([])),
          Goods([], [], map[], map[], map[], map[]),
          Custody([], None, map[]),
          AreaBook([], map[], map[], map[], {}, [], false),
          Layout(map[FirstPage := map[]], FirstPage, PageNames([FirstPage], map[FirstPage := "Página 1"]),
                 map[], map[FirstPage := "#ffffff"], map[]))
  }

  /** The state `resetInventoryState` installs: the defaults, logged in, keeping operator and theme. */
  function ResetState(s: State, startedAt: string): State
  {
    var d := DefaultState();
    d.(session := d.session.(loggedIn := true, currentUser := s.session.currentUser, theme := s.session.theme,
                             sessionStartTime := Some(startedAt)))
  }

  /**
   * `resetInventoryState` on the world: the reset state with an empty cache;
   * then, when the photo database could be dropped and reopened, a save.
   */
  function Reset(w: World, startedAt: string, dbOk: bool, writeOk: bool): World
  {
    var w1 := World(Memory(ResetState(w.mem.app, startedAt), {}, w.mem.autosave), w.stored);
    if dbOk then Save(w1, writeOk) else w1
  }

  /** A reset keeps only the operator and theme, and starts a fresh, writable, empty session. */
  lemma ResetForgetsInventory(s: State, startedAt: string)
    ensures var r := ResetState(s, startedAt);
      r.session.currentUser == s.session.currentUser && r.session.theme == s.session.theme && r.session.loggedIn
      && r.session.sessionStartTime == Some(startedAt) && !r.session.readOnlyMode && r.session.activityLog == Some([])
      && r.goods.inventory == [] && r.goods.additionalItems == [] && r.custody.resguardantes == []
      && r.areaBook.closedAreas == map[] && r.areaBook.completedAreas == {} && r.layout.layoutPageNames.Valid()
  {
  }

  /**
   * A parsed stored document: `Object.assign` copies only the properties the
   * document has, so each field is optional.
   */
  datatype Document = Document(
    loggedIn: Option<bool>,
    currentUser: Option<Option<Operator>>,
    inventory: Option<seq<InventoryItem>>,
    additionalItems: Option<seq<AdditionalItem>>,
    resguardantes: Option<seq<Custodian>>,
    activeResguardante: Option<Option<Custodian>>,
    locations: Option<map<string, int>>,
    areas: Option<seq<string>>,
    areaNames: Option<map<string, string>>,
    lastAutosave: Option<Option<string>>,
    sessionStartTime: Option<Option<string>>,
    additionalPhotos: Option<map<string, bool>>,
    locationPhotos: Option<map<string, bool>>,
    notes: Option<map<string, string>>,
    photos: Option<map<string, bool>>,
    theme: Option<string>,
    inventoryFinished: Option<bool>,
    areaDirectory: Option<map<string, DirectoryEntry>>,
    closedAreas: Option<map<string, ClosedArea>>,
    completedAreas: Option<set<string>>,
    persistentAreas: Option<seq<string>>,
    readOnlyMode: Option<bool>,
    activityLog: Option<Option<seq<string>>>,
    mapLayout: Option<map<string, map<string, Shape>>>,
    currentLayoutPage: Option<string>,
    layoutPageNames: Option<PageNames>,
    layoutImages: Option<map<string, string>>,
    layoutPageColors: Option<map<string, string>>,
    layoutItemColors: Option<map<string, string>>)

  /** The document `saveState` writes: every serialisable field of the state. */
  function ToDocument(s: State): Document
  {
    var (e, g, c, a, l) := (s.session, s.goods, s.custody, s.areaBook, s.layout);
    Document(Some(e.loggedIn), Some(e.currentUser), Some(g.inventory), Some(g.additionalItems),
             Some(c.resguardantes), Some(c.activeResguardante), Some(c.locations), Some(a.areas),
             Some(a.areaNames), Some(e.lastAutosave), Some(e.sessionStartTime), Some(g.additionalPhotos),
             Some(g.locationPhotos), Some(g.notes), Some(g.photos), Some(e.theme), Some(a.inventoryFinished),
             Some(a.areaDirectory), Some(a.closedAreas), Some(a.completedAreas), Some(a.persistentAreas),
             Some(e.readOnlyMode), Some(e.activityLog), Some(l.mapLayout), Some(l.currentLayoutPage),
             Some(l.layoutPageNames), Some(l.layoutImages), Some(l.layoutPageColors), Some(l.layoutItemColors))
  }

  /** A document with no properties (what `JSON.parse("{}")` gives). */
  function EmptyDocument(): Document
  {
    Document(None, None, None, None, None, None, None, None, None, None, None, None, None, None, None,
             None, None, None, None, None, None, None, None, None, None, None, None, None, None)
  }

  /** `Object.assign(state, d)`: present properties overwrite, absent ones keep the current value. */
  function Merge(s: State, d: Document): State
  {
    var (e, g, c, a, l) := (s.session, s.goods, s.custody, s.areaBook, s.layout);
    State(SessionInfo(d.loggedIn.GetOr(e.loggedIn), d.currentUser.GetOr(e.currentUser),
                      d.sessionStartTime.GetOr(e.sessionStartTime), d.lastAutosave.GetOr(e.lastAutosave),
                      d.readOnlyMode.GetOr(e.readOnlyMode), d.theme.GetOr(e.theme), d.activityLog.GetOr(e.activityLog)),
          Goods(d.inventory.GetOr(g.inventory), d.additionalItems.GetOr(g.additionalItems), d.notes.GetOr(g.notes),
                d.photos.GetOr(g.photos), d.additionalPhotos.GetOr(g.additionalPhotos),
                d.locationPhotos.GetOr(g.locationPhotos)),
          Custody(d.resguardantes.GetOr(c.resguardantes), d.activeResguardante.GetOr(c.activeResguardante),
                  d.locations.GetOr(c.locations)),
          AreaBook(d.areas.GetOr(a.areas), d.areaNames.GetOr(a.areaNames), d.areaDirectory.GetOr(a.areaDirectory),
                   d.closedAreas.GetOr(a.closedAreas), d.completedAreas.GetOr(a.completedAreas),
                   d.persistentAreas.GetOr(a.persistentAreas), d.inventoryFinished.GetOr(a.inventoryFinished)),
          Layout(d.mapLayout.GetOr(l.mapLayout), d.currentLayoutPage.GetOr(l.currentLayoutPage),
                 d.layoutPageNames.GetOr(l.layoutPageNames), d.layoutImages.GetOr(l.layoutImages),
                 d.layoutPageColors.GetOr(l.layoutPageColors), d.layoutItemColors.GetOr(l.layoutItemColors)))
  }

  /** Loading what was saved restores it, whatever the state it is loaded into. */
  lemma MergeSaved(current: State, saved: State)
    ensures Merge(current, ToDocument(saved)) == saved
  {
  }

  /** A document without properties changes nothing. */
  lemma MergeEmpty(s: State)
    ensures Merge(s, EmptyDocument()) == s
  {
  }

  /** The text under the storage key: a parsable document, unparsable text, or the empty string. */
  datatype StoredText = Written(doc: Document) | Unparsable | EmptyText

  /** The autosave interval: its handle, its period, and whether it still fires. */
  datatype Timer = Timer(id: int, periodMs: int, running: bool)

  /** The state plus its runtime-only parts. */
  datatype Memory = Memory(app: State, serialNumberCache: set<string>, autosave: Option<Timer>)

  /** The in-memory state together with the stored entry. */
  datatype World = World(mem: Memory, stored: Option<StoredText>)

  // ---------------------------------------------------------------------
  // The serial-number cache

  /** How a serial number or key is compared: trimmed, then lower-cased. */
  function SerialKey(v: string): string
  {
    ToLower(Trim(v))
  }

  /** The cache entries one inventory item contributes: its truthy `SERIE` and `CLAVE UNICA`. */
  function ItemKeys(it: InventoryItem): set<string>
  {
    (if it.serie != "" then {SerialKey(it.serie)} else {}) + (if it.clave != "" then {SerialKey(it.clave)} else {})
  }

  /** The cache entries one additional good contributes: its truthy `serie` and `clave`. */
  function AdditionalKeys(a: AdditionalItem): set<string>
  {
    (if a.serie != "" then {SerialKey(a.serie)} else {}) + (if a.clave != "" then {SerialKey(a.clave)} else {})
  }

  function InventoryKeys(inv: seq<InventoryItem>): set<string>
  {
    if inv == [] then {} else InventoryKeys(inv[..|inv| - 1]) + ItemKeys(inv[|inv| - 1])
  }

  function AdditionalItemsKeys(add: seq<AdditionalItem>): set<string>
  {
    if add == [] then {} else AdditionalItemsKeys(add[..|add| - 1]) + AdditionalKeys(add[|add| - 1])
  }

  lemma InventoryKeysSnoc(inv: seq<InventoryItem>, i: nat)
    requires i < |inv|
    ensures InventoryKeys(inv[..i + 1]) == InventoryKeys(inv[..i]) + ItemKeys(inv[i])
  {
    assert inv[..i + 1][..i] == inv[..i];
  }

  lemma AdditionalItemsKeysSnoc(add: seq<AdditionalItem>, j: nat)
    requires j < |add|
    ensures AdditionalItemsKeys(add[..j + 1]) == AdditionalItemsKeys(add[..j]) + AdditionalKeys(add[j])
  {
    assert add[..j + 1][..j] == add[..j];
  }

  /** The content `updateSerialNumberCache` gives the cache. */
  function SerialCache(inv: seq<InventoryItem>, add: seq<AdditionalItem>): set<string>
  {
    InventoryKeys(inv) + AdditionalItemsKeys(add)
  }

  /** The loops of `updateSerialNumberCache`: each item's truthy serial and key, trimmed and lower-cased. */
  method ComputeSerialCache(inv: seq<InventoryItem>, add: seq<AdditionalItem>) returns (cache: set<string>)
    ensures cache == SerialCache(inv, add)
  {
    cache := AddInventoryKeys({}, inv);
    cache := AddAdditionalKeys(cache, add);
  }

  /** The first loop: each inventory item adds its truthy `SERIE` and `CLAVE UNICA`. */
  method AddInventoryKeys(start: set<string>, inv: seq<InventoryItem>) returns (cache: set<string>)
    ensures cache == start + InventoryKeys(inv)
  {
    cache := start;
    var i := 0;
    while i < |inv|
      invariant 0 <= i <= |inv|
      invariant cache == start + InventoryKeys(inv[..i])
    {
      var item := inv[i];
      if item.serie != "" {
        cache := cache + {SerialKey(item.serie)};
      }
      if item.clave != "" {
        cache := cache + {SerialKey(item.clave)};
      }
      InventoryKeysSnoc(inv, i);
      i := i + 1;
    }
    assert inv[..i] == inv;
  }

  /** The second loop: each additional good adds its truthy `serie` and `clave`. */
  method AddAdditionalKeys(start: set<string>, add: seq<AdditionalItem>) returns (cache: set<string>)
    ensures cache == start + AdditionalItemsKeys(add)
  {
    cache := start;
    var j := 0;
    while j < |add|
      invariant 0 <= j <= |add|
      invariant cache == start + AdditionalItemsKeys(add[..j])
    {
      var item := add[j];
      if item.serie != "" {
        cache := cache + {SerialKey(item.serie)};
      }
      if item.clave != "" {
        cache := cache + {SerialKey(item.clave)};
      }
      AdditionalItemsKeysSnoc(add, j);
      j := j + 1;
    }
    assert add[..j] == add;
  }

  /** The cache matches the items it was built from. */
  predicate CacheFresh(m: Memory)
  {
    m.serialNumberCache == SerialCache(m.app.goods.inventory, m.app.goods.additionalItems)
  }

  lemma {:induction false} InventoryKeysMembership(inv: seq<InventoryItem>, v: string)
    ensures v in InventoryKeys(inv) <==> exists i :: 0 <= i < |inv| && v in ItemKeys(inv[i])
  {
    if inv != [] {
      var init := inv[..|inv| - 1];
      InventoryKeysMembership(init, v);
      if v in InventoryKeys(init) {
        var i :| 0 <= i < |init| && v in ItemKeys(init[i]);
        assert inv[i] == init[i];
      }
      if exists i :: 0 <= i < |inv| && v in ItemKeys(inv[i]) {
        var i :| 0 <= i < |inv| && v in ItemKeys(inv[i]);
        if i < |init| {
          assert init[i] == inv[i];
        }
      }
    }
  }

  lemma {:induction false} AdditionalItemsKeysMembership(add: seq<AdditionalItem>, v: string)
    ensures v in AdditionalItemsKeys(add) <==> exists j :: 0 <= j < |add| && v in AdditionalKeys(add[j])
  {
    if add != [] {
      var init := add[..|add| - 1];
      AdditionalItemsKeysMembership(init, v);
      if v in AdditionalItemsKeys(init) {
        var j :| 0 <= j < |init| && v in AdditionalKeys(init[j]);
        assert add[j] == init[j];
      }
      if exists j :: 0 <= j < |add| && v in AdditionalKeys(add[j]) {
        var j :| 0 <= j < |add| && v in AdditionalKeys(add[j]);
        if j < |init| {
          assert init[j] == add[j];
        }
      }
    }
  }

  /**
   * A value is cached exactly when some inventory item has it as truthy serial
   * or key, or some additional good has it as truthy `serie` or `clave`, after
   * trimming and lower-casing.
   */
  lemma SerialCacheMembership(inv: seq<InventoryItem>, add: seq<AdditionalItem>, v: string)
    ensures v in SerialCache(inv, add) <==>
      (exists i :: 0 <= i < |inv| && ((inv[i].serie != "" && SerialKey(inv[i].serie) == v)
                                     || (inv[i].clave != "" && SerialKey(inv[i].clave) == v)))
      || (exists j :: 0 <= j < |add| && ((add[j].serie != "" && SerialKey(add[j].serie) == v)
                                        || (add[j].clave != "" && SerialKey(add[j].clave) == v)))
  {
    InventoryKeysMembership(inv, v);
    AdditionalItemsKeysMembership(add, v);
  }

  /** The key assigned to an additional good (`claveAsignada`) never reaches the cache. */
  lemma {:induction false} CacheIgnoresAssignedKeys(inv: seq<InventoryItem>, add: seq<AdditionalItem>, add2: seq<AdditionalItem>)
    requires |add2| == |add|
    requires forall j :: 0 <= j < |add| ==> add2[j] == add[j].(claveAsignada := add2[j].claveAsignada)
    ensures SerialCache(inv, add2) == SerialCache(inv, add)
  {
    if add != [] {
      var n := |add| - 1;
      CacheIgnoresAssignedKeys(inv, add[..n], add2[..n]);
      assert AdditionalKeys(add2[n]) == AdditionalKeys(add[n]);
    }
  }

  /** A serial made only of white space is truthy, so it puts the empty string in the cache. */
  lemma BlankSerialCachesEmptyString(inv: seq<InventoryItem>, add: seq<AdditionalItem>, i: nat)
    requires i < |inv| && inv[i].serie != "" && AllWhitespace(inv[i].serie)
    ensures "" in SerialCache(inv, add)
  {
    TrimFacts(inv[i].serie);
    SerialCacheMembership(inv, add, "");
  }

  // ---------------------------------------------------------------------
  // Persistence

  /** `clearInterval` on the autosave handle, when there is one. */
  function Stopped(t: Option<Timer>): Option<Timer>
  {
    match t
    case Some(timer) => Some(timer.(running := false))
    case None => None
  }

  /** The state with read-only mode switched on. */
  function ReadOnly(app: State): State
  {
    app.(session := app.session.(readOnlyMode := true))
  }

  /**
   * `saveState`: nothing while read-only; a successful write stores the
   * document of the state; a failed write turns read-only mode on and stops
   * autosave.
   */
  function Save(w: World, writeOk: bool): World
  {
    if w.mem.app.session.readOnlyMode then w
    else if writeOk then w.(stored := Some(Written(ToDocument(w.mem.app))))
    else World(w.mem.(app := ReadOnly(w.mem.app), autosave := Stopped(w.mem.autosave)), w.stored)
  }

  /**
   * `loadState`: an absent or empty entry loads nothing; an unparsable one is
   * removed; a document is merged into the state and the cache rebuilt.
   */
  function Load(w: World): (World, bool)
  {
    match w.stored
    case None => (w, false)
    case Some(EmptyText) => (w, false)
    case Some(Unparsable) => (w.(stored := None), false)
    case Some(Written(d)) =>
      var app := Merge(w.mem.app, d);
      (World(Memory(app, SerialCache(app.goods.inventory, app.goods.additionalItems), w.mem.autosave), w.stored), true)
  }

  /** The world with its state replaced. */
  function SetApp(w: World, app: State): World
  {
    w.(mem := w.mem.(app := app))
  }

  /** The world after `updateSerialNumberCache`. */
  function Refreshed(w: World): (r: World)
    ensures CacheFresh(r.mem)
    ensures r.mem.app == w.mem.app && r.stored == w.stored && r.mem.autosave == w.mem.autosave
  {
    w.(mem := w.mem.(serialNumberCache := SerialCache(w.mem.app.goods.inventory, w.mem.app.goods.additionalItems)))
  }

  /** Saving never changes the items, the custodians or any area bookkeeping. */
  lemma SaveKeepsData(w: World, writeOk: bool)
    ensures var r := Save(w, writeOk).mem.app;
      r == w.mem.app.(session := w.mem.app.session.(readOnlyMode := r.session.readOnlyMode))
      && (r.session.readOnlyMode <==> w.mem.app.session.readOnlyMode || !writeOk)
    ensures Save(w, writeOk).mem.serialNumberCache == w.mem.serialNumberCache
  {
  }

  /** Once read-only, saving never touches storage or memory again. */
  lemma ReadOnlyIsSticky(w: World, writeOk: bool)
    requires w.mem.app.session.readOnlyMode
    ensures Save(w, writeOk) == w
  {
  }

  /** A failed save leaves the application read-only: every later save is a no-op. */
  lemma FailedSaveIsFinal(w: World, later: bool)
    ensures Save(w, false).mem.app.session.readOnlyMode
    ensures Save(Save(w, false), later) == Save(w, false)
  {
  }

  /** A successful save followed by a load restores the same in-memory state. */
  lemma LoadAfterSave(w: World)
    requires !w.mem.app.session.readOnlyMode && CacheFresh(w.mem)
    ensures Load(Save(w, true)) == (Save(w, true), true)
  {
    MergeSaved(w.mem.app, w.mem.app);
  }

  /** A successful load always leaves the cache consistent with the items. */
  lemma LoadRebuildsCache(w: World)
    requires Load(w).1
    ensures CacheFresh(Load(w).0.mem)
  {
  }

  /** The autosave period: `(parseInt(setting) || 30) * 1000`. */
  function AutosaveIntervalMs(setting: string): int
  {
    var n := ParseInt(setting).GetOr(0);
    (if n == 0 then 30 else n) * 1000
  }

  /** The period is never zero and is a whole number of seconds. */
  lemma AutosaveIntervalNonZero(setting: string)
    ensures AutosaveIntervalMs(setting) != 0 && AutosaveIntervalMs(setting) % 1000 == 0
  {
  }

  /** A setting holding a non-zero number of seconds gives that many seconds. */
  lemma AutosaveIntervalReadsSetting(seconds: int)
    requires seconds != 0
    ensures AutosaveIntervalMs(IntToString(seconds)) == seconds * 1000
  {
    ParseIntOfIntToString(seconds);
  }

  /** The local-storage entry under the application's key. */
  class SnapshotStore {
    var entry: Option<StoredText>

    constructor (initial: Option<StoredText>)
      ensures entry == initial
    {
      entry := initial;
    }
  }

  /** The two object stores of the photo database: photos and layout images. */
  class BlobStore {
    var photos: map<string, Blob>
    var layoutImages: map<string, Blob>

    constructor ()
      ensures photos == map[] && layoutImages == map[]
    {
      photos := map[];
      layoutImages := map[];
    }

    method SetPhoto(key: string, value: Blob)
      modifies this`photos
      ensures photos == old(photos)[key := value]
    {
      photos := photos[key := value];
    }

    method DeletePhoto(key: string)
      modifies this`photos
      ensures photos == old(photos) - {key}
    {
      photos := photos - {key};
    }

    method SetLayoutImage(key: string, value: Blob)
      modifies this`layoutImages
      ensures layoutImages == old(layoutImages)[key := value]
    {
      layoutImages := layoutImages[key := value];
    }

    method DeleteLayoutImage(key: string)
      modifies this`layoutImages
      ensures layoutImages == old(layoutImages) - {key}
    {
      layoutImages := layoutImages - {key};
    }

    /** `deleteDB` followed by `init`: both stores come back empty. */
    method Drop()
      modifies this
      ensures photos == map[] && layoutImages == map[]
    {
      photos := map[];
      layoutImages := map[];
    }
  }

  /**
   * The application's `state` object: its serialisable properties (`app`,
   * assigned group by group through `app.(goods := app.goods.(field := ...))`), the
   * serial-number cache it also carries, and the module's autosave handle.
   */
  class Session {
    var app: State
    var serialNumberCache: set<string>
    var autosave: Option<Timer>

    function Current(): Memory
      reads this
    {
      Memory(app, serialNumberCache, autosave)
    }

    constructor ()
      ensures Current() == Memory(DefaultState(), {}, None)
    {
      app := DefaultState();
      serialNumberCache := {};
      autosave := None;
    }

    /** `updateSerialNumberCache`: clear the set, then add the keys of every item in order. */
    method UpdateSerialNumberCache()
      modifies this`serialNumberCache
      ensures serialNumberCache == SerialCache(app.goods.inventory, app.goods.additionalItems)
    {
      serialNumberCache := ComputeSerialCache(app.goods.inventory, app.goods.additionalItems);
    }

    /** `saveState`. */
    method SaveState(store: SnapshotStore, writeOk: bool)
      modifies this`app, this`autosave, store
      ensures World(Current(), store.entry) == Save(old(World(Current(), store.entry)), writeOk)
    {
      if app.session.readOnlyMode {
        return;
      }
      if writeOk {
        store.entry := Some(Written(ToDocument(app)));
      } else {
        app := ReadOnly(app);
        autosave := Stopped(autosave);
      }
    }

    /** `loadState`: reports whether a stored state was loaded. */
    method LoadState(store: SnapshotStore) returns (loaded: bool)
      modifies this, store
      ensures (World(Current(), store.entry), loaded) == Load(old(World(Current(), store.entry)))
    {
      match store.entry
      case None =>
        return false;
      case Some(EmptyText) =>
        return false;
      case Some(Unparsable) =>
        store.entry := None;
        return false;
      case Some(Written(d)) =>
        app := Merge(app, d);
        UpdateSerialNumberCache();
        return true;
    }

    /** `startAutosave`: replaces the autosave timer with one of the configured period. */
    method StartAutosave(setting: string, timerId: int)
      modifies this`autosave
      ensures autosave == Some(Timer(timerId, AutosaveIntervalMs(setting), true))
    {
      autosave := Some(Timer(timerId, AutosaveIntervalMs(setting), true));
    }

    /** One firing of the autosave timer, which fires only while the timer `StartAutosave` set is running: save unless read-only. */
    method AutosaveTick(store: SnapshotStore, writeOk: bool)
      requires autosave.Some? && autosave.value.running
      modifies this`app, this`autosave, store
      ensures World(Current(), store.entry) == Save(old(World(Current(), store.entry)), writeOk)
    {
      if !app.session.readOnlyMode {
        SaveState(store, writeOk);
      }
    }

    /**
     * `resetInventoryState`: install the reset state; then, when the photo
     * database could be dropped and reopened, empty it and save. `dbOk`
     * stands for both steps succeeding (`deleteDatabase` and the `init` that
     * follows it, db.js:137-155): a failure of either skips the clearing and
     * the save alike.
     */
    method ResetInventoryState(store: SnapshotStore, blobs: BlobStore, now: Now, dbOk: bool, writeOk: bool)
      modifies this, store, blobs
      ensures World(Current(), store.entry) == Reset(old(World(Current(), store.entry)), now.isoStamp, dbOk, writeOk)
      ensures dbOk ==> blobs.photos == map[] && blobs.layoutImages == map[]
      ensures !dbOk ==> blobs.photos == old(blobs.photos) && blobs.layoutImages == old(blobs.layoutImages)
    {
      app := ResetState(app, now.isoStamp);
      serialNumberCache := {};
      if dbOk {
        blobs.Drop();
        SaveState(store, writeOk);
      }
    }
  }

  /** The in-memory state of `s` together with the entry of `store`. */
  function WorldOf(s: Session, store: SnapshotStore): World
    reads s, store
  {
    World(s.Current(), store.entry)
  }
}

=== FILE: entities.dfy ===
/**
 * The records the inventory-audit application keeps: institutional assets
 * loaded from spreadsheets, additional (unlisted) goods, custodians, the
 * operator, per-area directory and closure records, and layout pages.
 * Property names with spaces in the application (`'CLAVE UNICA'`,
 * `'NOMBRE DE USUARIO'`, `'IMPRIMIR ETIQUETA'`) become `clave`, `usuario`
 * and `imprimir`.
 */
module Entities {
  import opened Wrappers
  import opened Seqs

  /** The flag values of `UBICADO` and `IMPRIMIR ETIQUETA`. */
  const Yes: string := "SI"
  const No: string := "NO"

  /** The area used when a sheet names none. */
  const NoArea: string := "Sin Área"

  /** One reading of the clock: the locale text used in the activity log, the ISO text, and `Date.now()`. */
  datatype Now = Now(localStamp: string, isoStamp: string, epochMs: int)

  /** The answer to a confirmation dialog. */
  datatype Choice = Confirmed | Cancelled

  /** An institutional asset, one row of an ingested sheet. */
  datatype InventoryItem = InventoryItem(
    clave: string,
    descripcion: string,
    oficio: string,
    tipo: string,
    marca: string,
    modelo: string,
    serie: string,
    fechaInicio: string,
    remision: string,
    fechaRemision: string,
    factura: string,
    fechaFactura: string,
    anio: string,
    usuario: string,
    ubicado: string,
    imprimir: string,
    listadoOriginal: string,
    areaOriginal: string,
    listId: int,
    fileName: string,
    fechaUbicado: Option<string>,
    areaIncorrecta: bool)
  {
    predicate Located() { ubicado == Yes }
  }

  /**
   * A good found on site but absent from the lists. `tieneFormatoEntrada` is
   * `None` until the entry-form question is answered; an absent
   * `claveAsignada` is the empty string.
   */
  datatype AdditionalItem = AdditionalItem(
    id: string,
    clave: string,
    descripcion: string,
    marca: string,
    modelo: string,
    serie: string,
    area: string,
    personal: string,
    usuario: string,
    fechaRegistro: string,
    tieneFormatoEntrada: Option<bool>,
    claveAsignada: string)

  /** A person who holds assets (a "resguardante"). */
  datatype Custodian = Custodian(id: string, name: string, area: string, location: string, locationWithId: string)

  /** The logged-in verifier. */
  datatype Operator = Operator(number: string, name: string)

  /** The responsible person recorded for an area. */
  datatype DirectoryEntry = DirectoryEntry(fullName: string, name: string, title: string)

  /** The record written when an area is closed. */
  datatype ClosedArea = ClosedArea(responsible: string, location: string, date: string)

  /** A shape placed on a layout page (its geometry is not modelled). */
  datatype Shape = Shape(shapeType: string, areaId: string)

  /** The bytes of a stored photo or layout image. */
  type Blob = seq<bv8>

  /**
   * `layoutPageNames`: an object whose keys keep insertion order, so the page
   * keys are kept in `order` alongside the name of each.
   */
  datatype PageNames = PageNames(order: seq<string>, names: map<string, string>)
  {
    ghost predicate Valid()
    {
      Distinct(order) && forall k :: k in names <==> k in order
    }

    function Count(): nat
    {
      |order|
    }

    /** `layoutPageNames[key] = name`: a new key goes last, an existing one keeps its place. */
    function Put(key: string, name: string): (r: PageNames)
      requires Valid()
      ensures r.Valid()
      ensures r.names == names[key := name]
      ensures key in order ==> r.order == order
      ensures key !in order ==> r.order == order + [key]
    {
      if key in order then PageNames(order, names[key := name])
      else PageNames(order + [key], names[key := name])
    }

    /** `delete layoutPageNames[key]`: the other keys keep their relative order. */
    function Remove(key: string): (r: PageNames)
      requires Valid()
      ensures r.Valid()
      ensures r.names == names - {key}
      ensures r.order == Filter(order, OtherThan(key))
    {
      var o := Filter(order, OtherThan(key));
      FilterDistinct(order, OtherThan(key));
      PageNames(o, names - {key})
    }
  }

  /** The keys other than `key`, as the predicate handed to `Filter`. */
  function OtherThan(key: string): string -> bool
  {
    (k: string) => k != key
  }
}

=== FILE: file_handlers.dfy ===
/**
 * Ingestion of inventory spreadsheets (`processFile`, `addItemsFromFile`,
 * `extractResponsibleInfo`) and the session backup as a zip archive
 * (`exportSession`, `importSessionZip`).
 *
 * A worksheet is its rows of cell texts, read from cell A1, with "" for an
 * empty cell; an archive is its optional `session.json` and its files in
 * archive order.
 */
module FileHandlers {
  import opened Wrappers
  import opened JsText
  import opened Seqs
  import opened Entities
  import opened AppState
  import opened Logger
  import opened MainHandlers
  import opened Render

  type Row = seq<string>

  /** The first worksheet of a workbook. */
  datatype Sheet = Sheet(rows: seq<Row>)

  /** The text of column `c` of a row ("" past its end). */
  function Cell(row: Row, c: nat): string
  {
    if c < |row| then row[c] else ""
  }

  /** The text of the cell at row `r`, column `c` (both from zero). */
  function CellAt(sh: Sheet, r: nat, c: nat): string
  {
    if r < |sh.rows| then Cell(sh.rows[r], c) else ""
  }

  /** `sheet['A10']?.v || 'Sin Área'`: the heading that names the area. */
  function Heading(sh: Sheet): string
  {
    if CellAt(sh, 9, 0) != "" then CellAt(sh, 9, 0) else NoArea
  }

  /** `sheet['B7']?.v || sheet['L7']?.v || 'Sin Tipo'`: the book type. */
  function BookType(sh: Sheet): string
  {
    if CellAt(sh, 6, 1) != "" then CellAt(sh, 6, 1) else if CellAt(sh, 6, 11) != "" then CellAt(sh, 6, 11) else "Sin Tipo"
  }

  /** `sheet_to_json(sheet, { header: 1, range: 11 })`: the rows from the twelfth on. */
  function DataRows(sh: Sheet): seq<Row>
  {
    if |sh.rows| > 11 then sh.rows[11..] else []
  }

  // ---------------------------------------------------------------------
  // Keys and areas

  /** `/^(?:\d{5,6}|0\.\d+)$/`: five or six digits, or `0.` followed by digits. */
  predicate IsClaveUnica(s: string)
  {
    (AllDigits(s) && 5 <= |s| <= 6) || (|s| >= 3 && s[0] == '0' && s[1] == '.' && AllDigits(s[2..]))
  }

  /** A key is never empty and never padded, so trimming it changes nothing. */
  lemma ClaveUnicaIsTrimmed(s: string)
    requires IsClaveUnica(s)
    ensures s != "" && Trim(s) == s
  {
    assert IsDigit(s[|s| - 1]);
    TrimUnpadded(s);
  }

  /** Where `/AREA\s(\d+)/` can match: `AREA`, one whitespace character, then a digit. */
  predicate AreaMatchAt(s: string, i: int)
  {
    OccursAt(s, "AREA", i) && i + 5 < |s| && IsWhitespace(s[i + 4]) && IsDigit(s[i + 5])
  }

  /** The first position from `from` on where the area pattern matches, or -1. */
  function FirstAreaMatch(s: string, from: nat): (k: int)
    ensures k == -1 || (from <= k < |s| && AreaMatchAt(s, k))
    ensures forall i :: from <= i && (k == -1 || i < k) ==> !AreaMatchAt(s, i)
    decreases |s| - from
  {
    if from >= |s| then -1 else if AreaMatchAt(s, from) then from else FirstAreaMatch(s, from + 1)
  }

  /** The area of a heading: the digit run of the first `AREA <digits>` in it, otherwise `Sin Área`. */
  function ExtractArea(heading: string): (area: string)
    ensures area != ""
  {
    var k := FirstAreaMatch(heading, 0);
    if k < 0 then NoArea else DigitPrefix(heading[k + 5..])
  }

  /**
   * The area is `Sin Área` exactly when the pattern matches nowhere;
   * otherwise it is the whole digit run after the leftmost match.
   */
  lemma ExtractAreaMeaning(heading: string)
    ensures var area := ExtractArea(heading);
      (area == NoArea <==> forall i :: 0 <= i ==> !AreaMatchAt(heading, i))
      && (area != NoArea ==>
            exists k :: 0 <= k && AreaMatchAt(heading, k) && (forall i :: 0 <= i < k ==> !AreaMatchAt(heading, i))
                        && heading[k + 5..k + 5 + |area|] == area && AllDigits(area)
                        && (k + 5 + |area| == |heading| || !IsDigit(heading[k + 5 + |area|])))
  {
    var k := FirstAreaMatch(heading, 0);
    var area := ExtractArea(heading);
    if k >= 0 {
      var d := DigitPrefix(heading[k + 5..]);
      assert d[0] == heading[k + 5];
      assert !AllDigits(NoArea) by {
        assert !IsDigit(NoArea[0]);
      }
      assert heading[k + 5..k + 5 + |area|] == area;
    }
  }

  /** A heading `AREA <digits>` names the area `<digits>`. */
  lemma AreaOfHeading(digits: string)
    requires digits != "" && AllDigits(digits)
    ensures ExtractArea("AREA " + digits) == digits
  {
    var h := "AREA " + digits;
    assert h[0..4] == "AREA";
    assert AreaMatchAt(h, 0);
    assert h[5..] == digits;
  }

  // ---------------------------------------------------------------------
  // extractResponsibleInfo

  /** A cell with text other than whitespace. */
  predicate FilledCell(c: string)
  {
    Trim(c) != ""
  }

  /** A row with at least one filled cell. */
  predicate ContentRow(row: Row)
  {
    exists j | 0 <= j < |row| :: FilledCell(row[j])
  }

  /** The rows with content, in order. */
  function ContentRows(rows: seq<Row>): (r: seq<Row>)
    ensures forall i :: 0 <= i < |r| ==> ContentRow(r[i])
  {
    Filter(rows, ContentRow)
  }

  /** The first filled cell of a row with content. */
  function FirstFilled(row: Row): (c: string)
    requires ContentRow(row)
    ensures FilledCell(c) && c in row
  {
    row[FindIndex(row, FilledCell)]
  }

  /**
   * `isNaN(cell)` is false for a text cell: `Number(cell)` reads it, that is,
   * after trimming it is empty or a StringNumericLiteral (section 7.1.4.1.1
   * of ECMA-262): a signed decimal literal or `Infinity`, or an unsigned
   * hexadecimal, octal or binary integer literal.
   */
  predicate NumericText(s: string)
  {
    var t := Trim(s);
    t == "" || DecimalNumeral(t) || NonDecimalInteger(t)
  }

  /** An optional sign, then `Infinity` or a decimal mantissa with an optional exponent. */
  predicate DecimalNumeral(t: string)
  {
    var u := if |t| > 0 && (t[0] == '+' || t[0] == '-') then t[1..] else t;
    u == "Infinity" || exists e | 0 < e <= |u| :: Mantissa(u[..e]) && ExponentPart(u[e..])
  }

  /** Digits with at most one point among them, and at least one digit. */
  predicate Mantissa(m: string)
  {
    m != "" && (AllDigits(m) || (|m| >= 2 && exists p | 0 <= p < |m| :: m[p] == '.' && AllDigits(m[..p]) && AllDigits(m[p + 1..])))
  }

  /** Nothing, or `e`/`E`, an optional sign and at least one digit. */
  predicate ExponentPart(x: string)
  {
    x == "" ||
    (|x| >= 2 && (x[0] == 'e' || x[0] == 'E') &&
     var d := if x[1] == '+' || x[1] == '-' then x[2..] else x[1..];
     d != "" && AllDigits(d))
  }

  /** `0x`, `0o` or `0b` (either case) followed by at least one digit of that base. */
  predicate NonDecimalInteger(t: string)
  {
    |t| >= 3 && t[0] == '0' &&
    ((t[1] in "xX" && forall i | 2 <= i < |t| :: t[i] in "0123456789abcdefABCDEF")
     || (t[1] in "oO" && forall i | 2 <= i < |t| :: t[i] in "01234567")
     || (t[1] in "bB" && forall i | 2 <= i < |t| :: t[i] in "01"))
  }

  /**
   * `Infinity` and a numeral with an exponent (`1e5`) are texts `Number`
   * reads although they are not plain digits, so `isNaN` is false for them.
   */
  lemma ExponentAndInfinityAreNumeric(d: string, x: string)
    requires d != "" && AllDigits(d) && x != "" && AllDigits(x)
    ensures NumericText("Infinity")
    ensures NumericText(d + "e" + x)
  {
    TrimUnpadded("Infinity");
    var t := d + "e" + x;
    assert !IsWhitespace(t[0]) && !IsWhitespace(t[|t| - 1]) by {
      assert t[0] == d[0] && t[|t| - 1] == x[|x| - 1];
    }
    TrimUnpadded(t);
    assert t[..|d|] == d && t[|d|..] == "e" + x;
    assert ("e" + x)[1..] == x;
    assert Mantissa(t[..|d|]) && ExponentPart(t[|d|..]);
    assert t[0] != '+' && t[0] != '-';
    assert DecimalNumeral(t);
  }

  /** A text whose first character after trimming is a letter other than `I` (a name, a title) is not a number. */
  lemma LetterStartIsNotNumeric(s: string)
    requires Trim(s) != "" && !IsDigit(Trim(s)[0]) && Trim(s)[0] !in "+-.I0"
    ensures !NumericText(s)
  {
    var t := Trim(s);
    forall e | 0 < e <= |t|
      ensures !Mantissa(t[..e])
    {
      var m := t[..e];
      assert m[0] == t[0];
      assert !AllDigits(m);
      forall p | 0 <= p < |m| && m[p] == '.'
        ensures !AllDigits(m[..p])
      {
        assert p > 0 && m[..p][0] == t[0];
      }
    }
  }

  /** A responsible person read from the foot of a sheet. */
  datatype Responsible = Responsible(name: string, title: string)

  /** A label that may name a person or a title: not a number, and longer than three characters. */
  predicate Wordy(c: string)
  {
    !NumericText(c) && |c| > 3
  }

  /**
   * `extractResponsibleInfo`: the first filled cells of the last two rows
   * with content, trimmed, when both are wordy.
   */
  function ResponsibleInfo(rows: seq<Row>): Option<Responsible>
  {
    var content := ContentRows(rows);
    if |content| >= 2 then FootPair(content[|content| - 2], content[|content| - 1]) else None
  }

  /** The responsible person named by the first filled cells of two rows, when both are wordy. */
  function FootPair(nameRow: Row, titleRow: Row): Option<Responsible>
    requires ContentRow(nameRow) && ContentRow(titleRow)
  {
    var name := FirstFilled(nameRow);
    var title := FirstFilled(titleRow);
    if Wordy(name) && Wordy(title) then Some(Responsible(Trim(name), Trim(title))) else None
  }

  /** A responsible person has a name and a title that are trimmed, not blank and not numbers. */
  lemma ResponsibleIsClean(rows: seq<Row>)
    ensures var r := ResponsibleInfo(rows);
      r.Some? ==> Clean(r.value.name) && Clean(r.value.title)
  {
    var content := ContentRows(rows);
    if |content| >= 2 {
      var name := FirstFilled(content[|content| - 2]);
      var title := FirstFilled(content[|content| - 1]);
      TrimIdempotent(name);
      TrimIdempotent(title);
    }
  }

  /** Trimmed, not blank, and not a number. */
  predicate Clean(c: string)
  {
    c != "" && Trim(c) == c && !NumericText(c)
  }

  /** Only the last two rows with content count: rows before them change nothing. */
  lemma ResponsibleFromLastRows(earlier: seq<Row>, rows: seq<Row>)
    requires |ContentRows(rows)| >= 2
    ensures ResponsibleInfo(earlier + rows) == ResponsibleInfo(rows)
  {
    var ce, cr := ContentRows(earlier), ContentRows(rows);
    FilterAppend(earlier, rows, ContentRow);
    var c := ContentRows(earlier + rows);
    assert c == ce + cr;
    SameLastTwo(ce, cr);
    LastTwoDecide(earlier + rows, rows);
  }

  /** The lookup depends only on the last two rows with content. */
  lemma LastTwoDecide(a: seq<Row>, b: seq<Row>)
    requires var ca, cb := ContentRows(a), ContentRows(b);
      |ca| >= 2 && |cb| >= 2 && ca[|ca| - 2] == cb[|cb| - 2] && ca[|ca| - 1] == cb[|cb| - 1]
    ensures ResponsibleInfo(a) == ResponsibleInfo(b)
  {
  }

  /** The last two elements of a concatenation are those of its second part when it has two. */
  lemma SameLastTwo<T>(a: seq<T>, b: seq<T>)
    requires |b| >= 2
    ensures var c := a + b; c[|c| - 2] == b[|b| - 2] && c[|c| - 1] == b[|b| - 1]
  {
  }

  /** Rows without content, wherever they stand, change nothing. */
  lemma ResponsibleIgnoresBlankRows(rows: seq<Row>, blank: seq<Row>, more: seq<Row>)
    requires forall i :: 0 <= i < |blank| ==> !ContentRow(blank[i])
    ensures ResponsibleInfo(rows + blank + more) == ResponsibleInfo(rows + more)
  {
    var kept := rows + blank;
    FilterAppend(rows, blank, ContentRow);
    NoContent(blank);
    assert Filter(blank, ContentRow) == [];
    assert Filter(rows, ContentRow) + [] == Filter(rows, ContentRow);
    assert Filter(kept, ContentRow) == Filter(rows, ContentRow);
    FilterAppend(kept, more, ContentRow);
    FilterAppend(rows, more, ContentRow);
    SameContentSameResponsible(kept + more, rows + more);
  }

  /** The lookup sees only the rows with content. */
  lemma SameContentSameResponsible(a: seq<Row>, b: seq<Row>)
    requires ContentRows(a) == ContentRows(b)
    ensures ResponsibleInfo(a) == ResponsibleInfo(b)
  {
  }

  /** Rows without content leave nothing after the filter. */
  lemma {:induction false} NoContent(blank: seq<Row>)
    requires forall i :: 0 <= i < |blank| ==> !ContentRow(blank[i])
    ensures ContentRows(blank) == []
  {
    if blank != [] {
      NoContent(blank[1..]);
    }
  }

  // ---------------------------------------------------------------------
  // addItemsFromFile

  /** `String(row[0] || '').trim()`. */
  function RowClave(row: Row): string
  {
    Trim(Cell(row, 0))
  }

  /** The row is a good: its trimmed first cell is a key. */
  predicate AcceptedRow(row: Row)
  {
    IsClaveUnica(RowClave(row))
  }

  /** The item built from an accepted row: not located, not marked, held by nobody, stamped with the batch. */
  function RowItem(row: Row, bookType: string, area: string, listId: int, fileName: string): InventoryItem
  {
    InventoryItem(RowClave(row), Cell(row, 1), Cell(row, 2), Cell(row, 3), Cell(row, 4), Cell(row, 5), Cell(row, 6),
                  Cell(row, 7), Cell(row, 8), Cell(row, 9), Cell(row, 10), Cell(row, 11), Cell(row, 12),
                  "", No, No, bookType, area, listId, fileName, None, false)
  }

  /** `rawData.map(...).filter(Boolean)`: one item per accepted row, in row order. */
  function NewItems(rows: seq<Row>, bookType: string, area: string, listId: int, fileName: string): (r: seq<InventoryItem>)
    ensures |r| <= |rows|
    ensures forall i :: 0 <= i < |r| ==>
      IsClaveUnica(r[i].clave) && !r[i].Located() && r[i].imprimir == No && r[i].usuario == ""
      && r[i].listId == listId && r[i].fileName == fileName && r[i].areaOriginal == area && r[i].listadoOriginal == bookType
  {
    if rows == [] then []
    else (if AcceptedRow(rows[0]) then [RowItem(rows[0], bookType, area, listId, fileName)] else [])
         + NewItems(rows[1..], bookType, area, listId, fileName)
  }

  /** An item is ingested exactly when it is built from an accepted row. */
  lemma {:induction false} NewItemsExactly(rows: seq<Row>, bookType: string, area: string, listId: int, fileName: string,
                                           it: InventoryItem)
    ensures it in NewItems(rows, bookType, area, listId, fileName)
      <==> exists j | 0 <= j < |rows| :: AcceptedRow(rows[j]) && it == RowItem(rows[j], bookType, area, listId, fileName)
  {
    if rows != [] {
      NewItemsExactly(rows[1..], bookType, area, listId, fileName, it);
      if exists j | 0 <= j < |rows| :: AcceptedRow(rows[j]) && it == RowItem(rows[j], bookType, area, listId, fileName) {
        var j :| 0 <= j < |rows| && AcceptedRow(rows[j]) && it == RowItem(rows[j], bookType, area, listId, fileName);
        if j > 0 {
          assert rows[1..][j - 1] == rows[j];
        }
      }
      if exists j | 0 <= j < |rows[1..]| :: AcceptedRow(rows[1..][j]) && it == RowItem(rows[1..][j], bookType, area, listId, fileName) {
        var j :| 0 <= j < |rows[1..]| && AcceptedRow(rows[1..][j]) && it == RowItem(rows[1..][j], bookType, area, listId, fileName);
        assert rows[j + 1] == rows[1..][j];
      }
    }
  }

  /** One item per accepted row: as many items as the filter over the rows keeps. */
  lemma {:induction false} NewItemsCount(rows: seq<Row>, bookType: string, area: string, listId: int, fileName: string)
    ensures |NewItems(rows, bookType, area, listId, fileName)| == |Filter(rows, AcceptedRow)|
  {
    if rows != [] {
      NewItemsCount(rows[1..], bookType, area, listId, fileName);
    }
  }

  /**
   * The area bookkeeping after a sheet of area `area` is read: the heading
   * becomes the area's name when it has none (or an empty one), and the
   * responsible person its directory entry when it has none.
   */
  function WithAreaMetadata(a: AreaBook, area: string, heading: string, resp: Option<Responsible>): AreaBook
  {
    var names := if area in a.areaNames && a.areaNames[area] != "" then a.areaNames else a.areaNames[area := heading];
    var dir := if area !in a.areaDirectory && resp.Some?
               then a.areaDirectory[area := DirectoryEntry(heading, resp.value.name, resp.value.title)]
               else a.areaDirectory;
    a.(areaNames := names, areaDirectory := dir)
  }

  /** The state after the sheet's items are appended with batch id `listId`. */
  function Ingested(app: State, sh: Sheet, bookType: string, fileName: string, listId: int): State
  {
    var heading := Heading(sh);
    var area := ExtractArea(heading);
    var book := WithAreaMetadata(app.areaBook, area, heading, ResponsibleInfo(sh.rows));
    var items := NewItems(DataRows(sh), bookType, area, listId, fileName);
    app.(areaBook := book.(inventoryFinished := false),
         goods := app.goods.(inventory := app.goods.inventory + items))
  }

  /** The log line of a loaded file. */
  function LoadedDetails(fileName: string, count: nat, area: string, bookType: string): string
  {
    "Archivo \"" + fileName + "\" con " + NatToString(count) + " bienes para el área " + area + ". Tipo: " + bookType + "."
  }

  /**
   * `addItemsFromFile` on the world: ingest, log, save, recompute the area
   * list in memory (after the save), rebuild the cache. The clock gives the
   * batch id.
   */
  function AddItemsFromFile(w: World, sh: Sheet, bookType: string, fileName: string, now: Now, writeOk: bool): World
  {
    var area := ExtractArea(Heading(sh));
    var count := |NewItems(DataRows(sh), bookType, area, now.epochMs, fileName)|;
    var w2 := Save(LogW(SetApp(w, Ingested(w.mem.app, sh, bookType, fileName, now.epochMs)), now, "Archivo cargado",
                        LoadedDetails(fileName, count, area, bookType)), writeOk);
    Refreshed(SetApp(w2, WithAreaList(w2.mem.app)))
  }

  /**
   * Ingestion appends the new items after the existing ones, clears the
   * finished flag, fills in area names and directory entries only where
   * missing, leaves custodians and additional goods alone, and rebuilds the
   * cache and the area list. The stored document is the one written before
   * the area list was recomputed.
   */
  lemma AddItemsEffect(w: World, sh: Sheet, bookType: string, fileName: string, now: Now, writeOk: bool)
    ensures var r := AddItemsFromFile(w, sh, bookType, fileName, now, writeOk).mem.app;
      var a := w.mem.app.areaBook;
      var area := ExtractArea(Heading(sh));
      r.goods.inventory == w.mem.app.goods.inventory + NewItems(DataRows(sh), bookType, area, now.epochMs, fileName)
      && !r.areaBook.inventoryFinished
      && r.goods.additionalItems == w.mem.app.goods.additionalItems && r.custody == w.mem.app.custody
      && area in r.areaBook.areaNames
      && (forall x :: x in a.areaNames && a.areaNames[x] != "" ==> x in r.areaBook.areaNames && r.areaBook.areaNames[x] == a.areaNames[x])
      && (forall x :: x in a.areaDirectory ==> x in r.areaBook.areaDirectory && r.areaBook.areaDirectory[x] == a.areaDirectory[x])
      && (area in r.areaBook.areaDirectory <==> area in a.areaDirectory || ResponsibleInfo(sh.rows).Some?)
      && r.areaBook.closedAreas == a.closedAreas && r.areaBook.completedAreas == a.completedAreas
      && r.areaBook.areas == AreaList(r)
    ensures CacheFresh(AddItemsFromFile(w, sh, bookType, fileName, now, writeOk).mem)
  {
    var area := ExtractArea(Heading(sh));
    var count := |NewItems(DataRows(sh), bookType, area, now.epochMs, fileName)|;
    var app := Ingested(w.mem.app, sh, bookType, fileName, now.epochMs);
    Committed(w, app, now, "Archivo cargado", LoadedDetails(fileName, count, area, bookType), writeOk);
    var w2 := Save(LogW(SetApp(w, app), now, "Archivo cargado", LoadedDetails(fileName, count, area, bookType)), writeOk);
    AreaListIgnoresAreas(w2.mem.app);
  }

  /** `addItemsFromFile`. */
  method AddItemsFromSheet(s: Session, store: SnapshotStore, sh: Sheet, bookType: string, fileName: string, now: Now,
                           writeOk: bool)
    modifies s, store
    ensures WorldOf(s, store) == AddItemsFromFile(old(WorldOf(s, store)), sh, bookType, fileName, now, writeOk)
  {
    ghost var w0 := WorldOf(s, store);
    var area, count := IngestSheet(s, sh, bookType, fileName, now.epochMs);
    ghost var w1 := SetApp(w0, Ingested(w0.mem.app, sh, bookType, fileName, now.epochMs));
    assert WorldOf(s, store) == w1;
    LogActivity(s, now, "Archivo cargado", LoadedDetails(fileName, count, area, bookType));
    ghost var w2 := LogW(w1, now, "Archivo cargado", LoadedDetails(fileName, count, area, bookType));
    assert WorldOf(s, store) == w2;
    s.SaveState(store, writeOk);
    ghost var w3 := Save(w2, writeOk);
    assert WorldOf(s, store) == w3;
    PopulateAreaSelects(s);
    assert WorldOf(s, store) == SetApp(w3, WithAreaList(w3.mem.app));
    s.UpdateSerialNumberCache();
  }

  /** The state part of `addItemsFromFile`: area metadata, the finished flag and the new items. */
  method IngestSheet(s: Session, sh: Sheet, bookType: string, fileName: string, listId: int)
    returns (area: string, count: nat)
    modifies s`app
    ensures s.app == Ingested(old(s.app), sh, bookType, fileName, listId)
    ensures area == ExtractArea(Heading(sh))
    ensures count == |NewItems(DataRows(sh), bookType, area, listId, fileName)|
  {
    var heading := Heading(sh);
    area := ExtractArea(heading);
    var book := s.app.areaBook;
    if !(area in book.areaNames && book.areaNames[area] != "") {
      book := book.(areaNames := book.areaNames[area := heading]);
    }
    var responsible := ResponsibleInfo(sh.rows);
    if area !in book.areaDirectory && responsible.Some? {
      book := book.(areaDirectory := book.areaDirectory[area := DirectoryEntry(heading, responsible.value.name, responsible.value.title)]);
    }
    var items := NewItems(DataRows(sh), bookType, area, listId, fileName);
    s.app := s.app.(areaBook := book.(inventoryFinished := false),
                    goods := s.app.goods.(inventory := s.app.goods.inventory + items));
    count := |items|;
  }


  // ---------------------------------------------------------------------
  // processFile

  /** Some item came from a file of this name. */
  predicate FileLoaded(inv: seq<InventoryItem>, fileName: string)
  {
    exists i | 0 <= i < |inv| :: inv[i].fileName == fileName
  }

  /** The items that came from a file of this name. */
  function FromFile(inv: seq<InventoryItem>, fileName: string): (r: seq<InventoryItem>)
    ensures forall it :: it in r <==> it in inv && it.fileName == fileName
  {
    Filter(inv, (it: InventoryItem) => it.fileName == fileName)
  }

  /** The items that came from other files, in order. */
  function OtherFiles(inv: seq<InventoryItem>, fileName: string): (r: seq<InventoryItem>)
    ensures forall it :: it in r <==> it in inv && it.fileName != fileName
  {
    Filter(inv, (it: InventoryItem) => it.fileName != fileName)
  }

  /** The state without the items of a file. */
  function WithoutFile(app: State, fileName: string): State
  {
    app.(goods := app.goods.(inventory := OtherFiles(app.goods.inventory, fileName)))
  }

  /** `proceedWithUpload`: the sheet read from the file, or `None` when reading or parsing it failed. */
  function Upload(w: World, fileName: string, sheet: Option<Sheet>, now: Now, writeOk: bool): World
  {
    match sheet
    case None => w
    case Some(sh) => AddItemsFromFile(w, sh, BookType(sh), fileName, now, writeOk)
  }

  /** The log line of a replaced file. */
  function ReplacedDetails(fileName: string, count: nat): string
  {
    "Archivo \"" + fileName + "\" con " + NatToString(count) + " bienes fue reemplazado."
  }

  /**
   * `processFile`: refused while read-only; a file name already loaded asks
   * first (`replace`), and on confirmation the old items are logged and
   * removed before the new file is read.
   */
  function ProcessFile(w: World, fileName: string, replace: Choice, sheet: Option<Sheet>, now: Now, writeOk: bool): World
  {
    var inv := w.mem.app.goods.inventory;
    if w.mem.app.session.readOnlyMode then w
    else if !FileLoaded(inv, fileName) then Upload(w, fileName, sheet, now, writeOk)
    else if replace == Cancelled then w
    else
      Upload(OldFileRemoved(w, fileName, now), fileName, sheet, now, writeOk)
  }

  /** The world after a confirmed replacement has logged and removed the old file's items. */
  function OldFileRemoved(w: World, fileName: string, now: Now): World
  {
    var inv := w.mem.app.goods.inventory;
    var w1 := LogW(w, now, "Archivo reemplazado", ReplacedDetails(fileName, |FromFile(inv, fileName)|));
    SetApp(w1, WithoutFile(w1.mem.app, fileName))
  }

  /**
   * A confirmed re-upload leaves no item of the old file: the items of
   * other files stay, in order, followed by the new ones, and every item
   * with that file name is a new one.
   */
  lemma ReplaceFileEffect(w: World, fileName: string, sh: Sheet, now: Now, writeOk: bool)
    requires !w.mem.app.session.readOnlyMode && FileLoaded(w.mem.app.goods.inventory, fileName)
    ensures var r := ProcessFile(w, fileName, Confirmed, Some(sh), now, writeOk);
      var added := NewItems(DataRows(sh), BookType(sh), ExtractArea(Heading(sh)), now.epochMs, fileName);
      r.mem.app.goods.inventory == OtherFiles(w.mem.app.goods.inventory, fileName) + added
      && forall it :: it in r.mem.app.goods.inventory && it.fileName == fileName ==> it in added
  {
    var w2 := OldFileRemoved(w, fileName, now);
    assert ProcessFile(w, fileName, Confirmed, Some(sh), now, writeOk) == Upload(w2, fileName, Some(sh), now, writeOk);
    AddItemsEffect(w2, sh, BookType(sh), fileName, now, writeOk);
  }

  /**
   * When the new file cannot be read after a confirmed replacement, the old
   * items are gone all the same and nothing is saved.
   */
  lemma ReplaceFileUnreadable(w: World, fileName: string, now: Now, writeOk: bool)
    requires !w.mem.app.session.readOnlyMode && FileLoaded(w.mem.app.goods.inventory, fileName)
    ensures var r := ProcessFile(w, fileName, Confirmed, None, now, writeOk);
      r.mem.app.goods.inventory == OtherFiles(w.mem.app.goods.inventory, fileName) && r.stored == w.stored
  {
  }

  /** Nothing changes while read-only, nor when the replacement is declined. */
  lemma ProcessFileRefused(w: World, fileName: string, sheet: Option<Sheet>, now: Now, writeOk: bool)
    requires w.mem.app.session.readOnlyMode || FileLoaded(w.mem.app.goods.inventory, fileName)
    ensures ProcessFile(w, fileName, Cancelled, sheet, now, writeOk) == w
  {
  }

  /** `processFile(file)`; `replace` answers the duplicate-file dialog and `sheet` is what the reader produced. */
  method ProcessSheetFile(s: Session, store: SnapshotStore, fileName: string, replace: Choice, sheet: Option<Sheet>,
                          now: Now, writeOk: bool)
    modifies s, store
    ensures WorldOf(s, store) == ProcessFile(old(WorldOf(s, store)), fileName, replace, sheet, now, writeOk)
  {
    if s.app.session.readOnlyMode {
      return;
    }
    ghost var w0 := WorldOf(s, store);
    if FileLoaded(s.app.goods.inventory, fileName) {
      if replace == Cancelled {
        return;
      }
      var count := |FromFile(s.app.goods.inventory, fileName)|;
      LogActivity(s, now, "Archivo reemplazado", ReplacedDetails(fileName, count));
      s.app := WithoutFile(s.app, fileName);
      assert WorldOf(s, store) == OldFileRemoved(w0, fileName, now);
    }
    ghost var w1 := WorldOf(s, store);
    assert ProcessFile(w0, fileName, replace, sheet, now, writeOk) == Upload(w1, fileName, sheet, now, writeOk);
    if sheet.Some? {
      AddItemsFromSheet(s, store, sheet.value, BookType(sheet.value), fileName, now, writeOk);
    }
  }

  // ---------------------------------------------------------------------
  // exportSession and importSessionZip

  /** A file of an archive: its full path, whether it is a directory entry, and its bytes. */
  datatype ZipFile = ZipFile(path: string, dir: bool, data: Blob)

  /** The `session.json` of an archive: a parsed document or text that does not parse. */
  datatype SessionJson = Parsed(doc: Document) | Malformed

  /** A session archive: its `session.json`, if any, and its files in archive order. */
  datatype Archive = Archive(session: Option<SessionJson>, files: seq<ZipFile>)

  /** The document of an export: the state, switched to read-only for a final export. */
  function ExportDocument(app: State, isFinal: bool): Document
  {
    ToDocument(if isFinal then ReadOnly(app) else app)
  }

  /** The files of one folder of an export, one per stored entry, in the order the store lists them. */
  function FolderFiles(folder: string, entries: seq<(string, Blob)>): (r: seq<ZipFile>)
    ensures |r| == |entries|
    ensures forall i :: 0 <= i < |r| ==> r[i] == ZipFile(folder + "/" + entries[i].0, false, entries[i].1)
  {
    seq(|entries|, i requires 0 <= i < |entries| => ZipFile(folder + "/" + entries[i].0, false, entries[i].1))
  }

  /** The archive `exportSession` builds from the state and the entries of the two blob stores. */
  function ExportArchive(app: State, isFinal: bool, photos: seq<(string, Blob)>, images: seq<(string, Blob)>): Archive
  {
    Archive(Some(Parsed(ExportDocument(app, isFinal))), FolderFiles("photos", photos) + FolderFiles("layoutImages", images))
  }

  /** The export type written in the log. */
  function ExportType(isFinal: bool): string
  {
    if isFinal then "FINALIZADO" else "backup-editable"
  }

  /**
   * Loading an exported document restores the state, whatever was loaded
   * before, and read-only exactly when the export was final; the serial
   * cache is never part of it.
   */
  lemma ExportRoundTrip(current: State, app: State, isFinal: bool)
    ensures Merge(current, ExportDocument(app, isFinal)) == if isFinal then ReadOnly(app) else app
    ensures Merge(current, ExportDocument(app, isFinal)).session.readOnlyMode <==> isFinal || app.session.readOnlyMode
  {
    MergeSaved(current, if isFinal then ReadOnly(app) else app);
  }

  /**
   * `exportSession(isFinal)`: the archive is built from a copy, so the state
   * changes only by the log entry; `photos` and `images` are the entries
   * the blob stores list. `generated` is whether compressing and
   * downloading the archive succeeded: when it fails, nothing is written and
   * nothing is logged.
   */
  method ExportSession(s: Session, now: Now, isFinal: bool, photos: seq<(string, Blob)>, images: seq<(string, Blob)>,
                       generated: bool)
    returns (archive: Option<Archive>)
    modifies s`app
    ensures archive == if generated then Some(ExportArchive(old(s.app), isFinal, photos, images)) else None
    ensures s.app == if generated then Log(old(s.app), now, "Sesión exportada", "Tipo: " + ExportType(isFinal)) else old(s.app)
  {
    if !generated {
      return None;
    }
    var copy := if isFinal then ReadOnly(s.app) else s.app;
    var files := FolderFiles("photos", photos) + FolderFiles("layoutImages", images);
    archive := Some(Archive(Some(Parsed(ToDocument(copy))), files));
    LogActivity(s, now, "Sesión exportada", "Tipo: " + ExportType(isFinal));
  }

  /** The file is inside the folder and is not a directory entry. */
  predicate InFolder(f: ZipFile, folder: string)
  {
    !f.dir && |f.path| > |folder| + 1 && StartsWith(f.path, folder + "/")
  }

  /** `name.split('/').pop()`: the text after the last slash. */
  function LastSegment(path: string): (r: string)
    ensures |r| <= |path| && r == path[|path| - |r|..]
    ensures forall i :: 0 <= i < |r| ==> r[i] != '/'
  {
    if path == [] then []
    else if path[|path| - 1] == '/' then []
    else LastSegment(path[..|path| - 1]) + [path[|path| - 1]]
  }

  /** The blob key the import code derives from a file's path, as written: its last segment. */
  function ImportKeyAsWritten(path: string): string
  {
    LastSegment(path)
  }

  /** A key without slashes comes back unchanged through the key derivation as written. */
  lemma {:induction false} LastSegmentOfPlainKey(prefix: string, key: string)
    requires forall i :: 0 <= i < |key| ==> key[i] != '/'
    ensures LastSegment(prefix + "/" + key) == key
  {
    if key != [] {
      var p := prefix + "/" + key;
      assert p[..|p| - 1] == prefix + "/" + key[..|key| - 1];
      LastSegmentOfPlainKey(prefix, key[..|key| - 1]);
    } else {
      assert (prefix + "/" + key)[|prefix + "/" + key| - 1] == '/';
    }
  }

  /**
   * A location photo is stored under `location-<location> <NN>` and the
   * location is free text. With a slash in it, say `location-Edificio A/Sala 01`,
   * the restored key is only the part after the last slash (`Sala 01`), so
   * the photo no longer belongs to its location.
   */
  lemma ImportKeyLosesFolders(location: string, key: string)
    requires forall i :: 0 <= i < |key| ==> key[i] != '/'
    ensures ImportKeyAsWritten("photos/" + (location + "/" + key)) == key
    ensures ImportKeyAsWritten("photos/" + (location + "/" + key)) != location + "/" + key
  {
    LastSegmentOfPlainKey("photos/" + location, key);
    assert "photos/" + (location + "/" + key) == "photos/" + location + "/" + key;
  }

  /** The blob key of a file inside `folder`: its path relative to the folder. */
  function ImportKey(path: string, folder: string): string
    requires |path| > |folder|
  {
    path[|folder| + 1..]
  }

  /** Every key, slashes included, comes back unchanged. */
  lemma ImportKeyRoundTrip(folder: string, key: string)
    ensures ImportKey(folder + "/" + key, folder) == key
  {
  }

  /**
   * The blob store after the import loop over the files of `folder`, in
   * archive order, each written under the last segment of its path, as the
   * code derives the key.
   */
  function Imported(m: map<string, Blob>, files: seq<ZipFile>, folder: string): map<string, Blob>
  {
    if files == [] then m
    else
      var f := files[|files| - 1];
      var m1 := Imported(m, files[..|files| - 1], folder);
      if InFolder(f, folder) then m1[ImportKeyAsWritten(f.path) := f.data] else m1
  }

  /** The import loop as evidently intended: each file written under its path relative to the folder. */
  function ImportedIntended(m: map<string, Blob>, files: seq<ZipFile>, folder: string): map<string, Blob>
  {
    if files == [] then m
    else
      var f := files[|files| - 1];
      var m1 := ImportedIntended(m, files[..|files| - 1], folder);
      if InFolder(f, folder) then m1[ImportKey(f.path, folder) := f.data] else m1
  }

  /** A store with the entries written in order, later ones overwriting earlier ones. */
  function WithEntries(m: map<string, Blob>, entries: seq<(string, Blob)>): (r: map<string, Blob>)
    ensures r.Keys == m.Keys + KeysOf(entries)
    ensures entries != [] ==> r[entries[|entries| - 1].0] == entries[|entries| - 1].1
  {
    if entries == [] then m
    else WithEntries(m, entries[..|entries| - 1])[entries[|entries| - 1].0 := entries[|entries| - 1].1]
  }

  /** The keys of a list of entries. */
  function KeysOf(entries: seq<(string, Blob)>): (r: set<string>)
    ensures forall i :: 0 <= i < |entries| ==> entries[i].0 in r
    ensures forall k :: k in r ==> exists i :: 0 <= i < |entries| && entries[i].0 == k
  {
    if entries == [] then {}
    else
      var init := entries[..|entries| - 1];
      var r := KeysOf(init) + {entries[|entries| - 1].0};
      assert forall i :: 0 <= i < |init| ==> init[i] == entries[i];
      r
  }

  /**
   * With the evidently intended key, importing the files an export wrote for
   * `folder` writes exactly that folder's entries, in order.
   */
  lemma {:induction false} ImportExportedFolder(m: map<string, Blob>, folder: string, entries: seq<(string, Blob)>)
    requires NamedEntries(entries)
    ensures ImportedIntended(m, FolderFiles(folder, entries), folder) == WithEntries(m, entries)
  {
    if entries != [] {
      var n := |entries| - 1;
      var files := FolderFiles(folder, entries);
      assert files[..n] == FolderFiles(folder, entries[..n]);
      ImportExportedFolder(m, folder, entries[..n]);
      var f := files[n];
      assert f.path[..|folder| + 1] == folder + "/";
      assert InFolder(f, folder);
      ImportKeyRoundTrip(folder, entries[n].0);
      assert ImportedIntended(m, files, folder) == ImportedIntended(m, files[..n], folder)[entries[n].0 := entries[n].1];
    }
  }

  /** Every entry has a non-empty key. */
  predicate NamedEntries(entries: seq<(string, Blob)>)
  {
    forall i :: 0 <= i < |entries| ==> entries[i].0 != ""
  }

  /** Every entry has a non-empty key without a slash. */
  predicate PlainEntries(entries: seq<(string, Blob)>)
  {
    forall i :: 0 <= i < |entries| ==> entries[i].0 != "" && forall j :: 0 <= j < |entries[i].0| ==> entries[i].0[j] != '/'
  }

  /** The entries with each key cut down to its last segment, as the import code restores them. */
  function LastSegments(entries: seq<(string, Blob)>): (r: seq<(string, Blob)>)
    ensures |r| == |entries|
    ensures forall i :: 0 <= i < |entries| ==> r[i] == (LastSegment(entries[i].0), entries[i].1)
  {
    seq(|entries|, i requires 0 <= i < |entries| => (LastSegment(entries[i].0), entries[i].1))
  }

  /** Behind a slash, a non-empty key keeps only its own last segment. */
  lemma LastSegmentBehindSlash(prefix: string, key: string)
    requires key != ""
    ensures LastSegment(prefix + "/" + key) == LastSegment(key)
  {
    var q := prefix + "/";
    assert q[|q| - 1] == '/';
    LastSegmentAfterSlash(q, key);
  }

  /** `q` ends with a slash: the last segment of `q + key` lies inside the non-empty `key`. */
  lemma {:induction false} LastSegmentAfterSlash(q: string, key: string)
    requires |q| > 0 && q[|q| - 1] == '/' && key != ""
    ensures LastSegment(q + key) == LastSegment(key)
    decreases |key|
  {
    var n := |key| - 1;
    var front, c := key[..n], key[n];
    assert key == front + [c];
    assert q + key == (q + front) + [c];
    LastSegmentSnoc(q + front, c);
    LastSegmentSnoc(front, c);
    if c != '/' {
      if n == 0 {
        assert q + front == q;
        assert q == q[..|q| - 1] + ['/'];
        LastSegmentSnoc(q[..|q| - 1], '/');
      } else {
        LastSegmentAfterSlash(q, front);
      }
    }
  }

  /** One more character: a slash starts a new, empty segment; anything else extends the last one. */
  lemma LastSegmentSnoc(x: string, c: char)
    ensures LastSegment(x + [c]) == if c == '/' then [] else LastSegment(x) + [c]
  {
    var y := x + [c];
    assert y[..|y| - 1] == x && y[|y| - 1] == c;
  }

  /** A key without a slash is its own last segment. */
  lemma {:induction false} LastSegmentOfPlain(key: string)
    requires forall j :: 0 <= j < |key| ==> key[j] != '/'
    ensures LastSegment(key) == key
  {
    if key != [] {
      LastSegmentOfPlain(key[..|key| - 1]);
    }
  }

  /** Keys without slashes are their own last segments. */
  lemma PlainLastSegments(entries: seq<(string, Blob)>)
    requires PlainEntries(entries)
    ensures LastSegments(entries) == entries
  {
    forall i | 0 <= i < |entries|
      ensures LastSegments(entries)[i] == entries[i]
    {
      LastSegmentOfPlain(entries[i].0);
    }
  }

  /**
   * As written, importing the files an export wrote for `folder` writes each
   * entry, in order, under the last segment of its key.
   */
  lemma {:induction false} ImportAsWrittenFolder(m: map<string, Blob>, folder: string, entries: seq<(string, Blob)>)
    requires NamedEntries(entries)
    ensures Imported(m, FolderFiles(folder, entries), folder) == WithEntries(m, LastSegments(entries))
  {
    if entries != [] {
      var n := |entries| - 1;
      ImportedLastFile(m, folder, entries);
      ImportAsWrittenFolder(m, folder, entries[..n]);
      var ls := LastSegments(entries);
      assert ls[..n] == LastSegments(entries[..n]);
      assert ls[n] == (LastSegment(entries[n].0), entries[n].1);
    }
  }

  /** The last file an export wrote for `folder` is imported under the last segment of its key. */
  lemma ImportedLastFile(m: map<string, Blob>, folder: string, entries: seq<(string, Blob)>)
    requires entries != [] && entries[|entries| - 1].0 != ""
    ensures var n := |entries| - 1;
      Imported(m, FolderFiles(folder, entries), folder)
        == Imported(m, FolderFiles(folder, entries[..n]), folder)[LastSegment(entries[n].0) := entries[n].1]
  {
    var n := |entries| - 1;
    var files := FolderFiles(folder, entries);
    assert files[..n] == FolderFiles(folder, entries[..n]);
    var f := files[n];
    assert f.path == folder + "/" + entries[n].0;
    assert f.path[..|folder| + 1] == folder + "/";
    assert InFolder(f, folder);
    LastSegmentBehindSlash(folder, entries[n].0);
  }

  /** Files of another folder are skipped. */
  lemma {:induction false} ImportSkipsOtherFolder(m: map<string, Blob>, folder: string, other: string,
                                                  entries: seq<(string, Blob)>)
    requires !StartsWith(other + "/", folder + "/") && !StartsWith(folder + "/", other + "/")
    ensures Imported(m, FolderFiles(other, entries), folder) == m
    ensures ImportedIntended(m, FolderFiles(other, entries), folder) == m
  {
    if entries != [] {
      var n := |entries| - 1;
      assert FolderFiles(other, entries)[..n] == FolderFiles(other, entries[..n]);
      ImportSkipsOtherFolder(m, folder, other, entries[..n]);
    }
  }

  /** Importing splits at the last file: the files before it, then it. */
  lemma ImportedAppend(m: map<string, Blob>, files: seq<ZipFile>, more: seq<ZipFile>, folder: string)
    ensures Imported(m, files + more, folder) == Imported(Imported(m, files, folder), more, folder)
    ensures ImportedIntended(m, files + more, folder) == ImportedIntended(ImportedIntended(m, files, folder), more, folder)
    decreases |more|
  {
    if more != [] {
      assert (files + more)[..|files + more| - 1] == files + more[..|more| - 1];
      ImportedAppend(m, files, more[..|more| - 1], folder);
    } else {
      assert files + more == files;
    }
  }

  /**
   * Restoring an export, as written, writes back every photo and layout
   * image entry it packed under the last segment of its key; keys without
   * slashes come back unchanged.
   */
  lemma ExportImportBlobs(app: State, isFinal: bool, photos: seq<(string, Blob)>, images: seq<(string, Blob)>,
                          m: map<string, Blob>, n: map<string, Blob>)
    requires NamedEntries(photos) && NamedEntries(images)
    ensures var files := ExportArchive(app, isFinal, photos, images).files;
      Imported(m, files, "photos") == WithEntries(m, LastSegments(photos))
      && Imported(n, files, "layoutImages") == WithEntries(n, LastSegments(images))
    ensures var files := ExportArchive(app, isFinal, photos, images).files;
      PlainEntries(photos) && PlainEntries(images) ==>
        Imported(m, files, "photos") == WithEntries(m, photos) && Imported(n, files, "layoutImages") == WithEntries(n, images)
  {
    var p := FolderFiles("photos", photos);
    var q := FolderFiles("layoutImages", images);
    assert !StartsWith("layoutImages" + "/", "photos" + "/") && !StartsWith("photos" + "/", "layoutImages" + "/") by {
      assert ("layoutImages" + "/")[0] != ("photos" + "/")[0];
    }
    ImportedAppend(m, p, q, "photos");
    ImportAsWrittenFolder(m, "photos", photos);
    ImportSkipsOtherFolder(WithEntries(m, LastSegments(photos)), "photos", "layoutImages", images);
    ImportedAppend(n, p, q, "layoutImages");
    ImportSkipsOtherFolder(n, "layoutImages", "photos", photos);
    ImportAsWrittenFolder(n, "layoutImages", images);
    if PlainEntries(photos) && PlainEntries(images) {
      PlainLastSegments(photos);
      PlainLastSegments(images);
    }
  }

  /** With the evidently intended key, restoring an export writes back every entry it packed, slashes included. */
  lemma ExportImportBlobsIntended(app: State, isFinal: bool, photos: seq<(string, Blob)>, images: seq<(string, Blob)>,
                                  m: map<string, Blob>, n: map<string, Blob>)
    requires NamedEntries(photos) && NamedEntries(images)
    ensures var files := ExportArchive(app, isFinal, photos, images).files;
      ImportedIntended(m, files, "photos") == WithEntries(m, photos)
      && ImportedIntended(n, files, "layoutImages") == WithEntries(n, images)
  {
    var p := FolderFiles("photos", photos);
    var q := FolderFiles("layoutImages", images);
    assert !StartsWith("layoutImages" + "/", "photos" + "/") && !StartsWith("photos" + "/", "layoutImages" + "/") by {
      assert ("layoutImages" + "/")[0] != ("photos" + "/")[0];
    }
    ImportedAppend(m, p, q, "photos");
    ImportExportedFolder(m, "photos", photos);
    ImportSkipsOtherFolder(WithEntries(m, photos), "photos", "layoutImages", images);
    ImportedAppend(n, p, q, "layoutImages");
    ImportSkipsOtherFolder(n, "layoutImages", "photos", photos);
    ImportExportedFolder(n, "layoutImages", images);
  }

  /** `file.name.endsWith('.zip')`. */
  predicate ZipName(fileName: string)
  {
    |fileName| >= 4 && fileName[|fileName| - 4..] == ".zip"
  }

  /** The outcome of an import: the world and the two blob stores. */
  datatype Restored = Restored(world: World, photos: map<string, Blob>, layoutImages: map<string, Blob>)

  /**
   * `importSessionZip`: a name without `.zip` is refused; otherwise the
   * attempt is logged; an archive that cannot be opened, lacks
   * `session.json` or holds text that does not parse changes nothing more;
   * otherwise the photos, then the layout images, then the state document
   * are written. `archive` is `None` when the zip cannot be opened.
   */
  function ImportSession(w: World, photos: map<string, Blob>, images: map<string, Blob>, fileName: string,
                         archive: Option<Archive>, now: Now, writeOk: bool): Restored
  {
    if !ZipName(fileName) then Restored(w, photos, images)
    else
      var w1 := LogW(w, now, "Importación de sesión", "Archivo: " + fileName);
      if archive.None? || archive.value.session.None? || archive.value.session.value.Malformed? then
        Restored(w1, photos, images)
      else
        var files := archive.value.files;
        var w2 := if writeOk then w1.(stored := Some(Written(archive.value.session.value.doc))) else w1;
        Restored(w2, Imported(photos, files, "photos"), Imported(images, files, "layoutImages"))
  }

  /**
   * A rejected import writes neither blobs nor the stored state; an
   * accepted one writes the blobs whether or not the final state write
   * succeeds, and the stored state is the archive's document exactly when it
   * does.
   */
  lemma ImportOrdering(w: World, photos: map<string, Blob>, images: map<string, Blob>, fileName: string,
                       archive: Option<Archive>, now: Now, writeOk: bool)
    ensures var r := ImportSession(w, photos, images, fileName, archive, now, writeOk);
      var accepted := ZipName(fileName) && archive.Some? && archive.value.session.Some? && archive.value.session.value.Parsed?;
      (!accepted ==> r.photos == photos && r.layoutImages == images && r.world.stored == w.stored)
      && (accepted ==>
            r.photos == Imported(photos, archive.value.files, "photos")
            && r.layoutImages == Imported(images, archive.value.files, "layoutImages")
            && r.world.stored == if writeOk then Some(Written(archive.value.session.value.doc)) else w.stored)
      && r.world.mem.app.goods == w.mem.app.goods && r.world.mem.app.areaBook == w.mem.app.areaBook
  {
  }

  /** The photo import loop: write each file of the photo folder under the last segment of its path, in archive order. */
  method ImportPhotoFiles(blobs: BlobStore, files: seq<ZipFile>)
    modifies blobs`photos
    ensures blobs.photos == Imported(old(blobs.photos), files, "photos")
  {
    ghost var m0 := blobs.photos;
    var i := 0;
    while i < |files|
      invariant 0 <= i <= |files|
      invariant blobs.photos == Imported(m0, files[..i], "photos")
    {
      assert files[..i + 1][..i] == files[..i];
      var f := files[i];
      if InFolder(f, "photos") {
        blobs.SetPhoto(ImportKeyAsWritten(f.path), f.data);
      }
      i := i + 1;
    }
    assert files[..i] == files;
  }

  /** The layout-image import loop: write each file of that folder under the last segment of its path, in archive order. */
  method ImportLayoutImageFiles(blobs: BlobStore, files: seq<ZipFile>)
    modifies blobs`layoutImages
    ensures blobs.layoutImages == Imported(old(blobs.layoutImages), files, "layoutImages")
  {
    ghost var m0 := blobs.layoutImages;
    var i := 0;
    while i < |files|
      invariant 0 <= i <= |files|
      invariant blobs.layoutImages == Imported(m0, files[..i], "layoutImages")
    {
      assert files[..i + 1][..i] == files[..i];
      var f := files[i];
      if InFolder(f, "layoutImages") {
        blobs.SetLayoutImage(ImportKeyAsWritten(f.path), f.data);
      }
      i := i + 1;
    }
    assert files[..i] == files;
  }

  /** `importSessionZip(file)`, up to the reload it schedules; `ImportThenReload` adds the reload. */
  method ImportSessionZip(s: Session, store: SnapshotStore, blobs: BlobStore, fileName: string, archive: Option<Archive>,
                          now: Now, writeOk: bool)
    modifies s`app, store, blobs
    ensures ImportSession(old(WorldOf(s, store)), old(blobs.photos), old(blobs.layoutImages), fileName, archive, now, writeOk)
      == Restored(WorldOf(s, store), blobs.photos, blobs.layoutImages)
  {
    if !ZipName(fileName) {
      return;
    }
    LogActivity(s, now, "Importación de sesión", "Archivo: " + fileName);
    if archive.None? || archive.value.session.None? || archive.value.session.value.Malformed? {
      return;
    }
    ImportPhotoFiles(blobs, archive.value.files);
    ImportLayoutImageFiles(blobs, archive.value.files);
    if writeOk {
      store.entry := Some(Written(archive.value.session.value.doc));
    }
  }

  /** The import went through: a `.zip` name, an archive that opens, a parsable `session.json`, and a stored state. */
  predicate ImportCompleted(fileName: string, archive: Option<Archive>, writeOk: bool)
  {
    ZipName(fileName) && archive.Some? && archive.value.session.Some? && archive.value.session.value.Parsed? && writeOk
  }

  /**
   * `importSessionZip` and the reload it schedules once the import went
   * through, as written: the reload fires the `beforeunload` listener, whose
   * save (outcome `unloadOk`) writes the memory, which still holds the
   * session from before the import.
   */
  function ImportThenReload(w: World, photos: map<string, Blob>, images: map<string, Blob>, fileName: string,
                            archive: Option<Archive>, now: Now, writeOk: bool, unloadOk: bool): Restored
  {
    var r := ImportSession(w, photos, images, fileName, archive, now, writeOk);
    if ImportCompleted(fileName, archive, writeOk) then r.(world := BeforeUnload(r.world, unloadOk)) else r
  }

  /**
   * As written, a logged-in, writable session loses the imported state on
   * the reload: what is stored is the document of the memory before the
   * import, with only the import's log entry added.
   */
  lemma ImportUndoneOnReload(w: World, photos: map<string, Blob>, images: map<string, Blob>, fileName: string,
                             archive: Option<Archive>, now: Now, writeOk: bool)
    requires ImportCompleted(fileName, archive, writeOk)
    requires w.mem.app.session.loggedIn && !w.mem.app.session.readOnlyMode
    ensures var r := ImportThenReload(w, photos, images, fileName, archive, now, writeOk, true);
      var before := Log(w.mem.app, now, "Importación de sesión", "Archivo: " + fileName);
      r.world.stored == Some(Written(ToDocument(before)))
      && (ToDocument(before) != archive.value.session.value.doc ==>
            r.world.stored != Some(Written(archive.value.session.value.doc)))
  {
    var r := ImportSession(w, photos, images, fileName, archive, now, writeOk);
    assert r.world.mem.app == Log(w.mem.app, now, "Importación de sesión", "Archivo: " + fileName);
  }

  /**
   * The reload as evidently intended: the unload listener does not save
   * over a session that was just imported (the reload that follows an
   * import skips the last save).
   */
  function ImportThenReloadIntended(w: World, photos: map<string, Blob>, images: map<string, Blob>, fileName: string,
                                    archive: Option<Archive>, now: Now, writeOk: bool): Restored
  {
    ImportSession(w, photos, images, fileName, archive, now, writeOk)
  }

  /**
   * With the intended reload, a completed import leaves the archive's
   * document stored for the next load, and the next load merges it into
   * the state.
   */
  lemma ImportSurvivesReload(w: World, photos: map<string, Blob>, images: map<string, Blob>, fileName: string,
                             archive: Option<Archive>, now: Now, writeOk: bool)
    requires ImportCompleted(fileName, archive, writeOk)
    ensures var r := ImportThenReloadIntended(w, photos, images, fileName, archive, now, writeOk);
      var doc := archive.value.session.value.doc;
      r.world.stored == Some(Written(doc))
      && Load(r.world).1 && Load(r.world).0.mem.app == Merge(r.world.mem.app, doc)
  {
  }
}

=== FILE: inventory_ui.dfy ===
/**
 * The inventory tab: the filter over the items, the paged table with its
 * current page, and the three item actions (locate, mark for relabelling,
 * unlocate) applied to the selected keys, with the reassignment of items
 * already held by another custodian left for confirmation.
 */
module InventoryUi {
  import opened Wrappers
  import opened JsText
  import opened Seqs
  import opened Entities
  import opened AppState
  import opened Logger
  import opened MainHandlers

  /** Rows shown per page of the inventory table. */
  const ItemsPerPage: nat := 50

  // ---------------------------------------------------------------------
  // The filter of `filterAndRenderInventory`

  /** The values of the search box and the three selects. */
  datatype Filters = Filters(search: string, status: string, area: string, bookType: string)

  /** The inputs as `clearInventorySearch` leaves them. */
  function ClearedFilters(): Filters
  {
    Filters("", "all", "all", "all")
  }

  /** The trimmed, lower-cased search term. */
  function SearchTerm(f: Filters): string
  {
    ToLower(Trim(f.search))
  }

  /** The term occurs, ignoring case, in the key, description, brand, model or serial of the item. */
  predicate TextMatches(it: InventoryItem, term: string)
  {
    Contains(ToLower(it.clave), term) || Contains(ToLower(it.descripcion), term) || Contains(ToLower(it.marca), term)
    || Contains(ToLower(it.modelo), term) || Contains(ToLower(it.serie), term)
  }

  /** The filter predicate: the search term and each select either match or are switched off. */
  predicate ItemMatches(it: InventoryItem, f: Filters)
  {
    (SearchTerm(f) == "" || TextMatches(it, SearchTerm(f)))
    && (f.status == "all" || it.ubicado == f.status)
    && (f.area == "all" || it.areaOriginal == f.area)
    && (f.bookType == "all" || it.listadoOriginal == f.bookType)
  }

  /** `state.inventory.filter(...)`: the matching items, in inventory order. */
  function FilteredItems(inv: seq<InventoryItem>, f: Filters): (r: seq<InventoryItem>)
    ensures forall it :: it in r <==> it in inv && ItemMatches(it, f)
    ensures multiset(r) <= multiset(inv)
  {
    Filter(inv, (it: InventoryItem) => ItemMatches(it, f))
  }

  /** With the search cleared and every select on `all`, the filter keeps the whole inventory, in order. */
  lemma ClearedFiltersKeepAll(inv: seq<InventoryItem>)
    ensures FilteredItems(inv, ClearedFilters()) == inv
  {
    assert SearchTerm(ClearedFilters()) == "";
    FilterAllTrue(inv, (it: InventoryItem) => ItemMatches(it, ClearedFilters()));
  }

  /** The key whose details open by themselves: the only result, when its key is exactly the term. */
  function DetailTarget(filtered: seq<InventoryItem>, term: string): (r: Option<string>)
    ensures r.Some? <==> term != "" && |filtered| == 1 && ToLower(filtered[0].clave) == term
    ensures r.Some? ==> r.value == filtered[0].clave
  {
    if term != "" && |filtered| == 1 && ToLower(filtered[0].clave) == term then Some(filtered[0].clave) else None
  }

  /** An additional good matches when one of its non-empty text fields contains the term. */
  predicate AdditionalMatches(a: AdditionalItem, term: string)
  {
    (a.clave != "" && Contains(ToLower(a.clave), term)) || (a.descripcion != "" && Contains(ToLower(a.descripcion), term))
    || (a.marca != "" && Contains(ToLower(a.marca), term)) || (a.modelo != "" && Contains(ToLower(a.modelo), term))
    || (a.serie != "" && Contains(ToLower(a.serie), term))
    || (a.claveAsignada != "" && Contains(ToLower(a.claveAsignada), term))
  }

  /** The additional goods listed under the table: none without a term, the matching ones otherwise. */
  function AdditionalSearch(add: seq<AdditionalItem>, term: string): (r: seq<AdditionalItem>)
    ensures term == "" ==> r == []
    ensures term != "" ==> forall a :: a in r <==> a in add && AdditionalMatches(a, term)
  {
    if term == "" then [] else Filter(add, (a: AdditionalItem) => AdditionalMatches(a, term))
  }

  // ---------------------------------------------------------------------
  // Pages of `renderInventoryTable`

  /** `Math.ceil(n / itemsPerPage) || 1`. */
  function TotalPages(n: nat): (t: nat)
    ensures t >= 1
    ensures n == 0 ==> t == 1
    ensures n > 0 ==> (t - 1) * ItemsPerPage < n <= t * ItemsPerPage
  {
    if n == 0 then 1 else (n + ItemsPerPage - 1) / ItemsPerPage
  }

  /** The page after `renderInventoryTable` pulls a page past the end back to the last one. */
  function ClampPage(page: int, n: nat): int
  {
    if page > TotalPages(n) then TotalPages(n) else page
  }

  /** What the table shows: the rows of the page, `Página p de t`, and which buttons are disabled. */
  datatype PageView = PageView(rows: seq<InventoryItem>, page: int, totalPages: nat, prevDisabled: bool, nextDisabled: bool)

  /** The view of page `page` of `items`. */
  function PageOf(items: seq<InventoryItem>, page: int): PageView
  {
    var total := TotalPages(|items|);
    var start := (page - 1) * ItemsPerPage;
    PageView(JsSlice(items, start, start + ItemsPerPage), page, total, page == 1, page >= total)
  }

  /**
   * A page in range shows the items from `(page - 1) * 50` on, at most 50 of
   * them and at least one unless there are no items; the buttons are
   * disabled exactly at the ends.
   */
  lemma PageContents(items: seq<InventoryItem>, page: int)
    requires 1 <= page <= TotalPages(|items|)
    ensures var v := PageOf(items, page);
      var start := (page - 1) * ItemsPerPage;
      start <= |items|
      && v.rows == items[start..if start + ItemsPerPage <= |items| then start + ItemsPerPage else |items|]
      && |v.rows| <= ItemsPerPage
      && (|items| > 0 ==> |v.rows| >= 1)
      && (v.prevDisabled <==> page == 1)
      && (v.nextDisabled <==> page == TotalPages(|items|))
  {
    var start := (page - 1) * ItemsPerPage;
    if |items| > 0 {
      assert start < |items| by {
        assert (page - 1) * ItemsPerPage <= (TotalPages(|items|) - 1) * ItemsPerPage;
      }
    }
  }

  /** Every filtered item is on page `i / 50 + 1`, which exists. */
  lemma EveryItemOnItsPage(items: seq<InventoryItem>, i: nat)
    requires i < |items|
    ensures 1 <= i / ItemsPerPage + 1 <= TotalPages(|items|)
    ensures items[i] in PageOf(items, i / ItemsPerPage + 1).rows
  {
    var p := i / ItemsPerPage + 1;
    var t := TotalPages(|items|);
    PageContents(items, p);
    var start := (p - 1) * ItemsPerPage;
    assert start <= i < start + ItemsPerPage;
    var rows := PageOf(items, p).rows;
    assert rows[i - start] == items[i];
  }

  /** The page buttons. */
  datatype Direction = Prev | Next

  /** The page `changeInventoryPage` moves to, before the render clamps it. */
  function Moved(page: int, d: Direction, total: nat): int
  {
    match d
    case Prev => if page > 1 then page - 1 else page
    case Next => if page < total then page + 1 else page
  }

  /** From a page in range, a move stays in range and changes the page by at most one. */
  lemma MovedStaysInRange(page: int, d: Direction, n: nat)
    requires 1 <= page <= TotalPages(n)
    ensures var p := ClampPage(Moved(page, d, TotalPages(n)), n);
      1 <= p <= TotalPages(n) && -1 <= p - page <= 1
      && (d == Prev ==> (p == page - 1 <==> page > 1))
      && (d == Next ==> (p == page + 1 <==> page < TotalPages(n)))
  {
  }

  /** The module-level `currentPage` and `filteredItems` of the inventory tab. */
  class InventoryView {
    var currentPage: int
    var filteredItems: seq<InventoryItem>

    /** The current page is one of the pages of the filtered items. */
    ghost predicate Valid()
      reads this
    {
      1 <= currentPage <= TotalPages(|filteredItems|)
    }

    constructor ()
      ensures currentPage == 1 && filteredItems == [] && Valid()
    {
      currentPage := 1;
      filteredItems := [];
    }

    /** `renderInventoryTable`: pull the page back into range, then show it. */
    method Render() returns (v: PageView)
      modifies this`currentPage
      ensures currentPage == ClampPage(old(currentPage), |filteredItems|)
      ensures v == PageOf(filteredItems, currentPage)
      ensures old(currentPage) >= 1 ==> Valid()
    {
      var totalPages := TotalPages(|filteredItems|);
      if currentPage > totalPages {
        currentPage := totalPages;
      }
      var start := (currentPage - 1) * ItemsPerPage;
      v := PageView(JsSlice(filteredItems, start, start + ItemsPerPage), currentPage, totalPages,
                    currentPage == 1, currentPage >= totalPages);
    }

    /** `filterAndRenderInventory`: filter, render, and report the key whose details open by themselves. */
    method FilterAndRender(inv: seq<InventoryItem>, f: Filters) returns (v: PageView, detail: Option<string>)
      modifies this
      ensures filteredItems == FilteredItems(inv, f)
      ensures currentPage == ClampPage(old(currentPage), |filteredItems|)
      ensures v == PageOf(filteredItems, currentPage)
      ensures detail == DetailTarget(filteredItems, SearchTerm(f))
      ensures old(currentPage) >= 1 ==> Valid()
    {
      filteredItems := FilteredItems(inv, f);
      v := Render();
      detail := DetailTarget(filteredItems, SearchTerm(f));
    }

    /** `changeInventoryPage`. */
    method ChangePage(d: Direction) returns (v: PageView)
      modifies this`currentPage
      ensures currentPage == ClampPage(Moved(old(currentPage), d, TotalPages(|filteredItems|)), |filteredItems|)
      ensures v == PageOf(filteredItems, currentPage)
      ensures old(Valid()) ==> Valid() && -1 <= currentPage - old(currentPage) <= 1
    {
      var totalPages := TotalPages(|filteredItems|);
      if d == Prev && currentPage > 1 {
        currentPage := currentPage - 1;
      } else if d == Next && currentPage < totalPages {
        currentPage := currentPage + 1;
      }
      v := Render();
    }

    /** `clearInventorySearch`: reset the inputs and go back to page one of the whole inventory. */
    method ClearSearch(inv: seq<InventoryItem>) returns (f: Filters, v: PageView)
      modifies this
      ensures f == ClearedFilters()
      ensures filteredItems == inv && currentPage == 1 && Valid()
      ensures v == PageOf(inv, 1)
    {
      f := ClearedFilters();
      currentPage := 1;
      ClearedFiltersKeepAll(inv);
      var detail;
      v, detail := FilterAndRender(inv, f);
    }

    /** `setInventoryPage`. */
    method SetPage(page: int)
      modifies this`currentPage
      ensures currentPage == page
    {
      currentPage := page;
    }
  }

  // ---------------------------------------------------------------------
  // `assignItem` and `handleInventoryActions`

  /** The three action buttons. */
  datatype ItemAction = Locate | Relabel | Unlocate

  /** `state.inventory.find(i => i['CLAVE UNICA'] === clave)`, as an index. */
  function ClaveIndex(inv: seq<InventoryItem>, clave: string): (k: int)
    ensures -1 <= k < |inv|
    ensures k >= 0 ==> inv[k].clave == clave && forall j :: 0 <= j < k ==> inv[j].clave != clave
    ensures k == -1 <==> forall j :: 0 <= j < |inv| ==> inv[j].clave != clave
  {
    FindIndex(inv, (it: InventoryItem) => it.clave == clave)
  }

  /** Two inventories with the same keys at the same places find the same index for a key. */
  lemma SameClavesSameIndex(a: seq<InventoryItem>, b: seq<InventoryItem>, clave: string)
    requires |a| == |b| && forall i :: 0 <= i < |a| ==> a[i].clave == b[i].clave
    ensures ClaveIndex(a, clave) == ClaveIndex(b, clave)
  {
  }

  /** The item at `i` is the first carrying one of the selected keys. */
  predicate Selected(inv: seq<InventoryItem>, claves: seq<string>, i: int)
  {
    exists j | 0 <= j < |claves| :: ClaveIndex(inv, claves[j]) == i
  }

  /** Located to a different, non-empty user, so reassigning it needs confirmation. */
  predicate AssignedToOther(it: InventoryItem, user: Custodian)
  {
    it.ubicado == Yes && it.usuario != "" && it.usuario != user.name
  }

  /** `assignItem`'s writes: located, held by `user`, dated, and flagged when the areas differ. */
  function Assigned(it: InventoryItem, user: Custodian, iso: string): InventoryItem
  {
    it.(ubicado := Yes, usuario := user.name, fechaUbicado := Some(iso), areaIncorrecta := it.areaOriginal != user.area)
  }

  /** The item after `processItem`: assigned, then marked for relabelling or with that mark cleared. */
  function Placed(it: InventoryItem, user: Custodian, iso: string, action: ItemAction): InventoryItem
  {
    var a := Assigned(it, user, iso);
    match action
    case Relabel => a.(imprimir := Yes)
    case Locate => if a.imprimir == Yes then a.(imprimir := No) else a
    case Unlocate => a
  }

  /**
   * A placed item is located, held by the custodian, dated, flagged exactly
   * when its area differs from the custodian's, and marked or unmarked for
   * relabelling as the action says; no other field changes.
   */
  lemma PlacedFields(it: InventoryItem, user: Custodian, iso: string, action: ItemAction)
    ensures var r := Placed(it, user, iso, action);
      r.Located() && r.usuario == user.name && r.fechaUbicado == Some(iso)
      && (r.areaIncorrecta <==> it.areaOriginal != user.area)
      && (action == Relabel ==> r.imprimir == Yes)
      && (action == Locate ==> r.imprimir == if it.imprimir == Yes then No else it.imprimir)
      && r.(ubicado := it.ubicado, usuario := it.usuario, fechaUbicado := it.fechaUbicado,
            areaIncorrecta := it.areaIncorrecta, imprimir := it.imprimir) == it
  {
  }

  /** The writes of the unlocate action. */
  function Unlocated(it: InventoryItem): InventoryItem
  {
    it.(ubicado := No, usuario := "", imprimir := No, fechaUbicado := None, areaIncorrecta := false)
  }

  /** An unlocated item is free, unmarked and undated; no other field changes. */
  lemma UnlocatedFields(it: InventoryItem)
    ensures var r := Unlocated(it);
      !r.Located() && r.usuario == "" && r.imprimir == No && r.fechaUbicado.None? && !r.areaIncorrecta
      && r.(ubicado := it.ubicado, usuario := it.usuario, imprimir := it.imprimir, fechaUbicado := it.fechaUbicado,
            areaIncorrecta := it.areaIncorrecta) == it
  {
  }

  /** The state with the item at `k` replaced. */
  function WithItem(app: State, k: nat, it: InventoryItem): State
    requires k < |app.goods.inventory|
  {
    app.(goods := app.goods.(inventory := app.goods.inventory[k := it]))
  }

  /**
   * `processItem` on the item at `k`: assign it (and check its area and the
   * inventory for completion), then set or clear the relabel mark and log.
   */
  function ProcessItem(w: World, k: nat, user: Custodian, action: ItemAction, now: Now, writeOk: bool): World
    requires k < |w.mem.app.goods.inventory|
  {
    var it := w.mem.app.goods.inventory[k];
    var a := Assigned(it, user, now.isoStamp);
    var w1 := SetApp(w, WithItem(w.mem.app, k, a));
    var w2 := InventoryCheck(AreaCheck(w1, now, it.areaOriginal, writeOk), now, writeOk);
    AreaCheckSyncs(w1, now, it.areaOriginal, writeOk);
    InventoryCheckOneShot(AreaCheck(w1, now, it.areaOriginal, writeOk), now, now, writeOk, writeOk);
    var detail := "Clave: " + it.clave + ", Usuario: " + user.name;
    match action
    case Relabel =>
      LogW(SetApp(w2, WithItem(w2.mem.app, k, a.(imprimir := Yes))), now, "Bien marcado para re-etiquetar", detail)
    case Locate =>
      if a.imprimir == Yes then
        LogW(SetApp(w2, WithItem(w2.mem.app, k, a.(imprimir := No))), now, "Marca de re-etiquetar quitada al ubicar", detail)
      else LogW(w2, now, "Bien ubicado", detail)
    case Unlocate => w2
  }

  /** Processing an item changes that item, as `Placed` says, and no other good. */
  lemma ProcessItemGoods(w: World, k: nat, user: Custodian, action: ItemAction, now: Now, writeOk: bool)
    requires k < |w.mem.app.goods.inventory|
    ensures var g := w.mem.app.goods;
      ProcessItem(w, k, user, action, now, writeOk).mem.app.goods
        == g.(inventory := g.inventory[k := Placed(g.inventory[k], user, now.isoStamp, action)])
  {
    var it := w.mem.app.goods.inventory[k];
    var w1 := SetApp(w, WithItem(w.mem.app, k, Assigned(it, user, now.isoStamp)));
    AreaCheckSyncs(w1, now, it.areaOriginal, writeOk);
    InventoryCheckOneShot(AreaCheck(w1, now, it.areaOriginal, writeOk), now, now, writeOk, writeOk);
  }

  /** One selected key of locate or relabel: skipped when absent, deferred when held by another custodian. */
  function LocateStep(w: World, clave: string, user: Custodian, action: ItemAction, now: Now, writeOk: bool): (World, bool)
  {
    var inv := w.mem.app.goods.inventory;
    var k := ClaveIndex(inv, clave);
    if k < 0 then (w, false)
    else if AssignedToOther(inv[k], user) then (w, true)
    else (ProcessItem(w, k, user, action, now, writeOk), false)
  }

  /** The `forEach` over the selected keys; also returns the keys left for confirmation, in order. */
  function LocateAll(w: World, claves: seq<string>, user: Custodian, action: ItemAction, now: Now, writeOk: bool)
    : (World, seq<string>)
  {
    if claves == [] then (w, [])
    else
      var (w1, deferred) := LocateAll(w, claves[..|claves| - 1], user, action, now, writeOk);
      var (w2, defers) := LocateStep(w1, claves[|claves| - 1], user, action, now, writeOk);
      (w2, if defers then deferred + [claves[|claves| - 1]] else deferred)
  }

  /** The selected key needs confirmation: its first item is held by another custodian. */
  predicate Defers(inv: seq<InventoryItem>, clave: string, user: Custodian)
  {
    var k := ClaveIndex(inv, clave);
    k >= 0 && AssignedToOther(inv[k], user)
  }

  /** The selected keys whose items are held by another custodian, in selection order. */
  function DeferredClaves(inv: seq<InventoryItem>, claves: seq<string>, user: Custodian): (r: seq<string>)
    ensures forall c :: c in r <==> c in claves && Defers(inv, c, user)
  {
    Filter(claves, DefersOf(inv, user))
  }

  /** `Defers` as the predicate handed to `Filter`. */
  function DefersOf(inv: seq<InventoryItem>, user: Custodian): string -> bool
  {
    (c: string) => Defers(inv, c, user)
  }

  /** The inventory after locate or relabel, item by item. */
  function PlacedInventory(inv: seq<InventoryItem>, claves: seq<string>, user: Custodian, iso: string, action: ItemAction)
    : (r: seq<InventoryItem>)
    ensures |r| == |inv|
    ensures forall i :: 0 <= i < |inv| ==>
      r[i] == if Selected(inv, claves, i) && !AssignedToOther(inv[i], user) then Placed(inv[i], user, iso, action) else inv[i]
  {
    seq(|inv|, i requires 0 <= i < |inv| =>
      if Selected(inv, claves, i) && !AssignedToOther(inv[i], user) then Placed(inv[i], user, iso, action) else inv[i])
  }

  /** The selection extended by one key selects the items selected before and that key's first item. */
  lemma SelectedSnoc(inv: seq<InventoryItem>, claves: seq<string>, c: string, i: int)
    ensures Selected(inv, claves + [c], i) <==> Selected(inv, claves, i) || ClaveIndex(inv, c) == i
  {
    var cs := claves + [c];
    if Selected(inv, cs, i) {
      var j :| 0 <= j < |cs| && ClaveIndex(inv, cs[j]) == i;
      if j < |claves| {
        assert claves[j] == cs[j];
      }
    }
    if Selected(inv, claves, i) {
      var j :| 0 <= j < |claves| && ClaveIndex(inv, claves[j]) == i;
      assert cs[j] == claves[j];
    }
    if ClaveIndex(inv, c) == i {
      assert cs[|claves|] == c;
    }
  }

  /** One key of locate or relabel: the first item with that key is placed unless another custodian holds it. */
  lemma LocateStepEffect(w: World, clave: string, user: Custodian, action: ItemAction, now: Now, writeOk: bool)
    ensures var g := w.mem.app.goods;
      var k := ClaveIndex(g.inventory, clave);
      var (r, defers) := LocateStep(w, clave, user, action, now, writeOk);
      defers == Defers(g.inventory, clave, user)
      && r.mem.app.goods == if k >= 0 && !AssignedToOther(g.inventory[k], user)
                            then g.(inventory := g.inventory[k := Placed(g.inventory[k], user, now.isoStamp, action)])
                            else g
  {
    var inv := w.mem.app.goods.inventory;
    var k := ClaveIndex(inv, clave);
    if k >= 0 && !AssignedToOther(inv[k], user) {
      ProcessItemGoods(w, k, user, action, now, writeOk);
    }
  }

  /** Placing for one more key, at one index. */
  lemma PlacedSnocAt(inv: seq<InventoryItem>, init: seq<string>, c: string, user: Custodian, iso: string,
                     action: ItemAction, i: nat)
    requires action != Unlocate && i < |inv|
    ensures PlacedInventory(inv, init + [c], user, iso, action)[i]
        == if i == ClaveIndex(inv, c) && !AssignedToOther(inv[i], user) then Placed(inv[i], user, iso, action)
           else PlacedInventory(inv, init, user, iso, action)[i]
  {
    SelectedSnoc(inv, init, c, i);
  }

  /** After placing, an item keeps its key, and placing it again gives what placing the original gives. */
  lemma PlacedInventoryAt(inv: seq<InventoryItem>, init: seq<string>, user: Custodian, iso: string,
                          action: ItemAction, i: nat)
    requires action != Unlocate && i < |inv|
    ensures var it := PlacedInventory(inv, init, user, iso, action)[i];
      it.clave == inv[i].clave
      && (AssignedToOther(it, user) <==> AssignedToOther(inv[i], user))
      && (!AssignedToOther(inv[i], user) ==> Placed(it, user, iso, action) == Placed(inv[i], user, iso, action))
  {
    PlacedTwice(inv[i], user, iso, action);
  }

  /** Placing for one more key: the first item with that key is placed as well, unless another custodian holds it. */
  lemma PlacedSnoc(inv: seq<InventoryItem>, init: seq<string>, c: string, user: Custodian, iso: string,
                   action: ItemAction)
    requires action != Unlocate
    ensures var inv1 := PlacedInventory(inv, init, user, iso, action);
      var k := ClaveIndex(inv, c);
      PlacedInventory(inv, init + [c], user, iso, action)
        == if k >= 0 && !AssignedToOther(inv[k], user) then inv1[k := Placed(inv[k], user, iso, action)] else inv1
  {
    var inv1 := PlacedInventory(inv, init, user, iso, action);
    var inv2 := PlacedInventory(inv, init + [c], user, iso, action);
    var k := ClaveIndex(inv, c);
    forall i | 0 <= i < |inv|
      ensures inv2[i] == if i == k && !AssignedToOther(inv[i], user) then Placed(inv[i], user, iso, action) else inv1[i]
    {
      PlacedSnocAt(inv, init, c, user, iso, action, i);
    }
    if k >= 0 && !AssignedToOther(inv[k], user) {
      assert inv2 == inv1[k := Placed(inv[k], user, iso, action)];
    } else {
      assert inv2 == inv1;
    }
  }

  /** Placing an item a second time for the same custodian changes nothing more. */
  lemma PlacedTwice(it: InventoryItem, user: Custodian, iso: string, action: ItemAction)
    requires action != Unlocate
    ensures !AssignedToOther(Placed(it, user, iso, action), user)
    ensures Placed(Placed(it, user, iso, action), user, iso, action) == Placed(it, user, iso, action)
  {
  }

  /** The keys left for confirmation by locate or relabel are those whose item another custodian holds. */
  lemma {:induction false} LocateAllDeferred(w: World, claves: seq<string>, user: Custodian, action: ItemAction,
                                             now: Now, writeOk: bool)
    requires action != Unlocate
    ensures LocateAll(w, claves, user, action, now, writeOk).1 == DeferredClaves(w.mem.app.goods.inventory, claves, user)
  {
    if claves != [] {
      var inv := w.mem.app.goods.inventory;
      var init := claves[..|claves| - 1];
      var c := claves[|claves| - 1];
      assert claves == init + [c];
      LocateAllDeferred(w, init, user, action, now, writeOk);
      LocateAllGoods(w, init, user, action, now, writeOk);
      var w1 := LocateAll(w, init, user, action, now, writeOk).0;
      LocateStepEffect(w1, c, user, action, now, writeOk);
      var inv1 := PlacedInventory(inv, init, user, now.isoStamp, action);
      forall i | 0 <= i < |inv|
        ensures inv1[i].clave == inv[i].clave
      {
        PlacedInventoryAt(inv, init, user, now.isoStamp, action, i);
      }
      SameClavesSameIndex(inv1, inv, c);
      var k := ClaveIndex(inv, c);
      if k >= 0 {
        PlacedInventoryAt(inv, init, user, now.isoStamp, action, k);
      }
      FilterSnoc(init, c, DefersOf(inv, user));
    }
  }

  /**
   * Locate or relabel changes exactly the first item of each selected key
   * that no other custodian holds, and no other good.
   */
  lemma {:induction false} LocateAllGoods(w: World, claves: seq<string>, user: Custodian, action: ItemAction,
                                          now: Now, writeOk: bool)
    requires action != Unlocate
    ensures var g := w.mem.app.goods;
      LocateAll(w, claves, user, action, now, writeOk).0.mem.app.goods
        == g.(inventory := PlacedInventory(g.inventory, claves, user, now.isoStamp, action))
  {
    var inv := w.mem.app.goods.inventory;
    if claves == [] {
      assert PlacedInventory(inv, claves, user, now.isoStamp, action) == inv;
    } else {
      var init := claves[..|claves| - 1];
      var c := claves[|claves| - 1];
      assert claves == init + [c];
      LocateAllGoods(w, init, user, action, now, writeOk);
      var w1 := LocateAll(w, init, user, action, now, writeOk).0;
      LocateStepEffect(w1, c, user, action, now, writeOk);
      var inv1 := PlacedInventory(inv, init, user, now.isoStamp, action);
      forall i | 0 <= i < |inv|
        ensures inv1[i].clave == inv[i].clave
      {
        PlacedInventoryAt(inv, init, user, now.isoStamp, action, i);
      }
      SameClavesSameIndex(inv1, inv, c);
      var k := ClaveIndex(inv, c);
      if k >= 0 {
        PlacedInventoryAt(inv, init, user, now.isoStamp, action, k);
      }
      PlacedSnoc(inv, init, c, user, now.isoStamp, action);
    }
  }

  /**
   * Locate or relabel changes exactly the first item of each selected key
   * that no other custodian holds, and no other good; the keys whose items
   * another custodian holds are returned, in order, untouched.
   */
  lemma LocateAllEffect(w: World, claves: seq<string>, user: Custodian, action: ItemAction, now: Now, writeOk: bool)
    requires action != Unlocate
    ensures var (r, deferred) := LocateAll(w, claves, user, action, now, writeOk);
      var g := w.mem.app.goods;
      r.mem.app.goods == g.(inventory := PlacedInventory(g.inventory, claves, user, now.isoStamp, action))
      && deferred == DeferredClaves(g.inventory, claves, user)
  {
    LocateAllGoods(w, claves, user, action, now, writeOk);
    LocateAllDeferred(w, claves, user, action, now, writeOk);
  }

  /** One selected key of unlocate: unlocate its first item, log, and recheck that item's area. */
  function UnlocateStep(w: World, clave: string, now: Now, writeOk: bool): World
  {
    var inv := w.mem.app.goods.inventory;
    var k := ClaveIndex(inv, clave);
    if k < 0 then w
    else
      AreaCheck(LogW(SetApp(w, WithItem(w.mem.app, k, Unlocated(inv[k]))), now, "Bien des-ubicado", "Clave: " + clave),
                now, inv[k].areaOriginal, writeOk)
  }

  /** The `forEach` of the confirmed unlocate. */
  function UnlocateAll(w: World, claves: seq<string>, now: Now, writeOk: bool): World
  {
    if claves == [] then w
    else UnlocateStep(UnlocateAll(w, claves[..|claves| - 1], now, writeOk), claves[|claves| - 1], now, writeOk)
  }

  /** The inventory after unlocate, item by item. */
  function UnlocatedInventory(inv: seq<InventoryItem>, claves: seq<string>): (r: seq<InventoryItem>)
    ensures |r| == |inv|
    ensures forall i :: 0 <= i < |inv| ==> r[i] == if Selected(inv, claves, i) then Unlocated(inv[i]) else inv[i]
  {
    seq(|inv|, i requires 0 <= i < |inv| => if Selected(inv, claves, i) then Unlocated(inv[i]) else inv[i])
  }

  /** One key of unlocate: the first item with that key is unlocated, and no other good changes. */
  lemma UnlocateStepEffect(w: World, clave: string, now: Now, writeOk: bool)
    ensures var g := w.mem.app.goods;
      var k := ClaveIndex(g.inventory, clave);
      UnlocateStep(w, clave, now, writeOk).mem.app.goods
        == if k >= 0 then g.(inventory := g.inventory[k := Unlocated(g.inventory[k])]) else g
  {
    var inv := w.mem.app.goods.inventory;
    var k := ClaveIndex(inv, clave);
    if k >= 0 {
      var w2 := LogW(SetApp(w, WithItem(w.mem.app, k, Unlocated(inv[k]))), now, "Bien des-ubicado", "Clave: " + clave);
      AreaCheckSyncs(w2, now, inv[k].areaOriginal, writeOk);
    }
  }

  /** Unlocating for one more key: the first item with that key is unlocated as well. */
  lemma UnlocatedSnoc(inv: seq<InventoryItem>, init: seq<string>, c: string)
    ensures var inv1 := UnlocatedInventory(inv, init);
      var k := ClaveIndex(inv1, c);
      UnlocatedInventory(inv, init + [c]) == if k >= 0 then inv1[k := Unlocated(inv1[k])] else inv1
  {
    var inv1 := UnlocatedInventory(inv, init);
    var k := ClaveIndex(inv, c);
    forall i | 0 <= i < |inv|
      ensures inv1[i].clave == inv[i].clave
    {
      UnlocatedFields(inv[i]);
    }
    SameClavesSameIndex(inv1, inv, c);
    var inv2 := if k >= 0 then inv1[k := Unlocated(inv1[k])] else inv1;
    forall i | 0 <= i < |inv|
      ensures inv2[i] == UnlocatedInventory(inv, init + [c])[i]
    {
      SelectedSnoc(inv, init, c, i);
    }
  }

  /** Unlocate changes exactly the first item of each selected key, and no other good. */
  lemma {:induction false} UnlocateAllEffect(w: World, claves: seq<string>, now: Now, writeOk: bool)
    ensures var g := w.mem.app.goods;
      UnlocateAll(w, claves, now, writeOk).mem.app.goods == g.(inventory := UnlocatedInventory(g.inventory, claves))
  {
    var inv := w.mem.app.goods.inventory;
    if claves == [] {
      assert UnlocatedInventory(inv, claves) == inv;
    } else {
      var init := claves[..|claves| - 1];
      var c := claves[|claves| - 1];
      assert claves == init + [c];
      UnlocateAllEffect(w, init, now, writeOk);
      UnlocateStepEffect(UnlocateAll(w, init, now, writeOk), c, now, writeOk);
      UnlocatedSnoc(inv, init, c);
    }
  }

  /**
   * `handleInventoryActions` on the world; also returns the keys whose
   * reassignment was left for confirmation. `unlocateChoice` answers the
   * unlocate confirmation. The final save happens only when nothing was
   * deferred (unlocate always saves once confirmed).
   */
  function InventoryActions(w: World, claves: seq<string>, action: ItemAction, unlocateChoice: Choice, now: Now,
                            writeOk: bool): (World, seq<string>)
  {
    var app := w.mem.app;
    if app.session.readOnlyMode || claves == [] then (w, [])
    else if action == Unlocate then
      if unlocateChoice == Cancelled then (w, []) else (Save(UnlocateAll(w, claves, now, writeOk), writeOk), [])
    else if app.custody.activeResguardante.None? then (w, [])
    else
      var (w1, deferred) := LocateAll(w, claves, app.custody.activeResguardante.value, action, now, writeOk);
      (if deferred == [] then Save(w1, writeOk) else w1, deferred)
  }

  /**
   * Nothing changes in read-only mode, with no selection, with the unlocate
   * cancelled, or for locate and relabel without an active custodian;
   * otherwise the goods change exactly as the item-by-item functions say.
   */
  lemma InventoryActionsEffect(w: World, claves: seq<string>, action: ItemAction, unlocateChoice: Choice, now: Now,
                               writeOk: bool)
    ensures var (r, deferred) := InventoryActions(w, claves, action, unlocateChoice, now, writeOk);
      var app := w.mem.app;
      var g := app.goods;
      ((app.session.readOnlyMode || claves == [] || (action == Unlocate && unlocateChoice == Cancelled)
        || (action != Unlocate && app.custody.activeResguardante.None?)) ==> r == w && deferred == [])
      && (!app.session.readOnlyMode && claves != [] && action == Unlocate && unlocateChoice == Confirmed ==>
            r.mem.app.goods == g.(inventory := UnlocatedInventory(g.inventory, claves)) && deferred == [])
      && (!app.session.readOnlyMode && claves != [] && action != Unlocate && app.custody.activeResguardante.Some? ==>
            var user := app.custody.activeResguardante.value;
            r.mem.app.goods == g.(inventory := PlacedInventory(g.inventory, claves, user, now.isoStamp, action))
            && deferred == DeferredClaves(g.inventory, claves, user))
  {
    var app := w.mem.app;
    if !app.session.readOnlyMode && claves != [] {
      if action == Unlocate {
        if unlocateChoice == Confirmed {
          UnlocateAllEffect(w, claves, now, writeOk);
          SaveKeepsData(UnlocateAll(w, claves, now, writeOk), writeOk);
        }
      } else if app.custody.activeResguardante.Some? {
        var user := app.custody.activeResguardante.value;
        LocateAllEffect(w, claves, user, action, now, writeOk);
        SaveKeepsData(LocateAll(w, claves, user, action, now, writeOk).0, writeOk);
      }
    }
  }

  /**
   * The reassignment dialog's confirm button for one deferred key: log the
   * reassignment, process the item, save.
   */
  function ConfirmReassign(w: World, clave: string, user: Custodian, action: ItemAction, now: Now, writeOk: bool): World
  {
    var inv := w.mem.app.goods.inventory;
    var k := ClaveIndex(inv, clave);
    if k < 0 then w
    else
      var w1 := LogW(w, now, "Bien reasignado", "Clave: " + clave + " de " + inv[k].usuario + " a " + user.name);
      Save(ProcessItem(w1, k, user, action, now, writeOk), writeOk)
  }

  /** Confirming moves the item to the active custodian and changes no other good. */
  lemma ConfirmReassignEffect(w: World, clave: string, user: Custodian, action: ItemAction, now: Now, writeOk: bool)
    ensures var g := w.mem.app.goods;
      var k := ClaveIndex(g.inventory, clave);
      var r := ConfirmReassign(w, clave, user, action, now, writeOk).mem.app.goods;
      (k < 0 ==> r == g)
      && (k >= 0 ==> r == g.(inventory := g.inventory[k := Placed(g.inventory[k], user, now.isoStamp, action)])
                     && r.inventory[k].usuario == user.name && r.inventory[k].Located())
  {
    var inv := w.mem.app.goods.inventory;
    var k := ClaveIndex(inv, clave);
    if k >= 0 {
      var w1 := LogW(w, now, "Bien reasignado", "Clave: " + clave + " de " + inv[k].usuario + " a " + user.name);
      ProcessItemGoods(w1, k, user, action, now, writeOk);
      SaveKeepsData(ProcessItem(w1, k, user, action, now, writeOk), writeOk);
    }
  }

  /** `assignItem` followed by the rest of `processItem`. */
  method ProcessSelectedItem(s: Session, store: SnapshotStore, k: nat, user: Custodian, action: ItemAction, now: Now,
                             writeOk: bool)
    requires k < |s.app.goods.inventory|
    modifies s, store
    ensures WorldOf(s, store) == ProcessItem(old(WorldOf(s, store)), k, user, action, now, writeOk)
  {
    ghost var w0 := WorldOf(s, store);
    var it := s.app.goods.inventory[k];
    var a := Assigned(it, user, now.isoStamp);
    s.app := WithItem(s.app, k, a);
    ghost var w1 := SetApp(w0, WithItem(w0.mem.app, k, a));
    CheckAreaCompletion(s, store, now, it.areaOriginal, writeOk);
    AreaCheckSyncs(w1, now, it.areaOriginal, writeOk);
    CheckInventoryCompletion(s, store, now, writeOk);
    InventoryCheckOneShot(AreaCheck(w1, now, it.areaOriginal, writeOk), now, now, writeOk, writeOk);
    var detail := "Clave: " + it.clave + ", Usuario: " + user.name;
    if action == Relabel {
      s.app := WithItem(s.app, k, a.(imprimir := Yes));
      LogActivity(s, now, "Bien marcado para re-etiquetar", detail);
    } else if action == Locate {
      if a.imprimir == Yes {
        s.app := WithItem(s.app, k, a.(imprimir := No));
        LogActivity(s, now, "Marca de re-etiquetar quitada al ubicar", detail);
      } else {
        LogActivity(s, now, "Bien ubicado", detail);
      }
    }
  }

  /** The unlocate loop over the selected keys. */
  method UnlocateSelected(s: Session, store: SnapshotStore, claves: seq<string>, now: Now, writeOk: bool)
    modifies s, store
    ensures WorldOf(s, store) == UnlocateAll(old(WorldOf(s, store)), claves, now, writeOk)
  {
    ghost var w0 := WorldOf(s, store);
    var i := 0;
    while i < |claves|
      invariant 0 <= i <= |claves|
      invariant WorldOf(s, store) == UnlocateAll(w0, claves[..i], now, writeOk)
    {
      assert claves[..i + 1][..i] == claves[..i];
      var k := ClaveIndex(s.app.goods.inventory, claves[i]);
      if k >= 0 {
        var it := s.app.goods.inventory[k];
        s.app := WithItem(s.app, k, Unlocated(it));
        LogActivity(s, now, "Bien des-ubicado", "Clave: " + claves[i]);
        CheckAreaCompletion(s, store, now, it.areaOriginal, writeOk);
      }
      i := i + 1;
    }
    assert claves[..i] == claves;
  }

  /** The locate or relabel loop over the selected keys; returns the keys left for confirmation. */
  method LocateSelected(s: Session, store: SnapshotStore, claves: seq<string>, user: Custodian, action: ItemAction,
                        now: Now, writeOk: bool) returns (deferred: seq<string>)
    modifies s, store
    ensures (WorldOf(s, store), deferred) == LocateAll(old(WorldOf(s, store)), claves, user, action, now, writeOk)
  {
    ghost var w0 := WorldOf(s, store);
    deferred := [];
    var i := 0;
    while i < |claves|
      invariant 0 <= i <= |claves|
      invariant (WorldOf(s, store), deferred) == LocateAll(w0, claves[..i], user, action, now, writeOk)
    {
      assert claves[..i + 1][..i] == claves[..i];
      var k := ClaveIndex(s.app.goods.inventory, claves[i]);
      if k >= 0 {
        if AssignedToOther(s.app.goods.inventory[k], user) {
          deferred := deferred + [claves[i]];
        } else {
          ProcessSelectedItem(s, store, k, user, action, now, writeOk);
        }
      }
      i := i + 1;
    }
    assert claves[..i] == claves;
  }

  /**
   * `handleInventoryActions`. `f` holds the filter inputs; the table is
   * refiltered after an unlocate and after a locate or relabel with nothing
   * deferred (the search box is cleared first in that case).
   */
  method HandleInventoryActions(s: Session, store: SnapshotStore, view: InventoryView, f: Filters, claves: seq<string>,
                                action: ItemAction, unlocateChoice: Choice, now: Now, writeOk: bool)
    returns (deferred: seq<string>)
    modifies s, store, view
    ensures (WorldOf(s, store), deferred) == InventoryActions(old(WorldOf(s, store)), claves, action, unlocateChoice, now, writeOk)
    ensures var kept := old(s.app.session.readOnlyMode) || claves == [] || (action == Unlocate && unlocateChoice == Cancelled)
                        || (action != Unlocate && old(s.app.custody.activeResguardante).None?) || deferred != [];
      view.filteredItems == (if kept then old(view.filteredItems)
                             else FilteredItems(s.app.goods.inventory, if action == Unlocate then f else f.(search := "")))
      && view.currentPage == (if kept then old(view.currentPage) else ClampPage(old(view.currentPage), |view.filteredItems|))
  {
    if s.app.session.readOnlyMode || claves == [] {
      return [];
    }
    if action == Unlocate {
      if unlocateChoice == Cancelled {
        return [];
      }
      UnlocateSelected(s, store, claves, now, writeOk);
      var v, detail := view.FilterAndRender(s.app.goods.inventory, f);
      ghost var w1 := WorldOf(s, store);
      s.SaveState(store, writeOk);
      SaveKeepsData(w1, writeOk);
      return [];
    }
    if s.app.custody.activeResguardante.None? {
      return [];
    }
    deferred := LocateSelected(s, store, claves, s.app.custody.activeResguardante.value, action, now, writeOk);
    if deferred == [] {
      var v, detail := view.FilterAndRender(s.app.goods.inventory, f.(search := ""));
      ghost var w1 := WorldOf(s, store);
      s.SaveState(store, writeOk);
      SaveKeepsData(w1, writeOk);
    }
  }

  /**
   * One stacked handler of the confirm button: the handler registered for
   * one deferred key.
   */
  method ConfirmReassignItem(s: Session, store: SnapshotStore, clave: string, user: Custodian, action: ItemAction,
                             now: Now, writeOk: bool)
    modifies s, store
    ensures WorldOf(s, store) == ConfirmReassign(old(WorldOf(s, store)), clave, user, action, now, writeOk)
  {
    var k := ClaveIndex(s.app.goods.inventory, clave);
    if k < 0 {
      return;
    }
    LogActivity(s, now, "Bien reasignado", "Clave: " + clave + " de " + s.app.goods.inventory[k].usuario + " a " + user.name);
    ProcessSelectedItem(s, store, k, user, action, now, writeOk);
    s.SaveState(store, writeOk);
  }

  // ---------------------------------------------------------------------
  // The stacked reassignment dialogs

  /**
   * The confirm handlers of every deferred key, run in the order they were
   * registered.
   */
  function ConfirmEach(w: World, deferred: seq<string>, user: Custodian, action: ItemAction, now: Now, writeOk: bool)
    : World
  {
    if deferred == [] then w
    else ConfirmReassign(ConfirmEach(w, deferred[..|deferred| - 1], user, action, now, writeOk),
                         deferred[|deferred| - 1], user, action, now, writeOk)
  }

  /**
   * Every deferred key opens its dialog on the same buttons, and each dialog
   * adds its own pair of one-shot handlers there. One click therefore
   * answers all of them: Confirm runs every confirm handler in key order,
   * and Cancel runs only the cancel handlers, which do nothing.
   */
  function ConfirmAllDeferred(w: World, deferred: seq<string>, user: Custodian, action: ItemAction, choice: Choice,
                              now: Now, writeOk: bool): World
  {
    if choice == Cancelled then w else ConfirmEach(w, deferred, user, action, now, writeOk)
  }

  /** The inventory with the first item of every selected key placed with `user`, whoever held it. */
  function ReassignedInventory(inv: seq<InventoryItem>, claves: seq<string>, user: Custodian, iso: string,
                               action: ItemAction): (r: seq<InventoryItem>)
    ensures |r| == |inv|
    ensures forall i :: 0 <= i < |inv| ==> r[i] == if Selected(inv, claves, i) then Placed(inv[i], user, iso, action) else inv[i]
  {
    seq(|inv|, i requires 0 <= i < |inv| => if Selected(inv, claves, i) then Placed(inv[i], user, iso, action) else inv[i])
  }

  /** Reassigning for one more key places that key's first item as well. */
  /** One item of `ReassignedSnoc`. */
  lemma ReassignedSnocAt(inv: seq<InventoryItem>, init: seq<string>, c: string, user: Custodian, iso: string,
                         action: ItemAction, i: nat)
    requires action != Unlocate && i < |inv|
    ensures var inv1 := ReassignedInventory(inv, init, user, iso, action);
      ReassignedInventory(inv, init + [c], user, iso, action)[i]
        == if i == ClaveIndex(inv, c) then Placed(inv1[i], user, iso, action) else inv1[i]
  {
    SelectedSnoc(inv, init, c, i);
    PlacedTwice(inv[i], user, iso, action);
  }

  lemma ReassignedSnoc(inv: seq<InventoryItem>, init: seq<string>, c: string, user: Custodian, iso: string,
                       action: ItemAction)
    requires action != Unlocate
    ensures var inv1 := ReassignedInventory(inv, init, user, iso, action);
      var k := ClaveIndex(inv, c);
      ClaveIndex(inv1, c) == k
      && ReassignedInventory(inv, init + [c], user, iso, action)
           == if k >= 0 then inv1[k := Placed(inv1[k], user, iso, action)] else inv1
  {
    var inv1 := ReassignedInventory(inv, init, user, iso, action);
    var inv2 := ReassignedInventory(inv, init + [c], user, iso, action);
    var k := ClaveIndex(inv, c);
    SameClavesSameIndex(inv, inv1, c);
    forall i | 0 <= i < |inv|
      ensures inv2[i] == if i == k then Placed(inv1[i], user, iso, action) else inv1[i]
    {
      ReassignedSnocAt(inv, init, c, user, iso, action, i);
    }
    if k >= 0 {
      assert inv2 == inv1[k := Placed(inv1[k], user, iso, action)];
    } else {
      assert inv2 == inv1;
    }
  }

  /**
   * Confirming the stacked dialogs places the first item of every deferred
   * key with the custodian and changes no other good; cancelling changes
   * nothing at all.
   */
  lemma {:induction false} ConfirmEachGoods(w: World, deferred: seq<string>, user: Custodian, action: ItemAction,
                                            now: Now, writeOk: bool)
    requires action != Unlocate
    ensures var g := w.mem.app.goods;
      ConfirmEach(w, deferred, user, action, now, writeOk).mem.app.goods
        == g.(inventory := ReassignedInventory(g.inventory, deferred, user, now.isoStamp, action))
  {
    var g := w.mem.app.goods;
    if deferred == [] {
      assert ReassignedInventory(g.inventory, deferred, user, now.isoStamp, action) == g.inventory;
    } else {
      var init := deferred[..|deferred| - 1];
      var c := deferred[|deferred| - 1];
      assert deferred == init + [c];
      ConfirmEachGoods(w, init, user, action, now, writeOk);
      ReassignedSnoc(g.inventory, init, c, user, now.isoStamp, action);
      ConfirmReassignEffect(ConfirmEach(w, init, user, action, now, writeOk), c, user, action, now, writeOk);
    }
  }

  /**
   * Answering the stacked dialogs: a cancel leaves the world as it is; a
   * confirm leaves every deferred key's first item held by the custodian
   * and located, and changes no other good.
   */
  lemma ConfirmAllEffect(w: World, deferred: seq<string>, user: Custodian, action: ItemAction, choice: Choice,
                         now: Now, writeOk: bool)
    requires action != Unlocate
    ensures var g := w.mem.app.goods;
      var r := ConfirmAllDeferred(w, deferred, user, action, choice, now, writeOk);
      (choice == Cancelled ==> r == w)
      && (choice == Confirmed ==>
            r.mem.app.goods == g.(inventory := ReassignedInventory(g.inventory, deferred, user, now.isoStamp, action))
            && forall j :: 0 <= j < |deferred| && ClaveIndex(g.inventory, deferred[j]) >= 0 ==>
                 var k := ClaveIndex(g.inventory, deferred[j]);
                 r.mem.app.goods.inventory[k].usuario == user.name && r.mem.app.goods.inventory[k].Located())
  {
    if choice == Confirmed {
      var g := w.mem.app.goods;
      ConfirmEachGoods(w, deferred, user, action, now, writeOk);
      forall j | 0 <= j < |deferred| && ClaveIndex(g.inventory, deferred[j]) >= 0
        ensures var k := ClaveIndex(g.inventory, deferred[j]);
          var r := ConfirmAllDeferred(w, deferred, user, action, choice, now, writeOk);
          r.mem.app.goods.inventory[k].usuario == user.name && r.mem.app.goods.inventory[k].Located()
      {
        var k := ClaveIndex(g.inventory, deferred[j]);
        assert Selected(g.inventory, deferred, k);
        PlacedFields(g.inventory[k], user, now.isoStamp, action);
      }
    }
  }

  /** Placing keeps every key at its place, so every key is found where it was. */
  lemma PlacedKeepsIndex(inv: seq<InventoryItem>, claves: seq<string>, user: Custodian, iso: string,
                         action: ItemAction, c: string)
    requires action != Unlocate
    ensures ClaveIndex(PlacedInventory(inv, claves, user, iso, action), c) == ClaveIndex(inv, c)
  {
    var p := PlacedInventory(inv, claves, user, iso, action);
    forall i | 0 <= i < |inv|
      ensures p[i].clave == inv[i].clave
    {
      PlacedInventoryAt(inv, claves, user, iso, action, i);
    }
    SameClavesSameIndex(inv, p, c);
  }

  /** After locate or relabel, an item is selected by the deferred keys iff it was selected and held by another. */
  lemma DeferredSelects(inv: seq<InventoryItem>, claves: seq<string>, user: Custodian, iso: string,
                        action: ItemAction, i: int)
    requires action != Unlocate && 0 <= i < |inv|
    ensures Selected(PlacedInventory(inv, claves, user, iso, action), DeferredClaves(inv, claves, user), i)
        <==> Selected(inv, claves, i) && AssignedToOther(inv[i], user)
  {
    var p := PlacedInventory(inv, claves, user, iso, action);
    var d := DeferredClaves(inv, claves, user);
    if Selected(p, d, i) {
      var j :| 0 <= j < |d| && ClaveIndex(p, d[j]) == i;
      PlacedKeepsIndex(inv, claves, user, iso, action, d[j]);
      assert d[j] in d;
      var jc :| 0 <= jc < |claves| && claves[jc] == d[j];
    }
    if Selected(inv, claves, i) && AssignedToOther(inv[i], user) {
      var jc :| 0 <= jc < |claves| && ClaveIndex(inv, claves[jc]) == i;
      assert claves[jc] in d;
      var j :| 0 <= j < |d| && d[j] == claves[jc];
      PlacedKeepsIndex(inv, claves, user, iso, action, d[j]);
    }
  }

  /**
   * Locate or relabel, then a confirm of the dialogs it left: every
   * selected key's first item ends up placed with the custodian, as if
   * nobody had held any of them.
   */
  lemma LocateThenConfirmAll(inv: seq<InventoryItem>, claves: seq<string>, user: Custodian, iso: string,
                             action: ItemAction)
    requires action != Unlocate
    ensures ReassignedInventory(PlacedInventory(inv, claves, user, iso, action), DeferredClaves(inv, claves, user),
                                user, iso, action)
         == ReassignedInventory(inv, claves, user, iso, action)
  {
    var p := PlacedInventory(inv, claves, user, iso, action);
    var a := ReassignedInventory(p, DeferredClaves(inv, claves, user), user, iso, action);
    var b := ReassignedInventory(inv, claves, user, iso, action);
    forall i | 0 <= i < |inv|
      ensures a[i] == b[i]
    {
      DeferredSelects(inv, claves, user, iso, action, i);
      PlacedTwice(inv[i], user, iso, action);
    }
  }

  /**
   * The click that answers the stacked dialogs of the deferred keys, in
   * the order they were opened.
   */
  method ConfirmDeferred(s: Session, store: SnapshotStore, deferred: seq<string>, user: Custodian, action: ItemAction,
                         choice: Choice, now: Now, writeOk: bool)
    modifies s, store
    ensures WorldOf(s, store) == ConfirmAllDeferred(old(WorldOf(s, store)), deferred, user, action, choice, now, writeOk)
  {
    if choice == Cancelled {
      return;
    }
    ghost var w0 := WorldOf(s, store);
    var i := 0;
    while i < |deferred|
      invariant 0 <= i <= |deferred|
      invariant WorldOf(s, store) == ConfirmEach(w0, deferred[..i], user, action, now, writeOk)
    {
      ConfirmReassignItem(s, store, deferred[i], user, action, now, writeOk);
      assert deferred[..i + 1][..i] == deferred[..i];
      i := i + 1;
    }
    assert deferred[..i] == deferred;
  }
}

=== FILE: js_text.dfy ===
/**
 * The JavaScript string primitives the application relies on (`trim`,
 * `toLowerCase`, `toUpperCase`, `includes`, `startsWith`, `String(n)`,
 * `padStart`, `parseInt`), over `string == seq<char>`.
 */
module JsText {
  import opened Wrappers

  /** ECMAScript WhiteSpace and LineTerminator code points: what `trim` strips and `\s` matches. */
  predicate IsWhitespace(c: char)
  {
    c == '\t' || c == '\n' || c == '\U{B}' || c == '\U{C}' || c == '\r' || c == ' '
    || c == '\U{A0}' || c == '\U{1680}' || ('\U{2000}' <= c <= '\U{200A}')
    || c == '\U{2028}' || c == '\U{2029}' || c == '\U{202F}' || c == '\U{205F}'
    || c == '\U{3000}' || c == '\U{FEFF}'
  }

  /** Every character of `s` is white space (so `s.trim()` is empty). */
  predicate AllWhitespace(s: string)
  {
    forall i :: 0 <= i < |s| ==> IsWhitespace(s[i])
  }

  /** `s` with its leading white space removed. */
  function TrimStart(s: string): string
  {
    if |s| > 0 && IsWhitespace(s[0]) then TrimStart(s[1..]) else s
  }

  /** `TrimStart` removes exactly the white space before the first other character. */
  lemma {:induction false} TrimStartFacts(s: string)
    ensures var r := TrimStart(s);
      |r| <= |s| && r == s[|s| - |r|..] && (r == [] || !IsWhitespace(r[0]))
      && forall i :: 0 <= i < |s| - |r| ==> IsWhitespace(s[i])
  {
    if |s| > 0 && IsWhitespace(s[0]) {
      TrimStartFacts(s[1..]);
    }
  }

  /** `s` with its trailing white space removed. */
  function TrimEnd(s: string): string
  {
    if |s| > 0 && IsWhitespace(s[|s| - 1]) then TrimEnd(s[..|s| - 1]) else s
  }

  /** `TrimEnd` removes exactly the white space after the last other character. */
  lemma {:induction false} TrimEndFacts(s: string)
    ensures var r := TrimEnd(s);
      |r| <= |s| && r == s[..|r|] && (r == [] || !IsWhitespace(r[|r| - 1]))
      && forall i :: |r| <= i < |s| ==> IsWhitespace(s[i])
  {
    if |s| > 0 && IsWhitespace(s[|s| - 1]) {
      TrimEndFacts(s[..|s| - 1]);
    }
  }

  /** `String.prototype.trim`. */
  function Trim(s: string): string
  {
    TrimEnd(TrimStart(s))
  }

  /** A text that neither starts nor ends with whitespace is its own trim. */
  lemma TrimUnpadded(s: string)
    requires s != [] && !IsWhitespace(s[0]) && !IsWhitespace(s[|s| - 1])
    ensures Trim(s) == s
  {
    assert TrimStart(s) == s;
  }

  /**
   * The trimmed text neither starts nor ends with white space, and it is
   * empty exactly when the text is all white space.
   */
  lemma TrimFacts(s: string)
    ensures var r := Trim(s);
      (r == [] || (!IsWhitespace(r[0]) && !IsWhitespace(r[|r| - 1])))
      && (r == [] <==> AllWhitespace(s))
  {
    var t := TrimStart(s);
    TrimStartFacts(s);
    TrimEndFacts(t);
    var r := TrimEnd(t);
    if r != [] {
      assert r[0] == t[0];
    }
  }

  lemma TrimIdempotent(s: string)
    ensures Trim(Trim(s)) == Trim(s)
  {
    TrimFacts(s);
    var r := Trim(s);
    assert TrimStart(r) == r;
    assert TrimEnd(r) == r;
  }

  /** `toLowerCase` on one character; the mapping covers ASCII and Latin-1. */
  function LowerChar(c: char): char
  {
    if 'A' <= c <= 'Z' || ('\U{C0}' <= c <= '\U{DE}' && c != '\U{D7}') then (c as int + 32) as char else c
  }

  /** `String.prototype.toLowerCase` (ASCII and Latin-1 letters). */
  function ToLower(s: string): (r: string)
    ensures |r| == |s|
  {
    if s == [] then [] else [LowerChar(s[0])] + ToLower(s[1..])
  }

  /** `toUpperCase` on one character; `ß` becomes two characters, as in JavaScript. */
  function UpperChars(c: char): string
  {
    if 'a' <= c <= 'z' || ('\U{E0}' <= c <= '\U{FE}' && c != '\U{F7}') then [(c as int - 32) as char]
    else if c == '\U{DF}' then "SS"
    else if c == '\U{FF}' then ['\U{178}']
    else if c == '\U{B5}' then ['\U{39C}']
    else [c]
  }

  /** `String.prototype.toUpperCase` (ASCII and Latin-1 letters). */
  function ToUpper(s: string): string
  {
    if s == [] then [] else UpperChars(s[0]) + ToUpper(s[1..])
  }

  /** `s.includes(sub)`. */
  predicate Contains(s: string, sub: string)
  {
    exists i | 0 <= i <= |s| - |sub| :: OccursAt(s, sub, i)
  }

  /** `sub` occurs in `s` starting at index `i`. */
  predicate OccursAt(s: string, sub: string, i: int)
  {
    0 <= i <= |s| - |sub| && s[i..i + |sub|] == sub
  }

  /** `s.startsWith(p)`. */
  predicate StartsWith(s: string, p: string)
  {
    |p| <= |s| && s[..|p|] == p
  }

  predicate IsDigit(c: char)
  {
    '0' <= c <= '9'
  }

  predicate AllDigits(s: string)
  {
    forall i :: 0 <= i < |s| ==> IsDigit(s[i])
  }

  function DigitChar(d: nat): (c: char)
    requires d < 10
    ensures IsDigit(c) && c as int - '0' as int == d
  {
    ('0' as int + d) as char
  }

  /** `String(n)` for a non-negative integer: its decimal digits, no leading zero. */
  function NatToString(n: nat): (r: string)
    ensures |r| > 0 && AllDigits(r)
    ensures (r[0] == '0') <==> n == 0
  {
    if n < 10 then [DigitChar(n)] else NatToString(n / 10) + [DigitChar(n % 10)]
  }

  /** `String(i)` for any integer. */
  function IntToString(i: int): string
  {
    if i < 0 then "-" + NatToString(-i) else NatToString(i)
  }

  /** The value of a run of decimal digits (leading zeros allowed). */
  function DigitsValue(s: string): nat
    requires AllDigits(s)
  {
    if s == [] then 0 else DigitsValue(s[..|s| - 1]) * 10 + (s[|s| - 1] as int - '0' as int)
  }

  /** Reading back the decimal form of `n` gives `n`. */
  lemma {:induction false} DigitsValueOfNatToString(n: nat)
    ensures DigitsValue(NatToString(n)) == n
  {
    if n >= 10 {
      DigitsValueOfNatToString(n / 10);
      var s := NatToString(n);
      assert s[..|s| - 1] == NatToString(n / 10);
    }
  }

  /** A leading zero does not change the value of a digit run. */
  lemma {:induction false} DigitsValueLeadingZero(s: string)
    requires AllDigits(s)
    ensures AllDigits("0" + s) && DigitsValue("0" + s) == DigitsValue(s)
  {
    if s != [] {
      DigitsValueLeadingZero(s[..|s| - 1]);
      assert ("0" + s)[..|s|] == "0" + s[..|s| - 1];
    }
  }

  /** `s.padStart(2, '0')`. */
  function PadStart2(s: string): (r: string)
    ensures |r| == if |s| < 2 then 2 else |s|
    ensures r[|r| - |s|..] == s && forall i :: 0 <= i < |r| - |s| ==> r[i] == '0'
  {
    if |s| >= 2 then s else if |s| == 1 then "0" + s else "00"
  }

  /** The two-digit label of a counter reads back as the counter. */
  lemma PaddedCounterValue(n: nat)
    ensures AllDigits(PadStart2(NatToString(n)))
    ensures DigitsValue(PadStart2(NatToString(n))) == n
  {
    var s := NatToString(n);
    DigitsValueOfNatToString(n);
    if |s| == 1 {
      DigitsValueLeadingZero(s);
    }
  }

  /** Distinct counters never share a label. */
  lemma PaddedCounterInjective(a: nat, b: nat)
    requires PadStart2(NatToString(a)) == PadStart2(NatToString(b))
    ensures a == b
  {
    PaddedCounterValue(a);
    PaddedCounterValue(b);
  }

  /** The longest prefix of `s` made of decimal digits. */
  function DigitPrefix(s: string): (r: string)
    ensures |r| <= |s| && r == s[..|r|] && AllDigits(r)
    ensures |r| == |s| || !IsDigit(s[|r|])
  {
    if |s| > 0 && IsDigit(s[0]) then [s[0]] + DigitPrefix(s[1..]) else []
  }

  /**
   * `parseInt(s)` in base 10: leading white space, an optional sign, then the
   * longest run of digits; `None` stands for `NaN` (no digit follows the sign).
   */
  function ParseInt(s: string): Option<int>
  {
    var d := DigitPrefix(Unsigned(TrimStart(s)));
    if d == [] then None
    else
      var v: int := DigitsValue(d);
      Some(if Negative(TrimStart(s)) then -v else v)
  }

  /** `parseInt(String(i)) == i`: the decimal form of any integer parses back to it. */
  lemma ParseIntOfIntToString(i: int)
    ensures ParseInt(IntToString(i)) == Some(i)
  {
    var n: nat := if i < 0 then -i else i;
    var digits := NatToString(n);
    var s := IntToString(i);
    assert s[0] == '-' || IsDigit(s[0]);
    assert TrimStart(s) == s;
    assert Unsigned(s) == digits;
    DigitPrefixOfDigits(digits);
    DigitsValueOfNatToString(n);
  }

  lemma {:induction false} DigitPrefixOfDigits(s: string)
    requires AllDigits(s)
    ensures DigitPrefix(s) == s
  {
    if s != [] {
      DigitPrefixOfDigits(s[1..]);
    }
  }

  predicate Negative(t: string)
  {
    |t| > 0 && t[0] == '-'
  }

  /** `t` without a leading `+` or `-` sign. */
  function Unsigned(t: string): (u: string)
    ensures |u| <= |t| <= |u| + 1 && u == t[|t| - |u|..]
  {
    if |t| > 0 && (t[0] == '-' || t[0] == '+') then t[1..] else t
  }

  /** `parts.join(sep)`. */
  function Join(parts: seq<string>, sep: string): string
  {
    if parts == [] then "" else if |parts| == 1 then parts[0] else parts[0] + sep + Join(parts[1..], sep)
  }

  /** The length of the run of decimal digits that ends `s`. */
  function TrailingDigitCount(s: string): (n: nat)
    ensures n <= |s| && forall i :: |s| - n <= i < |s| ==> IsDigit(s[i])
    ensures n == |s| || !IsDigit(s[|s| - n - 1])
  {
    if |s| > 0 && IsDigit(s[|s| - 1]) then TrailingDigitCount(s[..|s| - 1]) + 1 else 0
  }

  /**
   * `s.replace(/\s\d+$/, '')`: a white-space character followed by digits up to
   * the end is removed; the only place it can start is just before the
   * trailing run of digits.
   */
  function StripTrailingNumber(s: string): string
  {
    var n := TrailingDigitCount(s);
    if 0 < n < |s| && IsWhitespace(s[|s| - n - 1]) then s[..|s| - n - 1] else s
  }

  /** Stripping the number from `"<base> <digits>"` gives back the base. */
  lemma StripNumberedLabel(base: string, digits: string)
    requires digits != [] && AllDigits(digits)
    ensures StripTrailingNumber(base + " " + digits) == base
  {
    var s := base + " " + digits;
    var n := TrailingDigitCount(s);
    assert s[|s| - |digits|..] == digits;
    assert s[|s| - |digits| - 1] == ' ';
    assert n == |digits|;
    assert s[..|s| - n - 1] == base;
  }
}

=== FILE: layout_editor.dfy ===
/**
 * The state bookkeeping of the map layout editor: the sidebar that lists
 * each location once, the page controls (add, remove, previous, next,
 * rename, reset), placing a location on the current page, adding and
 * deleting image shapes, and the save and open buttons.
 *
 * The canvas is the current page as `loadSavedLayout` draws it
 * (`Canvas`): a location shape that no custodian is at is not drawn, and a
 * drawn location carries the area of the first custodian there. Every save
 * reads the page back from the canvas, with the shape just added or
 * removed. Geometry (position, size, rotation) is not part of a `Shape`
 * here.
 */
module LayoutEditor {
  import opened Wrappers
  import opened JsText
  import opened Seqs
  import opened Entities
  import opened AppState
  import opened Logger
  import opened Utils

  // ---------------------------------------------------------------------
  // The sidebar (`populateLayoutSidebar`)

  /** `state.mapLayout[state.currentLayoutPage] || {}`. */
  function CurrentShapes(l: Layout): map<string, Shape>
  {
    if l.currentLayoutPage in l.mapLayout then l.mapLayout[l.currentLayoutPage] else map[]
  }

  /** Whether a custodian sits at a location id, as the predicate handed to `Filter`. */
  function AtLocationId(locId: string): Custodian -> bool
  {
    (c: Custodian) => c.locationWithId == locId
  }

  /** The custodians at one location id, in list order. */
  function AtLocation(cs: seq<Custodian>, locId: string): (r: seq<Custodian>)
    ensures forall c :: c in r <==> c in cs && c.locationWithId == locId
  {
    Filter(cs, AtLocationId(locId))
  }

  /** The custodians' names, in order. */
  function Names(cs: seq<Custodian>): (r: seq<string>)
    ensures |r| == |cs| && forall i :: 0 <= i < |cs| ==> r[i] == cs[i].name
  {
    seq(|cs|, i requires 0 <= i < |cs| => cs[i].name)
  }

  /** One value of `locationsMap`: a location with the names of the users there. */
  datatype LocationGroup = LocationGroup(locId: string, locationBase: string, areaId: string, users: seq<string>)

  /** The position of a location's group, or -1. */
  function GroupIndex(groups: seq<LocationGroup>, locId: string): (r: int)
    ensures -1 <= r < |groups|
    ensures r >= 0 ==> groups[r].locId == locId
    ensures r < 0 <==> forall j :: 0 <= j < |groups| ==> groups[j].locId != locId
  {
    FindIndex(groups, (g: LocationGroup) => g.locId == locId)
  }

  /**
   * One step of the `forEach`: a location seen for the first time gets a
   * group with this user's location and area; the user's name is then
   * appended to the location's group.
   */
  function AddToGroups(groups: seq<LocationGroup>, c: Custodian): seq<LocationGroup>
  {
    var k := GroupIndex(groups, c.locationWithId);
    if k < 0 then groups + [LocationGroup(c.locationWithId, c.location, c.area, [c.name])]
    else groups[k := groups[k].(users := groups[k].users + [c.name])]
  }

  /** `locationsMap` after the loop over `state.resguardantes`, in insertion order. */
  function Groups(cs: seq<Custodian>): seq<LocationGroup>
  {
    if cs == [] then [] else AddToGroups(Groups(cs[..|cs| - 1]), cs[|cs| - 1])
  }

  /** The group of a location: the first user's location and area, and every user's name. */
  predicate GroupOf(g: LocationGroup, cs: seq<Custodian>)
  {
    var at := AtLocation(cs, g.locId);
    at != [] && g.locationBase == at[0].location && g.areaId == at[0].area && g.users == Names(at)
  }

  /** Each location has at most one group. */
  predicate DistinctLocations(groups: seq<LocationGroup>)
  {
    forall i, j :: 0 <= i < j < |groups| ==> groups[i].locId != groups[j].locId
  }

  /** Every group is right for `cs`. */
  predicate AllGroupsOf(groups: seq<LocationGroup>, cs: seq<Custodian>)
  {
    forall i :: 0 <= i < |groups| ==> GroupOf(groups[i], cs)
  }

  /** Every user's location has a group. */
  predicate CoversUsers(groups: seq<LocationGroup>, cs: seq<Custodian>)
  {
    forall c :: c in cs ==> GroupIndex(groups, c.locationWithId) >= 0
  }

  /** Each location once, each group right, every user's location present. */
  predicate GroupsOf(groups: seq<LocationGroup>, cs: seq<Custodian>)
  {
    DistinctLocations(groups) && AllGroupsOf(groups, cs) && CoversUsers(groups, cs)
  }

  lemma AtLocationSnoc(cs: seq<Custodian>, c: Custodian, locId: string)
    ensures AtLocation(cs + [c], locId) == AtLocation(cs, locId) + (if c.locationWithId == locId then [c] else [])
  {
    FilterSnoc(cs, c, AtLocationId(locId));
  }

  lemma NamesSnoc(cs: seq<Custodian>, c: Custodian)
    ensures Names(cs + [c]) == Names(cs) + [c.name]
  {
  }

  /** A location without a group has no users yet. */
  lemma UngroupedIsEmpty(groups: seq<LocationGroup>, cs: seq<Custodian>, locId: string)
    requires CoversUsers(groups, cs)
    ensures GroupIndex(groups, locId) < 0 ==> AtLocation(cs, locId) == []
  {
    if AtLocation(cs, locId) != [] {
      var c := AtLocation(cs, locId)[0];
      assert c in AtLocation(cs, locId);
    }
  }

  /** A location seen for the first time gets the group of its one user. */
  lemma NewGroupOf(cs: seq<Custodian>, c: Custodian)
    requires AtLocation(cs, c.locationWithId) == []
    ensures GroupOf(LocationGroup(c.locationWithId, c.location, c.area, [c.name]), cs + [c])
  {
    AtLocationSnoc(cs, c, c.locationWithId);
    var at := AtLocation(cs + [c], c.locationWithId);
    assert at == [c];
    NamesSnoc([], c);
    assert Names(at) == [c.name];
  }

  /** The group of the new user's location gains the user's name. */
  lemma GrownGroupOf(g: LocationGroup, cs: seq<Custodian>, c: Custodian)
    requires GroupOf(g, cs) && g.locId == c.locationWithId
    ensures GroupOf(g.(users := g.users + [c.name]), cs + [c])
  {
    AtLocationSnoc(cs, c, g.locId);
    NamesSnoc(AtLocation(cs, g.locId), c);
  }

  /** The groups of other locations stay right. */
  lemma OtherGroupOf(g: LocationGroup, cs: seq<Custodian>, c: Custodian)
    requires GroupOf(g, cs) && g.locId != c.locationWithId
    ensures GroupOf(g, cs + [c])
  {
    AtLocationSnoc(cs, c, g.locId);
  }

  /** The groups of locations other than the new user's stay right. */
  lemma OthersStay(groups: seq<LocationGroup>, cs: seq<Custodian>, c: Custodian, skip: int)
    requires AllGroupsOf(groups, cs)
    requires forall i :: 0 <= i < |groups| && i != skip ==> groups[i].locId != c.locationWithId
    ensures forall i :: 0 <= i < |groups| && i != skip ==> GroupOf(groups[i], cs + [c])
  {
    forall i | 0 <= i < |groups| && i != skip
      ensures GroupOf(groups[i], cs + [c])
    {
      OtherGroupOf(groups[i], cs, c);
    }
  }

  lemma AllGroupsOfAppend(groups: seq<LocationGroup>, g: LocationGroup, cs: seq<Custodian>)
    requires AllGroupsOf(groups, cs) && GroupOf(g, cs)
    ensures AllGroupsOf(groups + [g], cs)
  {
  }

  lemma AllGroupsOfUpdate(groups: seq<LocationGroup>, k: nat, g: LocationGroup, cs: seq<Custodian>)
    requires k < |groups| && GroupOf(g, cs)
    requires forall i :: 0 <= i < |groups| && i != k ==> GroupOf(groups[i], cs)
    ensures AllGroupsOf(groups[k := g], cs)
  {
  }

  /** One step of the loop keeps every group right. */
  lemma AddToGroupsContents(groups: seq<LocationGroup>, cs: seq<Custodian>, c: Custodian)
    requires DistinctLocations(groups) && AllGroupsOf(groups, cs) && CoversUsers(groups, cs)
    ensures AllGroupsOf(AddToGroups(groups, c), cs + [c])
  {
    var l := c.locationWithId;
    var k := GroupIndex(groups, l);
    if k < 0 {
      var g := LocationGroup(l, c.location, c.area, [c.name]);
      assert AddToGroups(groups, c) == groups + [g];
      UngroupedIsEmpty(groups, cs, l);
      NewGroupOf(cs, c);
      OthersStay(groups, cs, c, -1);
      AllGroupsOfAppend(groups, g, cs + [c]);
    } else {
      var g := groups[k].(users := groups[k].users + [c.name]);
      assert AddToGroups(groups, c) == groups[k := g];
      GrownGroupOf(groups[k], cs, c);
      OthersStay(groups, cs, c, k);
      AllGroupsOfUpdate(groups, k, g, cs + [c]);
    }
  }

  /** One step of the loop keeps the locations distinct. */
  lemma AddToGroupsDistinct(groups: seq<LocationGroup>, c: Custodian)
    requires DistinctLocations(groups)
    ensures DistinctLocations(AddToGroups(groups, c))
  {
    var k := GroupIndex(groups, c.locationWithId);
    if k < 0 {
      assert AddToGroups(groups, c) == groups + [LocationGroup(c.locationWithId, c.location, c.area, [c.name])];
    } else {
      assert AddToGroups(groups, c) == groups[k := groups[k].(users := groups[k].users + [c.name])];
    }
  }

  /** One step of the loop keeps every user's location present. */
  lemma AddToGroupsCovers(groups: seq<LocationGroup>, cs: seq<Custodian>, c: Custodian)
    requires CoversUsers(groups, cs)
    ensures CoversUsers(AddToGroups(groups, c), cs + [c])
  {
    var r := AddToGroups(groups, c);
    var k := GroupIndex(groups, c.locationWithId);
    assert forall i :: 0 <= i < |groups| ==> r[i].locId == groups[i].locId;
    forall d | d in cs + [c]
      ensures GroupIndex(r, d.locationWithId) >= 0
    {
      if d in cs {
        assert r[GroupIndex(groups, d.locationWithId)].locId == d.locationWithId;
      } else if k < 0 {
        assert r[|groups|].locId == d.locationWithId;
      } else {
        assert r[k].locId == d.locationWithId;
      }
    }
  }

  /**
   * `locationsMap` holds one entry per distinct `locationWithId`, each with
   * the first user's location and area and the names of all users there.
   */
  lemma {:induction false} GroupsCorrect(cs: seq<Custodian>)
    ensures GroupsOf(Groups(cs), cs)
  {
    if cs != [] {
      var init := cs[..|cs| - 1];
      var c := cs[|cs| - 1];
      assert cs == init + [c];
      GroupsCorrect(init);
      AddToGroupsContents(Groups(init), init, c);
      AddToGroupsDistinct(Groups(init), c);
      AddToGroupsCovers(Groups(init), init, c);
    }
  }

  /** The areas of the groups, in order. */
  function Areas(groups: seq<LocationGroup>): (r: seq<string>)
    ensures |r| == |groups| && forall i :: 0 <= i < |groups| ==> r[i] == groups[i].areaId
  {
    seq(|groups|, i requires 0 <= i < |groups| => groups[i].areaId)
  }

  /** `getAreaColor` called for each area in turn. */
  function MemoAreas(colors: map<string, string>, areas: seq<string>): map<string, string>
  {
    if areas == [] then colors else ColorMemo(MemoAreas(colors, areas[..|areas| - 1]), areas[|areas| - 1]).0
  }

  /**
   * Memoising a run of areas gives each of them a colour, keeps every
   * colour already stored, and adds nothing for other areas.
   */
  lemma {:induction false} MemoAreasFacts(colors: map<string, string>, areas: seq<string>)
    ensures var m := MemoAreas(colors, areas);
      (forall a :: a in areas ==> a in m && m[a] != "")
      && (forall k :: k !in areas ==> (k in m <==> k in colors) && (k in m ==> m[k] == colors[k]))
      && (forall k :: k in colors && colors[k] != "" ==> k in m && m[k] == colors[k])
  {
    if areas != [] {
      var init := areas[..|areas| - 1];
      var a := areas[|areas| - 1];
      assert areas == init + [a];
      MemoAreasFacts(colors, init);
      ColorMemoStable(MemoAreas(colors, init), a);
    }
  }

  /** The state after the sidebar is drawn: each sidebar area's colour is memoised. */
  function Memoized(app: State): State
  {
    var l := app.layout;
    app.(layout := l.(layoutItemColors := MemoAreas(l.layoutItemColors, Areas(Groups(app.custody.resguardantes)))))
  }

  /** One sidebar entry as drawn; its icon is `LocationIcon(locationBase)`. */
  datatype SidebarEntry = SidebarEntry(locId: string, locationBase: string, color: string, users: seq<string>, hidden: bool)

  function EntryOf(g: LocationGroup, colors: map<string, string>, page: map<string, Shape>): SidebarEntry
  {
    SidebarEntry(g.locId, g.locationBase, if g.areaId in colors then colors[g.areaId] else "",
                 g.users, g.locId in page)
  }

  /** The sidebar as drawn: one entry per location group, coloured from the memoised colours. */
  function Sidebar(app: State): seq<SidebarEntry>
  {
    var groups := Groups(app.custody.resguardantes);
    var colors := MemoAreas(app.layout.layoutItemColors, Areas(groups));
    seq(|groups|, i requires 0 <= i < |groups| => EntryOf(groups[i], colors, CurrentShapes(app.layout)))
  }

  /*
   * What the sidebar shows: one entry per distinct location id of the users
   * (SidebarDistinct, SidebarCovers), every user there with the first one's
   * location (SidebarUsers), a colour for each (SidebarColored), and an
   * entry hidden exactly when its location is on the current page
   * (SidebarHidden).
   */

  lemma SidebarDistinct(app: State)
    ensures var r := Sidebar(app);
      forall i, j :: 0 <= i < j < |r| ==> r[i].locId != r[j].locId
  {
    GroupsCorrect(app.custody.resguardantes);
  }

  lemma SidebarCovers(app: State)
    ensures var r := Sidebar(app);
      forall c :: c in app.custody.resguardantes ==> exists i :: 0 <= i < |r| && r[i].locId == c.locationWithId
  {
    var cs := app.custody.resguardantes;
    var groups := Groups(cs);
    var r := Sidebar(app);
    GroupsCorrect(cs);
    forall c | c in cs
      ensures exists i :: 0 <= i < |r| && r[i].locId == c.locationWithId
    {
      assert r[GroupIndex(groups, c.locationWithId)].locId == c.locationWithId;
    }
  }

  lemma SidebarUsers(app: State)
    ensures var r := Sidebar(app);
      forall i :: 0 <= i < |r| ==>
        var at := AtLocation(app.custody.resguardantes, r[i].locId);
        at != [] && r[i].users == Names(at) && r[i].locationBase == at[0].location
  {
    var groups := Groups(app.custody.resguardantes);
    GroupsCorrect(app.custody.resguardantes);
    assert forall i :: 0 <= i < |groups| ==> GroupOf(groups[i], app.custody.resguardantes);
  }

  lemma SidebarHidden(app: State)
    ensures var r := Sidebar(app);
      forall i :: 0 <= i < |r| ==> (r[i].hidden <==> r[i].locId in CurrentShapes(app.layout))
  {
  }

  lemma SidebarColored(app: State)
    ensures var r := Sidebar(app);
      forall i :: 0 <= i < |r| ==> r[i].color != ""
  {
    var groups := Groups(app.custody.resguardantes);
    MemoAreasFacts(app.layout.layoutItemColors, Areas(groups));
    assert forall i :: 0 <= i < |groups| ==> groups[i].areaId in Areas(groups);
  }

  /** The grouping loop of `populateLayoutSidebar`: users in order, each added to its location's group. */
  method GroupLocations(cs: seq<Custodian>) returns (groups: seq<LocationGroup>)
    ensures groups == Groups(cs)
  {
    groups := [];
    var i := 0;
    while i < |cs|
      invariant 0 <= i <= |cs|
      invariant groups == Groups(cs[..i])
    {
      assert cs[..i + 1][..i] == cs[..i];
      var c := cs[i];
      ghost var before := groups;
      var k := GroupIndex(groups, c.locationWithId);
      if k < 0 {
        groups := groups + [LocationGroup(c.locationWithId, c.location, c.area, [])];
        k := |groups| - 1;
      }
      groups := groups[k := groups[k].(users := groups[k].users + [c.name])];
      assert groups == AddToGroups(before, c) by {
        if GroupIndex(before, c.locationWithId) < 0 {
          assert [] + [c.name] == [c.name];
          assert groups == before + [LocationGroup(c.locationWithId, c.location, c.area, [c.name])];
        }
      }
      i := i + 1;
    }
    assert cs[..|cs|] == cs;
  }

  /** The first `|entries|` groups are drawn with the colours in `m`, each of them set. */
  predicate DrawnUpTo(entries: seq<SidebarEntry>, groups: seq<LocationGroup>, m: map<string, string>, page: map<string, Shape>)
  {
    |entries| <= |groups|
    && forall t :: 0 <= t < |entries| ==>
         groups[t].areaId in m && m[groups[t].areaId] != "" && entries[t] == EntryOf(groups[t], m, page)
  }

  /** Drawing the next group keeps the entries already drawn. */
  lemma DrawStep(entries: seq<SidebarEntry>, groups: seq<LocationGroup>, m: map<string, string>, page: map<string, Shape>)
    requires DrawnUpTo(entries, groups, m, page) && |entries| < |groups|
    ensures var g := groups[|entries|];
      var (m2, c) := ColorMemo(m, g.areaId);
      DrawnUpTo(entries + [SidebarEntry(g.locId, g.locationBase, c, g.users, g.locId in page)], groups, m2, page)
  {
    ColorMemoStable(m, groups[|entries|].areaId);
  }

  /** The drawing loop of `populateLayoutSidebar`: one entry per group, its area colour fetched (and memoised). */
  method DrawSidebar(s: Session, groups: seq<LocationGroup>) returns (entries: seq<SidebarEntry>)
    modifies s`app
    ensures var l := old(s.app).layout;
      s.app == old(s.app).(layout := l.(layoutItemColors := MemoAreas(l.layoutItemColors, Areas(groups))))
    ensures |entries| == |groups|
    ensures forall t :: 0 <= t < |groups| ==>
      entries[t] == EntryOf(groups[t], s.app.layout.layoutItemColors, CurrentShapes(old(s.app).layout))
  {
    var page := CurrentShapes(s.app.layout);
    ghost var colors0 := s.app.layout.layoutItemColors;
    ghost var areas := Areas(groups);
    entries := [];
    var j := 0;
    while j < |groups|
      invariant 0 <= j <= |groups| && |entries| == j
      invariant s.app == old(s.app).(layout := old(s.app).layout.(layoutItemColors := s.app.layout.layoutItemColors))
      invariant s.app.layout.layoutItemColors == MemoAreas(colors0, areas[..j])
      invariant DrawnUpTo(entries, groups, s.app.layout.layoutItemColors, page)
    {
      assert areas[..j + 1][..j] == areas[..j];
      var g := groups[j];
      DrawStep(entries, groups, s.app.layout.layoutItemColors, page);
      var color := GetAreaColor(s, g.areaId);
      entries := entries + [SidebarEntry(g.locId, g.locationBase, color, g.users, g.locId in page)];
      j := j + 1;
    }
    assert areas[..|groups|] == areas;
  }

  /** `populateLayoutSidebar`: groups the users by location, then draws one entry per location. */
  method PopulateLayoutSidebar(s: Session) returns (entries: seq<SidebarEntry>)
    modifies s`app
    ensures s.app == Memoized(old(s.app))
    ensures entries == Sidebar(old(s.app))
  {
    var groups := GroupLocations(s.app.custody.resguardantes);
    entries := DrawSidebar(s, groups);
  }

  // ---------------------------------------------------------------------
  // Pagination

  /** The position of a page key in `Object.keys(state.layoutPageNames)`, or -1. */
  function PageIndex(order: seq<string>, key: string): (r: int)
    ensures -1 <= r < |order|
    ensures r >= 0 ==> order[r] == key
    ensures r < 0 <==> key !in order
  {
    FindIndex(order, (k: string) => k == key)
  }

  /** In a list without repeats, a key's position is where it stands. */
  lemma PageIndexOf(order: seq<string>, i: nat)
    requires Distinct(order) && i < |order|
    ensures PageIndex(order, order[i]) == i
  {
    var r := PageIndex(order, order[i]);
    assert r >= 0;
  }

  /** What `updateLayoutPagination` shows: the page name and which buttons are disabled. */
  datatype Pagination = Pagination(pageName: string, prevDisabled: bool, nextDisabled: bool, removeDisabled: bool)

  function Paginate(l: Layout): Pagination
  {
    var names := l.layoutPageNames;
    var cur := l.currentLayoutPage;
    var idx := PageIndex(names.order, cur);
    Pagination(if cur in names.names && names.names[cur] != "" then names.names[cur] else cur,
               idx <= 0, idx >= |names.order| - 1, |names.order| <= 1)
  }

  /** `switchLayoutPage`: the page becomes current and the sidebar is redrawn. */
  function Switched(app: State, key: string): State
  {
    Memoized(app.(layout := app.layout.(currentLayoutPage := key)))
  }

  method SwitchLayoutPage(s: Session, key: string) returns (pager: Pagination)
    modifies s`app
    ensures s.app == Switched(old(s.app), key)
    ensures pager == Paginate(s.app.layout)
  {
    s.app := s.app.(layout := s.app.layout.(currentLayoutPage := key));
    var _ := PopulateLayoutSidebar(s);
    pager := Paginate(s.app.layout);
  }

  /** The previous-page button: moves only when a page precedes the current one. */
  function PrevPage(w: World): World
  {
    var app := w.mem.app;
    var order := app.layout.layoutPageNames.order;
    var idx := PageIndex(order, app.layout.currentLayoutPage);
    if idx > 0 then SetApp(w, Switched(app, order[idx - 1])) else w
  }

  /** The next-page button: moves only when a page follows the current one. */
  function NextPage(w: World): World
  {
    var app := w.mem.app;
    var order := app.layout.layoutPageNames.order;
    var idx := PageIndex(order, app.layout.currentLayoutPage);
    if idx < |order| - 1 then SetApp(w, Switched(app, order[idx + 1])) else w
  }

  method PrevPageHandler(s: Session, store: SnapshotStore)
    modifies s`app
    ensures WorldOf(s, store) == PrevPage(old(WorldOf(s, store)))
  {
    var order := s.app.layout.layoutPageNames.order;
    var idx := PageIndex(order, s.app.layout.currentLayoutPage);
    if idx > 0 {
      var _ := SwitchLayoutPage(s, order[idx - 1]);
    }
  }

  method NextPageHandler(s: Session, store: SnapshotStore)
    modifies s`app
    ensures WorldOf(s, store) == NextPage(old(WorldOf(s, store)))
  {
    var order := s.app.layout.layoutPageNames.order;
    var idx := PageIndex(order, s.app.layout.currentLayoutPage);
    if idx < |order| - 1 {
      var _ := SwitchLayoutPage(s, order[idx + 1]);
    }
  }

  /** Previous and next step to the neighbouring page in key order. */
  lemma PrevNextNeighbours(w: World)
    requires w.mem.app.layout.layoutPageNames.Valid()
    ensures var l := w.mem.app.layout;
      var order := l.layoutPageNames.order;
      var idx := PageIndex(order, l.currentLayoutPage);
      (idx > 0 ==> PrevPage(w).mem.app.layout.currentLayoutPage == order[idx - 1])
      && (idx < |order| - 1 ==> NextPage(w).mem.app.layout.currentLayoutPage == order[idx + 1])
      && PrevPage(w).mem.app.layout.layoutPageNames == l.layoutPageNames
      && NextPage(w).mem.app.layout.mapLayout == l.mapLayout
  {
  }

  /** From any page that has a successor, next then previous comes back to it. */
  lemma NextThenPrev(w: World)
    requires w.mem.app.layout.layoutPageNames.Valid()
    requires var order := w.mem.app.layout.layoutPageNames.order;
      0 <= PageIndex(order, w.mem.app.layout.currentLayoutPage) < |order| - 1
    ensures PrevPage(NextPage(w)).mem.app.layout.currentLayoutPage == w.mem.app.layout.currentLayoutPage
    ensures PrevPage(NextPage(w)).mem.app.layout.layoutPageNames == w.mem.app.layout.layoutPageNames
  {
    var order := w.mem.app.layout.layoutPageNames.order;
    var idx := PageIndex(order, w.mem.app.layout.currentLayoutPage);
    PageIndexOf(order, idx + 1);
  }

  // ---------------------------------------------------------------------
  // Adding and removing pages

  /** The key of a page added at `now`. */
  function PageKey(now: Now): string
  {
    "page" + IntToString(now.epochMs)
  }

  /** The default name of the `n`-th page. */
  function PageLabel(n: nat): string
  {
    "Página " + NatToString(n)
  }

  /** The pages after the add-page button: an empty page under `key`, named after the page count before it, current. */
  function AddedPage(l: Layout, key: string): (r: Layout)
    requires l.layoutPageNames.Valid()
    ensures r.layoutPageNames.Valid()
  {
    l.(mapLayout := l.mapLayout[key := map[]],
       layoutPageNames := l.layoutPageNames.Put(key, PageLabel(l.layoutPageNames.Count() + 1)),
       currentLayoutPage := key)
  }

  /** The add-page button: the page is added and shown, then the state is saved. */
  function AddPage(w: World, now: Now, writeOk: bool): World
    requires w.mem.app.layout.layoutPageNames.Valid()
  {
    Save(SetApp(w, Memoized(w.mem.app.(layout := AddedPage(w.mem.app.layout, PageKey(now))))), writeOk)
  }

  method AddPageHandler(s: Session, store: SnapshotStore, now: Now, writeOk: bool)
    requires s.app.layout.layoutPageNames.Valid()
    modifies s, store
    ensures WorldOf(s, store) == AddPage(old(WorldOf(s, store)), now, writeOk)
  {
    var key := PageKey(now);
    ghost var app0 := s.app;
    var name := PageLabel(s.app.layout.layoutPageNames.Count() + 1);
    s.app := s.app.(layout := s.app.layout.(mapLayout := s.app.layout.mapLayout[key := map[]]));
    s.app := s.app.(layout := s.app.layout.(layoutPageNames := s.app.layout.layoutPageNames.Put(key, name)));
    assert s.app.(layout := s.app.layout.(currentLayoutPage := key)) == app0.(layout := AddedPage(app0.layout, key));
    var _ := SwitchLayoutPage(s, key);
    assert s.app == Memoized(app0.(layout := AddedPage(app0.layout, key)));
    s.SaveState(store, writeOk);
  }

  /** An added page is empty, named after the page count before it, last in order when new, and current. */
  lemma AddPageEffect(w: World, now: Now, writeOk: bool)
    requires w.mem.app.layout.layoutPageNames.Valid()
    ensures var l := w.mem.app.layout;
      var r := AddPage(w, now, writeOk).mem.app;
      var key := PageKey(now);
      r.layout == AddedPage(l, key).(layoutItemColors := r.layout.layoutItemColors)
      && r.layout.currentLayoutPage == key
      && CurrentShapes(r.layout) == map[]
      && r.layout.layoutPageNames.names == l.layoutPageNames.names[key := PageLabel(l.layoutPageNames.Count() + 1)]
      && (key !in l.layoutPageNames.order ==>
            r.layout.layoutPageNames.order == l.layoutPageNames.order + [key]
            && r.layout.layoutPageNames.Count() == l.layoutPageNames.Count() + 1)
      && (forall k :: k != key && k in l.mapLayout ==> k in r.layout.mapLayout && r.layout.mapLayout[k] == l.mapLayout[k])
      && r.goods == w.mem.app.goods && r.custody == w.mem.app.custody && r.areaBook == w.mem.app.areaBook
  {
    SaveKeepsData(SetApp(w, Memoized(w.mem.app.(layout := AddedPage(w.mem.app.layout, PageKey(now))))), writeOk);
  }

  /** With more than one page, removing any key leaves a page to show. */
  lemma RemainingPage(names: PageNames, key: string)
    requires names.Valid() && names.Count() > 1
    ensures names.Remove(key).order != []
  {
    var o := names.order;
    if o[0] != key {
      assert o[0] in names.Remove(key).order;
    } else {
      assert o[1] in names.Remove(key).order;
    }
  }

  /**
   * The pages after a confirmed removal: the current page's layout and name
   * are deleted, the others keep their order, and the first of them becomes
   * current.
   */
  function RemovedPage(l: Layout): (r: Layout)
    requires l.layoutPageNames.Valid() && l.layoutPageNames.Count() > 1
    ensures r.layoutPageNames.Valid() && r.layoutPageNames.order != []
    ensures r.currentLayoutPage == r.layoutPageNames.order[0] && r.currentLayoutPage != l.currentLayoutPage
  {
    var cur := l.currentLayoutPage;
    RemainingPage(l.layoutPageNames, cur);
    var names := l.layoutPageNames.Remove(cur);
    assert names.order[0] in names.order;
    l.(mapLayout := l.mapLayout - {cur}, layoutPageNames := names, currentLayoutPage := names.order[0])
  }

  /** The remove-page button: refused at one page, then asks for confirmation; removes, shows and saves. */
  function RemovePage(w: World, choice: Choice, writeOk: bool): World
    requires w.mem.app.layout.layoutPageNames.Valid()
  {
    var l := w.mem.app.layout;
    if l.layoutPageNames.Count() <= 1 || choice == Cancelled then w
    else Save(SetApp(w, Memoized(w.mem.app.(layout := RemovedPage(l)))), writeOk)
  }

  method RemovePageHandler(s: Session, store: SnapshotStore, choice: Choice, writeOk: bool)
    requires s.app.layout.layoutPageNames.Valid()
    modifies s, store
    ensures WorldOf(s, store) == RemovePage(old(WorldOf(s, store)), choice, writeOk)
  {
    if s.app.layout.layoutPageNames.Count() <= 1 || choice == Cancelled {
      return;
    }
    var cur := s.app.layout.currentLayoutPage;
    RemainingPage(s.app.layout.layoutPageNames, cur);
    s.app := s.app.(layout := s.app.layout.(mapLayout := s.app.layout.mapLayout - {cur}));
    s.app := s.app.(layout := s.app.layout.(layoutPageNames := s.app.layout.layoutPageNames.Remove(cur)));
    var _ := SwitchLayoutPage(s, s.app.layout.layoutPageNames.order[0]);
    s.SaveState(store, writeOk);
  }

  /**
   * Removal is refused at one page or when cancelled; otherwise the current
   * page's layout and name are gone, the other pages keep their layouts and
   * their order, and the first of them is current.
   */
  lemma RemovePageEffect(w: World, choice: Choice, writeOk: bool)
    requires w.mem.app.layout.layoutPageNames.Valid()
    ensures var l := w.mem.app.layout;
      l.layoutPageNames.Count() <= 1 || choice == Cancelled ==> RemovePage(w, choice, writeOk) == w
    ensures var l := w.mem.app.layout;
      var cur := l.currentLayoutPage;
      var r := RemovePage(w, choice, writeOk).mem.app;
      l.layoutPageNames.Count() > 1 && choice == Confirmed ==>
        r.layout == RemovedPage(l).(layoutItemColors := r.layout.layoutItemColors)
        && cur !in r.layout.mapLayout && cur !in r.layout.layoutPageNames.names
        && (forall k :: k != cur && k in l.mapLayout ==> k in r.layout.mapLayout && r.layout.mapLayout[k] == l.mapLayout[k])
        && r.layout.layoutPageNames.order == Filter(l.layoutPageNames.order, OtherThan(cur))
        && r.layout.currentLayoutPage == r.layout.layoutPageNames.order[0]
        && r.layout.currentLayoutPage != cur
        && r.goods == w.mem.app.goods && r.custody == w.mem.app.custody && r.areaBook == w.mem.app.areaBook
  {
    var l := w.mem.app.layout;
    if l.layoutPageNames.Count() > 1 && choice == Confirmed {
      SaveKeepsData(SetApp(w, Memoized(w.mem.app.(layout := RemovedPage(l)))), writeOk);
    }
  }

  /** Putting a new key and deleting it again gives back the page names. */
  lemma PutThenRemove(names: PageNames, key: string, name: string)
    requires names.Valid() && key !in names.order
    ensures names.Put(key, name).Valid()
    ensures names.Put(key, name).Remove(key) == names
  {
    var put := names.Put(key, name);
    assert put.order == names.order + [key];
    FilterSnoc(names.order, key, OtherThan(key));
    assert forall i :: 0 <= i < |names.order| ==> OtherThan(key)(names.order[i]);
    FilterAllTrue(names.order, OtherThan(key));
    assert put.Remove(key).order == names.order;
    assert key !in names.names;
    MapPutRemove(names.names, key, name);
  }

  /** Adding an absent key and removing it again gives back the map. */
  lemma MapPutRemove<V>(m: map<string, V>, key: string, v: V)
    requires key !in m
    ensures m[key := v] - {key} == m
  {
  }

  /**
   * Adding a page under a new key and then removing it gives back the
   * previous layouts and page names, with the first page current.
   */
  lemma AddThenRemove(l: Layout, key: string)
    requires l.layoutPageNames.Valid() && l.layoutPageNames.Count() >= 1
    requires key !in l.layoutPageNames.order && key !in l.mapLayout
    ensures AddedPage(l, key).layoutPageNames.Count() > 1
    ensures RemovedPage(AddedPage(l, key)) == l.(currentLayoutPage := l.layoutPageNames.order[0])
  {
    PutThenRemove(l.layoutPageNames, key, PageLabel(l.layoutPageNames.Count() + 1));
    MapPutRemove(l.mapLayout, key, map[]);
  }

  /** The pagination buttons are disabled exactly when pressing them would change nothing. */
  lemma PaginationMatchesButtons(w: World, writeOk: bool)
    requires w.mem.app.layout.layoutPageNames.Valid()
    ensures var p := Paginate(w.mem.app.layout);
      (p.prevDisabled <==> PrevPage(w) == w)
      && (p.nextDisabled <==> NextPage(w) == w)
      && (p.removeDisabled <==> RemovePage(w, Confirmed, writeOk) == w)
  {
    var l := w.mem.app.layout;
    var cur := l.currentLayoutPage;
    var order := l.layoutPageNames.order;
    var idx := PageIndex(order, cur);
    if idx > 0 {
      assert order[idx - 1] != cur;
      assert PrevPage(w).mem.app.layout.currentLayoutPage != cur;
    }
    if idx < |order| - 1 {
      assert order[idx + 1] != cur;
      assert NextPage(w).mem.app.layout.currentLayoutPage != cur;
    }
    RemovePageEffect(w, Confirmed, writeOk);
  }

  // ---------------------------------------------------------------------
  // Renaming and resetting a page

  /** The page-name field: a non-blank trimmed name replaces the current page's, then the state is saved. */
  function RenamePage(w: World, text: string, writeOk: bool): World
    requires w.mem.app.layout.layoutPageNames.Valid()
  {
    var app := w.mem.app;
    var l := app.layout;
    var name := Trim(text);
    if name == "" then w
    else Save(SetApp(w, app.(layout := l.(layoutPageNames := l.layoutPageNames.Put(l.currentLayoutPage, name)))), writeOk)
  }

  method RenamePageHandler(s: Session, store: SnapshotStore, text: string, writeOk: bool)
    requires s.app.layout.layoutPageNames.Valid()
    modifies s, store
    ensures WorldOf(s, store) == RenamePage(old(WorldOf(s, store)), text, writeOk)
  {
    var name := Trim(text);
    if name != "" {
      s.app := s.app.(layout := s.app.layout.(layoutPageNames := s.app.layout.layoutPageNames.Put(s.app.layout.currentLayoutPage, name)));
      s.SaveState(store, writeOk);
    }
  }

  /**
   * A blank name changes nothing; otherwise the current page, and only it,
   * takes the trimmed name, which the page-name field then shows.
   */
  lemma RenamePageEffect(w: World, text: string, writeOk: bool)
    requires w.mem.app.layout.layoutPageNames.Valid()
    ensures Trim(text) == "" ==> RenamePage(w, text, writeOk) == w
    ensures var l := w.mem.app.layout;
      var r := RenamePage(w, text, writeOk).mem.app.layout;
      Trim(text) != "" ==>
        r.layoutPageNames.names == l.layoutPageNames.names[l.currentLayoutPage := Trim(text)]
        && (l.currentLayoutPage in l.layoutPageNames.order ==> r.layoutPageNames.order == l.layoutPageNames.order)
        && r.currentLayoutPage == l.currentLayoutPage && r.mapLayout == l.mapLayout
        && Paginate(r).pageName == Trim(text)
  {
    var app := w.mem.app;
    var l := app.layout;
    if Trim(text) != "" {
      SaveKeepsData(SetApp(w, app.(layout := l.(layoutPageNames := l.layoutPageNames.Put(l.currentLayoutPage, Trim(text))))), writeOk);
    }
  }

  /** Renaming twice with the same text is renaming once. */
  lemma RenameIdempotent(w: World, text: string, writeOk: bool)
    requires w.mem.app.layout.layoutPageNames.Valid()
    ensures RenamePage(w, text, writeOk).mem.app.layout.layoutPageNames.Valid()
    ensures RenamePage(RenamePage(w, text, writeOk), text, writeOk) == RenamePage(w, text, writeOk)
  {
    var app := w.mem.app;
    var l := app.layout;
    var name := Trim(text);
    if name != "" {
      var names1 := l.layoutPageNames.Put(l.currentLayoutPage, name);
      var w0 := SetApp(w, app.(layout := l.(layoutPageNames := names1)));
      SaveKeepsData(w0, writeOk);
      var w1 := Save(w0, writeOk);
      assert names1.Put(l.currentLayoutPage, name) == names1;
      assert SetApp(w1, w1.mem.app.(layout := w1.mem.app.layout.(layoutPageNames := names1))) == w1;
    }
  }

  /**
   * `resetCurrentLayoutPage`: nothing in read-only mode or when cancelled;
   * otherwise the current page is emptied, the sidebar redrawn and the state
   * saved, and only then is the reset logged.
   */
  function ResetPage(w: World, choice: Choice, now: Now, writeOk: bool): World
  {
    var app := w.mem.app;
    var l := app.layout;
    var cur := l.currentLayoutPage;
    if app.session.readOnlyMode || choice == Cancelled then w
    else
      var w1 := Save(SetApp(w, Memoized(app.(layout := l.(mapLayout := l.mapLayout[cur := map[]])))), writeOk);
      LogW(w1, now, "Croquis", "Lienzo de la página " + cur + " restablecido.")
  }

  method ResetCurrentLayoutPage(s: Session, store: SnapshotStore, choice: Choice, now: Now, writeOk: bool)
    modifies s, store
    ensures WorldOf(s, store) == ResetPage(old(WorldOf(s, store)), choice, now, writeOk)
  {
    if s.app.session.readOnlyMode || choice == Cancelled {
      return;
    }
    var cur := s.app.layout.currentLayoutPage;
    s.app := s.app.(layout := s.app.layout.(mapLayout := s.app.layout.mapLayout[cur := map[]]));
    var _ := PopulateLayoutSidebar(s);
    s.SaveState(store, writeOk);
    LogActivity(s, now, "Croquis", "Lienzo de la página " + cur + " restablecido.");
  }

  /**
   * A reset empties the current page and no other, after which every
   * location shows in the sidebar; the pages' names stay.
   */
  lemma ResetPageEffect(w: World, choice: Choice, now: Now, writeOk: bool)
    ensures w.mem.app.session.readOnlyMode || choice == Cancelled ==> ResetPage(w, choice, now, writeOk) == w
    ensures var l := w.mem.app.layout;
      var r := ResetPage(w, choice, now, writeOk).mem.app;
      !w.mem.app.session.readOnlyMode && choice == Confirmed ==>
        r.layout.mapLayout == l.mapLayout[l.currentLayoutPage := map[]]
        && CurrentShapes(r.layout) == map[]
        && (forall e :: e in Sidebar(r) ==> !e.hidden)
        && r.layout.layoutPageNames == l.layoutPageNames && r.layout.currentLayoutPage == l.currentLayoutPage
        && r.goods == w.mem.app.goods && r.custody == w.mem.app.custody
  {
    var app := w.mem.app;
    var l := app.layout;
    if !app.session.readOnlyMode && choice == Confirmed {
      var w0 := SetApp(w, Memoized(app.(layout := l.(mapLayout := l.mapLayout[l.currentLayoutPage := map[]]))));
      SaveKeepsData(w0, writeOk);
      var r := ResetPage(w, choice, now, writeOk).mem.app;
      assert CurrentShapes(r.layout) == map[];
      forall e | e in Sidebar(r)
        ensures !e.hidden
      {
        var i :| 0 <= i < |Sidebar(r)| && Sidebar(r)[i] == e;
      }
    }
  }

  // ---------------------------------------------------------------------
  // The canvas (`loadSavedLayout`, `createShapeOnCanvas`)

  /**
   * A stored shape as `createShapeOnCanvas` draws it, and so as
   * `saveLayoutPositions` reads it back: a location that no custodian is at
   * is not drawn; a drawn location carries the first custodian's area; any
   * other shape keeps its type and carries no area.
   */
  function Drawn(cs: seq<Custodian>, id: string, shape: Shape): Option<Shape>
  {
    if shape.shapeType == "location" then
      var at := AtLocation(cs, id);
      if at == [] then None else Some(Shape("location", at[0].area))
    else Some(Shape(shape.shapeType, ""))
  }

  /** A page as drawn: the shapes that are drawn, each as drawn. */
  function DrawnPage(cs: seq<Custodian>, page: map<string, Shape>): map<string, Shape>
  {
    map id | id in page && Drawn(cs, id, page[id]).Some? :: Drawn(cs, id, page[id]).value
  }

  /** The shapes on the canvas: the current page as `loadSavedLayout` draws it. */
  function Canvas(app: State): map<string, Shape>
  {
    DrawnPage(app.custody.resguardantes, CurrentShapes(app.layout))
  }

  /** A page that drawing leaves as it is. */
  predicate AsDrawn(cs: seq<Custodian>, page: map<string, Shape>)
  {
    DrawnPage(cs, page) == page
  }

  /**
   * The canvas holds the page's shapes except the locations that no
   * custodian is at; each keeps its type, a location takes the area of the
   * first custodian there and any other shape has no area.
   */
  lemma DrawnPageExactly(cs: seq<Custodian>, page: map<string, Shape>, id: string)
    ensures var r := DrawnPage(cs, page);
      (id in r <==> id in page && (page[id].shapeType == "location" ==> AtLocation(cs, id) != []))
      && (id in r ==> id in page && r[id].shapeType == page[id].shapeType)
      && (id in r && page[id].shapeType == "location" ==> r[id].areaId == AtLocation(cs, id)[0].area)
      && (id in r && page[id].shapeType != "location" ==> r[id].areaId == "")
  {
  }

  /** Drawing a drawn page again changes nothing. */
  lemma DrawnPageIdempotent(cs: seq<Custodian>, page: map<string, Shape>)
    ensures AsDrawn(cs, DrawnPage(cs, page))
  {
    var d := DrawnPage(cs, page);
    forall id | id in d
      ensures Drawn(cs, id, d[id]) == Some(d[id])
    {
    }
  }

  /** A shape that is drawn as it is can join a page as drawn. */
  lemma AsDrawnPut(cs: seq<Custodian>, page: map<string, Shape>, id: string, shape: Shape)
    requires AsDrawn(cs, page) && Drawn(cs, id, shape) == Some(shape)
    ensures AsDrawn(cs, page[id := shape])
  {
    var p := page[id := shape];
    forall k | k in p
      ensures Drawn(cs, k, p[k]) == Some(p[k])
    {
      if k != id {
        assert k in DrawnPage(cs, page);
      }
    }
  }

  /** Taking a shape off a page as drawn leaves it as drawn. */
  lemma AsDrawnRemove(cs: seq<Custodian>, page: map<string, Shape>, id: string)
    requires AsDrawn(cs, page)
    ensures AsDrawn(cs, page - {id})
  {
    var p := page - {id};
    forall k | k in p
      ensures Drawn(cs, k, p[k]) == Some(p[k])
    {
      assert k in DrawnPage(cs, page);
    }
  }

  // ---------------------------------------------------------------------
  // Shapes on the current page

  /**
   * `saveLayoutPositions`: the current page becomes the canvas's shapes,
   * and the save is logged with their number.
   */
  function PositionsSaved(app: State, page: map<string, Shape>, now: Now): State
  {
    var l := app.layout;
    var cur := l.currentLayoutPage;
    Log(app.(layout := l.(mapLayout := l.mapLayout[cur := page])), now, "Croquis guardado", SavedMessage(cur, |page|))
  }

  /** The log message of `saveLayoutPositions`. */
  function SavedMessage(page: string, count: nat): string
  {
    "Se guardó la página " + page + " con " + NatToString(count) + " elementos."
  }

  method SaveLayoutPositions(s: Session, page: map<string, Shape>, now: Now)
    modifies s`app
    ensures s.app == PositionsSaved(old(s.app), page, now)
  {
    var cur := s.app.layout.currentLayoutPage;
    s.app := s.app.(layout := s.app.layout.(mapLayout := s.app.layout.mapLayout[cur := page]));
    LogActivity(s, now, "Croquis guardado", SavedMessage(cur, |page|));
  }

  /** Saving positions replaces the current page only and appends one log entry. */
  lemma PositionsSavedEffect(app: State, page: map<string, Shape>, now: Now)
    ensures var r := PositionsSaved(app, page, now);
      CurrentShapes(r.layout) == page
      && (forall k :: k != app.layout.currentLayoutPage ==>
            (k in r.layout.mapLayout <==> k in app.layout.mapLayout)
            && (k in r.layout.mapLayout ==> r.layout.mapLayout[k] == app.layout.mapLayout[k]))
      && r.session.activityLog.Some?
      && |r.session.activityLog.value| == |app.session.activityLog.GetOr([])| + 1
      && r.goods == app.goods && r.custody == app.custody
  {
    var l := app.layout;
    LogOnlyAppends(app.(layout := l.(mapLayout := l.mapLayout[l.currentLayoutPage := page])), now, "Croquis guardado",
                   SavedMessage(l.currentLayoutPage, |page|));
  }

  /** The save button: in read-only mode nothing; otherwise save the canvas's positions, then save the state. */
  function SaveLayout(w: World, now: Now, writeOk: bool): World
  {
    var app := w.mem.app;
    if app.session.readOnlyMode then w
    else Save(SetApp(w, PositionsSaved(app, Canvas(app), now)), writeOk)
  }

  method SaveLayoutHandler(s: Session, store: SnapshotStore, now: Now, writeOk: bool)
    modifies s, store
    ensures WorldOf(s, store) == SaveLayout(old(WorldOf(s, store)), now, writeOk)
  {
    if s.app.session.readOnlyMode {
      return;
    }
    SaveLayoutPositions(s, Canvas(s.app), now);
    s.SaveState(store, writeOk);
  }

  /**
   * Saving writes the canvas over the current page: the locations nobody is
   * at are gone and every location takes its first custodian's area. The
   * other pages stay, and the saved page is drawn as it is.
   */
  lemma SaveLayoutEffect(w: World, now: Now, writeOk: bool)
    requires !w.mem.app.session.readOnlyMode
    ensures var r := SaveLayout(w, now, writeOk).mem.app;
      var l := w.mem.app.layout;
      CurrentShapes(r.layout) == Canvas(w.mem.app)
      && Canvas(r) == CurrentShapes(r.layout)
      && (forall k :: k != l.currentLayoutPage && k in l.mapLayout ==> k in r.layout.mapLayout && r.layout.mapLayout[k] == l.mapLayout[k])
      && r.custody == w.mem.app.custody && r.goods == w.mem.app.goods
  {
    var app := w.mem.app;
    PositionsSavedEffect(app, Canvas(app), now);
    SaveKeepsData(SetApp(w, PositionsSaved(app, Canvas(app), now)), writeOk);
    DrawnPageIdempotent(app.custody.resguardantes, CurrentShapes(app.layout));
  }

  /**
   * Saving a page that is already drawn as it is keeps every page's shapes,
   * and stores them when the write succeeds.
   */
  lemma SaveLayoutKeepsPages(w: World, now: Now, writeOk: bool)
    requires !w.mem.app.session.readOnlyMode
    requires w.mem.app.layout.currentLayoutPage in w.mem.app.layout.mapLayout
    requires AsDrawn(w.mem.app.custody.resguardantes, CurrentShapes(w.mem.app.layout))
    ensures var r := SaveLayout(w, now, writeOk);
      r.mem.app.layout.mapLayout == w.mem.app.layout.mapLayout
      && (writeOk ==> r.stored == Some(Written(ToDocument(r.mem.app))))
      && (!writeOk ==> r.mem.app.session.readOnlyMode && r.stored == w.stored)
  {
    var app := w.mem.app;
    var l := app.layout;
    assert l.mapLayout[l.currentLayoutPage := Canvas(app)] == l.mapLayout;
  }

  /** A second save right after a first one leaves every page as the first left it. */
  lemma SaveLayoutTwice(w: World, now: Now, now2: Now, writeOk: bool)
    requires !w.mem.app.session.readOnlyMode
    ensures var r1 := SaveLayout(w, now, true);
      SaveLayout(r1, now2, writeOk).mem.app.layout.mapLayout == r1.mem.app.layout.mapLayout
  {
    var r1 := SaveLayout(w, now, true);
    SaveLayoutEffect(w, now, true);
    SaveLayoutKeepsPages(r1, now2, writeOk);
  }

  /**
   * A click on a sidebar entry, or its drop on the canvas: nothing in
   * read-only mode; a location not yet on the canvas whose first user is
   * found is placed with that user's area (memoising its colour); then the
   * canvas's positions are saved, without saving the state.
   */
  function PlaceLocation(w: World, locId: string, now: Now): World
  {
    var app := w.mem.app;
    var l := app.layout;
    var page := Canvas(app);
    var at := AtLocation(app.custody.resguardantes, locId);
    if app.session.readOnlyMode then w
    else if locId in page || at == [] then SetApp(w, PositionsSaved(app, page, now))
    else
      var colors := ColorMemo(l.layoutItemColors, at[0].area).0;
      SetApp(w, PositionsSaved(app.(layout := l.(layoutItemColors := colors)), page[locId := Shape("location", at[0].area)], now))
  }

  method PlaceLocationHandler(s: Session, store: SnapshotStore, locId: string, now: Now)
    modifies s`app
    ensures WorldOf(s, store) == PlaceLocation(old(WorldOf(s, store)), locId, now)
  {
    if s.app.session.readOnlyMode {
      return;
    }
    var page := Canvas(s.app);
    var at := AtLocation(s.app.custody.resguardantes, locId);
    if locId !in page && at != [] {
      var _ := GetAreaColor(s, at[0].area);
      page := page[locId := Shape("location", at[0].area)];
    }
    SaveLayoutPositions(s, page, now);
  }

  /**
   * After a location with users is placed, it is on the current page with
   * the first user's area (unless a shape of another type holds its id),
   * its sidebar entry is hidden, and the saved page is the canvas with it.
   */
  lemma PlacedIsHidden(w: World, locId: string, now: Now)
    requires !w.mem.app.session.readOnlyMode
    requires AtLocation(w.mem.app.custody.resguardantes, locId) != []
    ensures var r := PlaceLocation(w, locId, now).mem.app;
      var page := CurrentShapes(w.mem.app.layout);
      var at := AtLocation(w.mem.app.custody.resguardantes, locId);
      locId in CurrentShapes(r.layout)
      && (locId !in page || page[locId].shapeType == "location" ==>
            CurrentShapes(r.layout)[locId] == Shape("location", at[0].area))
      && (forall k :: k != locId ==> (k in CurrentShapes(r.layout) <==> k in Canvas(w.mem.app)))
      && Canvas(r) == CurrentShapes(r.layout)
      && (forall e :: e in Sidebar(r) && e.locId == locId ==> e.hidden)
      && r.custody == w.mem.app.custody
  {
    var app := w.mem.app;
    var cs := app.custody.resguardantes;
    var r := PlaceLocation(w, locId, now).mem.app;
    var at := AtLocation(cs, locId);
    DrawnPageExactly(cs, CurrentShapes(app.layout), locId);
    DrawnPageIdempotent(cs, CurrentShapes(app.layout));
    if locId !in Canvas(app) {
      AsDrawnPut(cs, Canvas(app), locId, Shape("location", at[0].area));
    }
    forall e | e in Sidebar(r) && e.locId == locId
      ensures e.hidden
    {
      var i :| 0 <= i < |Sidebar(r)| && Sidebar(r)[i] == e;
    }
  }

  /** The shape type a toolbar tool creates on the canvas, if it is one of the three known tools. */
  function ToolShapeType(toolType: string): Option<string>
  {
    if toolType == "note" then Some("note")
    else if toolType == "arrow" then Some("tool")
    else if toolType == "text" then Some("text")
    else None
  }

  /** The id of a shape a tool creates at `now`. */
  function ToolShapeId(toolType: string, now: Now): string
  {
    toolType + "-" + IntToString(now.epochMs)
  }

  /**
   * A toolbar tool dropped on the canvas: nothing in read-only mode; a known
   * tool adds its shape, with no area, unless one with its id is already
   * there; then the canvas's positions are saved, without saving the state.
   */
  function DropTool(w: World, toolType: string, now: Now): World
  {
    var app := w.mem.app;
    var page := Canvas(app);
    var id := ToolShapeId(toolType, now);
    if app.session.readOnlyMode then w
    else match ToolShapeType(toolType)
      case Some(t) => SetApp(w, PositionsSaved(app, if id in page then page else page[id := Shape(t, "")], now))
      case None => SetApp(w, PositionsSaved(app, page, now))
  }

  method DropToolHandler(s: Session, store: SnapshotStore, toolType: string, now: Now)
    modifies s`app
    ensures WorldOf(s, store) == DropTool(old(WorldOf(s, store)), toolType, now)
  {
    if s.app.session.readOnlyMode {
      return;
    }
    var page := Canvas(s.app);
    var id := ToolShapeId(toolType, now);
    var t := ToolShapeType(toolType);
    if t.Some? && id !in page {
      page := page[id := Shape(t.value, "")];
    }
    SaveLayoutPositions(s, page, now);
  }

  /**
   * Dropping a known tool puts its shape on the current page, which
   * otherwise holds the canvas's shapes; an unknown tool saves the canvas
   * alone. Either way the page draws as it is and the other pages stay.
   */
  lemma DropToolEffect(w: World, toolType: string, now: Now)
    requires !w.mem.app.session.readOnlyMode
    ensures var r := DropTool(w, toolType, now).mem.app;
      var page := CurrentShapes(r.layout);
      var id := ToolShapeId(toolType, now);
      var l := w.mem.app.layout;
      (ToolShapeType(toolType).Some? ==> id in page)
      && (ToolShapeType(toolType).Some? && id !in Canvas(w.mem.app) ==>
            page[id] == Shape(ToolShapeType(toolType).value, ""))
      && (ToolShapeType(toolType).None? ==> page == Canvas(w.mem.app))
      && (forall k :: k != id ==> (k in page <==> k in Canvas(w.mem.app)))
      && Canvas(r) == page
      && (forall k :: k != l.currentLayoutPage && k in l.mapLayout ==> k in r.layout.mapLayout && r.layout.mapLayout[k] == l.mapLayout[k])
      && r.custody == w.mem.app.custody && r.goods == w.mem.app.goods
  {
    var app := w.mem.app;
    var cs := app.custody.resguardantes;
    var id := ToolShapeId(toolType, now);
    DrawnPageIdempotent(cs, CurrentShapes(app.layout));
    var page := match ToolShapeType(toolType)
      case Some(t) => if id in Canvas(app) then Canvas(app) else Canvas(app)[id := Shape(t, "")]
      case None => Canvas(app);
    if ToolShapeType(toolType).Some? && id !in Canvas(app) {
      AsDrawnPut(cs, Canvas(app), id, Shape(ToolShapeType(toolType).value, ""));
    }
    PositionsSavedEffect(app, page, now);
  }

  /** A deleted image shape whose image id is known. */
  predicate HasImage(l: Layout, id: string, shapeType: string)
  {
    shapeType == "image" && id in l.layoutImages && l.layoutImages[id] != ""
  }

  /**
   * The layout after a shape's delete button: an image shape with a known
   * image id loses its `layoutImages` entry, and the current page becomes
   * the canvas without the shape.
   */
  function ShapeDeleted(l: Layout, canvas: map<string, Shape>, id: string, shapeType: string): Layout
  {
    l.(layoutImages := if HasImage(l, id, shapeType) then l.layoutImages - {id} else l.layoutImages,
       mapLayout := l.mapLayout[l.currentLayoutPage := canvas - {id}])
  }

  /** The layout-image blobs after a shape's delete button. */
  function BlobsDeleted(l: Layout, blobs: map<string, Blob>, id: string, shapeType: string): map<string, Blob>
  {
    if HasImage(l, id, shapeType) then blobs - {l.layoutImages[id]} else blobs
  }

  /**
   * The delete button on a shape: nothing in read-only mode; otherwise the
   * image blob and entry go, the page is saved without the shape, and the
   * state is saved. The result pairs the world with the layout-image blobs.
   */
  function DeleteShape(w: World, blobs: map<string, Blob>, id: string, shapeType: string, now: Now, writeOk: bool)
    : (World, map<string, Blob>)
  {
    var app := w.mem.app;
    var l := app.layout;
    if app.session.readOnlyMode then (w, blobs)
    else
      var app1 := Log(app.(layout := ShapeDeleted(l, Canvas(app), id, shapeType)), now, "Croquis guardado",
                      SavedMessage(l.currentLayoutPage, |Canvas(app) - {id}|));
      (Save(SetApp(w, app1), writeOk), BlobsDeleted(l, blobs, id, shapeType))
  }

  method DeleteShapeHandler(s: Session, store: SnapshotStore, db: BlobStore, id: string, shapeType: string, now: Now, writeOk: bool)
    modifies s, store, db
    ensures (WorldOf(s, store), db.layoutImages) == DeleteShape(old(WorldOf(s, store)), old(db.layoutImages), id, shapeType, now, writeOk)
    ensures db.photos == old(db.photos)
  {
    if s.app.session.readOnlyMode {
      return;
    }
    ghost var app0 := s.app;
    ghost var l0 := app0.layout;
    var page := Canvas(s.app) - {id};
    ForgetImage(s, db, id, shapeType);
    assert s.app.layout.(mapLayout := s.app.layout.mapLayout[l0.currentLayoutPage := page]) == ShapeDeleted(l0, Canvas(app0), id, shapeType);
    SaveLayoutPositions(s, page, now);
    assert s.app == Log(app0.(layout := ShapeDeleted(l0, Canvas(app0), id, shapeType)), now, "Croquis guardado",
                        SavedMessage(l0.currentLayoutPage, |page|));
    s.SaveState(store, writeOk);
  }

  /** The image part of a deletion: the shape's image record and its blob go, when it has one. */
  method ForgetImage(s: Session, db: BlobStore, id: string, shapeType: string)
    modifies s`app, db`layoutImages
    ensures var l := old(s.app.layout);
      s.app == old(s.app).(layout := l.(layoutImages := if HasImage(l, id, shapeType) then l.layoutImages - {id} else l.layoutImages))
    ensures db.layoutImages == BlobsDeleted(old(s.app.layout), old(db.layoutImages), id, shapeType)
  {
    if shapeType == "image" && id in s.app.layout.layoutImages {
      var imageId := s.app.layout.layoutImages[id];
      if imageId != "" {
        db.DeleteLayoutImage(imageId);
        s.app := s.app.(layout := s.app.layout.(layoutImages := s.app.layout.layoutImages - {id}));
      }
    }
  }

  /**
   * Deleting a shape saves the canvas without it over the current page (so
   * the locations nobody is at go too) and leaves the other pages; an image
   * shape with a known image loses exactly its `layoutImages` entry and its
   * blob, and any other shape leaves both.
   */
  lemma DeleteShapeEffect(w: World, blobs: map<string, Blob>, id: string, shapeType: string, now: Now, writeOk: bool)
    requires !w.mem.app.session.readOnlyMode
    ensures var l := w.mem.app.layout;
      var (r, b) := DeleteShape(w, blobs, id, shapeType, now, writeOk);
      r.mem.app.layout == ShapeDeleted(l, Canvas(w.mem.app), id, shapeType) && b == BlobsDeleted(l, blobs, id, shapeType)
      && CurrentShapes(r.mem.app.layout) == Canvas(w.mem.app) - {id}
      && id !in CurrentShapes(r.mem.app.layout)
      && Canvas(r.mem.app) == CurrentShapes(r.mem.app.layout)
      && (forall k :: k != l.currentLayoutPage && k in l.mapLayout ==> k in r.mem.app.layout.mapLayout && r.mem.app.layout.mapLayout[k] == l.mapLayout[k])
      && (HasImage(l, id, shapeType) ==>
            r.mem.app.layout.layoutImages == l.layoutImages - {id} && b == blobs - {l.layoutImages[id]})
      && (!HasImage(l, id, shapeType) ==> r.mem.app.layout.layoutImages == l.layoutImages && b == blobs)
      && r.mem.app.goods == w.mem.app.goods && r.mem.app.custody == w.mem.app.custody
  {
    var app := w.mem.app;
    var l := app.layout;
    var app1 := Log(app.(layout := ShapeDeleted(l, Canvas(app), id, shapeType)), now, "Croquis guardado",
                    SavedMessage(l.currentLayoutPage, |Canvas(app) - {id}|));
    SaveKeepsData(SetApp(w, app1), writeOk);
    var r := DeleteShape(w, blobs, id, shapeType, now, writeOk).0.mem.app;
    assert r.layout == app1.layout && r.custody == app.custody;
    DrawnPageIdempotent(app.custody.resguardantes, CurrentShapes(l));
    AsDrawnRemove(app.custody.resguardantes, Canvas(app), id);
    assert Canvas(r) == DrawnPage(app.custody.resguardantes, Canvas(app) - {id});
  }

  /** The image id of an image added at `now`, and the id of its shape. */
  function ImageId(now: Now): string
  {
    "img_" + IntToString(now.epochMs)
  }

  function ImageShapeId(now: Now): string
  {
    "image-" + ImageId(now)
  }

  /**
   * The layout after an image file is added at `now`: `layoutImages` maps
   * the new shape to the new image, and the current page becomes the canvas
   * with the shape, unless one with its id already is on it.
   */
  function ImageAdded(l: Layout, canvas: map<string, Shape>, now: Now): Layout
  {
    var shapeId := ImageShapeId(now);
    l.(layoutImages := l.layoutImages[shapeId := ImageId(now)],
       mapLayout := l.mapLayout[l.currentLayoutPage := if shapeId in canvas then canvas else canvas[shapeId := Shape("image", "")]])
  }

  /**
   * A chosen image file: nothing without a file or when the blob cannot be
   * stored; otherwise the blob is stored, the image added, positions saved
   * and then the state.
   */
  function AddImage(w: World, blobs: map<string, Blob>, file: Option<Blob>, now: Now, dbOk: bool, writeOk: bool)
    : (World, map<string, Blob>)
  {
    var app := w.mem.app;
    var l := app.layout;
    if file.None? || !dbOk then (w, blobs)
    else
      var l1 := ImageAdded(l, Canvas(app), now);
      var app1 := Log(app.(layout := l1), now, "Croquis guardado", SavedMessage(l.currentLayoutPage, |CurrentShapes(l1)|));
      (Save(SetApp(w, app1), writeOk), blobs[ImageId(now) := file.value])
  }

  method AddImageHandler(s: Session, store: SnapshotStore, db: BlobStore, file: Option<Blob>, now: Now, dbOk: bool, writeOk: bool)
    modifies s, store, db
    ensures (WorldOf(s, store), db.layoutImages) == AddImage(old(WorldOf(s, store)), old(db.layoutImages), file, now, dbOk, writeOk)
    ensures db.photos == old(db.photos)
  {
    if file.None? || !dbOk {
      return;
    }
    var imageId := ImageId(now);
    var shapeId := ImageShapeId(now);
    db.SetLayoutImage(imageId, file.value);
    var page := Canvas(s.app);
    s.app := s.app.(layout := s.app.layout.(layoutImages := s.app.layout.layoutImages[shapeId := imageId]));
    if shapeId !in page {
      page := page[shapeId := Shape("image", "")];
    }
    SaveLayoutPositions(s, page, now);
    s.SaveState(store, writeOk);
  }

  /**
   * An added image's shape is on the current page, which is otherwise the
   * canvas as it was, and its blob is stored under its image id.
   */
  lemma AddImageEffect(w: World, blobs: map<string, Blob>, file: Blob, now: Now, writeOk: bool)
    ensures var l := w.mem.app.layout;
      var (r, b) := AddImage(w, blobs, Some(file), now, true, writeOk);
      var page := CurrentShapes(r.mem.app.layout);
      r.mem.app.layout == ImageAdded(l, Canvas(w.mem.app), now)
      && ImageShapeId(now) in page
      && (forall k :: k != ImageShapeId(now) ==> (k in page <==> k in Canvas(w.mem.app)))
      && (ImageShapeId(now) !in Canvas(w.mem.app) ==> Canvas(r.mem.app) == page)
      && r.mem.app.layout.layoutImages[ImageShapeId(now)] == ImageId(now)
      && ImageId(now) in b && b[ImageId(now)] == file
      && r.mem.app.goods == w.mem.app.goods && r.mem.app.custody == w.mem.app.custody
  {
    var app := w.mem.app;
    var l := app.layout;
    var l1 := ImageAdded(l, Canvas(app), now);
    var app1 := Log(app.(layout := l1), now, "Croquis guardado", SavedMessage(l.currentLayoutPage, |CurrentShapes(l1)|));
    SaveKeepsData(SetApp(w, app1), writeOk);
    DrawnPageIdempotent(app.custody.resguardantes, CurrentShapes(l));
    if ImageShapeId(now) !in Canvas(app) {
      AsDrawnPut(app.custody.resguardantes, Canvas(app), ImageShapeId(now), Shape("image", ""));
    }
  }

  /**
   * Adding an image under new ids and then deleting its shape gives back the
   * image records and the blob store as they were, and the current page as
   * the canvas showed it: the page as it was when it is drawn as it is, and
   * without the locations nobody is at otherwise.
   */
  lemma AddImageThenDelete(app: State, blobs: map<string, Blob>, file: Blob, now: Now)
    requires ImageShapeId(now) !in CurrentShapes(app.layout) && ImageShapeId(now) !in app.layout.layoutImages
    requires ImageId(now) !in blobs
    ensures var l := app.layout;
      var l1 := ImageAdded(l, Canvas(app), now);
      var l2 := ShapeDeleted(l1, Canvas(app.(layout := l1)), ImageShapeId(now), "image");
      HasImage(l1, ImageShapeId(now), "image")
      && l2 == l.(mapLayout := l.mapLayout[l.currentLayoutPage := Canvas(app)])
      && (l.currentLayoutPage in l.mapLayout && AsDrawn(app.custody.resguardantes, CurrentShapes(l)) ==> l2 == l)
      && BlobsDeleted(l1, blobs[ImageId(now) := file], ImageShapeId(now), "image") == blobs
  {
    var cs := app.custody.resguardantes;
    var l := app.layout;
    var shapeId := ImageShapeId(now);
    var canvas := Canvas(app);
    var l1 := ImageAdded(l, canvas, now);
    DrawnPageExactly(cs, CurrentShapes(l), shapeId);
    DrawnPageIdempotent(cs, CurrentShapes(l));
    AsDrawnPut(cs, canvas, shapeId, Shape("image", ""));
    assert Canvas(app.(layout := l1)) == canvas[shapeId := Shape("image", "")];
    MapPutRemove(canvas, shapeId, Shape("image", ""));
    MapPutRemove(l.layoutImages, shapeId, ImageId(now));
    MapPutRemove(blobs, ImageId(now), file);
    if l.currentLayoutPage in l.mapLayout && AsDrawn(cs, CurrentShapes(l)) {
      assert l.mapLayout[l.currentLayoutPage := canvas] == l.mapLayout;
    }
  }

  // ---------------------------------------------------------------------
  // Opening the editor

  /** The open button: refused in read-only mode; otherwise the current page, or `page1`, is shown. */
  function OpenEditor(w: World): World
  {
    var app := w.mem.app;
    var cur := app.layout.currentLayoutPage;
    if app.session.readOnlyMode then w
    else SetApp(w, Switched(app, if cur != "" then cur else FirstPage))
  }

  method OpenEditorHandler(s: Session, store: SnapshotStore)
    modifies s`app
    ensures WorldOf(s, store) == OpenEditor(old(WorldOf(s, store)))
  {
    if s.app.session.readOnlyMode {
      return;
    }
    var cur := s.app.layout.currentLayoutPage;
    var _ := SwitchLayoutPage(s, if cur != "" then cur else FirstPage);
  }

  /**
   * Opening keeps the current page, or starts on `page1` when there is none,
   * and changes nothing but the memoised colours.
   */
  lemma OpenEditorEffect(w: World)
    ensures var r := OpenEditor(w).mem.app;
      var cur := w.mem.app.layout.currentLayoutPage;
      (w.mem.app.session.readOnlyMode ==> OpenEditor(w) == w)
      && (!w.mem.app.session.readOnlyMode ==>
            r.layout.currentLayoutPage == (if cur != "" then cur else FirstPage)
            && r == w.mem.app.(layout := w.mem.app.layout.(currentLayoutPage := r.layout.currentLayoutPage,
                                                            layoutItemColors := r.layout.layoutItemColors)))
  {
  }
}

=== FILE: logger.dfy ===
/** The activity log: one text entry per user-visible action. */
module Logger {
  import opened Wrappers
  import opened Entities
  import opened AppState

  /** The text of one entry: `[<timestamp>] <action>: <details>`. */
  function LogEntry(timestamp: string, action: string, details: string): string
  {
    "[" + timestamp + "] " + action + ": " + details
  }

  /** An entry starts with its bracketed timestamp and ends with its details. */
  lemma LogEntryShape(timestamp: string, action: string, details: string)
    ensures var e := LogEntry(timestamp, action, details);
      |e| == |timestamp| + |action| + |details| + 5
      && e[0] == '[' && e[1..|timestamp| + 1] == timestamp && e[|e| - |details|..] == details
  {
  }

  /** The log after `entry` is added: appended to an existing log, or a log of one entry. */
  function Appended(log: Option<seq<string>>, entry: string): (r: seq<string>)
    ensures |r| >= 1 && r[|r| - 1] == entry
    ensures r[..|r| - 1] == log.GetOr([])
  {
    match log
    case Some(l) => l + [entry]
    case None => [entry]
  }

  /** `logActivity` applied to a state value. */
  function Log(app: State, now: Now, action: string, details: string): State
  {
    app.(session := app.session.(activityLog := Some(Appended(app.session.activityLog, LogEntry(now.localStamp, action, details)))))
  }

  /** `logActivity` applied to the in-memory part of a world. */
  function LogW(w: World, now: Now, action: string, details: string): World
  {
    w.(mem := w.mem.(app := Log(w.mem.app, now, action, details)))
  }

  /** Logging adds one entry at the end and changes nothing else. */
  lemma LogOnlyAppends(app: State, now: Now, action: string, details: string)
    ensures var r := Log(app, now, action, details);
      r.(session := r.session.(activityLog := app.session.activityLog)) == app
      && r.session.activityLog.Some?
      && r.session.activityLog.value == app.session.activityLog.GetOr([]) + [LogEntry(now.localStamp, action, details)]
  {
    var e := LogEntry(now.localStamp, action, details);
    var r := Appended(app.session.activityLog, e);
    assert r == r[..|r| - 1] + [e];
  }

  /** `logActivity(action, details)`. */
  method LogActivity(s: Session, now: Now, action: string, details: string := "")
    modifies s`app
    ensures s.app == Log(old(s.app), now, action, details)
  {
    var entry := LogEntry(now.localStamp, action, details);
    match s.app.session.activityLog
    case Some(l) =>
      s.app := s.app.(session := s.app.session.(activityLog := Some(l + [entry])));
    case None =>
      s.app := s.app.(session := s.app.session.(activityLog := Some([entry])));
  }
}

=== FILE: main_handlers.dfy ===
/**
 * The orchestration handlers of the main module: area and inventory
 * completion, deleting an additional good or a whole list, the operator
 * login, custodian creation, editing, deletion with undo and activation,
 * notes, and registering or editing additional goods.
 *
 * Each handler is one sequential step on a `Session` and the stored entry,
 * specified by a function on `World`. Dialog answers, the outcome of the
 * storage write (`writeOk`), the clock (`now`) and generated ids are inputs.
 */
module MainHandlers {
  import opened Wrappers
  import opened JsText
  import opened Seqs
  import opened Entities
  import opened AppState
  import opened Logger
  import opened Render

  /** A JavaScript value of type string-or-null used as a condition. */
  predicate Truthy(o: Option<string>)
  {
    o.Some? && o.value != ""
  }

  /**
   * The three steps most handlers end with (change the state, log, save)
   * change nothing but the log and the read-only flag.
   */
  lemma Committed(w: World, app: State, now: Now, action: string, details: string, writeOk: bool)
    ensures var r := Save(LogW(SetApp(w, app), now, action, details), writeOk);
      r.mem.app.goods == app.goods && r.mem.app.custody == app.custody && r.mem.app.areaBook == app.areaBook
      && r.mem.app.layout == app.layout && r.mem.serialNumberCache == w.mem.serialNumberCache
      && (r.mem.app.session.readOnlyMode <==> app.session.readOnlyMode || !writeOk)
  {
    SaveKeepsData(LogW(SetApp(w, app), now, action, details), writeOk);
  }

  // ---------------------------------------------------------------------
  // checkAreaCompletion

  /** The items of an area. */
  function AreaItems(inv: seq<InventoryItem>, areaId: string): seq<InventoryItem>
  {
    Filter(inv, (it: InventoryItem) => it.areaOriginal == areaId)
  }

  /** `areaItems.length > 0 && areaItems.every(item => item.UBICADO === 'SI')`. */
  predicate AreaComplete(inv: seq<InventoryItem>, areaId: string)
  {
    var items := AreaItems(inv, areaId);
    |items| > 0 && forall i | 0 <= i < |items| :: items[i].Located()
  }

  /** Some item belongs to the area. */
  predicate HasItems(inv: seq<InventoryItem>, areaId: string)
  {
    exists i :: 0 <= i < |inv| && inv[i].areaOriginal == areaId
  }

  /** Every item of the area is located. */
  predicate AllOfAreaLocated(inv: seq<InventoryItem>, areaId: string)
  {
    forall i :: 0 <= i < |inv| && inv[i].areaOriginal == areaId ==> inv[i].Located()
  }

  /** An area is complete exactly when it has an item and every item of it is located. */
  lemma AreaCompleteIff(inv: seq<InventoryItem>, areaId: string)
    ensures AreaComplete(inv, areaId) <==> HasItems(inv, areaId) && AllOfAreaLocated(inv, areaId)
  {
    if AreaComplete(inv, areaId) {
      AreaCompleteForward(inv, areaId);
    }
    if HasItems(inv, areaId) && AllOfAreaLocated(inv, areaId) {
      AreaCompleteBackward(inv, areaId);
    }
  }

  lemma AreaCompleteForward(inv: seq<InventoryItem>, areaId: string)
    requires AreaComplete(inv, areaId)
    ensures HasItems(inv, areaId) && AllOfAreaLocated(inv, areaId)
  {
    var items := AreaItems(inv, areaId);
    assert items[0] in items;
    var i :| 0 <= i < |inv| && inv[i] == items[0];
    forall i | 0 <= i < |inv| && inv[i].areaOriginal == areaId
      ensures inv[i].Located()
    {
      assert inv[i] in items;
      var j :| 0 <= j < |items| && items[j] == inv[i];
    }
  }

  lemma AreaCompleteBackward(inv: seq<InventoryItem>, areaId: string)
    requires HasItems(inv, areaId) && AllOfAreaLocated(inv, areaId)
    ensures AreaComplete(inv, areaId)
  {
    var items := AreaItems(inv, areaId);
    var i :| 0 <= i < |inv| && inv[i].areaOriginal == areaId;
    assert inv[i] in items;
    forall j | 0 <= j < |items|
      ensures items[j].Located()
    {
      assert items[j] in items;
      var k :| 0 <= k < |inv| && inv[k] == items[j];
    }
  }

  /** The state with `areaId` added to or removed from the completed areas. */
  function MarkCompleted(app: State, areaId: string, complete: bool): State
  {
    var done := app.areaBook.completedAreas;
    app.(areaBook := app.areaBook.(completedAreas := if complete then done + {areaId} else done - {areaId}))
  }

  /** `checkAreaCompletion(areaId)` on the world. */
  function AreaCheck(w: World, now: Now, areaId: string, writeOk: bool): World
  {
    var app := w.mem.app;
    if areaId == "" || areaId in app.areaBook.closedAreas then w
    else
      var complete := AreaComplete(app.goods.inventory, areaId);
      var was := areaId in app.areaBook.completedAreas;
      if complete && !was then
        Save(LogW(SetApp(w, MarkCompleted(app, areaId, true)), now,
                  "Área completada", "Todos los bienes del área " + areaId + " han sido ubicados."), writeOk)
      else if !complete && was then
        Save(LogW(SetApp(w, MarkCompleted(app, areaId, false)), now,
                  "Área ya no completada", "El área " + areaId + " ahora tiene bienes pendientes."), writeOk)
      else w
  }

  /**
   * For an open, named area the check leaves the area marked completed
   * exactly when it is complete, and touches no other area, no item and no
   * closure record; a closed area, or the empty id, is left as it is.
   */
  lemma AreaCheckSyncs(w: World, now: Now, areaId: string, writeOk: bool)
    ensures var r := AreaCheck(w, now, areaId, writeOk).mem.app;
      r.goods == w.mem.app.goods && r.areaBook.closedAreas == w.mem.app.areaBook.closedAreas
      && r.areaBook.completedAreas - {areaId} == w.mem.app.areaBook.completedAreas - {areaId}
      && (areaId != "" && areaId !in w.mem.app.areaBook.closedAreas ==>
            (areaId in r.areaBook.completedAreas <==> AreaComplete(w.mem.app.goods.inventory, areaId)))
    ensures areaId == "" || areaId in w.mem.app.areaBook.closedAreas ==> AreaCheck(w, now, areaId, writeOk) == w
  {
    var app := w.mem.app;
    if areaId != "" && areaId !in app.areaBook.closedAreas {
      var complete := AreaComplete(app.goods.inventory, areaId);
      var was := areaId in app.areaBook.completedAreas;
      if complete && !was {
        Committed(w, MarkCompleted(app, areaId, true), now,
                  "Área completada", "Todos los bienes del área " + areaId + " han sido ubicados.", writeOk);
      } else if !complete && was {
        Committed(w, MarkCompleted(app, areaId, false), now,
                  "Área ya no completada", "El área " + areaId + " ahora tiene bienes pendientes.", writeOk);
      }
    }
  }

  /** Checking again without changing the items changes nothing: the log only records transitions. */
  lemma AreaCheckIdempotent(w: World, now: Now, now2: Now, areaId: string, writeOk: bool, writeOk2: bool)
    ensures var r := AreaCheck(w, now, areaId, writeOk);
      AreaCheck(r, now2, areaId, writeOk2) == r
  {
    AreaCheckSyncs(w, now, areaId, writeOk);
  }

  /** `checkAreaCompletion`. */
  method CheckAreaCompletion(s: Session, store: SnapshotStore, now: Now, areaId: string, writeOk: bool)
    modifies s, store
    ensures WorldOf(s, store) == AreaCheck(old(WorldOf(s, store)), now, areaId, writeOk)
  {
    if areaId == "" || areaId in s.app.areaBook.closedAreas {
      return;
    }
    var complete := AreaComplete(s.app.goods.inventory, areaId);
    var was := areaId in s.app.areaBook.completedAreas;
    if complete && !was {
      s.app := MarkCompleted(s.app, areaId, true);
      LogActivity(s, now, "Área completada", "Todos los bienes del área " + areaId + " han sido ubicados.");
      s.SaveState(store, writeOk);
    } else if !complete && was {
      s.app := MarkCompleted(s.app, areaId, false);
      LogActivity(s, now, "Área ya no completada", "El área " + areaId + " ahora tiene bienes pendientes.");
      s.SaveState(store, writeOk);
    }
  }

  // ---------------------------------------------------------------------
  // checkInventoryCompletion

  /** `state.inventory.every(item => item.UBICADO === 'SI')`. */
  predicate AllLocated(inv: seq<InventoryItem>)
  {
    forall i | 0 <= i < |inv| :: inv[i].Located()
  }

  /** The state with the inventory marked finished. */
  function Finished(app: State): State
  {
    app.(areaBook := app.areaBook.(inventoryFinished := true))
  }

  /** `checkInventoryCompletion` on the world (the summary dialog it opens is not modelled). */
  function InventoryCheck(w: World, now: Now, writeOk: bool): World
  {
    var app := w.mem.app;
    if app.areaBook.inventoryFinished || |app.goods.inventory| == 0 then w
    else if AllLocated(app.goods.inventory) then
      Save(LogW(SetApp(w, Finished(app)), now, "Inventario completado", "Todos los bienes han sido ubicados."), writeOk)
    else w
  }

  /**
   * The inventory is finished afterwards exactly when it already was or it is
   * non-empty and fully located; a finished inventory is never reopened, and
   * a second check changes nothing.
   */
  lemma InventoryCheckOneShot(w: World, now: Now, now2: Now, writeOk: bool, writeOk2: bool)
    ensures var r := InventoryCheck(w, now, writeOk);
      (r.mem.app.areaBook.inventoryFinished <==>
         w.mem.app.areaBook.inventoryFinished || (|w.mem.app.goods.inventory| > 0 && AllLocated(w.mem.app.goods.inventory)))
      && r.mem.app.goods == w.mem.app.goods
      && InventoryCheck(r, now2, writeOk2) == r
    ensures w.mem.app.areaBook.inventoryFinished ==> InventoryCheck(w, now, writeOk) == w
  {
    var app := w.mem.app;
    if !app.areaBook.inventoryFinished && |app.goods.inventory| > 0 && AllLocated(app.goods.inventory) {
      Committed(w, Finished(app), now, "Inventario completado", "Todos los bienes han sido ubicados.", writeOk);
    }
  }

  /** `checkInventoryCompletion`. */
  method CheckInventoryCompletion(s: Session, store: SnapshotStore, now: Now, writeOk: bool)
    modifies s, store
    ensures WorldOf(s, store) == InventoryCheck(old(WorldOf(s, store)), now, writeOk)
  {
    if s.app.areaBook.inventoryFinished || |s.app.goods.inventory| == 0 {
      return;
    }
    if AllLocated(s.app.goods.inventory) {
      s.app := Finished(s.app);
      LogActivity(s, now, "Inventario completado", "Todos los bienes han sido ubicados.");
      s.SaveState(store, writeOk);
    }
  }

  // ---------------------------------------------------------------------
  // deleteAdditionalItem

  /** The photo-store key of an entity's photo: `<type>-<id>`. */
  function PhotoKey(entityType: string, id: string): string
  {
    entityType + "-" + id
  }

  /** `additionalItems.findIndex(i => i.id === id)`. */
  function AdditionalIndex(add: seq<AdditionalItem>, id: string): (k: int)
    ensures -1 <= k < |add|
    ensures k >= 0 ==> add[k].id == id && forall j :: 0 <= j < k ==> add[j].id != id
    ensures k == -1 <==> forall j :: 0 <= j < |add| ==> add[j].id != id
  {
    FindIndex(add, (a: AdditionalItem) => a.id == id)
  }

  /** `additionalItems.filter(i => i.id !== id)`. */
  function OtherAdditional(add: seq<AdditionalItem>, id: string): (r: seq<AdditionalItem>)
    ensures forall x :: x in r <==> x in add && x.id != id
  {
    Filter(add, (a: AdditionalItem) => a.id != id)
  }

  /** The goods without the additional good `itemId` and its photo flag. */
  function WithoutAdditional(g: Goods, itemId: string): Goods
  {
    g.(additionalItems := OtherAdditional(g.additionalItems, itemId),
       additionalPhotos := g.additionalPhotos - {itemId})
  }

  /**
   * `deleteAdditionalItem(itemId)` on the world: drop the good and its photo
   * flag, save, rebuild the cache, then log (after the save).
   */
  function DeleteAdditional(w: World, now: Now, itemId: string, writeOk: bool): World
  {
    var app := w.mem.app;
    var k := AdditionalIndex(app.goods.additionalItems, itemId);
    if k < 0 then w
    else
      LogW(Refreshed(Save(SetApp(w, app.(goods := WithoutAdditional(app.goods, itemId))), writeOk)), now,
           "Bien adicional eliminado", "Descripción: " + app.goods.additionalItems[k].descripcion)
  }

  /**
   * Deleting removes exactly the goods with that id and its photo flag,
   * keeps the other goods in order and the inventory as it was, and leaves
   * the cache rebuilt; an unknown id changes nothing.
   */
  lemma DeleteAdditionalEffect(w: World, now: Now, itemId: string, writeOk: bool, a: AdditionalItem)
    ensures var r := DeleteAdditional(w, now, itemId, writeOk);
      var add := w.mem.app.goods.additionalItems;
      (exists j :: 0 <= j < |add| && add[j].id == itemId) ==>
        (a in r.mem.app.goods.additionalItems <==> a in add && a.id != itemId)
        && r.mem.app.goods.additionalItems == OtherAdditional(add, itemId)
        && r.mem.app.goods.additionalPhotos == w.mem.app.goods.additionalPhotos - {itemId}
        && r.mem.app.goods.inventory == w.mem.app.goods.inventory
        && r.mem.app.custody == w.mem.app.custody
        && CacheFresh(r.mem)
    ensures (forall j :: 0 <= j < |w.mem.app.goods.additionalItems| ==> w.mem.app.goods.additionalItems[j].id != itemId) ==>
      DeleteAdditional(w, now, itemId, writeOk) == w
  {
    var app := w.mem.app;
    var k := AdditionalIndex(app.goods.additionalItems, itemId);
    if k >= 0 {
      SaveKeepsData(SetApp(w, app.(goods := WithoutAdditional(app.goods, itemId))), writeOk);
    }
  }

  /** `deleteAdditionalItem(itemId, transferredPhoto)`. */
  method DeleteAdditionalItem(s: Session, store: SnapshotStore, blobs: BlobStore, now: Now, itemId: string,
                              transferredPhoto: bool, writeOk: bool)
    modifies s, store, blobs`photos
    ensures WorldOf(s, store) == DeleteAdditional(old(WorldOf(s, store)), now, itemId, writeOk)
    ensures blobs.photos ==
      if AdditionalIndex(old(s.app.goods.additionalItems), itemId) >= 0 && !transferredPhoto
      then old(blobs.photos) - {PhotoKey("additional", itemId)} else old(blobs.photos)
  {
    var k := AdditionalIndex(s.app.goods.additionalItems, itemId);
    if k < 0 {
      return;
    }
    ghost var w0 := WorldOf(s, store);
    var item := s.app.goods.additionalItems[k];
    s.app := s.app.(goods := s.app.goods.(additionalItems := OtherAdditional(s.app.goods.additionalItems, itemId)));
    if !transferredPhoto {
      blobs.DeletePhoto(PhotoKey("additional", itemId));
    }
    s.app := s.app.(goods := s.app.goods.(additionalPhotos := s.app.goods.additionalPhotos - {itemId}));
    assert WorldOf(s, store) == SetApp(w0, w0.mem.app.(goods := WithoutAdditional(w0.mem.app.goods, itemId)));
    s.SaveState(store, writeOk);
    s.UpdateSerialNumberCache();
    LogActivity(s, now, "Bien adicional eliminado", "Descripción: " + item.descripcion);
  }

  // ---------------------------------------------------------------------
  // deleteListAndRefresh

  /** The state with the areas recomputed, as `populateAreaSelects` leaves it. */
  function WithAreaList(app: State): State
  {
    app.(areaBook := app.areaBook.(areas := AreaList(app)))
  }

  /** `inventory.find(i => i.listId === listId)`, as an index. */
  function ListIndex(inv: seq<InventoryItem>, listId: int): (k: int)
    ensures -1 <= k < |inv|
    ensures k >= 0 ==> inv[k].listId == listId
    ensures k >= 0 ==> forall j :: 0 <= j < k ==> inv[j].listId != listId
    ensures k == -1 <==> forall j :: 0 <= j < |inv| ==> inv[j].listId != listId
  {
    FindIndex(inv, (it: InventoryItem) => it.listId == listId)
  }

  /** `inventory.filter(i => i.listId !== listId)`. */
  function OtherLists(inv: seq<InventoryItem>, listId: int): (r: seq<InventoryItem>)
    ensures forall x :: x in r <==> x in inv && x.listId != listId
  {
    Filter(inv, (it: InventoryItem) => it.listId != listId)
  }

  /** The state without the items of list `listId`. */
  function WithoutList(app: State, listId: int): State
  {
    app.(goods := app.goods.(inventory := OtherLists(app.goods.inventory, listId)))
  }

  /**
   * `deleteListAndRefresh(listId)` on the world: log, drop the list's items,
   * rebuild the cache, save, then recompute the area list (after the save).
   */
  function DeleteList(w: World, now: Now, listId: int, writeOk: bool): World
  {
    var inv := w.mem.app.goods.inventory;
    var k := ListIndex(inv, listId);
    if k < 0 then w
    else
      var w1 := LogW(w, now, "Listado eliminado", "Archivo: " + inv[k].fileName + ", Área: " + inv[k].areaOriginal);
      var w2 := Save(Refreshed(SetApp(w1, WithoutList(w1.mem.app, listId))), writeOk);
      SetApp(w2, WithAreaList(w2.mem.app))
  }

  /**
   * Deleting a list removes exactly its items, keeps the others in order,
   * rebuilds the cache and the area list, and leaves custodians and goods;
   * a list without items changes nothing.
   */
  lemma DeleteListEffect(w: World, now: Now, listId: int, writeOk: bool, it: InventoryItem)
    ensures var r := DeleteList(w, now, listId, writeOk);
      var inv := w.mem.app.goods.inventory;
      (exists i :: 0 <= i < |inv| && inv[i].listId == listId) ==>
        (it in r.mem.app.goods.inventory <==> it in inv && it.listId != listId)
        && r.mem.app.goods.inventory == OtherLists(inv, listId)
        && r.mem.app.goods.additionalItems == w.mem.app.goods.additionalItems
        && r.mem.app.custody == w.mem.app.custody
        && r.mem.app.areaBook.areas == AreaList(r.mem.app)
        && CacheFresh(r.mem)
    ensures (forall i :: 0 <= i < |w.mem.app.goods.inventory| ==> w.mem.app.goods.inventory[i].listId != listId) ==>
      DeleteList(w, now, listId, writeOk) == w
  {
    var inv := w.mem.app.goods.inventory;
    var k := ListIndex(inv, listId);
    if k >= 0 {
      var w1 := LogW(w, now, "Listado eliminado", "Archivo: " + inv[k].fileName + ", Área: " + inv[k].areaOriginal);
      var w2 := Refreshed(SetApp(w1, WithoutList(w1.mem.app, listId)));
      SaveKeepsData(w2, writeOk);
      var w3 := Save(w2, writeOk);
      AreaListIgnoresAreas(w3.mem.app);
    }
  }

  /** Recomputing the area list does not depend on the area list itself. */
  lemma AreaListIgnoresAreas(app: State)
    ensures AreaList(WithAreaList(app)) == AreaList(app)
  {
  }

  /** `deleteListAndRefresh(listId)`. */
  method DeleteListAndRefresh(s: Session, store: SnapshotStore, now: Now, listId: int, writeOk: bool)
    modifies s, store
    ensures WorldOf(s, store) == DeleteList(old(WorldOf(s, store)), now, listId, writeOk)
  {
    var k := ListIndex(s.app.goods.inventory, listId);
    if k < 0 {
      return;
    }
    ghost var w0 := WorldOf(s, store);
    var list := s.app.goods.inventory[k];
    LogActivity(s, now, "Listado eliminado", "Archivo: " + list.fileName + ", Área: " + list.areaOriginal);
    ghost var w1 := LogW(w0, now, "Listado eliminado", "Archivo: " + list.fileName + ", Área: " + list.areaOriginal);
    assert WorldOf(s, store) == w1;
    s.app := WithoutList(s.app, listId);
    s.UpdateSerialNumberCache();
    assert WorldOf(s, store) == Refreshed(SetApp(w1, WithoutList(w1.mem.app, listId)));
    s.SaveState(store, writeOk);
    PopulateAreaSelects(s);
  }

  // ---------------------------------------------------------------------
  // handleEmployeeLogin

  /** The session with a new operator. */
  function WithOperator(app: State, op: Operator): State
  {
    app.(session := app.session.(currentUser := Some(op)))
  }

  /** The session logged in as `op`, starting the session clock at `startedAt` when it had not started. */
  function LoggedIn(app: State, op: Operator, startedAt: string): State
  {
    var start := if Truthy(app.session.sessionStartTime) then app.session.sessionStartTime else Some(startedAt);
    app.(session := app.session.(loggedIn := true, currentUser := Some(op), sessionStartTime := start))
  }

  /**
   * `handleEmployeeLogin` on the world. `verifiers` maps employee numbers to
   * names; `switchChoice` answers the change-of-operator dialog (confirm
   * continues the session, cancel starts a new one through a reset). With a
   * session marked logged in but no operator the comparison throws before
   * any change, so nothing happens.
   */
  function Login(w: World, verifiers: map<string, string>, number: string, now: Now, switchChoice: Choice,
                 dbOk: bool, writeOk: bool): World
  {
    var name := if number in verifiers then verifiers[number] else "";
    var app := w.mem.app;
    var op := Operator(number, name);
    if name == "" then w
    else if app.session.loggedIn && app.session.currentUser.None? then w
    else if app.session.loggedIn && app.session.currentUser.value.number != number then
      if switchChoice == Confirmed then
        var w1 := LogW(w, now, "Cambio de usuario", "Sesión continuada por " + name + ".");
        Save(SetApp(w1, WithOperator(w1.mem.app, op)), writeOk)
      else
        Reset(SetApp(w, WithOperator(app, op)), now.isoStamp, dbOk, writeOk)
    else if !Truthy(app.session.sessionStartTime) then
      Save(LogW(SetApp(w, LoggedIn(app, op, now.isoStamp)), now,
                "Inicio de sesión", "Usuario " + name + " ha iniciado sesión."), writeOk)
    else
      Save(LogW(SetApp(w, LoggedIn(app, op, now.isoStamp)), now,
                "Reanudación de sesión", "Usuario " + name + " ha reanudado la sesión."), writeOk)
  }

  /**
   * An unknown number changes nothing; a known one leaves that employee
   * logged in as the operator, and the inventory and custodians are kept
   * unless a new session was chosen.
   */
  lemma LoginEffect(w: World, verifiers: map<string, string>, number: string, now: Now, switchChoice: Choice,
                    dbOk: bool, writeOk: bool)
    ensures var r := Login(w, verifiers, number, now, switchChoice, dbOk, writeOk).mem.app;
      var app := w.mem.app;
      (number !in verifiers || verifiers[number] == "" ==> r == app)
      && (number in verifiers && verifiers[number] != "" && !(app.session.loggedIn && app.session.currentUser.None?) ==>
            r.session.loggedIn && r.session.currentUser == Some(Operator(number, verifiers[number]))
            && (switchChoice == Confirmed || !app.session.loggedIn || app.session.currentUser.value.number == number ==>
                  r.goods == app.goods && r.custody == app.custody))
  {
    var name := if number in verifiers then verifiers[number] else "";
    var app := w.mem.app;
    var op := Operator(number, name);
    if name != "" && !(app.session.loggedIn && app.session.currentUser.None?) {
      if app.session.loggedIn && app.session.currentUser.value.number != number {
        if switchChoice == Confirmed {
          var w1 := LogW(w, now, "Cambio de usuario", "Sesión continuada por " + name + ".");
          SaveKeepsData(SetApp(w1, WithOperator(w1.mem.app, op)), writeOk);
        } else {
          var w1 := SetApp(w, WithOperator(app, op));
          SaveKeepsData(World(Memory(ResetState(w1.mem.app, now.isoStamp), {}, w1.mem.autosave), w1.stored), writeOk);
        }
      } else if !Truthy(app.session.sessionStartTime) {
        SaveKeepsData(LogW(SetApp(w, LoggedIn(app, op, now.isoStamp)), now,
                           "Inicio de sesión", "Usuario " + name + " ha iniciado sesión."), writeOk);
      } else {
        SaveKeepsData(LogW(SetApp(w, LoggedIn(app, op, now.isoStamp)), now,
                           "Reanudación de sesión", "Usuario " + name + " ha reanudado la sesión."), writeOk);
      }
    }
  }

  /** `handleEmployeeLogin`. */
  method HandleEmployeeLogin(s: Session, store: SnapshotStore, blobs: BlobStore, verifiers: map<string, string>,
                             number: string, now: Now, switchChoice: Choice, dbOk: bool, writeOk: bool)
    modifies s, store, blobs
    ensures WorldOf(s, store) == Login(old(WorldOf(s, store)), verifiers, number, now, switchChoice, dbOk, writeOk)
  {
    var name := if number in verifiers then verifiers[number] else "";
    if name == "" {
      return;
    }
    var op := Operator(number, name);
    if s.app.session.loggedIn && s.app.session.currentUser.None? {
      return;
    }
    if s.app.session.loggedIn && s.app.session.currentUser.value.number != number {
      if switchChoice == Confirmed {
        LogActivity(s, now, "Cambio de usuario", "Sesión continuada por " + name + ".");
        s.app := WithOperator(s.app, op);
        s.SaveState(store, writeOk);
      } else {
        s.app := WithOperator(s.app, op);
        s.ResetInventoryState(store, blobs, now, dbOk, writeOk);
      }
    } else {
      var firstStart := !Truthy(s.app.session.sessionStartTime);
      s.app := s.app.(session := s.app.session.(loggedIn := true, currentUser := Some(op)));
      if firstStart {
        s.app := s.app.(session := s.app.session.(sessionStartTime := Some(now.isoStamp)));
        LogActivity(s, now, "Inicio de sesión", "Usuario " + name + " ha iniciado sesión.");
      } else {
        LogActivity(s, now, "Reanudación de sesión", "Usuario " + name + " ha reanudado la sesión.");
      }
      s.SaveState(store, writeOk);
    }
  }

  // ---------------------------------------------------------------------
  // createUser

  /** The fields of the new-custodian form. */
  datatype UserForm = UserForm(name: string, area: string, locationType: string, locationManual: string)

  /** `(state.locations[base] || 0) + 1`. */
  function NextCount(locations: map<string, int>, base: string): int
  {
    (if base in locations && locations[base] != 0 then locations[base] else 0) + 1
  }

  /** `"<base> <count padded to two digits>"`. */
  function LocationLabel(base: string, count: int): string
  {
    base + " " + PadStart2(IntToString(count))
  }

  /** Some custodian already has this name, compared trimmed and lower-cased. */
  predicate NameTaken(res: seq<Custodian>, name: string)
  {
    exists j | 0 <= j < |res| :: ToLower(Trim(res[j].name)) == ToLower(name)
  }

  /** The custodians after `user` is registered at `base` with counter `count` and activated. */
  function Registered(c: Custody, base: string, count: int, user: Custodian): Custody
  {
    Custody(c.resguardantes + [user], Some(user), c.locations[base := count])
  }

  /** The form passes `createUser`'s checks: writable, complete, and a taken name confirmed. */
  predicate CreateAccepted(app: State, form: UserForm, existingChoice: Choice)
  {
    var name := Trim(form.name);
    !app.session.readOnlyMode
    && !(name == "" || form.area == "" || (form.locationType == "OTRA" && Trim(form.locationManual) == ""))
    && !(NameTaken(app.custody.resguardantes, name) && existingChoice == Cancelled)
  }

  /** The location the form names: the typed one for `OTRA`, the chosen one otherwise. */
  function BaseLocation(form: UserForm): string
  {
    if form.locationType == "OTRA" then Trim(form.locationManual) else form.locationType
  }

  /** The custodian `createUser` registers, numbered with the next counter of its location. */
  function NewCustodian(c: Custody, form: UserForm, id: string): Custodian
  {
    var base := BaseLocation(form);
    Custodian(id, Trim(form.name), form.area, base, LocationLabel(base, NextCount(c.locations, base)))
  }

  /**
   * `createUser` on the world. `existingChoice` answers the dialog shown when
   * the name is taken; `id` is the generated identifier.
   */
  function CreateUser(w: World, form: UserForm, id: string, existingChoice: Choice, now: Now, writeOk: bool): World
  {
    var app := w.mem.app;
    if !CreateAccepted(app, form, existingChoice) then w
    else
      var base := BaseLocation(form);
      var user := NewCustodian(app.custody, form, id);
      var w1 := LogW(SetApp(w, app.(custody := Registered(app.custody, base, NextCount(app.custody.locations, base), user))),
                     now, "Usuario creado",
                     "Nombre: " + user.name + ", Área: " + form.area + ", Ubicación: " + user.locationWithId);
      Save(SetApp(w1, WithAreaList(w1.mem.app)), writeOk)
  }

  /**
   * Creating a custodian appends it, activates it and raises the counter of
   * its location by one; every other counter is kept, so no counter is ever
   * lowered. When nothing is created nothing changes.
   */
  lemma CreateUserCounters(w: World, form: UserForm, id: string, existingChoice: Choice, now: Now, writeOk: bool)
    ensures var r := CreateUser(w, form, id, existingChoice, now, writeOk).mem.app.custody;
      var c := w.mem.app.custody;
      (forall k :: k in c.locations ==> k in r.locations && r.locations[k] >= c.locations[k])
      && (|r.resguardantes| == |c.resguardantes| + 1 ==>
            var base := r.resguardantes[|c.resguardantes|].location;
            r.locations == c.locations[base := NextCount(c.locations, base)]
            && r.resguardantes[..|c.resguardantes|] == c.resguardantes
            && r.activeResguardante == Some(r.resguardantes[|c.resguardantes|]))
      && (|r.resguardantes| != |c.resguardantes| + 1 ==> CreateUser(w, form, id, existingChoice, now, writeOk) == w)
  {
    var app := w.mem.app;
    if CreateAccepted(app, form, existingChoice) {
      var base := BaseLocation(form);
      var user := NewCustodian(app.custody, form, id);
      var c1 := Registered(app.custody, base, NextCount(app.custody.locations, base), user);
      var w1 := LogW(SetApp(w, app.(custody := c1)), now, "Usuario creado",
                     "Nombre: " + user.name + ", Área: " + form.area + ", Ubicación: " + user.locationWithId);
      SaveKeepsData(SetApp(w1, WithAreaList(w1.mem.app)), writeOk);
      assert CreateUser(w, form, id, existingChoice, now, writeOk).mem.app.custody == c1;
      RegisteredCounters(app.custody, base, user);
    }
  }

  /** Registering raises one counter by one, keeps the others and appends and activates the custodian. */
  lemma RegisteredCounters(c: Custody, base: string, user: Custodian)
    requires user.location == base
    ensures var r := Registered(c, base, NextCount(c.locations, base), user);
      (forall k :: k in c.locations ==> k in r.locations && r.locations[k] >= c.locations[k])
      && |r.resguardantes| == |c.resguardantes| + 1
      && r.locations == c.locations[r.resguardantes[|c.resguardantes|].location := NextCount(c.locations, base)]
      && r.resguardantes[..|c.resguardantes|] == c.resguardantes
      && r.activeResguardante == Some(r.resguardantes[|c.resguardantes|])
  {
    var r := Registered(c, base, NextCount(c.locations, base), user);
    assert r.resguardantes[..|c.resguardantes|] == c.resguardantes;
  }

  /**
   * Two custodians created one after the other at the same location get
   * different labels, and the location of a label is recovered by stripping
   * its number (as the edit form does).
   */
  lemma SuccessiveLabelsDiffer(locations: map<string, int>, base: string)
    requires base !in locations || locations[base] >= 0
    ensures var c1 := NextCount(locations, base);
      var c2 := NextCount(locations[base := c1], base);
      c2 == c1 + 1 && LocationLabel(base, c1) != LocationLabel(base, c2)
    ensures StripTrailingNumber(LocationLabel(base, NextCount(locations, base))) == base
  {
    var c1 := NextCount(locations, base);
    assert NextCount(locations[base := c1], base) == c1 + 1;
    LabelsDiffer(base, c1, c1 + 1);
    LabelStrips(base, c1);
  }

  /** Different counters give different labels at the same location. */
  lemma LabelsDiffer(base: string, a: nat, b: nat)
    requires a != b
    ensures LocationLabel(base, a) != LocationLabel(base, b)
  {
    var pa, pb := PadStart2(NatToString(a)), PadStart2(NatToString(b));
    assert LocationLabel(base, a) == base + " " + pa;
    assert LocationLabel(base, b) == base + " " + pb;
    if base + " " + pa == base + " " + pb {
      assert pa == (base + " " + pa)[|base| + 1..];
      assert pb == (base + " " + pb)[|base| + 1..];
      PaddedCounterInjective(a, b);
    }
  }

  /** Stripping the number of a label gives back its location. */
  lemma LabelStrips(base: string, c: nat)
    ensures StripTrailingNumber(LocationLabel(base, c)) == base
  {
    var p := PadStart2(NatToString(c));
    PaddedCounterValue(c);
    assert LocationLabel(base, c) == base + " " + p;
    StripNumberedLabel(base, p);
  }

  /** `createUser`. */
  method CreateUserAction(s: Session, store: SnapshotStore, form: UserForm, id: string, existingChoice: Choice,
                          now: Now, writeOk: bool)
    modifies s, store
    ensures WorldOf(s, store) == CreateUser(old(WorldOf(s, store)), form, id, existingChoice, now, writeOk)
  {
    if s.app.session.readOnlyMode {
      return;
    }
    var name := Trim(form.name);
    var manual := Trim(form.locationManual);
    if name == "" || form.area == "" || (form.locationType == "OTRA" && manual == "") {
      return;
    }
    if NameTaken(s.app.custody.resguardantes, name) && existingChoice == Cancelled {
      return;
    }
    var base := if form.locationType == "OTRA" then manual else form.locationType;
    var count := NextCount(s.app.custody.locations, base);
    var user := Custodian(id, name, form.area, base, LocationLabel(base, count));
    ghost var w0 := WorldOf(s, store);
    assert CreateAccepted(w0.mem.app, form, existingChoice) && base == BaseLocation(form);
    assert user == NewCustodian(w0.mem.app.custody, form, id);
    s.app := s.app.(custody := Registered(s.app.custody, base, count, user));
    LogActivity(s, now, "Usuario creado", "Nombre: " + name + ", Área: " + form.area + ", Ubicación: " + user.locationWithId);
    ghost var w1 := LogW(SetApp(w0, w0.mem.app.(custody := Registered(w0.mem.app.custody, base, count, user))), now,
                         "Usuario creado", "Nombre: " + name + ", Área: " + form.area + ", Ubicación: " + user.locationWithId);
    assert WorldOf(s, store) == w1;
    PopulateAreaSelects(s);
    assert WorldOf(s, store) == SetApp(w1, WithAreaList(w1.mem.app));
    s.SaveState(store, writeOk);
  }

  // ---------------------------------------------------------------------
  // saveUserEdit

  /** The fields of the edit-custodian form. */
  datatype EditUserForm = EditUserForm(name: string, locationWithId: string, area: string)

  /** The inventory after a custodian rename: every `NOMBRE DE USUARIO` equal to `from` becomes `to`. */
  function RenamedInventory(inv: seq<InventoryItem>, from: string, to: string): (r: seq<InventoryItem>)
    ensures |r| == |inv|
    ensures forall i :: 0 <= i < |inv| ==> r[i] == if inv[i].usuario == from then inv[i].(usuario := to) else inv[i]
  {
    if inv == [] then []
    else [if inv[0].usuario == from then inv[0].(usuario := to) else inv[0]] + RenamedInventory(inv[1..], from, to)
  }

  /** The goods after a custodian rename: every `usuario` equal to `from` becomes `to`. */
  function RenamedAdditional(add: seq<AdditionalItem>, from: string, to: string): (r: seq<AdditionalItem>)
    ensures |r| == |add|
    ensures forall i :: 0 <= i < |add| ==> r[i] == if add[i].usuario == from then add[i].(usuario := to) else add[i]
  {
    if add == [] then []
    else [if add[0].usuario == from then add[0].(usuario := to) else add[0]] + RenamedAdditional(add[1..], from, to)
  }

  /** Renaming back restores the inventory when no item carried the new name before. */
  lemma RenameInventoryRoundTrip(inv: seq<InventoryItem>, from: string, to: string)
    requires forall i :: 0 <= i < |inv| ==> inv[i].usuario != to
    ensures RenamedInventory(RenamedInventory(inv, from, to), to, from) == inv
    ensures from != to ==> forall i :: 0 <= i < |inv| ==> RenamedInventory(inv, from, to)[i].usuario != from
  {
    var r0 := RenamedInventory(inv, from, to);
    var r1 := RenamedInventory(r0, to, from);
    forall i | 0 <= i < |inv|
      ensures r1[i] == inv[i]
    {
      if inv[i].usuario == from {
        assert r0[i] == inv[i].(usuario := to);
      } else {
        assert r0[i] == inv[i];
      }
    }
  }

  /** Renaming back restores the additional goods when none carried the new name before. */
  lemma RenameAdditionalRoundTrip(add: seq<AdditionalItem>, from: string, to: string)
    requires forall i :: 0 <= i < |add| ==> add[i].usuario != to
    ensures RenamedAdditional(RenamedAdditional(add, from, to), to, from) == add
  {
    var r0 := RenamedAdditional(add, from, to);
    var r1 := RenamedAdditional(r0, to, from);
    forall i | 0 <= i < |add|
      ensures r1[i] == add[i]
    {
      if add[i].usuario == from {
        assert r0[i] == add[i].(usuario := to);
      } else {
        assert r0[i] == add[i];
      }
    }
  }

  /** The `forEach` over the inventory that rewrites the custodian name in place. */
  method RenameInInventory(inv: seq<InventoryItem>, from: string, to: string) returns (r: seq<InventoryItem>)
    ensures r == RenamedInventory(inv, from, to)
  {
    r := inv;
    var i := 0;
    while i < |r|
      invariant 0 <= i <= |r| == |inv|
      invariant forall j :: 0 <= j < i ==> r[j] == if inv[j].usuario == from then inv[j].(usuario := to) else inv[j]
      invariant forall j :: i <= j < |r| ==> r[j] == inv[j]
    {
      if r[i].usuario == from {
        r := r[i := r[i].(usuario := to)];
      }
      i := i + 1;
    }
  }

  /** The `forEach` over the additional goods that rewrites the custodian name in place. */
  method RenameInAdditional(add: seq<AdditionalItem>, from: string, to: string) returns (r: seq<AdditionalItem>)
    ensures r == RenamedAdditional(add, from, to)
  {
    r := add;
    var i := 0;
    while i < |r|
      invariant 0 <= i <= |r| == |add|
      invariant forall j :: 0 <= j < i ==> r[j] == if add[j].usuario == from then add[j].(usuario := to) else add[j]
      invariant forall j :: i <= j < |r| ==> r[j] == add[j]
    {
      if r[i].usuario == from {
        r := r[i := r[i].(usuario := to)];
      }
      i := i + 1;
    }
  }

  /** The custodian with the edit form applied: the location is the label without its number. */
  function Edited(before: Custodian, form: EditUserForm): Custodian
  {
    before.(name := Trim(form.name), locationWithId := form.locationWithId,
            location := StripTrailingNumber(form.locationWithId), area := form.area)
  }

  /**
   * The state after an edit: the custodian replaced, a changed name rewritten
   * in items and goods, and the active custodian refreshed when it is the
   * edited one.
   */
  function AfterEdit(app: State, index: nat, form: EditUserForm): State
    requires index < |app.custody.resguardantes|
  {
    var before := app.custody.resguardantes[index];
    var user := Edited(before, form);
    var renamed := before.name != user.name;
    var active := app.custody.activeResguardante;
    app.(goods := app.goods.(
           inventory := if renamed then RenamedInventory(app.goods.inventory, before.name, user.name) else app.goods.inventory,
           additionalItems := if renamed then RenamedAdditional(app.goods.additionalItems, before.name, user.name)
                              else app.goods.additionalItems),
         custody := app.custody.(
           resguardantes := app.custody.resguardantes[index := user],
           activeResguardante := if active.Some? && active.value.id == user.id then Some(user) else active))
  }

  /**
   * `saveUserEdit` on the world: apply the edit, recompute the area list
   * (`populateReportFilters` runs `populateAreaSelects`), save, then log. An
   * index with no custodian throws before any change, and an empty name is
   * refused.
   */
  function EditUser(w: World, index: int, form: EditUserForm, now: Now, writeOk: bool): World
  {
    var app := w.mem.app;
    if !(0 <= index < |app.custody.resguardantes|) || Trim(form.name) == "" then w
    else
      LogW(Save(SetApp(w, WithAreaList(AfterEdit(app, index, form))), writeOk), now, "Usuario editado",
           "Nombre anterior: " + app.custody.resguardantes[index].name + ", Nombre nuevo: " + Trim(form.name))
  }

  /**
   * An edit gives the custodian the trimmed name, the chosen label, the
   * label's location without its number and the chosen area; it refreshes
   * the active custodian when that is the edited one, rewrites exactly the
   * items and goods held under the old name, changes no other custodian,
   * never touches the counters, and leaves the area list recomputed.
   */
  lemma EditUserEffect(w: World, index: int, form: EditUserForm, now: Now, writeOk: bool)
    requires 0 <= index < |w.mem.app.custody.resguardantes| && Trim(form.name) != ""
    ensures var r := EditUser(w, index, form, now, writeOk).mem.app;
      var app := w.mem.app;
      var before := app.custody.resguardantes[index];
      var active := app.custody.activeResguardante;
      |r.custody.resguardantes| == |app.custody.resguardantes|
      && r.custody.resguardantes[index].id == before.id
      && r.custody.resguardantes[index].name == Trim(form.name)
      && r.custody.resguardantes[index].locationWithId == form.locationWithId
      && r.custody.resguardantes[index].location == StripTrailingNumber(form.locationWithId)
      && r.custody.resguardantes[index].area == form.area
      && r.custody.activeResguardante ==
           (if active.Some? && active.value.id == before.id then Some(r.custody.resguardantes[index]) else active)
      && r.areaBook.areas == AreaList(r)
    ensures var r := EditUser(w, index, form, now, writeOk).mem.app;
      var app := w.mem.app;
      var oldName := app.custody.resguardantes[index].name;
      var newName := Trim(form.name);
      (forall j :: 0 <= j < |app.custody.resguardantes| && j != index ==> r.custody.resguardantes[j] == app.custody.resguardantes[j])
      && |r.goods.inventory| == |app.goods.inventory|
      && (forall i :: 0 <= i < |app.goods.inventory| ==>
            r.goods.inventory[i].usuario == (if app.goods.inventory[i].usuario == oldName then newName else app.goods.inventory[i].usuario)
            && r.goods.inventory[i].(usuario := app.goods.inventory[i].usuario) == app.goods.inventory[i])
      && |r.goods.additionalItems| == |app.goods.additionalItems|
      && (forall i :: 0 <= i < |app.goods.additionalItems| ==>
            r.goods.additionalItems[i].usuario ==
              (if app.goods.additionalItems[i].usuario == oldName then newName else app.goods.additionalItems[i].usuario))
      && r.custody.locations == app.custody.locations
  {
    var edited := AfterEdit(w.mem.app, index, form);
    SaveKeepsData(SetApp(w, WithAreaList(edited)), writeOk);
    AreaListIgnoresAreas(edited);
  }

  /** `saveUserEdit`. */
  method SaveUserEdit(s: Session, store: SnapshotStore, index: int, form: EditUserForm, now: Now, writeOk: bool)
    modifies s, store
    ensures WorldOf(s, store) == EditUser(old(WorldOf(s, store)), index, form, now, writeOk)
  {
    if !(0 <= index < |s.app.custody.resguardantes|) {
      return;
    }
    var oldName := s.app.custody.resguardantes[index].name;
    var newName := Trim(form.name);
    if newName == "" {
      return;
    }
    ghost var w0 := WorldOf(s, store);
    ApplyUserEdit(s, index, form);
    PopulateAreaSelects(s);
    assert WorldOf(s, store) == SetApp(w0, WithAreaList(AfterEdit(w0.mem.app, index, form)));
    s.SaveState(store, writeOk);
    LogActivity(s, now, "Usuario editado", "Nombre anterior: " + oldName + ", Nombre nuevo: " + newName);
  }

  /** The assignments of `saveUserEdit`: the custodian's fields, the name rewrite and the active refresh. */
  method ApplyUserEdit(s: Session, index: int, form: EditUserForm)
    requires 0 <= index < |s.app.custody.resguardantes|
    modifies s`app
    ensures s.app == AfterEdit(old(s.app), index, form)
  {
    var oldName := s.app.custody.resguardantes[index].name;
    var newName := Trim(form.name);
    var user := Edited(s.app.custody.resguardantes[index], form);
    var inv := s.app.goods.inventory;
    var add := s.app.goods.additionalItems;
    if oldName != newName {
      inv := RenameInInventory(inv, oldName, newName);
      add := RenameInAdditional(add, oldName, newName);
    }
    var active := s.app.custody.activeResguardante;
    if active.Some? && active.value.id == user.id {
      active := Some(user);
    }
    s.app := s.app.(goods := s.app.goods.(inventory := inv, additionalItems := add),
                    custody := s.app.custody.(resguardantes := s.app.custody.resguardantes[index := user],
                                              activeResguardante := active));
  }

  // ---------------------------------------------------------------------
  // saveNote

  /** The notes after the loop over the selected keys: set to `text`, or removed when it is empty. */
  function NotesAfter(notes: map<string, string>, claves: seq<string>, text: string): map<string, string>
  {
    if claves == [] then notes
    else
      var n := NotesAfter(notes, claves[..|claves| - 1], text);
      if text != "" then n[claves[|claves| - 1] := text] else n - {claves[|claves| - 1]}
  }

  /** Every selected key ends with the note (or without one when it is empty); other keys keep theirs. */
  lemma {:induction false} NotesAfterEffect(notes: map<string, string>, claves: seq<string>, text: string, k: string)
    ensures var r := NotesAfter(notes, claves, text);
      (k in claves && text != "" ==> k in r && r[k] == text)
      && (k in claves && text == "" ==> k !in r)
      && (k !in claves ==> (k in r <==> k in notes) && (k in r ==> r[k] == notes[k]))
  {
    if claves != [] {
      var init := claves[..|claves| - 1];
      NotesAfterEffect(notes, init, text, k);
      assert claves == init + [claves[|claves| - 1]];
    }
  }

  /**
   * `saveNote` on the world: nothing in read-only mode; otherwise the trimmed
   * text is applied to each selected key, then log and save.
   */
  function SaveNoteW(w: World, claves: seq<string>, text: string, now: Now, writeOk: bool): World
  {
    var app := w.mem.app;
    if app.session.readOnlyMode then w
    else
      var app1 := app.(goods := app.goods.(notes := NotesAfter(app.goods.notes, claves, Trim(text))));
      Save(LogW(SetApp(w, app1), now, "Nota guardada", "Nota para clave(s): " + Join(claves, ", ")), writeOk)
  }

  /** `saveNote`. */
  method SaveNote(s: Session, store: SnapshotStore, claves: seq<string>, text: string, now: Now, writeOk: bool)
    modifies s, store
    ensures WorldOf(s, store) == SaveNoteW(old(WorldOf(s, store)), claves, text, now, writeOk)
  {
    if s.app.session.readOnlyMode {
      return;
    }
    var noteText := Trim(text);
    var notes := s.app.goods.notes;
    var i := 0;
    while i < |claves|
      invariant 0 <= i <= |claves|
      invariant notes == NotesAfter(s.app.goods.notes, claves[..i], noteText)
    {
      assert claves[..i + 1][..i] == claves[..i];
      if noteText != "" {
        notes := notes[claves[i] := noteText];
      } else {
        notes := notes - {claves[i]};
      }
      i := i + 1;
    }
    assert claves[..i] == claves;
    s.app := s.app.(goods := s.app.goods.(notes := notes));
    LogActivity(s, now, "Nota guardada", "Nota para clave(s): " + Join(claves, ", "));
    s.SaveState(store, writeOk);
  }

  // ---------------------------------------------------------------------
  // addAdicionalItem

  /** The fields of the additional-good form. */
  datatype AdditionalForm = AdditionalForm(clave: string, descripcion: string, marca: string, modelo: string,
                                           serie: string, area: string, personal: string)

  /** The good `addAdicionalItem` registers from the form, held by `holder`. */
  function NewAdditional(form: AdditionalForm, id: string, holder: string, formatoAnswer: Option<bool>, now: Now): AdditionalItem
  {
    AdditionalItem(id, form.clave, form.descripcion, form.marca, form.modelo, form.serie, form.area,
                   form.personal, holder, now.isoStamp, if form.personal == "Si" then formatoAnswer else None, "")
  }

  /**
   * `addAdicionalItem` on the world. `formatoAnswer` is the answer to the
   * entry-form question asked for personal goods (`None`: left unanswered,
   * so nothing is added); `id` is the generated identifier.
   */
  function AddAdditional(w: World, form: AdditionalForm, id: string, formatoAnswer: Option<bool>, now: Now,
                         writeOk: bool): World
  {
    var app := w.mem.app;
    var serie := Trim(form.serie);
    if app.session.readOnlyMode || app.custody.activeResguardante.None? || form.descripcion == "" then w
    else if serie != "" && ToLower(serie) in w.mem.serialNumberCache then w
    else if form.personal == "Si" && formatoAnswer.None? then w
    else
      var item := NewAdditional(form, id, app.custody.activeResguardante.value.name, formatoAnswer, now);
      Refreshed(Save(LogW(SetApp(w, app.(goods := app.goods.(additionalItems := app.goods.additionalItems + [item]))), now,
                          "Bien adicional registrado", "Descripción: " + item.descripcion + ", Usuario: " + item.usuario),
                     writeOk))
  }

  /**
   * A good is added (at the end, held by the active custodian) only when the
   * session is writable, a custodian is active, the description is given and
   * its trimmed serial is blank or not cached; and then the same serial is
   * refused the next time.
   */
  lemma AddAdditionalGuards(w: World, form: AdditionalForm, id: string, id2: string, formatoAnswer: Option<bool>,
                            now: Now, writeOk: bool, writeOk2: bool)
    ensures var r := AddAdditional(w, form, id, formatoAnswer, now, writeOk);
      var app := w.mem.app;
      var add := app.goods.additionalItems;
      (r != w ==>
         !app.session.readOnlyMode && app.custody.activeResguardante.Some? && form.descripcion != ""
         && (Trim(form.serie) == "" || ToLower(Trim(form.serie)) !in w.mem.serialNumberCache)
         && r.mem.app.goods.additionalItems[..|add|] == add
         && |r.mem.app.goods.additionalItems| == |add| + 1
         && r.mem.app.goods.additionalItems[|add|].usuario == app.custody.activeResguardante.value.name
         && CacheFresh(r.mem))
      && (r != w && Trim(form.serie) != "" ==> AddAdditional(r, form, id2, formatoAnswer, now, writeOk2) == r)
  {
    var app := w.mem.app;
    var serie := Trim(form.serie);
    if !(app.session.readOnlyMode || app.custody.activeResguardante.None? || form.descripcion == "")
       && !(serie != "" && ToLower(serie) in w.mem.serialNumberCache)
       && !(form.personal == "Si" && formatoAnswer.None?) {
      var item := NewAdditional(form, id, app.custody.activeResguardante.value.name, formatoAnswer, now);
      var add := app.goods.additionalItems + [item];
      var w1 := LogW(SetApp(w, app.(goods := app.goods.(additionalItems := add))), now,
                     "Bien adicional registrado", "Descripción: " + item.descripcion + ", Usuario: " + item.usuario);
      SaveKeepsData(w1, writeOk);
      assert add[..|app.goods.additionalItems|] == app.goods.additionalItems;
      if serie != "" {
        assert add[|add| - 1] == item;
        SerialCacheMembership(app.goods.inventory, add, SerialKey(item.serie));
      }
    }
  }

  /** `addAdicionalItem`. */
  method AddAdicionalItem(s: Session, store: SnapshotStore, form: AdditionalForm, id: string,
                          formatoAnswer: Option<bool>, now: Now, writeOk: bool)
    modifies s, store
    ensures WorldOf(s, store) == AddAdditional(old(WorldOf(s, store)), form, id, formatoAnswer, now, writeOk)
  {
    if s.app.session.readOnlyMode || s.app.custody.activeResguardante.None? || form.descripcion == "" {
      return;
    }
    var serie := Trim(form.serie);
    if serie != "" && ToLower(serie) in s.serialNumberCache {
      return;
    }
    if form.personal == "Si" && formatoAnswer.None? {
      return;
    }
    var item := NewAdditional(form, id, s.app.custody.activeResguardante.value.name, formatoAnswer, now);
    s.app := s.app.(goods := s.app.goods.(additionalItems := s.app.goods.additionalItems + [item]));
    LogActivity(s, now, "Bien adicional registrado", "Descripción: " + item.descripcion + ", Usuario: " + item.usuario);
    s.SaveState(store, writeOk);
    s.UpdateSerialNumberCache();
  }

  // ---------------------------------------------------------------------
  // saveAdicionalEdit

  /** `{ ...item, ...formData }`: the form's fields replace the good's. */
  function ApplyAdditionalForm(a: AdditionalItem, form: AdditionalForm): AdditionalItem
  {
    a.(clave := form.clave, descripcion := form.descripcion, marca := form.marca, modelo := form.modelo,
       serie := form.serie, area := form.area, personal := form.personal)
  }

  /** The goods with the good at `k` edited. */
  function EditedAt(g: Goods, k: nat, form: AdditionalForm): Goods
    requires k < |g.additionalItems|
  {
    g.(additionalItems := g.additionalItems[k := ApplyAdditionalForm(g.additionalItems[k], form)])
  }

  /** `saveAdicionalEdit` on the world: update the good, rebuild the cache, save, then log. */
  function EditAdditional(w: World, id: string, form: AdditionalForm, now: Now, writeOk: bool): World
  {
    var app := w.mem.app;
    var k := AdditionalIndex(app.goods.additionalItems, id);
    if k < 0 then w
    else LogW(Save(Refreshed(SetApp(w, app.(goods := EditedAt(app.goods, k, form)))), writeOk), now, "Bien adicional editado", "ID: " + id)
  }

  /**
   * Editing changes only the first good with that id, and only its form
   * fields (id, holder, date, entry-form answer and assigned key stay), and
   * leaves the cache rebuilt.
   */
  lemma EditAdditionalEffect(w: World, id: string, form: AdditionalForm, now: Now, writeOk: bool)
    ensures var r := EditAdditional(w, id, form, now, writeOk);
      var add := w.mem.app.goods.additionalItems;
      var k := AdditionalIndex(add, id);
      (k < 0 ==> r == w)
      && (k >= 0 ==>
            |r.mem.app.goods.additionalItems| == |add|
            && (forall j :: 0 <= j < |add| && j != k ==> r.mem.app.goods.additionalItems[j] == add[j])
            && r.mem.app.goods.additionalItems[k] == ApplyAdditionalForm(add[k], form)
            && r.mem.app.goods.additionalItems[k].(clave := add[k].clave, descripcion := add[k].descripcion,
                 marca := add[k].marca, modelo := add[k].modelo, serie := add[k].serie, area := add[k].area,
                 personal := add[k].personal) == add[k]
            && CacheFresh(r.mem))
  {
    var app := w.mem.app;
    var k := AdditionalIndex(app.goods.additionalItems, id);
    if k >= 0 {
      SaveKeepsData(Refreshed(SetApp(w, app.(goods := EditedAt(app.goods, k, form)))), writeOk);
    }
  }

  /** `saveAdicionalEdit`. */
  method SaveAdicionalEdit(s: Session, store: SnapshotStore, id: string, form: AdditionalForm, now: Now, writeOk: bool)
    modifies s, store
    ensures WorldOf(s, store) == EditAdditional(old(WorldOf(s, store)), id, form, now, writeOk)
  {
    var k := AdditionalIndex(s.app.goods.additionalItems, id);
    if k < 0 {
      return;
    }
    s.app := s.app.(goods := EditedAt(s.app.goods, k, form));
    s.UpdateSerialNumberCache();
    s.SaveState(store, writeOk);
    LogActivity(s, now, "Bien adicional editado", "ID: " + id);
  }

  // ---------------------------------------------------------------------
  // Custodian delete, undo, activate, deactivate

  /** What the undo toast keeps: the removed custodian and where it was. */
  datatype Deleted = Deleted(user: Custodian, originalIndex: nat)

  /** The custodians without the one at `index`; the active custodian is cleared if it was that one. */
  function Removed(c: Custody, index: nat): Custody
    requires index < |c.resguardantes|
  {
    var user := c.resguardantes[index];
    var active := c.activeResguardante;
    c.(resguardantes := RemoveAt(c.resguardantes, index),
       activeResguardante := if active.Some? && active.value.id == user.id then None else active)
  }

  /**
   * The confirmed delete on the world: remove the custodian, recompute the
   * areas, log, save. Read-only mode or an index with no custodian change
   * nothing.
   */
  function DeleteUser(w: World, index: int, now: Now, writeOk: bool): World
  {
    var app := w.mem.app;
    if app.session.readOnlyMode || !(0 <= index < |app.custody.resguardantes|) then w
    else
      Save(LogW(SetApp(w, WithAreaList(app.(custody := Removed(app.custody, index)))), now,
                "Usuario eliminado", "Nombre: " + app.custody.resguardantes[index].name), writeOk)
  }

  /** The undo action on the world: re-insert at the old index, save, then log. */
  function UndoDelete(w: World, d: Deleted, now: Now, writeOk: bool): World
  {
    var app := w.mem.app;
    var c := app.custody;
    LogW(Save(SetApp(w, app.(custody := c.(resguardantes := InsertAt(c.resguardantes, d.originalIndex, d.user)))), writeOk),
         now, "Acción deshecha", "Restaurado " + d.user.name)
  }

  /**
   * Undoing right after a delete puts the custodian back at its place; the
   * location counters are never lowered by either step, and the custodian
   * is not re-activated.
   */
  lemma DeleteUndoRestores(w: World, index: int, now: Now, now2: Now, writeOk: bool)
    requires !w.mem.app.session.readOnlyMode && 0 <= index < |w.mem.app.custody.resguardantes|
    ensures var d := Deleted(w.mem.app.custody.resguardantes[index], index);
      var r1 := DeleteUser(w, index, now, writeOk);
      var r2 := UndoDelete(r1, d, now2, writeOk);
      r2.mem.app.custody.resguardantes == w.mem.app.custody.resguardantes
      && r1.mem.app.custody.locations == w.mem.app.custody.locations
      && r2.mem.app.custody.locations == w.mem.app.custody.locations
      && (w.mem.app.custody.activeResguardante == Some(w.mem.app.custody.resguardantes[index]) ==>
            r2.mem.app.custody.activeResguardante.None?)
  {
    var app := w.mem.app;
    var user := app.custody.resguardantes[index];
    var w1 := LogW(SetApp(w, WithAreaList(app.(custody := Removed(app.custody, index)))), now,
                   "Usuario eliminado", "Nombre: " + user.name);
    SaveKeepsData(w1, writeOk);
    var r1 := Save(w1, writeOk);
    var c := r1.mem.app.custody;
    SaveKeepsData(SetApp(r1, r1.mem.app.(custody := c.(resguardantes := InsertAt(c.resguardantes, index, user)))), writeOk);
    InsertRemoved(app.custody.resguardantes, index);
  }

  /** The confirmed delete; returns what the undo action needs. */
  method DeleteUserConfirmed(s: Session, store: SnapshotStore, index: int, now: Now, writeOk: bool)
    returns (d: Option<Deleted>)
    modifies s, store
    ensures WorldOf(s, store) == DeleteUser(old(WorldOf(s, store)), index, now, writeOk)
    ensures d == if old(s.app.session.readOnlyMode) || !(0 <= index < old(|s.app.custody.resguardantes|)) then None
                 else Some(Deleted(old(s.app.custody.resguardantes[index]), index))
  {
    if s.app.session.readOnlyMode || !(0 <= index < |s.app.custody.resguardantes|) {
      return None;
    }
    var user := s.app.custody.resguardantes[index];
    d := Some(Deleted(user, index));
    s.app := s.app.(custody := Removed(s.app.custody, index));
    PopulateAreaSelects(s);
    LogActivity(s, now, "Usuario eliminado", "Nombre: " + user.name);
    s.SaveState(store, writeOk);
  }

  /** The undo action of the delete toast. */
  method UndoDeleteUser(s: Session, store: SnapshotStore, d: Deleted, now: Now, writeOk: bool)
    modifies s, store
    ensures WorldOf(s, store) == UndoDelete(old(WorldOf(s, store)), d, now, writeOk)
  {
    s.app := s.app.(custody := s.app.custody.(resguardantes := InsertAt(s.app.custody.resguardantes, d.originalIndex, d.user)));
    s.SaveState(store, writeOk);
    LogActivity(s, now, "Acción deshecha", "Restaurado " + d.user.name);
  }

  /** The state with a new active custodian. */
  function WithActive(app: State, active: Option<Custodian>): State
  {
    app.(custody := app.custody.(activeResguardante := active))
  }

  /**
   * The activate button (no save). In read-only mode nothing happens; an
   * index with no custodian sets the active custodian to `undefined` and
   * then throws before logging.
   */
  function Activate(app: State, index: int, now: Now): State
  {
    if app.session.readOnlyMode then app
    else if !(0 <= index < |app.custody.resguardantes|) then WithActive(app, None)
    else
      var user := app.custody.resguardantes[index];
      Log(WithActive(app, Some(user)), now, "Usuario activado", "Usuario: " + user.name)
  }

  /** The deactivate button (no save): log and clear the active custodian, if any. */
  function Deactivate(app: State, now: Now): State
  {
    match app.custody.activeResguardante
    case None => app
    case Some(u) => WithActive(Log(app, now, "Usuario desactivado", "Usuario: " + u.name), None)
  }

  /** Activation makes that custodian the target of later actions; deactivation clears it. */
  lemma ActivateDeactivate(app: State, index: int, now: Now, now2: Now)
    requires !app.session.readOnlyMode && 0 <= index < |app.custody.resguardantes|
    ensures Activate(app, index, now).custody.activeResguardante == Some(app.custody.resguardantes[index])
    ensures Deactivate(Activate(app, index, now), now2).custody.activeResguardante.None?
    ensures Deactivate(Activate(app, index, now), now2).custody.resguardantes == app.custody.resguardantes
  {
    var user := app.custody.resguardantes[index];
    LogOnlyAppends(WithActive(app, Some(user)), now, "Usuario activado", "Usuario: " + user.name);
  }

  /** The activate button. */
  method ActivateUser(s: Session, index: int, now: Now)
    modifies s`app
    ensures s.app == Activate(old(s.app), index, now)
  {
    if s.app.session.readOnlyMode {
      return;
    }
    if !(0 <= index < |s.app.custody.resguardantes|) {
      s.app := WithActive(s.app, None);
      return;
    }
    var user := s.app.custody.resguardantes[index];
    s.app := WithActive(s.app, Some(user));
    LogActivity(s, now, "Usuario activado", "Usuario: " + user.name);
  }

  /** The deactivate button. */
  method DeactivateUser(s: Session, now: Now)
    modifies s`app
    ensures s.app == Deactivate(old(s.app), now)
  {
    if s.app.custody.activeResguardante.Some? {
      LogActivity(s, now, "Usuario desactivado", "Usuario: " + s.app.custody.activeResguardante.value.name);
      s.app := WithActive(s.app, None);
    }
  }

  // ---------------------------------------------------------------------
  // The `beforeunload` listener

  /** A last save when the page unloads, while logged in and not read-only. */
  function BeforeUnload(w: World, writeOk: bool): World
  {
    if w.mem.app.session.loggedIn && !w.mem.app.session.readOnlyMode then Save(w, writeOk) else w
  }

  /**
   * Unloading a logged-in, writable session stores the document of the
   * memory, or turns read-only mode on when the write fails; otherwise
   * nothing changes. The memory's data is never touched.
   */
  lemma BeforeUnloadEffect(w: World, writeOk: bool)
    ensures var r := BeforeUnload(w, writeOk);
      var live := w.mem.app.session.loggedIn && !w.mem.app.session.readOnlyMode;
      (live && writeOk ==> r.stored == Some(Written(ToDocument(w.mem.app))) && r.mem == w.mem)
      && (live && !writeOk ==> r.stored == w.stored && r.mem.app.session.readOnlyMode)
      && (!live ==> r == w)
      && r.mem.app.goods == w.mem.app.goods && r.mem.app.custody == w.mem.app.custody
  {
    SaveKeepsData(w, writeOk);
  }

  /** The `beforeunload` listener. */
  method OnBeforeUnload(s: Session, store: SnapshotStore, writeOk: bool)
    modifies s, store
    ensures WorldOf(s, store) == BeforeUnload(old(WorldOf(s, store)), writeOk)
  {
    if s.app.session.loggedIn && !s.app.session.readOnlyMode {
      s.SaveState(store, writeOk);
    }
  }
}

=== FILE: modals_core.dfy ===
/**
 * The state-changing parts of the core modals: the notes prompt, the
 * read-only guards of the edit forms, the three ways out of deleting a list
 * that still has custodians (reassign, keep, delete all), and the
 * pre-print options form with its closure validation.
 */
module ModalsCore {
  import opened Wrappers
  import opened JsText
  import opened Seqs
  import opened Entities
  import opened AppState
  import opened Logger
  import opened MainHandlers

  // ---------------------------------------------------------------------
  // showNotesModal

  /**
   * The text the notes prompt opens with: `None` when nothing is selected
   * (the modal is refused), empty for several keys, and the saved note (or
   * empty) for one key.
   */
  function NotesPrompt(notes: map<string, string>, claves: seq<string>): Option<string>
  {
    if claves == [] then None
    else if |claves| > 1 then Some("")
    else Some(if claves[0] in notes then notes[claves[0]] else "")
  }

  /**
   * The prompt refuses exactly the empty selection; for one key it shows
   * what saving a note for that key stored: the trimmed text, or nothing
   * when the note was removed.
   */
  lemma NotesPromptShowsSaved(w: World, clave: string, text: string, now: Now, writeOk: bool, claves: seq<string>)
    requires !w.mem.app.session.readOnlyMode
    ensures NotesPrompt(w.mem.app.goods.notes, claves).None? <==> claves == []
    ensures NotesPrompt(SaveNoteW(w, [clave], text, now, writeOk).mem.app.goods.notes, [clave]) == Some(Trim(text))
  {
    var app := w.mem.app;
    var notes := NotesAfter(app.goods.notes, [clave], Trim(text));
    NotesAfterEffect(app.goods.notes, [clave], Trim(text), clave);
    var app1 := app.(goods := app.goods.(notes := notes));
    Committed(w, app1, now, "Nota guardada", "Nota para clave(s): " + Join([clave], ", "), writeOk);
  }

  // ---------------------------------------------------------------------
  // showEditUserModal, showEditAdicionalModal

  /** The edit-user form as the modal fills it; `None` in read-only mode or for an index with no custodian. */
  function EditUserPrefill(app: State, index: int): Option<EditUserForm>
  {
    if app.session.readOnlyMode || !(0 <= index < |app.custody.resguardantes|) then None
    else
      var u := app.custody.resguardantes[index];
      Some(EditUserForm(u.name, u.locationWithId, u.area))
  }

  /**
   * The form opens only in a writable session; saving it unchanged gives
   * back a custodian whose name is trimmed and whose location is its label
   * without the number.
   */
  lemma EditUserPrefillRoundTrip(app: State, index: int)
    ensures EditUserPrefill(app, index).Some? <==> !app.session.readOnlyMode && 0 <= index < |app.custody.resguardantes|
    ensures EditUserPrefill(app, index).Some? ==>
      var u := app.custody.resguardantes[index];
      Trim(u.name) == u.name && u.location == StripTrailingNumber(u.locationWithId) ==>
        Edited(u, EditUserPrefill(app, index).value) == u
  {
  }

  /** The additional-good form as the modal fills it; `None` in read-only mode or for an unknown id. */
  function EditAdditionalPrefill(app: State, id: string): Option<AdditionalForm>
  {
    var k := AdditionalIndex(app.goods.additionalItems, id);
    if app.session.readOnlyMode || k < 0 then None
    else
      var a := app.goods.additionalItems[k];
      Some(AdditionalForm(a.clave, a.descripcion, a.marca, a.modelo, a.serie, a.area,
                          if a.personal != "" then a.personal else "No"))
  }

  /**
   * The form opens only in a writable session and for a known good, the
   * first with that id; saving it unchanged gives the good back, except
   * that an empty `personal` becomes `"No"`.
   */
  lemma EditAdditionalPrefillRoundTrip(app: State, id: string)
    ensures var p := EditAdditionalPrefill(app, id);
      (p.Some? <==> !app.session.readOnlyMode && exists j :: 0 <= j < |app.goods.additionalItems| && app.goods.additionalItems[j].id == id)
      && (p.Some? ==>
            var a := app.goods.additionalItems[AdditionalIndex(app.goods.additionalItems, id)];
            a.id == id
            && ApplyAdditionalForm(a, p.value) == (if a.personal != "" then a else a.(personal := "No")))
  {
  }

  // ---------------------------------------------------------------------
  // showReassignModal

  /** The areas offered for reassignment: every known area except the list's own. */
  function ReassignChoices(areas: seq<string>, areaOriginal: string): (r: seq<string>)
  {
    Filter(areas, a => a != areaOriginal)
  }

  /**
   * A choice is offered exactly when it is a known area other than the
   * list's own, in the order of the area list; confirming is enabled exactly
   * when some choice remains.
   */
  lemma ReassignChoicesExactly(areas: seq<string>, areaOriginal: string, a: string)
    ensures a in ReassignChoices(areas, areaOriginal) <==> a in areas && a != areaOriginal
    ensures ReassignChoices(areas, areaOriginal) == [] <==> forall j :: 0 <= j < |areas| ==> areas[j] == areaOriginal
  {
    var r := ReassignChoices(areas, areaOriginal);
    if r == [] {
      forall j | 0 <= j < |areas|
        ensures areas[j] == areaOriginal
      {
        assert areas[j] in areas;
      }
    } else {
      assert r[0] in areas;
    }
  }

  /** The ids of the affected custodians. */
  function AffectedIds(affected: seq<Custodian>): set<string>
  {
    set u | u in affected :: u.id
  }

  /** The names of the affected custodians. */
  function AffectedNames(affected: seq<Custodian>): set<string>
  {
    set u | u in affected :: u.name
  }

  /** The custodians with every affected one moved to `newArea`. */
  function Reassigned(res: seq<Custodian>, ids: set<string>, newArea: string): (r: seq<Custodian>)
  {
    seq(|res|, i requires 0 <= i < |res| => if res[i].id in ids then res[i].(area := newArea) else res[i])
  }

  /** The affected custodians are state objects: moving each one moves the state's custodian with that id. */
  function WithReassigned(app: State, affected: seq<Custodian>, newArea: string): State
  {
    app.(custody := app.custody.(resguardantes := Reassigned(app.custody.resguardantes, AffectedIds(affected), newArea)))
  }

  /** The confirm handler on the world: refuse an empty choice; otherwise move, log, and delete the list. */
  function ConfirmReassign(w: World, listId: int, areaOriginal: string, affected: seq<Custodian>, newArea: string,
                           now: Now, writeOk: bool): World
  {
    if newArea == "" then w
    else
      var w1 := LogW(SetApp(w, WithReassigned(w.mem.app, affected, newArea)), now, "Usuarios reasignados",
                     NatToString(|affected|) + " usuarios del área " + areaOriginal + " movidos al área " + newArea + ".");
      DeleteList(w1, now, listId, writeOk)
  }

  /** Deleting a list keeps the custodians, the additional goods and the persistent areas. */
  lemma DeleteListKeepsCustody(w: World, now: Now, listId: int, writeOk: bool)
    ensures var r := DeleteList(w, now, listId, writeOk).mem.app;
      r.custody == w.mem.app.custody && r.goods.additionalItems == w.mem.app.goods.additionalItems
      && r.areaBook.persistentAreas == w.mem.app.areaBook.persistentAreas
  {
    var inv := w.mem.app.goods.inventory;
    var k := ListIndex(inv, listId);
    if k >= 0 {
      var w1 := LogW(w, now, "Listado eliminado", "Archivo: " + inv[k].fileName + ", Área: " + inv[k].areaOriginal);
      SaveKeepsData(Refreshed(SetApp(w1, WithoutList(w1.mem.app, listId))), writeOk);
    }
  }

  /**
   * An empty choice changes nothing. Otherwise every custodian among the
   * affected ones ends in the new area, every other custodian is left as
   * it was, and the additional goods stay.
   */
  lemma ConfirmReassignEffect(w: World, listId: int, areaOriginal: string, affected: seq<Custodian>, newArea: string,
                              now: Now, writeOk: bool)
    ensures newArea == "" ==> ConfirmReassign(w, listId, areaOriginal, affected, newArea, now, writeOk) == w
    ensures var r := ConfirmReassign(w, listId, areaOriginal, affected, newArea, now, writeOk).mem.app;
      var res := w.mem.app.custody.resguardantes;
      newArea != "" ==>
        |r.custody.resguardantes| == |res|
        && (forall i :: 0 <= i < |res| ==>
              if (exists u :: u in affected && u.id == res[i].id)
              then r.custody.resguardantes[i] == res[i].(area := newArea)
              else r.custody.resguardantes[i] == res[i])
        && r.goods.additionalItems == w.mem.app.goods.additionalItems
  {
    if newArea != "" {
      var w1 := LogW(SetApp(w, WithReassigned(w.mem.app, affected, newArea)), now, "Usuarios reasignados",
                     NatToString(|affected|) + " usuarios del área " + areaOriginal + " movidos al área " + newArea + ".");
      DeleteListKeepsCustody(w1, now, listId, writeOk);
    }
  }

  /** `persistentAreas` after "keep": the area appended unless it is already there. */
  function KeptAreas(persistent: seq<string>, area: string): seq<string>
  {
    if area in persistent then persistent else persistent + [area]
  }

  /** Keeping holds the area, adds nothing else, and keeping again changes nothing. */
  lemma KeptAreasIdempotent(persistent: seq<string>, area: string)
    ensures area in KeptAreas(persistent, area)
    ensures forall a :: a in KeptAreas(persistent, area) <==> a in persistent || a == area
    ensures KeptAreas(KeptAreas(persistent, area), area) == KeptAreas(persistent, area)
    ensures Distinct(persistent) ==> Distinct(KeptAreas(persistent, area))
  {
  }

  /** The keep handler on the world: record the area as persistent, log, and delete the list. */
  function KeepArea(w: World, listId: int, areaOriginal: string, now: Now, writeOk: bool): World
  {
    var app := w.mem.app;
    var app1 := app.(areaBook := app.areaBook.(persistentAreas := KeptAreas(app.areaBook.persistentAreas, areaOriginal)));
    DeleteList(LogW(SetApp(w, app1), now, "Área mantenida",
                    "El área " + areaOriginal + " se mantuvo a pesar de eliminar el listado."), now, listId, writeOk)
  }

  /** After "keep" the area is persistent, custodians and goods stay as they were. */
  lemma KeepAreaEffect(w: World, listId: int, areaOriginal: string, now: Now, writeOk: bool)
    ensures var r := KeepArea(w, listId, areaOriginal, now, writeOk).mem.app;
      r.areaBook.persistentAreas == KeptAreas(w.mem.app.areaBook.persistentAreas, areaOriginal)
      && areaOriginal in r.areaBook.persistentAreas
      && r.custody == w.mem.app.custody && r.goods.additionalItems == w.mem.app.goods.additionalItems
  {
    var app := w.mem.app;
    var app1 := app.(areaBook := app.areaBook.(persistentAreas := KeptAreas(app.areaBook.persistentAreas, areaOriginal)));
    DeleteListKeepsCustody(LogW(SetApp(w, app1), now, "Área mantenida",
                                "El área " + areaOriginal + " se mantuvo a pesar de eliminar el listado."), now, listId, writeOk);
  }

  /** The custodians whose id is not an affected one. */
  function UnaffectedCustodians(res: seq<Custodian>, ids: set<string>): seq<Custodian>
  {
    Filter(res, (u: Custodian) => u.id !in ids)
  }

  /** The additional goods whose holder is not an affected name. */
  function UnaffectedGoods(add: seq<AdditionalItem>, names: set<string>): seq<AdditionalItem>
  {
    Filter(add, (a: AdditionalItem) => a.usuario !in names)
  }

  /** The state after "delete all": the affected custodians and the goods they hold removed. */
  function WithoutAffected(app: State, affected: seq<Custodian>): State
  {
    app.(custody := app.custody.(resguardantes := UnaffectedCustodians(app.custody.resguardantes, AffectedIds(affected))),
         goods := app.goods.(additionalItems := UnaffectedGoods(app.goods.additionalItems, AffectedNames(affected))))
  }

  /** The delete-all handler on the world, after its warning dialog. */
  function DeleteAll(w: World, listId: int, areaOriginal: string, affected: seq<Custodian>, affectedGoods: nat,
                     choice: Choice, now: Now, writeOk: bool): World
  {
    if choice == Cancelled then w
    else
      var w1 := LogW(SetApp(w, WithoutAffected(w.mem.app, affected)), now, "Eliminación masiva",
                     "Se eliminaron " + NatToString(|affected|) + " usuarios y " + NatToString(affectedGoods)
                     + " bienes del área " + areaOriginal + ".");
      DeleteList(w1, now, listId, writeOk)
  }

  /**
   * Cancelling changes nothing. Confirming removes exactly the custodians
   * with an affected id and exactly the goods held under an affected name,
   * keeping the rest in order.
   */
  lemma DeleteAllEffect(w: World, listId: int, areaOriginal: string, affected: seq<Custodian>, affectedGoods: nat,
                        choice: Choice, now: Now, writeOk: bool, u: Custodian, a: AdditionalItem)
    ensures choice == Cancelled ==> DeleteAll(w, listId, areaOriginal, affected, affectedGoods, choice, now, writeOk) == w
    ensures var r := DeleteAll(w, listId, areaOriginal, affected, affectedGoods, choice, now, writeOk).mem.app;
      choice == Confirmed ==>
        (u in r.custody.resguardantes <==> u in w.mem.app.custody.resguardantes && forall v :: v in affected ==> v.id != u.id)
        && (a in r.goods.additionalItems <==> a in w.mem.app.goods.additionalItems && forall v :: v in affected ==> v.name != a.usuario)
  {
    if choice == Confirmed {
      var w1 := LogW(SetApp(w, WithoutAffected(w.mem.app, affected)), now, "Eliminación masiva",
                     "Se eliminaron " + NatToString(|affected|) + " usuarios y " + NatToString(affectedGoods)
                     + " bienes del área " + areaOriginal + ".");
      DeleteListKeepsCustody(w1, now, listId, writeOk);
    }
  }

  /** The confirm button: move every affected custodian, then log and delete the list. */
  method ConfirmReassignHandler(s: Session, store: SnapshotStore, listId: int, areaOriginal: string,
                                affected: seq<Custodian>, newArea: string, now: Now, writeOk: bool)
    modifies s, store
    ensures WorldOf(s, store) == ConfirmReassign(old(WorldOf(s, store)), listId, areaOriginal, affected, newArea, now, writeOk)
  {
    if newArea == "" {
      return;
    }
    ghost var res0 := s.app.custody.resguardantes;
    var res := s.app.custody.resguardantes;
    var j := 0;
    while j < |affected|
      invariant 0 <= j <= |affected|
      invariant res == Reassigned(res0, AffectedIds(affected[..j]), newArea)
    {
      assert AffectedIds(affected[..j + 1]) == AffectedIds(affected[..j]) + {affected[j].id} by {
        assert affected[..j + 1] == affected[..j] + [affected[j]];
      }
      var id := affected[j].id;
      res := seq(|res|, i requires 0 <= i < |res| => if res[i].id == id then res[i].(area := newArea) else res[i]);
      j := j + 1;
    }
    assert affected[..j] == affected;
    s.app := s.app.(custody := s.app.custody.(resguardantes := res));
    LogActivity(s, now, "Usuarios reasignados",
                NatToString(|affected|) + " usuarios del área " + areaOriginal + " movidos al área " + newArea + ".");
    DeleteListAndRefresh(s, store, now, listId, writeOk);
  }

  /** The keep button. */
  method KeepAreaHandler(s: Session, store: SnapshotStore, listId: int, areaOriginal: string, now: Now, writeOk: bool)
    modifies s, store
    ensures WorldOf(s, store) == KeepArea(old(WorldOf(s, store)), listId, areaOriginal, now, writeOk)
  {
    if areaOriginal !in s.app.areaBook.persistentAreas {
      s.app := s.app.(areaBook := s.app.areaBook.(persistentAreas := s.app.areaBook.persistentAreas + [areaOriginal]));
    }
    LogActivity(s, now, "Área mantenida", "El área " + areaOriginal + " se mantuvo a pesar de eliminar el listado.");
    DeleteListAndRefresh(s, store, now, listId, writeOk);
  }

  /** The delete-all button and its warning dialog. */
  method DeleteAllHandler(s: Session, store: SnapshotStore, listId: int, areaOriginal: string, affected: seq<Custodian>,
                          affectedGoods: nat, choice: Choice, now: Now, writeOk: bool)
    modifies s, store
    ensures WorldOf(s, store) == DeleteAll(old(WorldOf(s, store)), listId, areaOriginal, affected, affectedGoods, choice, now, writeOk)
  {
    if choice == Cancelled {
      return;
    }
    s.app := WithoutAffected(s.app, affected);
    LogActivity(s, now, "Eliminación masiva",
                "Se eliminaron " + NatToString(|affected|) + " usuarios y " + NatToString(affectedGoods)
                + " bienes del área " + areaOriginal + ".");
    DeleteListAndRefresh(s, store, now, listId, writeOk);
  }

  // ---------------------------------------------------------------------
  // showPreprintModal

  /** The options passed to a report generator, by name. */
  type Options = map<string, string>

  /** `s.replace(sub, "")` for a string pattern: only the first occurrence is removed. */
  function RemoveFirst(s: string, sub: string): string
    requires sub != ""
  {
    if |s| < |sub| then s
    else if s[..|sub|] == sub then s[|sub|..]
    else [s[0]] + RemoveFirst(s[1..], sub)
  }

  /** The option an input sets: its id without `"preprint-"`. */
  function InputKey(id: string): string
  {
    RemoveFirst(id, "preprint-")
  }

  /** Every input of the form is `preprint-<option>`, so its key is the option name. */
  lemma InputKeyOfField(name: string)
    ensures InputKey("preprint-" + name) == name
  {
    assert ("preprint-" + name)[..9] == "preprint-";
  }

  /** `{ ...defaultValues }` overwritten by each input, in document order. */
  function MergedOptions(defaults: Options, inputs: seq<(string, string)>): Options
  {
    if inputs == [] then defaults
    else
      var last := inputs[|inputs| - 1];
      MergedOptions(defaults, inputs[..|inputs| - 1])[InputKey(last.0) := last.1]
  }

  /**
   * An option is set by the last input whose key names it; an option no
   * input names keeps its default, and no other option appears.
   */
  lemma MergedOptionsLookup(defaults: Options, inputs: seq<(string, string)>, k: string)
    ensures var r := MergedOptions(defaults, inputs);
      (k in r <==> k in defaults || exists i :: 0 <= i < |inputs| && InputKey(inputs[i].0) == k)
      && ((forall i :: 0 <= i < |inputs| ==> InputKey(inputs[i].0) != k) && k in defaults ==> r[k] == defaults[k])
      && (forall i :: (0 <= i < |inputs| && InputKey(inputs[i].0) == k
                       && forall j :: i < j < |inputs| ==> InputKey(inputs[j].0) != k) ==> k in r && r[k] == inputs[i].1)
  {
    MergedKeys(defaults, inputs, k);
    if (forall i :: 0 <= i < |inputs| ==> InputKey(inputs[i].0) != k) && k in defaults {
      MergedUntouched(defaults, inputs, k);
    }
    forall i | 0 <= i < |inputs| && InputKey(inputs[i].0) == k
                 && forall j :: i < j < |inputs| ==> InputKey(inputs[j].0) != k
      ensures k in MergedOptions(defaults, inputs) && MergedOptions(defaults, inputs)[k] == inputs[i].1
    {
      MergedLastWins(defaults, inputs, k, i);
    }
  }

  /** The keys of the merged options: the defaults' and the inputs'. */
  lemma {:induction false} MergedKeys(defaults: Options, inputs: seq<(string, string)>, k: string)
    ensures k in MergedOptions(defaults, inputs) <==>
      k in defaults || exists i :: 0 <= i < |inputs| && InputKey(inputs[i].0) == k
  {
    if inputs != [] {
      var n := |inputs| - 1;
      var init := inputs[..n];
      MergedKeys(defaults, init, k);
      if InputKey(inputs[n].0) != k && exists i :: 0 <= i < |inputs| && InputKey(inputs[i].0) == k {
        var i :| 0 <= i < |inputs| && InputKey(inputs[i].0) == k;
        assert i < n && init[i] == inputs[i];
      }
      if exists i :: 0 <= i < n && InputKey(init[i].0) == k {
        var i :| 0 <= i < n && InputKey(init[i].0) == k;
        assert inputs[i] == init[i];
      }
    }
  }

  /** A key no input names keeps its default. */
  lemma {:induction false} MergedUntouched(defaults: Options, inputs: seq<(string, string)>, k: string)
    requires forall i :: 0 <= i < |inputs| ==> InputKey(inputs[i].0) != k
    requires k in defaults
    ensures k in MergedOptions(defaults, inputs) && MergedOptions(defaults, inputs)[k] == defaults[k]
  {
    if inputs != [] {
      var n := |inputs| - 1;
      var init := inputs[..n];
      assert forall i :: 0 <= i < n ==> init[i] == inputs[i];
      MergedUntouched(defaults, init, k);
    }
  }

  /** The last input naming a key decides its value. */
  lemma {:induction false} MergedLastWins(defaults: Options, inputs: seq<(string, string)>, k: string, i: nat)
    requires i < |inputs| && InputKey(inputs[i].0) == k
    requires forall j :: i < j < |inputs| ==> InputKey(inputs[j].0) != k
    ensures k in MergedOptions(defaults, inputs) && MergedOptions(defaults, inputs)[k] == inputs[i].1
  {
    var n := |inputs| - 1;
    if i < n {
      var init := inputs[..n];
      assert init[i] == inputs[i];
      assert forall j :: i < j < n ==> init[j] == inputs[j];
      MergedLastWins(defaults, init, k, i);
    }
  }


  /** The inputs of an untouched form: one per field, holding its default. */
  function UneditedInputs(defaults: Options, fields: seq<string>): seq<(string, string)>
    requires forall i :: 0 <= i < |fields| ==> fields[i] in defaults
  {
    seq(|fields|, i requires 0 <= i < |fields| => ("preprint-" + fields[i], defaults[fields[i]]))
  }

  /** Confirming a form nobody edited passes the defaults through unchanged. */
  lemma {:induction false} UneditedKeepsDefaults(defaults: Options, fields: seq<string>)
    requires forall i :: 0 <= i < |fields| ==> fields[i] in defaults
    ensures MergedOptions(defaults, UneditedInputs(defaults, fields)) == defaults
  {
    if fields != [] {
      var n := |fields| - 1;
      assert UneditedInputs(defaults, fields)[..n] == UneditedInputs(defaults, fields[..n]);
      UneditedKeepsDefaults(defaults, fields[..n]);
      InputKeyOfField(fields[n]);
    }
  }

  /** A truthy option: present and not empty. */
  predicate Given(o: Options, k: string)
  {
    k in o && o[k] != ""
  }

  /**
   * The confirm button of the pre-print form: the merged options, or `None`
   * when an area closure lacks who receives or where it is signed.
   */
  function ConfirmPreprint(reportType: string, defaults: Options, inputs: seq<(string, string)>): Option<Options>
  {
    var o := MergedOptions(defaults, inputs);
    if reportType == "area_closure" && (!Given(o, "recibe") || !Given(o, "location")) then None
    else Some(o)
  }

  /**
   * Only an area closure can be refused, and exactly when `recibe` or
   * `location` is missing or empty after the inputs are applied; an
   * accepted closure therefore always carries both.
   */
  lemma ConfirmPreprintValidates(reportType: string, defaults: Options, inputs: seq<(string, string)>)
    ensures var r := ConfirmPreprint(reportType, defaults, inputs);
      var o := MergedOptions(defaults, inputs);
      (r.None? <==> reportType == "area_closure" && (!Given(o, "recibe") || !Given(o, "location")))
      && (r.Some? ==> r.value == o)
      && (r.Some? && reportType == "area_closure" ==> Given(r.value, "recibe") && Given(r.value, "location"))
  {
  }

  /** The fields of the area-closure form, in document order. */
  const ClosureFields: seq<string> := ["areaFullName", "location", "entrega", "recibe", "recibeCargo"]

  /**
   * What the area-closure button passes (main.js:929-938): the area, and on
   * reprint its closure record. This is the only call modelled: the
   * report toolbar passes no area, and the form then takes the area of the
   * report filter or of the selected user (ui-modals-core.js:209).
   */
  datatype ClosureData = ClosureData(areaId: string, responsible: string, location: string)

  /**
   * The defaults of the area-closure form; `None` when no operator is
   * logged in (reading its name throws before the form opens).
   */
  function ClosureDefaults(app: State, data: ClosureData): Option<Options>
  {
    if app.session.currentUser.None? then None
    else
      var dir := app.areaBook.areaDirectory;
      var listed := if data.areaId != "" && data.areaId in dir then dir[data.areaId].name else "";
      var responsible := if data.responsible != "" then data.responsible else listed;
      var cargo := if data.areaId != "" && data.areaId in dir && dir[data.areaId].title != "" then dir[data.areaId].title
                   else "Responsable de Área";
      var fullName := if data.areaId in app.areaBook.areaNames && app.areaBook.areaNames[data.areaId] != ""
                      then app.areaBook.areaNames[data.areaId] else "Área " + data.areaId;
      Some(map["areaId" := data.areaId, "responsible" := responsible, "location" := data.location,
               "areaFullName" := fullName, "entrega" := app.session.currentUser.value.name,
               "recibe" := responsible, "recibeCargo" := cargo])
  }

  /**
   * Reprinting a closed area whose record names who received and where,
   * without editing the form, is accepted, and passes the recorded
   * responsible and location on.
   */
  lemma ReprintAccepted(app: State, areaId: string)
    requires app.session.currentUser.Some? && areaId in app.areaBook.closedAreas
    requires app.areaBook.closedAreas[areaId].responsible != "" && app.areaBook.closedAreas[areaId].location != ""
    ensures var c := app.areaBook.closedAreas[areaId];
      var d := ClosureDefaults(app, ClosureData(areaId, c.responsible, c.location));
      d.Some? && (forall i :: 0 <= i < |ClosureFields| ==> ClosureFields[i] in d.value)
      && var r := ConfirmPreprint("area_closure", d.value, UneditedInputs(d.value, ClosureFields));
         r.Some? && "responsible" in r.value && "location" in r.value
         && r.value["responsible"] == c.responsible && r.value["location"] == c.location
  {
    var c := app.areaBook.closedAreas[areaId];
    var d := ClosureDefaults(app, ClosureData(areaId, c.responsible, c.location)).value;
    UneditedKeepsDefaults(d, ClosureFields);
  }

  /** The confirm button: read each input into the options, then validate. */
  method ReadPreprintForm(reportType: string, defaults: Options, inputs: seq<(string, string)>) returns (r: Option<Options>)
    ensures r == ConfirmPreprint(reportType, defaults, inputs)
  {
    var options := defaults;
    var i := 0;
    while i < |inputs|
      invariant 0 <= i <= |inputs|
      invariant options == MergedOptions(defaults, inputs[..i])
    {
      assert inputs[..i + 1][..i] == inputs[..i];
      options := options[InputKey(inputs[i].0) := inputs[i].1];
      i := i + 1;
    }
    assert inputs[..i] == inputs;
    if reportType == "area_closure" && (!Given(options, "recibe") || !Given(options, "location")) {
      return None;
    }
    return Some(options);
  }
}

=== FILE: render.dfy ===
/**
 * What the views derive from the state: the list of known areas (the one
 * value a render writes back into the state), the dashboard counters, the
 * loaded lists, the action an area offers, the additional-goods filters,
 * the personal tag, and the theme switch.
 */
module Render {
  import opened Wrappers
  import opened JsText
  import opened Seqs
  import opened Sorting
  import opened Entities
  import opened AppState
  import opened Logger

  // ---------------------------------------------------------------------
  // populateAreaSelects

  /** The area of every item, in order. */
  function InventoryAreas(inv: seq<InventoryItem>): (r: seq<string>)
    ensures |r| == |inv| && forall i :: 0 <= i < |inv| ==> r[i] == inv[i].areaOriginal
  {
    seq(|inv|, i requires 0 <= i < |inv| => inv[i].areaOriginal)
  }

  /** The area of every custodian, in order. */
  function CustodianAreas(res: seq<Custodian>): (r: seq<string>)
    ensures |r| == |res| && forall j :: 0 <= j < |res| ==> r[j] == res[j].area
  {
    seq(|res|, j requires 0 <= j < |res| => res[j].area)
  }

  /** Every area the state mentions: inventory areas, then custodian areas, then the kept areas. */
  function AreaSources(s: State): seq<string>
  {
    InventoryAreas(s.goods.inventory) + CustodianAreas(s.custody.resguardantes) + s.areaBook.persistentAreas
  }

  /** `[...new Set(sources)].filter(Boolean).sort()`. */
  function AreaList(s: State): seq<string>
  {
    SortUnique(Filter(AreaSources(s), a => a != ""))
  }

  /**
   * The area list is strictly ascending and holds exactly the non-empty
   * areas of the items, of the custodians and of the kept areas.
   */
  lemma AreaListContents(s: State, a: string)
    ensures StrictlySorted(AreaList(s))
    ensures a in AreaList(s) <==>
      a != "" &&
      ((exists i :: 0 <= i < |s.goods.inventory| && s.goods.inventory[i].areaOriginal == a)
       || (exists j :: 0 <= j < |s.custody.resguardantes| && s.custody.resguardantes[j].area == a)
       || a in s.areaBook.persistentAreas)
  {
    var inv := InventoryAreas(s.goods.inventory);
    var res := CustodianAreas(s.custody.resguardantes);
    assert a in AreaSources(s) <==> a in inv || a in res || a in s.areaBook.persistentAreas;
    if exists i :: 0 <= i < |s.goods.inventory| && s.goods.inventory[i].areaOriginal == a {
      var i :| 0 <= i < |s.goods.inventory| && s.goods.inventory[i].areaOriginal == a;
      assert inv[i] == a;
    }
    if exists j :: 0 <= j < |s.custody.resguardantes| && s.custody.resguardantes[j].area == a {
      var j :| 0 <= j < |s.custody.resguardantes| && s.custody.resguardantes[j].area == a;
      assert res[j] == a;
    }
  }

  /** `populateAreaSelects`: rewrites `state.areaBook.areas` and nothing else in the state. */
  method PopulateAreaSelects(s: Session)
    modifies s`app
    ensures s.app == old(s.app).(areaBook := old(s.app).areaBook.(areas := AreaList(old(s.app))))
  {
    s.app := s.app.(areaBook := s.app.areaBook.(areas := AreaList(s.app)));
  }

  // ---------------------------------------------------------------------
  // renderDashboard

  /** The figures the dashboard shows. */
  datatype Dashboard = Dashboard(total: nat, located: nat, pending: int, daily: nat, workingAreas: nat, additional: nat)

  /** The distinct `areaOriginal` values of the items. */
  function AreaSet(inv: seq<InventoryItem>): set<string>
  {
    if inv == [] then {} else AreaSet(inv[..|inv| - 1]) + {inv[|inv| - 1].areaOriginal}
  }

  /** An area is in the set exactly when some item belongs to it. */
  lemma {:induction false} AreaSetMembership(inv: seq<InventoryItem>, a: string)
    ensures a in AreaSet(inv) <==> exists i :: 0 <= i < |inv| && inv[i].areaOriginal == a
  {
    if inv != [] {
      var init := inv[..|inv| - 1];
      AreaSetMembership(init, a);
      if a in AreaSet(init) {
        var i :| 0 <= i < |init| && init[i].areaOriginal == a;
        assert inv[i] == init[i];
      }
      if exists i :: 0 <= i < |inv| && inv[i].areaOriginal == a {
        var i :| 0 <= i < |inv| && inv[i].areaOriginal == a;
        if i < |init| {
          assert init[i] == inv[i];
        }
      }
    }
  }

  /** There are at most as many areas as items, and none only when there are no items. */
  lemma {:induction false} AreaSetFacts(inv: seq<InventoryItem>)
    ensures |AreaSet(inv)| <= |inv|
    ensures |AreaSet(inv)| == 0 <==> inv == []
    ensures forall a :: a in AreaSet(inv) <==> exists i :: 0 <= i < |inv| && inv[i].areaOriginal == a
  {
    forall a
      ensures a in AreaSet(inv) <==> exists i :: 0 <= i < |inv| && inv[i].areaOriginal == a
    {
      AreaSetMembership(inv, a);
    }
    if inv != [] {
      AreaSetFacts(inv[..|inv| - 1]);
      assert inv[|inv| - 1].areaOriginal in AreaSet(inv);
    }
  }

  /** An item located today: its truthy `fechaUbicado` starts with today's date. */
  predicate LocatedOn(it: InventoryItem, today: string)
  {
    it.fechaUbicado.Some? && it.fechaUbicado.value != "" && StartsWith(it.fechaUbicado.value, today)
  }

  /** An additional good registered today. */
  predicate RegisteredOn(a: AdditionalItem, today: string)
  {
    a.fechaRegistro != "" && StartsWith(a.fechaRegistro, today)
  }

  /** `renderDashboard`, given today's date as `YYYY-MM-DD`. */
  function DashboardOf(s: State, today: string): Dashboard
  {
    var located := |Filter(s.goods.inventory, (it: InventoryItem) => it.Located())|;
    var daily := |Filter(s.goods.inventory, (it: InventoryItem) => LocatedOn(it, today))| + |Filter(s.goods.additionalItems, (a: AdditionalItem) => RegisteredOn(a, today))|;
    Dashboard(|s.goods.inventory|, located, |s.goods.inventory| - located, daily, |AreaSet(s.goods.inventory)|, |s.goods.additionalItems|)
  }

  /**
   * The counters agree: located plus pending is the total, nothing is pending
   * exactly when every item is located, and there are no more working areas
   * than items, and none only without items.
   */
  lemma DashboardConsistent(s: State, today: string)
    ensures var d := DashboardOf(s, today);
      d.located + d.pending == d.total && 0 <= d.pending
      && (d.pending == 0 <==> forall i :: 0 <= i < |s.goods.inventory| ==> s.goods.inventory[i].Located())
      && d.workingAreas <= d.total && (d.workingAreas == 0 <==> d.total == 0)
  {
    FilterKeepsAll(s.goods.inventory, (it: InventoryItem) => it.Located());
    AreaSetFacts(s.goods.inventory);
  }

  // ---------------------------------------------------------------------
  // renderLoadedLists

  /** One loaded list as the settings tab shows it. */
  datatype LoadedList = LoadedList(listId: int, fileName: string, areaOriginal: string, listadoOriginal: string)

  function EntryOf(it: InventoryItem): LoadedList
  {
    LoadedList(it.listId, it.fileName, it.areaOriginal, it.listadoOriginal)
  }

  /** The ids of the entries, collected as the `Map`'s keys. */
  function ListIds(ls: seq<LoadedList>): set<int>
  {
    if ls == [] then {} else ListIds(ls[..|ls| - 1]) + {ls[|ls| - 1].listId}
  }

  lemma {:induction false} ListIdsMembership(ls: seq<LoadedList>, id: int)
    ensures id in ListIds(ls) <==> exists k :: 0 <= k < |ls| && ls[k].listId == id
  {
    if ls != [] {
      var init := ls[..|ls| - 1];
      ListIdsMembership(init, id);
      if exists k :: 0 <= k < |ls| && ls[k].listId == id {
        var k :| 0 <= k < |ls| && ls[k].listId == id;
        if k < |init| {
          assert init[k] == ls[k];
        }
      }
      if exists k :: 0 <= k < |init| && init[k].listId == id {
        var k :| 0 <= k < |init| && init[k].listId == id;
        assert ls[k] == init[k];
      }
    }
  }

  /** One entry per distinct `listId`, built from its first item, in order of first appearance. */
  function LoadedListsOf(inv: seq<InventoryItem>): seq<LoadedList>
  {
    if inv == [] then []
    else
      var prev := LoadedListsOf(inv[..|inv| - 1]);
      if inv[|inv| - 1].listId in ListIds(prev) then prev else prev + [EntryOf(inv[|inv| - 1])]
  }

  /** The index of the first item of a list, or -1 when no item belongs to it. */
  function FirstOfList(inv: seq<InventoryItem>, id: int): (r: int)
    ensures -1 <= r < |inv|
    ensures r >= 0 ==> inv[r].listId == id && forall j :: 0 <= j < r ==> inv[j].listId != id
    ensures r == -1 <==> forall j :: 0 <= j < |inv| ==> inv[j].listId != id
  {
    if inv == [] then -1
    else
      var f := FirstOfList(inv[..|inv| - 1], id);
      if f >= 0 then f else if inv[|inv| - 1].listId == id then |inv| - 1 else -1
  }

  /** A list has an entry exactly when one of its items is loaded. */
  lemma {:induction false} LoadedListsMembership(inv: seq<InventoryItem>, id: int)
    ensures id in ListIds(LoadedListsOf(inv)) <==> FirstOfList(inv, id) >= 0
  {
    if inv != [] {
      var init := inv[..|inv| - 1];
      LoadedListsMembership(init, id);
      var prev := LoadedListsOf(init);
      var x := inv[|inv| - 1];
      if x.listId !in ListIds(prev) {
        assert (prev + [EntryOf(x)])[..|prev|] == prev;
      } else {
        LoadedListsMembership(init, x.listId);
      }
    }
  }

  /** No two entries share a `listId`. */
  predicate DistinctIds(ls: seq<LoadedList>)
  {
    forall k, m :: 0 <= k < m < |ls| ==> ls[k].listId != ls[m].listId
  }

  lemma {:induction false} LoadedListsDistinct(inv: seq<InventoryItem>)
    ensures DistinctIds(LoadedListsOf(inv))
  {
    if inv != [] {
      var init := inv[..|inv| - 1];
      LoadedListsDistinct(init);
      var prev := LoadedListsOf(init);
      var x := inv[|inv| - 1];
      if x.listId !in ListIds(prev) {
        ListIdsMembership(prev, x.listId);
        var r := prev + [EntryOf(x)];
        assert r[..|prev|] == prev;
        assert LoadedListsOf(inv) == r;
        forall k, m | 0 <= k < m < |r|
          ensures r[k].listId != r[m].listId
        {
          assert r[k] == prev[k];
          if m < |prev| {
            assert r[m] == prev[m];
          } else {
            assert r[m].listId == x.listId;
          }
        }
      } else {
        assert LoadedListsOf(inv) == prev;
      }
    }
  }

  /** Each entry is taken from the first item of its list. */
  lemma {:induction false} LoadedListsFromFirst(inv: seq<InventoryItem>)
    ensures var r := LoadedListsOf(inv);
      forall k :: 0 <= k < |r| ==> 0 <= FirstOfList(inv, r[k].listId) && r[k] == EntryOf(inv[FirstOfList(inv, r[k].listId)])
  {
    if inv != [] {
      var n := |inv| - 1;
      var init := inv[..n];
      LoadedListsFromFirst(init);
      var prev := LoadedListsOf(init);
      var x := inv[n];
      var r := LoadedListsOf(inv);
      forall k | 0 <= k < |r|
        ensures 0 <= FirstOfList(inv, r[k].listId) && r[k] == EntryOf(inv[FirstOfList(inv, r[k].listId)])
      {
        if k < |prev| {
          assert r[k] == prev[k];
          var f := FirstOfList(init, prev[k].listId);
          assert inv[f] == init[f];
        } else {
          LoadedListsMembership(init, x.listId);
        }
      }
    }
  }

  /** Entries come in the order in which their lists first appear. */
  lemma {:induction false} LoadedListsOrdered(inv: seq<InventoryItem>)
    ensures var r := LoadedListsOf(inv);
      forall k, m :: 0 <= k < m < |r| ==> FirstOfList(inv, r[k].listId) < FirstOfList(inv, r[m].listId)
  {
    if inv != [] {
      var n := |inv| - 1;
      var init := inv[..n];
      LoadedListsOrdered(init);
      LoadedListsFromFirst(init);
      var prev := LoadedListsOf(init);
      var x := inv[n];
      var r := LoadedListsOf(inv);
      forall k, m | 0 <= k < m < |r|
        ensures FirstOfList(inv, r[k].listId) < FirstOfList(inv, r[m].listId)
      {
        assert r[k] == prev[k];
        if m < |prev| {
          assert r[m] == prev[m];
        } else {
          LoadedListsMembership(init, x.listId);
        }
      }
    }
  }

  /**
   * The loaded lists: distinct ids, an entry exactly for the lists that have
   * items, each entry taken from the first item of its list, and entries
   * ordered by where their lists first appear.
   */
  lemma LoadedListsFacts(inv: seq<InventoryItem>, id: int)
    ensures var r := LoadedListsOf(inv);
      DistinctIds(r)
      && ((exists k :: 0 <= k < |r| && r[k].listId == id) <==> exists i :: 0 <= i < |inv| && inv[i].listId == id)
      && (forall k :: 0 <= k < |r| ==> 0 <= FirstOfList(inv, r[k].listId) && r[k] == EntryOf(inv[FirstOfList(inv, r[k].listId)]))
      && (forall k, m :: 0 <= k < m < |r| ==> FirstOfList(inv, r[k].listId) < FirstOfList(inv, r[m].listId))
  {
    LoadedListsDistinct(inv);
    LoadedListsFromFirst(inv);
    LoadedListsOrdered(inv);
    LoadedListsMembership(inv, id);
    ListIdsMembership(LoadedListsOf(inv), id);
  }

  /** `renderLoadedLists`: the `Map` built in one pass over the items, keyed by `listId`. */
  method CollectLoadedLists(inv: seq<InventoryItem>) returns (lists: seq<LoadedList>)
    ensures lists == LoadedListsOf(inv)
  {
    lists := [];
    var seen: set<int> := {};
    var i := 0;
    while i < |inv|
      invariant 0 <= i <= |inv|
      invariant lists == LoadedListsOf(inv[..i])
      invariant seen == ListIds(lists)
    {
      assert inv[..i + 1][..i] == inv[..i];
      if inv[i].listId !in seen {
        var prev := lists;
        lists := lists + [EntryOf(inv[i])];
        seen := seen + {inv[i].listId};
        assert lists[..|lists| - 1] == prev;
      }
      i := i + 1;
    }
    assert inv[..i] == inv;
  }

  // ---------------------------------------------------------------------
  // The area action on a loaded list

  datatype AreaAction = Reprint | Generate | NoAction

  /** A closed area offers the closure certificate again; a completed, open one offers a new one. */
  function AreaButton(s: State, areaId: string): (r: AreaAction)
    ensures r == Reprint <==> areaId in s.areaBook.closedAreas
    ensures r == Generate <==> areaId !in s.areaBook.closedAreas && areaId in s.areaBook.completedAreas
  {
    if areaId in s.areaBook.closedAreas then Reprint
    else if areaId in s.areaBook.completedAreas then Generate
    else NoAction
  }

  // ---------------------------------------------------------------------
  // renderAdicionalesList

  /** The names of the custodians of an area (`resguardantes.filter(..).map(u => u.name)`). */
  function CustodianNamesIn(res: seq<Custodian>, area: string): (r: seq<string>)
    ensures forall n :: n in r <==> exists j :: 0 <= j < |res| && res[j].area == area && res[j].name == n
  {
    if res == [] then []
    else
      var rest := CustodianNamesIn(res[1..], area);
      assert forall j :: 1 <= j < |res| ==> res[j] == res[1..][j - 1];
      if res[0].area == area then [res[0].name] + rest else rest
  }

  /** A filter value that selects: neither empty nor `'all'`. */
  predicate Active(filter: string)
  {
    filter != "" && filter != "all"
  }

  /** The additional goods listed: first those held by a custodian of the area, then those of the user. */
  function VisibleAdditional(s: State, filterArea: string, filterUser: string): seq<AdditionalItem>
  {
    var names := CustodianNamesIn(s.custody.resguardantes, filterArea);
    var byArea := if Active(filterArea) then Filter(s.goods.additionalItems, (a: AdditionalItem) => a.usuario in names) else s.goods.additionalItems;
    if Active(filterUser) then Filter(byArea, (a: AdditionalItem) => a.usuario == filterUser) else byArea
  }

  /** A good is listed exactly when it passes both active filters. */
  lemma VisibleAdditionalMembership(s: State, filterArea: string, filterUser: string, a: AdditionalItem)
    ensures a in VisibleAdditional(s, filterArea, filterUser) <==>
      a in s.goods.additionalItems
      && (Active(filterArea) ==> exists j :: 0 <= j < |s.custody.resguardantes| && s.custody.resguardantes[j].area == filterArea && s.custody.resguardantes[j].name == a.usuario)
      && (Active(filterUser) ==> a.usuario == filterUser)
  {
  }

  /** The tag a personal good carries, by whether its entry form was answered yes, no, or not at all. */
  datatype PersonalTag = WithEntryForm | WithoutEntryForm | Unanswered | NotPersonal

  function PersonalTagOf(a: AdditionalItem): (r: PersonalTag)
    ensures r == NotPersonal <==> a.personal != "Si"
    ensures r == WithEntryForm <==> a.personal == "Si" && a.tieneFormatoEntrada == Some(true)
    ensures r == WithoutEntryForm <==> a.personal == "Si" && a.tieneFormatoEntrada == Some(false)
  {
    if a.personal != "Si" then NotPersonal
    else match a.tieneFormatoEntrada
      case Some(true) => WithEntryForm
      case Some(false) => WithoutEntryForm
      case None => Unanswered
  }

  // ---------------------------------------------------------------------
  // updateTheme

  /** `updateTheme`: set the theme and log the change (no save). */
  method UpdateTheme(s: Session, now: Now, theme: string)
    modifies s`app
    ensures s.app == Log(old(s.app).(session := old(s.app).session.(theme := theme)), now, "Ajustes", "Tema cambiado a " + theme + ".")
  {
    s.app := s.app.(session := s.app.session.(theme := theme));
    LogActivity(s, now, "Ajustes", "Tema cambiado a " + theme + ".");
  }
}

=== FILE: reports.dfy ===
/**
 * The selections behind the reports and exports (pending goods, goods to
 * regularise, per-user tallies, export scopes, labels), the closure record
 * an area-closure report writes, and the clave normalisation of the
 * spreadsheet exports. Templates, printing and the spreadsheet writer are
 * outside the model.
 */
module Reports {
  import opened Wrappers
  import opened JsText
  import opened Seqs
  import opened Entities
  import opened AppState
  import opened Logger
  import opened Render
  import opened MainHandlers
  import opened ModalsCore

  /** The value of the area and user filters that selects everything. */
  const All: string := "all"

  // ---------------------------------------------------------------------
  // generateSimplePendingReport

  predicate Pending(it: InventoryItem)
  {
    it.ubicado == No
  }

  /** The items of one original area. */
  function OfArea(inv: seq<InventoryItem>, area: string): (r: seq<InventoryItem>)
    ensures forall x :: x in r <==> x in inv && x.areaOriginal == area
    ensures multiset(r) <= multiset(inv)
  {
    Filter(inv, (it: InventoryItem) => it.areaOriginal == area)
  }

  /** The goods of the pending report: not located, and of the selected area unless it is `'all'`. */
  function PendingItems(inv: seq<InventoryItem>, selectedArea: string): seq<InventoryItem>
  {
    var p := Filter(inv, Pending);
    if selectedArea != All then OfArea(p, selectedArea) else p
  }

  /**
   * The report lists exactly the items whose `UBICADO` is `'NO'` and, with
   * an area selected, whose original area is that one, each no more often
   * than in the inventory.
   */
  lemma PendingItemsExactly(inv: seq<InventoryItem>, selectedArea: string, it: InventoryItem)
    ensures it in PendingItems(inv, selectedArea) <==>
      it in inv && it.ubicado == No && (selectedArea == All || it.areaOriginal == selectedArea)
    ensures multiset(PendingItems(inv, selectedArea)) <= multiset(inv)
  {
  }

  /** The simple pending report on the state: nothing when no item is pending, else one log entry. */
  function SimplePending(app: State, selectedArea: string, now: Now): State
  {
    var items := PendingItems(app.goods.inventory, selectedArea);
    if items == [] then app
    else Log(app, now, "Reporte Impreso", "Impresión de reporte de " + NatToString(|items|) + " pendientes.")
  }

  /** `generateSimplePendingReport`: the items printed, or none. */
  method SimplePendingReport(s: Session, selectedArea: string, now: Now) returns (items: seq<InventoryItem>)
    modifies s`app
    ensures items == PendingItems(old(s.app).goods.inventory, selectedArea)
    ensures s.app == SimplePending(old(s.app), selectedArea, now)
  {
    items := PendingItems(s.app.goods.inventory, selectedArea);
    if items == [] {
      return;
    }
    LogActivity(s, now, "Reporte Impreso", "Impresión de reporte de " + NatToString(|items|) + " pendientes.");
  }

  // ---------------------------------------------------------------------
  // Goods to regularise (area closure, tasks report, session summary)

  /** A personal good whose entry-form question was answered no; an unanswered one does not qualify. */
  predicate ToRegularize(a: AdditionalItem)
  {
    a.personal == "Si" && a.tieneFormatoEntrada == Some(false)
  }

  function GoodsToRegularize(add: seq<AdditionalItem>): seq<AdditionalItem>
  {
    Filter(add, ToRegularize)
  }

  /** Exactly the personal goods answered no are listed; unanswered and answered-yes goods are not. */
  lemma GoodsToRegularizeExactly(add: seq<AdditionalItem>, a: AdditionalItem)
    ensures a in GoodsToRegularize(add) <==> a in add && a.personal == "Si" && a.tieneFormatoEntrada == Some(false)
    ensures a.tieneFormatoEntrada == None ==> a !in GoodsToRegularize(add)
  {
  }

  // ---------------------------------------------------------------------
  // generateAreaClosureReport

  /** How many of the items are held under `user`. */
  function CountOf(items: seq<InventoryItem>, user: string): nat
  {
    if items == [] then 0
    else CountOf(items[..|items| - 1], user) + (if items[|items| - 1].usuario == user then 1 else 0)
  }

  /** One line of the per-user statistics: a holder and how many items it holds. */
  datatype UserCount = UserCount(user: string, count: nat)

  /** The position of `user` in a tally, or -1. */
  function TallyIndex(t: seq<UserCount>, user: string): (k: int)
    ensures -1 <= k < |t|
    ensures k >= 0 ==> t[k].user == user
    ensures k == -1 <==> forall j :: 0 <= j < |t| ==> t[j].user != user
  {
    FindIndex(t, (e: UserCount) => e.user == user)
  }

  /** `acc[user] = (acc[user] || 0) + 1`: a new holder goes last. */
  function Bump(t: seq<UserCount>, user: string): seq<UserCount>
  {
    var k := TallyIndex(t, user);
    if k >= 0 then t[k := UserCount(user, t[k].count + 1)] else t + [UserCount(user, 1)]
  }

  /** The `reduce` over the area's items: holders in order of first appearance, blank holders skipped. */
  function Tally(items: seq<InventoryItem>): seq<UserCount>
  {
    if items == [] then []
    else
      var t := Tally(items[..|items| - 1]);
      var u := items[|items| - 1].usuario;
      if u != "" then Bump(t, u) else t
  }

  /** Each holder appears at most once. */
  predicate DistinctHolders(t: seq<UserCount>)
  {
    forall i, j :: 0 <= i < j < |t| ==> t[i].user != t[j].user
  }

  /** Every entry names a non-blank holder with its item count. */
  predicate CountsMatch(t: seq<UserCount>, items: seq<InventoryItem>)
  {
    forall i :: 0 <= i < |t| ==> t[i].user != "" && t[i].count == CountOf(items, t[i].user)
  }

  /** Every non-blank holder of some item has an entry. */
  ghost predicate CoversHolders(t: seq<UserCount>, items: seq<InventoryItem>)
  {
    forall u :: u != "" && CountOf(items, u) > 0 ==> TallyIndex(t, u) >= 0
  }

  /** A tally of `items`: one entry per non-blank holder, each with its item count. */
  ghost predicate TallyOf(t: seq<UserCount>, items: seq<InventoryItem>)
  {
    DistinctHolders(t) && CountsMatch(t, items) && CoversHolders(t, items)
  }

  /** Counting over one more item. */
  lemma CountOfSnoc(init: seq<InventoryItem>, x: InventoryItem, u: string)
    ensures CountOf(init + [x], u) == CountOf(init, u) + (if x.usuario == u then 1 else 0)
  {
    assert (init + [x])[..|init|] == init;
  }

  /** An item with a blank holder leaves a tally a tally. */
  lemma BlankStep(t: seq<UserCount>, init: seq<InventoryItem>, x: InventoryItem)
    requires TallyOf(t, init) && x.usuario == ""
    ensures TallyOf(t, init + [x])
  {
    forall u
      ensures CountOf(init + [x], u) == CountOf(init, u) + (if x.usuario == u then 1 else 0)
    {
      CountOfSnoc(init, x, u);
    }
  }

  /** Bumping the holder of one more item keeps the holders distinct. */
  lemma BumpDistinct(t: seq<UserCount>, u: string)
    requires DistinctHolders(t)
    ensures DistinctHolders(Bump(t, u))
  {
  }

  /** Bumping the holder of one more item keeps every count right. */
  lemma BumpCounts(t: seq<UserCount>, init: seq<InventoryItem>, x: InventoryItem)
    requires TallyOf(t, init) && x.usuario != ""
    ensures CountsMatch(Bump(t, x.usuario), init + [x])
  {
    var u := x.usuario;
    var r := Bump(t, u);
    forall i | 0 <= i < |r|
      ensures r[i].user != "" && r[i].count == CountOf(init + [x], r[i].user)
    {
      CountOfSnoc(init, x, r[i].user);
      if TallyIndex(t, u) < 0 && i == |t| {
        assert CountOf(init, u) == 0;
      }
    }
  }

  /** Bumping the holder of one more item keeps every holder covered. */
  lemma BumpCovers(t: seq<UserCount>, init: seq<InventoryItem>, x: InventoryItem)
    requires TallyOf(t, init) && x.usuario != ""
    ensures CoversHolders(Bump(t, x.usuario), init + [x])
  {
    var u := x.usuario;
    var r := Bump(t, u);
    forall v | v != "" && CountOf(init + [x], v) > 0
      ensures TallyIndex(r, v) >= 0
    {
      CountOfSnoc(init, x, v);
      if v != u {
        assert r[TallyIndex(t, v)].user == v;
      } else if TallyIndex(t, u) >= 0 {
        assert r[TallyIndex(t, u)].user == v;
      } else {
        assert r[|r| - 1].user == v;
      }
    }
  }

  /** Each non-blank holder of the area appears once, with the number of items it holds. */
  lemma {:induction false} TallyCounts(items: seq<InventoryItem>)
    ensures TallyOf(Tally(items), items)
  {
    if items != [] {
      var init := items[..|items| - 1];
      var x := items[|items| - 1];
      assert items == init + [x];
      TallyCounts(init);
      var t := Tally(init);
      if x.usuario != "" {
        BumpDistinct(t, x.usuario);
        BumpCounts(t, init, x);
        BumpCovers(t, init, x);
      } else {
        BlankStep(t, init, x);
      }
    }
  }

  /** Descending by count. */
  predicate CountsDescending(t: seq<UserCount>)
  {
    forall i, j :: 0 <= i < j < |t| ==> t[i].count >= t[j].count
  }

  /** A sorted list stays sorted under a head at least as large as its first entry. */
  lemma ConsDescending(h: UserCount, rest: seq<UserCount>)
    requires CountsDescending(rest)
    requires rest == [] || h.count >= rest[0].count
    ensures CountsDescending([h] + rest)
  {
    forall i, j | 0 <= i < j < |[h] + rest|
      ensures ([h] + rest)[i].count >= ([h] + rest)[j].count
    {
      if i == 0 && j > 1 {
        assert rest[0].count >= rest[j - 1].count;
      }
    }
  }

  /** `e` placed after every entry of the sorted `t` whose count is at least its own. */
  function InsertByCount(t: seq<UserCount>, e: UserCount): (r: seq<UserCount>)
    requires CountsDescending(t)
    ensures CountsDescending(r)
    ensures multiset(r) == multiset(t) + multiset{e}
    ensures r[0] == e || (t != [] && r[0] == t[0])
  {
    if t == [] then [e]
    else if e.count > t[0].count then [e] + t
    else
      assert CountsDescending(t[1..]) by {
        forall i, j | 0 <= i < j < |t[1..]|
          ensures t[1..][i].count >= t[1..][j].count
        {
          assert t[1..][i] == t[i + 1] && t[1..][j] == t[j + 1];
        }
      }
      var rest := InsertByCount(t[1..], e);
      assert t == [t[0]] + t[1..];
      assert rest[0].count <= t[0].count by {
        if rest[0] != e {
          assert t[1..] != [] && rest[0] == t[1];
        }
      }
      ConsDescending(t[0], rest);
      [t[0]] + rest
  }

  /**
   * `userEntries.sort((a, b) => b[1] - a[1])`: largest count first, as a
   * permutation of the tally. The order among equal counts is not stated.
   */
  function SortByCount(t: seq<UserCount>): (r: seq<UserCount>)
    ensures CountsDescending(r)
    ensures multiset(r) == multiset(t)
  {
    if t == [] then []
    else
      assert t == t[..|t| - 1] + [t[|t| - 1]];
      InsertByCount(SortByCount(t[..|t| - 1]), t[|t| - 1])
  }

  /** The per-user statistics of an area closure: the tally of the area's items, largest first. */
  function UserStats(inv: seq<InventoryItem>, areaId: string): seq<UserCount>
  {
    SortByCount(Tally(OfArea(inv, areaId)))
  }

  /**
   * The statistics list every non-blank holder of the area's items once,
   * with the number of the area's items it holds, largest count first.
   */
  lemma UserStatsCorrect(inv: seq<InventoryItem>, areaId: string, e: UserCount)
    ensures CountsDescending(UserStats(inv, areaId))
    ensures e in UserStats(inv, areaId) <==> e in Tally(OfArea(inv, areaId))
    ensures e in UserStats(inv, areaId) ==> e.user != "" && e.count == CountOf(OfArea(inv, areaId), e.user)
    ensures e.user != "" && CountOf(OfArea(inv, areaId), e.user) > 0 ==>
      UserCount(e.user, CountOf(OfArea(inv, areaId), e.user)) in UserStats(inv, areaId)
  {
    var t := Tally(OfArea(inv, areaId));
    TallyCounts(OfArea(inv, areaId));
    assert multiset(UserStats(inv, areaId)) == multiset(t);
    assert e in UserStats(inv, areaId) <==> e in multiset(t);
    if e.user != "" && CountOf(OfArea(inv, areaId), e.user) > 0 {
      var k := TallyIndex(t, e.user);
      assert t[k] in multiset(t);
    }
  }

  /** The figures of an area-closure report. */
  datatype ClosureSummary = ClosureSummary(
    areaItems: nat, additional: nat, personal: nat, labels: nat, users: nat,
    perUser: seq<UserCount>, toRegularize: seq<AdditionalItem>)

  /** The goods held by a custodian of the area. */
  function AdditionalInArea(app: State, areaId: string): seq<AdditionalItem>
  {
    var names := CustodianNamesIn(app.custody.resguardantes, areaId);
    Filter(app.goods.additionalItems, (a: AdditionalItem) => a.usuario in names)
  }

  function ClosureSummaryOf(app: State, areaId: string): ClosureSummary
  {
    var items := OfArea(app.goods.inventory, areaId);
    var add := AdditionalInArea(app, areaId);
    ClosureSummary(|items|, |add|, |Filter(add, (a: AdditionalItem) => a.personal == "Si")|,
                   |Filter(items, (it: InventoryItem) => it.imprimir == Yes)|,
                   |CustodianNamesIn(app.custody.resguardantes, areaId)|,
                   UserStats(app.goods.inventory, areaId), GoodsToRegularize(add))
  }

  /** The option the report reads, or the text JavaScript gives an absent one where it is used as a key. */
  function OptionOr(o: Options, k: string, absent: string): string
  {
    if k in o then o[k] else absent
  }

  /** The record the report stores: the options' `responsible` and `location`, and the time of closing. */
  function ClosureRecord(options: Options, now: Now): ClosedArea
  {
    ClosedArea(OptionOr(options, "responsible", ""), OptionOr(options, "location", ""), now.isoStamp)
  }

  /**
   * `generateAreaClosureReport(options)` on the world: record the closure,
   * log, save. An options object without `areaId` records under the key
   * `"undefined"`, as indexing with `undefined` does.
   */
  function CloseArea(w: World, options: Options, now: Now, writeOk: bool): World
  {
    var app := w.mem.app;
    var areaId := OptionOr(options, "areaId", "undefined");
    var app1 := app.(areaBook := app.areaBook.(closedAreas := app.areaBook.closedAreas[areaId := ClosureRecord(options, now)]));
    Save(LogW(SetApp(w, app1), now, "Acta de área cerrada",
              "Área: " + areaId + ", Responsable que recibe: " + OptionOr(options, "responsible", "")), writeOk)
  }

  /**
   * Closing records the area's responsible, location and date, leaves the
   * other records, the items and the custodians as they were, and from then
   * on the area-completion check leaves the state alone for that area.
   */
  lemma CloseAreaEffect(w: World, options: Options, now: Now, writeOk: bool, now2: Now, writeOk2: bool)
    ensures var r := CloseArea(w, options, now, writeOk);
      var areaId := OptionOr(options, "areaId", "undefined");
      var closed := r.mem.app.areaBook.closedAreas;
      areaId in closed && closed[areaId] == ClosedArea(OptionOr(options, "responsible", ""), OptionOr(options, "location", ""), now.isoStamp)
      && (forall a :: a != areaId ==> (a in closed <==> a in w.mem.app.areaBook.closedAreas)
                                      && (a in closed ==> closed[a] == w.mem.app.areaBook.closedAreas[a]))
      && r.mem.app.goods == w.mem.app.goods && r.mem.app.custody == w.mem.app.custody
      && AreaCheck(r, now2, areaId, writeOk2) == r
  {
    var app := w.mem.app;
    var areaId := OptionOr(options, "areaId", "undefined");
    var app1 := app.(areaBook := app.areaBook.(closedAreas := app.areaBook.closedAreas[areaId := ClosureRecord(options, now)]));
    Committed(w, app1, now, "Acta de área cerrada", "Área: " + areaId + ", Responsable que recibe: " + OptionOr(options, "responsible", ""), writeOk);
    AreaCheckSyncs(CloseArea(w, options, now, writeOk), now2, areaId, writeOk2);
  }

  /**
   * The closure form has no `responsible` field: whatever is typed as
   * `recibe`, the record keeps the pre-filled responsible (the one passed
   * in, or the directory's), which may be blank even though `recibe` is not.
   */
  lemma ClosureRecordsPrefilledResponsible(app: State, data: ClosureData, values: seq<string>, now: Now)
    requires app.session.currentUser.Some? && |values| == |ClosureFields|
    ensures var d := ClosureDefaults(app, data).value;
      var inputs := seq(|ClosureFields|, i requires 0 <= i < |ClosureFields| => ("preprint-" + ClosureFields[i], values[i]));
      var r := ConfirmPreprint("area_closure", d, inputs);
      r.Some? ==> ClosureRecord(r.value, now).responsible == d["responsible"]
  {
    var d := ClosureDefaults(app, data).value;
    var inputs := seq(|ClosureFields|, i requires 0 <= i < |ClosureFields| => ("preprint-" + ClosureFields[i], values[i]));
    forall i | 0 <= i < |inputs|
      ensures InputKey(inputs[i].0) != "responsible"
    {
      InputKeyOfField(ClosureFields[i]);
    }
    MergedOptionsLookup(d, inputs, "responsible");
  }

  /** `generateAreaClosureReport`: the figures of the report, then the closure recorded. */
  method GenerateAreaClosureReport(s: Session, store: SnapshotStore, options: Options, now: Now, writeOk: bool)
    returns (summary: ClosureSummary)
    modifies s, store
    ensures summary == ClosureSummaryOf(old(s.app), OptionOr(options, "areaId", "undefined"))
    ensures WorldOf(s, store) == CloseArea(old(WorldOf(s, store)), options, now, writeOk)
  {
    var areaId := OptionOr(options, "areaId", "undefined");
    summary := ClosureSummaryOf(s.app, areaId);
    var responsible := OptionOr(options, "responsible", "");
    s.app := s.app.(areaBook := s.app.areaBook.(closedAreas := s.app.areaBook.closedAreas[areaId := ClosureRecord(options, now)]));
    LogActivity(s, now, "Acta de área cerrada", "Área: " + areaId + ", Responsable que recibe: " + responsible);
    s.SaveState(store, writeOk);
  }

  // ---------------------------------------------------------------------
  // generateInventoryReport, generateInstitutionalAdicionalesReport

  /** The inventory report: the selected user's items, then those of the selected area. */
  function InventoryReport(inv: seq<InventoryItem>, selectedUser: string, selectedArea: string): seq<InventoryItem>
  {
    var byUser := if selectedUser != All then Filter(inv, (it: InventoryItem) => it.usuario == selectedUser) else inv;
    if selectedArea != All then OfArea(byUser, selectedArea) else byUser
  }

  /** An item is reported exactly when it passes both selected filters. */
  lemma InventoryReportExactly(inv: seq<InventoryItem>, selectedUser: string, selectedArea: string, it: InventoryItem)
    ensures it in InventoryReport(inv, selectedUser, selectedArea) <==>
      it in inv && (selectedUser == All || it.usuario == selectedUser) && (selectedArea == All || it.areaOriginal == selectedArea)
  {
  }

  /** The institutional goods report: goods with `personal` `'No'`, then by area custodians, then by user. */
  function InstitutionalReport(app: State, selectedUser: string, selectedArea: string): seq<AdditionalItem>
  {
    var inst := Filter(app.goods.additionalItems, (a: AdditionalItem) => a.personal == "No");
    var names := CustodianNamesIn(app.custody.resguardantes, selectedArea);
    var byArea := if selectedArea != All then Filter(inst, (a: AdditionalItem) => a.usuario in names) else inst;
    if selectedUser != All then Filter(byArea, (a: AdditionalItem) => a.usuario == selectedUser) else byArea
  }

  /** A good is reported exactly when it is institutional and passes both selected filters. */
  lemma InstitutionalReportExactly(app: State, selectedUser: string, selectedArea: string, a: AdditionalItem)
    ensures a in InstitutionalReport(app, selectedUser, selectedArea) <==>
      a in app.goods.additionalItems && a.personal == "No"
      && (selectedArea == All || exists j :: 0 <= j < |app.custody.resguardantes|
                                   && app.custody.resguardantes[j].area == selectedArea && app.custody.resguardantes[j].name == a.usuario)
      && (selectedUser == All || a.usuario == selectedUser)
  {
  }

  /** The state after the institutional report: one log entry with the number of goods listed. */
  function InstitutionalLogged(app: State, selectedUser: string, selectedArea: string, now: Now): State
  {
    var items := InstitutionalReport(app, selectedUser, selectedArea);
    Log(app, now, "Reporte Adicionales (Institucionales)", "Generado con " + NatToString(|items|) + " bienes.")
  }

  /**
   * The institutional report always logs, an empty report included (unlike
   * the simple pending report): exactly one entry naming how many goods it
   * lists is appended, and nothing else in the state changes.
   */
  lemma InstitutionalLoggedEffect(app: State, selectedUser: string, selectedArea: string, now: Now)
    ensures var r := InstitutionalLogged(app, selectedUser, selectedArea, now);
      var count := |InstitutionalReport(app, selectedUser, selectedArea)|;
      r.(session := r.session.(activityLog := app.session.activityLog)) == app
      && r.session.activityLog.Some?
      && |r.session.activityLog.value| == |app.session.activityLog.GetOr([])| + 1
      && r.session.activityLog.value[|r.session.activityLog.value| - 1]
           == LogEntry(now.localStamp, "Reporte Adicionales (Institucionales)", "Generado con " + NatToString(count) + " bienes.")
  {
    var count := |InstitutionalReport(app, selectedUser, selectedArea)|;
    LogOnlyAppends(app, now, "Reporte Adicionales (Institucionales)", "Generado con " + NatToString(count) + " bienes.");
  }

  /** `generateInstitutionalAdicionalesReport`: the goods shown, and the log entry. */
  method InstitutionalAdditionalReport(s: Session, selectedUser: string, selectedArea: string, now: Now)
    returns (items: seq<AdditionalItem>)
    modifies s`app
    ensures items == InstitutionalReport(old(s.app), selectedUser, selectedArea)
    ensures s.app == InstitutionalLogged(old(s.app), selectedUser, selectedArea, now)
  {
    items := InstitutionalReport(s.app, selectedUser, selectedArea);
    LogActivity(s, now, "Reporte Adicionales (Institucionales)", "Generado con " + NatToString(|items|) + " bienes.");
  }

  // ---------------------------------------------------------------------
  // exportInventoryToXLSX, exportLabelsToXLSX

  /** The exported clave: a leading `"0."` loses its `"0"`. */
  function ExportClave(clave: string): string
  {
    if StartsWith(clave, "0.") then clave[1..] else clave
  }

  /** Only a clave starting with `"0."` changes, and putting the `"0"` back restores it. */
  lemma ExportClaveInverse(clave: string)
    ensures StartsWith(clave, "0.") ==> "0" + ExportClave(clave) == clave && StartsWith(ExportClave(clave), ".")
    ensures !StartsWith(clave, "0.") ==> ExportClave(clave) == clave
  {
    if StartsWith(clave, "0.") {
      assert clave == "0" + clave[1..];
    }
  }

  /** The goods the inventory export covers: all, or with an area selected those of the area and of its custodians. */
  function ExportScope(app: State, selectedArea: string): (seq<InventoryItem>, seq<AdditionalItem>)
  {
    if selectedArea == All then (app.goods.inventory, app.goods.additionalItems)
    else (OfArea(app.goods.inventory, selectedArea), AdditionalInArea(app, selectedArea))
  }

  /**
   * With an area selected, the export takes exactly the items of that
   * original area and the goods whose holder is a custodian of that area.
   */
  lemma ExportScopeExactly(app: State, selectedArea: string, it: InventoryItem, a: AdditionalItem)
    ensures var (inv, add) := ExportScope(app, selectedArea);
      (it in inv <==> it in app.goods.inventory && (selectedArea == All || it.areaOriginal == selectedArea))
      && (a in add <==>
            a in app.goods.additionalItems
            && (selectedArea == All
                || (exists j :: 0 <= j < |app.custody.resguardantes|
                      && app.custody.resguardantes[j].area == selectedArea && app.custody.resguardantes[j].name == a.usuario)))
  {
  }

  /** One row of the inventory sheet. */
  datatype InventoryRow = InventoryRow(clave: string, descripcion: string, marca: string, modelo: string, serie: string,
                                       areaOriginal: string, usuario: string, ubicado: string, etiqueta: string,
                                       tieneFoto: string, nota: string)

  function InventoryRowOf(app: State, it: InventoryItem): InventoryRow
  {
    InventoryRow(ExportClave(it.clave), it.descripcion, it.marca, it.modelo, it.serie, it.areaOriginal, it.usuario,
                 it.ubicado, it.imprimir,
                 if it.clave in app.goods.photos && app.goods.photos[it.clave] then "Si" else "No",
                 if it.clave in app.goods.notes then app.goods.notes[it.clave] else "")
  }

  /** The inventory sheet of an export: one row per item in scope, in order. */
  function InventoryRows(app: State, selectedArea: string): (r: seq<InventoryRow>)
    ensures var inv := ExportScope(app, selectedArea).0;
      |r| == |inv| && forall i :: 0 <= i < |r| ==> r[i] == InventoryRowOf(app, inv[i])
  {
    var inv := ExportScope(app, selectedArea).0;
    seq(|inv|, i requires 0 <= i < |inv| => InventoryRowOf(app, inv[i]))
  }

  /** One row of the additional-goods sheet. */
  datatype AdditionalRow = AdditionalRow(descripcion: string, claveOriginal: string, marca: string, modelo: string,
                                         serie: string, areaProcedencia: string, usuario: string, esPersonal: string,
                                         claveAsignada: string)

  /** `value || 'N/A'` on a text: an empty text is falsy. */
  function OrNotApplicable(value: string): string
  {
    if value != "" then value else "N/A"
  }

  function AdditionalRowOf(a: AdditionalItem): AdditionalRow
  {
    AdditionalRow(a.descripcion, OrNotApplicable(a.clave), OrNotApplicable(a.marca), OrNotApplicable(a.modelo),
                  OrNotApplicable(a.serie), OrNotApplicable(a.area), a.usuario, a.personal,
                  OrNotApplicable(a.claveAsignada))
  }

  /** The additional-goods sheet of an export: one row per good in scope, in order. */
  function AdditionalRows(app: State, selectedArea: string): (r: seq<AdditionalRow>)
    ensures var add := ExportScope(app, selectedArea).1;
      |r| == |add| && forall i :: 0 <= i < |r| ==> r[i] == AdditionalRowOf(add[i])
  {
    var add := ExportScope(app, selectedArea).1;
    seq(|add|, i requires 0 <= i < |add| => AdditionalRowOf(add[i]))
  }

  /** The workbook an export writes: the inventory sheet, and the additional-goods sheet when there are goods. */
  datatype Workbook = Workbook(inventory: seq<InventoryRow>, additional: Option<seq<AdditionalRow>>)

  function ExportWorkbook(app: State, selectedArea: string): Workbook
  {
    var add := ExportScope(app, selectedArea).1;
    Workbook(InventoryRows(app, selectedArea), if add == [] then None else Some(AdditionalRows(app, selectedArea)))
  }

  /**
   * The workbook has one inventory row per item in scope and, exactly when
   * goods are in scope, one row per good. In a good's row, the original
   * clave, brand, model, serial, area and assigned clave are never blank:
   * a blank one reads `N/A`, any other is written as it is. Holder and
   * personal flag are copied unchanged.
   */
  lemma ExportWorkbookShape(app: State, selectedArea: string)
    ensures var (inv, add) := ExportScope(app, selectedArea);
      var book := ExportWorkbook(app, selectedArea);
      |book.inventory| == |inv|
      && (book.additional.Some? <==> add != [])
      && (book.additional.Some? ==>
            |book.additional.value| == |add|
            && forall i :: 0 <= i < |add| ==>
                 var row := book.additional.value[i];
                 row.descripcion == add[i].descripcion && row.usuario == add[i].usuario
                 && row.esPersonal == add[i].personal
                 && row.claveOriginal != "" && row.marca != "" && row.modelo != "" && row.serie != ""
                 && row.areaProcedencia != "" && row.claveAsignada != ""
                 && (add[i].clave != "" ==> row.claveOriginal == add[i].clave)
                 && (add[i].marca != "" ==> row.marca == add[i].marca)
                 && (add[i].modelo != "" ==> row.modelo == add[i].modelo)
                 && (add[i].serie != "" ==> row.serie == add[i].serie)
                 && (add[i].area != "" ==> row.areaProcedencia == add[i].area)
                 && (add[i].claveAsignada != "" ==> row.claveAsignada == add[i].claveAsignada))
  {
  }

  /** `exportInventoryToXLSX` on the state: nothing when the scope is empty, else one log entry. */
  function ExportInventory(app: State, selectedArea: string, now: Now): State
  {
    var (inv, add) := ExportScope(app, selectedArea);
    if inv == [] && add == [] then app
    else Log(app, now, "Exportación XLSX",
             if selectedArea == All then "Exportando inventario completo."
             else "Exportando inventario y adicionales para el área " + selectedArea + ".")
  }

  /** `exportInventoryToXLSX`: the workbook written, or none when there is nothing to export. */
  method ExportInventoryToXlsx(s: Session, selectedArea: string, now: Now) returns (book: Option<Workbook>)
    modifies s`app
    ensures s.app == ExportInventory(old(s.app), selectedArea, now)
    ensures var (inv, add) := ExportScope(old(s.app), selectedArea);
      (book.None? <==> inv == [] && add == []) && (book.Some? ==> book.value == ExportWorkbook(old(s.app), selectedArea))
  {
    var (inv, add) := ExportScope(s.app, selectedArea);
    if inv == [] && add == [] {
      return None;
    }
    book := Some(ExportWorkbook(s.app, selectedArea));
    LogActivity(s, now, "Exportación XLSX",
                if selectedArea == All then "Exportando inventario completo."
                else "Exportando inventario y adicionales para el área " + selectedArea + ".");
  }

  /** The goods the label export covers: items marked for relabelling and goods with an assigned clave. */
  function LabelScope(app: State): (seq<InventoryItem>, seq<AdditionalItem>)
  {
    (Filter(app.goods.inventory, (it: InventoryItem) => it.imprimir == Yes),
     Filter(app.goods.additionalItems, (a: AdditionalItem) => a.claveAsignada != ""))
  }

  /** One row of the label sheet. */
  datatype LabelRow = LabelRow(clave: string, descripcion: string, usuario: string, area: string)

  /** The area of the first custodian with that name, or `'N/A'` when there is none or it is blank. */
  function AreaOfHolder(res: seq<Custodian>, name: string): string
  {
    var k := FindIndex(res, (u: Custodian) => u.name == name);
    if k >= 0 && res[k].area != "" then res[k].area else "N/A"
  }

  function HolderOrUnassigned(name: string): string
  {
    if name != "" then name else "Sin Asignar"
  }

  /** The label sheet: the inventory labels, then the additional goods' labels. */
  function LabelRows(app: State): seq<LabelRow>
  {
    var (inv, add) := LabelScope(app);
    var res := app.custody.resguardantes;
    seq(|inv|, i requires 0 <= i < |inv| =>
      LabelRow(ExportClave(inv[i].clave), inv[i].descripcion, HolderOrUnassigned(inv[i].usuario), AreaOfHolder(res, inv[i].usuario)))
    + seq(|add|, j requires 0 <= j < |add| =>
      LabelRow(add[j].claveAsignada, add[j].descripcion, HolderOrUnassigned(add[j].usuario), AreaOfHolder(res, add[j].usuario)))
  }

  /**
   * The label sheet has one row per item marked `'SI'` and one per good with
   * an assigned clave, in that order; item rows carry the exported clave,
   * goods rows the assigned one, never blank.
   */
  lemma LabelRowsShape(app: State, it: InventoryItem, a: AdditionalItem)
    ensures var (inv, add) := LabelScope(app);
      var r := LabelRows(app);
      |r| == |inv| + |add|
      && (forall i :: 0 <= i < |inv| ==> r[i].clave == ExportClave(inv[i].clave))
      && (forall j :: 0 <= j < |add| ==> r[|inv| + j].clave == add[j].claveAsignada && r[|inv| + j].clave != "")
      && (it in inv <==> it in app.goods.inventory && it.imprimir == Yes)
      && (a in add <==> a in app.goods.additionalItems && a.claveAsignada != "")
  {
  }

  /** `exportLabelsToXLSX` on the state: nothing when no label is due, else one log entry. */
  function ExportLabels(app: State, now: Now): State
  {
    var (inv, add) := LabelScope(app);
    if inv == [] && add == [] then app
    else Log(app, now, "Exportación XLSX", "Exportando " + NatToString(|inv|) + " etiquetas de inventario y "
                                          + NatToString(|add|) + " de adicionales.")
  }

  /** `exportLabelsToXLSX`: the label sheet written, or none. */
  method ExportLabelsToXlsx(s: Session, now: Now) returns (rows: Option<seq<LabelRow>>)
    modifies s`app
    ensures s.app == ExportLabels(old(s.app), now)
    ensures var (inv, add) := LabelScope(old(s.app));
      (rows.None? <==> inv == [] && add == []) && (rows.Some? ==> rows.value == LabelRows(old(s.app)))
  {
    var (inv, add) := LabelScope(s.app);
    if inv == [] && add == [] {
      return None;
    }
    rows := Some(LabelRows(s.app));
    LogActivity(s, now, "Exportación XLSX", "Exportando " + NatToString(|inv|) + " etiquetas de inventario y "
                                            + NatToString(|add|) + " de adicionales.");
  }
}

=== FILE: seqs.dfy ===
/**
 * The array primitives the application uses on its lists (`filter`,
 * `findIndex`, `every`, `some`), as functions over sequences.
 */
module Seqs {

  /** `s.filter(p)`: the elements satisfying `p`, in their original order. */
  function Filter<T(!new)>(s: seq<T>, p: T -> bool): (r: seq<T>)
    ensures |r| <= |s|
    ensures forall x :: x in r <==> x in s && p(x)
    ensures forall i :: 0 <= i < |r| ==> p(r[i])
    ensures multiset(r) <= multiset(s)
  {
    if s == [] then []
    else
      assert s == [s[0]] + s[1..];
      (if p(s[0]) then [s[0]] else []) + Filter(s[1..], p)
  }

  /** Filtering a sequence extended by one element. */
  lemma {:induction false} FilterSnoc<T(!new)>(s: seq<T>, x: T, p: T -> bool)
    ensures Filter(s + [x], p) == Filter(s, p) + (if p(x) then [x] else [])
  {
    FilterAppend(s, [x], p);
    assert Filter([x], p) == (if p(x) then [x] else []) + Filter([x][1..], p);
  }

  /** Filtering a concatenation. */
  lemma {:induction false} FilterAppend<T(!new)>(s: seq<T>, t: seq<T>, p: T -> bool)
    ensures Filter(s + t, p) == Filter(s, p) + Filter(t, p)
  {
    if s == [] {
      assert s + t == t;
    } else {
      assert (s + t)[0] == s[0];
      assert (s + t)[1..] == s[1..] + t;
      FilterAppend(s[1..], t, p);
      var h := if p(s[0]) then [s[0]] else [];
      calc {
        Filter(s + t, p);
        h + Filter(s[1..] + t, p);
        h + (Filter(s[1..], p) + Filter(t, p));
        (h + Filter(s[1..], p)) + Filter(t, p);
      }
    }
  }

  /** Filtering drops nothing exactly when every element satisfies the predicate (`s.every(p)`). */
  lemma {:induction false} FilterKeepsAll<T(!new)>(s: seq<T>, p: T -> bool)
    ensures |Filter(s, p)| == |s| <==> forall i :: 0 <= i < |s| ==> p(s[i])
  {
    if s != [] {
      FilterKeepsAll(s[1..], p);
      if !p(s[0]) {
        assert |Filter(s, p)| == |Filter(s[1..], p)| <= |s| - 1;
      } else {
        assert forall i :: 1 <= i < |s| ==> s[i] == s[1..][i - 1];
      }
    }
  }

  /** `s.findIndex(p)`: the first index whose element satisfies `p`, or -1. */
  function FindIndex<T>(s: seq<T>, p: T -> bool): (r: int)
    ensures -1 <= r < |s|
    ensures r >= 0 ==> p(s[r]) && forall j :: 0 <= j < r ==> !p(s[j])
    ensures r == -1 <==> forall j :: 0 <= j < |s| ==> !p(s[j])
  {
    if s == [] then -1
    else if p(s[0]) then 0
    else
      var k := FindIndex(s[1..], p);
      if k == -1 then -1 else k + 1
  }

  /** The first match in a sequence extended by one element. */
  lemma {:induction false} FindIndexSnoc<T>(s: seq<T>, x: T, p: T -> bool)
    ensures FindIndex(s + [x], p) == if FindIndex(s, p) >= 0 then FindIndex(s, p) else if p(x) then |s| else -1
  {
    if s != [] {
      assert (s + [x])[1..] == s[1..] + [x];
      FindIndexSnoc(s[1..], x, p);
    }
  }

  /** The elements of `s` are pairwise distinct. */
  predicate Distinct<T(==)>(s: seq<T>)
  {
    forall i, j :: 0 <= i < j < |s| ==> s[i] != s[j]
  }

  /** `s` with the element at `i` removed (`splice(i, 1)`). */
  function RemoveAt<T>(s: seq<T>, i: nat): (r: seq<T>)
    requires i < |s|
    ensures |r| == |s| - 1
    ensures forall j :: 0 <= j < i ==> r[j] == s[j]
    ensures forall j :: i <= j < |r| ==> r[j] == s[j + 1]
  {
    s[..i] + s[i + 1..]
  }

  /**
   * `splice(i, 0, x)`: `x` inserted before index `i`; an index past the end
   * appends, as `splice` does.
   */
  function InsertAt<T>(s: seq<T>, i: nat, x: T): (r: seq<T>)
    ensures |r| == |s| + 1
    ensures i <= |s| ==> r[i] == x && r[..i] == s[..i] && r[i + 1..] == s[i..]
    ensures i > |s| ==> r == s + [x]
  {
    if i <= |s| then s[..i] + [x] + s[i..] else s + [x]
  }

  /** Re-inserting a removed element at its old index restores the sequence. */
  lemma InsertRemoved<T>(s: seq<T>, i: nat)
    requires i < |s|
    ensures InsertAt(RemoveAt(s, i), i, s[i]) == s
  {
    assert s == s[..i] + [s[i]] + s[i + 1..];
  }

  /** Filtering keeps distinct elements distinct. */
  lemma {:induction false} FilterDistinct<T(!new)>(s: seq<T>, p: T -> bool)
    requires Distinct(s)
    ensures Distinct(Filter(s, p))
  {
    if s != [] {
      FilterDistinct(s[1..], p);
    }
  }

  /** Filtering with a predicate every element satisfies returns the sequence itself. */
  lemma {:induction false} FilterAllTrue<T(!new)>(s: seq<T>, p: T -> bool)
    requires forall i :: 0 <= i < |s| ==> p(s[i])
    ensures Filter(s, p) == s
  {
    if s != [] {
      FilterAllTrue(s[1..], p);
      assert s == [s[0]] + s[1..];
    }
  }

  /** Where `Array.prototype.slice` reads an index: a negative one counts from the end, and both are clamped. */
  function SliceIndex(i: int, len: nat): (r: nat)
    ensures r <= len
    ensures 0 <= i <= len ==> r == i
  {
    if i < 0 then (if len + i < 0 then 0 else len + i) else if i > len then len else i
  }

  /** `s.slice(start, end)`. */
  function JsSlice<T>(s: seq<T>, start: int, end: int): (r: seq<T>)
    ensures 0 <= start <= end <= |s| ==> r == s[start..end]
    ensures 0 <= start <= |s| < end ==> r == s[start..]
  {
    var a := SliceIndex(start, |s|);
    var b := SliceIndex(end, |s|);
    if a < b then s[a..b] else []
  }
}

=== FILE: sorting.dfy ===
/**
 * `Array.prototype.sort()` with its default comparator on strings, compared
 * character by character, a proper prefix first. Characters are compared by
 * their Unicode scalar values, which agrees with the UTF-16 code-unit order
 * of JavaScript inside the Basic Multilingual Plane.
 */
module Sorting {

  /** `a < b` on strings, by scalar values as described above. */
  predicate Below(a: string, b: string)
  {
    if a == [] then b != []
    else if b == [] then false
    else a[0] < b[0] || (a[0] == b[0] && Below(a[1..], b[1..]))
  }

  lemma {:induction false} BelowIrreflexive(a: string)
    ensures !Below(a, a)
  {
    if a != [] {
      BelowIrreflexive(a[1..]);
    }
  }

  /** Any two different strings are ordered one way and not the other. */
  lemma {:induction false} BelowTotal(a: string, b: string)
    ensures a == b || Below(a, b) || Below(b, a)
    ensures !(Below(a, b) && Below(b, a))
  {
    if a != [] && b != [] && a[0] == b[0] {
      BelowTotal(a[1..], b[1..]);
      if a[1..] == b[1..] {
        assert a == [a[0]] + a[1..] && b == [b[0]] + b[1..];
      }
    }
  }

  /** Strictly ascending, hence free of duplicates. */
  predicate StrictlySorted(s: seq<string>)
  {
    forall i, j :: 0 <= i < j < |s| ==> Below(s[i], s[j])
  }

  /** `x` inserted into a strictly ascending sequence, unless it is already there. */
  function InsertSorted(x: string, s: seq<string>): (r: seq<string>)
    requires StrictlySorted(s)
    ensures StrictlySorted(r)
    ensures forall y :: y in r <==> y == x || y in s
  {
    if s == [] then [x]
    else if x == s[0] then s
    else if Below(x, s[0]) then
      assert forall j :: 0 <= j < |s| ==> Below(x, s[j]) by {
        forall j | 0 < j < |s|
          ensures Below(x, s[j])
        {
          BelowTransitive(x, s[0], s[j]);
        }
      }
      [x] + s
    else
      BelowTotal(x, s[0]);
      var t := InsertSorted(x, s[1..]);
      assert forall j :: 0 <= j < |t| ==> Below(s[0], t[j]) by {
        forall j | 0 <= j < |t|
          ensures Below(s[0], t[j])
        {
          assert t[j] in t;
          if t[j] != x {
            var k :| 0 <= k < |s[1..]| && s[1..][k] == t[j];
            assert s[k + 1] == t[j];
          }
        }
      }
      [s[0]] + t
  }

  lemma {:induction false} BelowTransitive(a: string, b: string, c: string)
    requires Below(a, b) && Below(b, c)
    ensures Below(a, c)
  {
    if a != [] && a[0] == b[0] && b[0] == c[0] {
      BelowTransitive(a[1..], b[1..], c[1..]);
    }
  }

  /** `[...new Set(xs)].sort()`: the distinct values of `xs` in ascending order. */
  function SortUnique(xs: seq<string>): (r: seq<string>)
    ensures StrictlySorted(r)
    ensures forall y :: y in r <==> y in xs
  {
    if xs == [] then []
    else
      var init := xs[..|xs| - 1];
      assert xs == init + [xs[|xs| - 1]];
      InsertSorted(xs[|xs| - 1], SortUnique(init))
  }

  /** A set has exactly one strictly ascending arrangement. */
  lemma {:induction false} StrictlySortedUnique(a: seq<string>, b: seq<string>)
    requires StrictlySorted(a) && StrictlySorted(b)
    requires forall y :: y in a <==> y in b
    ensures a == b
  {
    if a != [] {
      assert a[0] in a;
    }
    if b != [] {
      assert b[0] in b;
    }
    if a != [] && b != [] {
      var k :| 0 <= k < |b| && b[k] == a[0];
      var m :| 0 <= m < |a| && a[m] == b[0];
      if k > 0 {
        assert Below(b[0], a[0]);
        BelowIrreflexive(a[0]);
        assert m > 0;
        assert Below(a[0], b[0]);
        BelowTotal(a[0], b[0]);
        assert false;
      }
      forall y
        ensures y in a[1..] <==> y in b[1..]
      {
        if y in a[1..] {
          var i :| 1 <= i < |a| && a[i] == y;
          BelowIrreflexive(y);
          assert y != a[0];
          assert y in b;
          var j :| 0 <= j < |b| && b[j] == y;
          assert j != 0;
          assert b[1..][j - 1] == y;
        }
        if y in b[1..] {
          var j :| 1 <= j < |b| && b[j] == y;
          BelowIrreflexive(y);
          assert y != b[0];
          assert y in a;
          var i :| 0 <= i < |a| && a[i] == y;
          assert i != 0;
          assert a[1..][i - 1] == y;
        }
      }
      StrictlySortedUnique(a[1..], b[1..]);
      assert a == [a[0]] + a[1..] && b == [b[0]] + b[1..];
    }
  }

  /** Sorting depends only on which values occur, not on their order or repetition. */
  lemma SortUniqueOrderFree(xs: seq<string>, ys: seq<string>)
    requires forall y :: y in xs <==> y in ys
    ensures SortUnique(xs) == SortUnique(ys)
  {
    StrictlySortedUnique(SortUnique(xs), SortUnique(ys));
  }
}

=== FILE: utils.dfy ===
/**
 * Small helpers the views share: the location icon classifier, the
 * memoised per-area colour, and the guard and escaping of search-term
 * highlighting.
 */
module Utils {
  import opened JsText
  import opened AppState

  // ---------------------------------------------------------------------
  // getLocationIcon

  /** The icon used when no keyword names the kind of place. */
  const DefaultIcon: string := "fa-solid fa-location-dot"

  /** One classifier rule: any of its keywords selects its icon. */
  datatype IconRule = IconRule(keywords: seq<string>, icon: string)

  /** The rules in the order they are tried; the first that matches wins. */
  const IconRules: seq<IconRule> := [
    IconRule(["OFICINA"], "fa-solid fa-building"),
    IconRule(["CUBICULO", "CUB\U{CD}CULO"], "fa-solid fa-user"),
    IconRule(["BODEGA"], "fa-solid fa-box-archive"),
    IconRule(["PASILLO"], "fa-solid fa-road"),
    IconRule(["SALA DE JUNTAS"], "fa-solid fa-users"),
    IconRule(["SECRETARIAL"], "fa-solid fa-keyboard"),
    IconRule(["FOTOCOPIADO"], "fa-solid fa-print")
  ]

  /** The upper-cased base includes one of the rule's keywords. */
  predicate RuleMatches(upper: string, rule: IconRule)
  {
    exists k | 0 <= k < |rule.keywords| :: Contains(upper, rule.keywords[k])
  }

  /** The icon of the first matching rule, or the default one. */
  function FirstRuleIcon(upper: string, rules: seq<IconRule>): string
  {
    if rules == [] then DefaultIcon
    else if RuleMatches(upper, rules[0]) then rules[0].icon
    else FirstRuleIcon(upper, rules[1..])
  }

  /** `getLocationIcon(locationBase)`. */
  function LocationIcon(base: string): string
  {
    if base == "" then DefaultIcon else FirstRuleIcon(ToUpper(base), IconRules)
  }

  /** The first matching rule decides: rules after it are never consulted. */
  lemma {:induction false} FirstRuleWins(upper: string, rules: seq<IconRule>, i: nat)
    requires i < |rules| && RuleMatches(upper, rules[i])
    requires forall j :: 0 <= j < i ==> !RuleMatches(upper, rules[j])
    ensures FirstRuleIcon(upper, rules) == rules[i].icon
  {
    if i > 0 {
      FirstRuleWins(upper, rules[1..], i - 1);
    }
  }

  /** Without a matching rule, the default icon. */
  lemma {:induction false} NoRuleDefault(upper: string, rules: seq<IconRule>)
    requires forall j :: 0 <= j < |rules| ==> !RuleMatches(upper, rules[j])
    ensures FirstRuleIcon(upper, rules) == DefaultIcon
  {
    if rules != [] {
      NoRuleDefault(upper, rules[1..]);
    }
  }

  /** A matching rule, when there is one, is the first that matches. */
  lemma {:induction false} SomeRuleMatches(upper: string, rules: seq<IconRule>)
    requires forall j :: 0 <= j < |rules| ==> rules[j].icon != DefaultIcon
    ensures FirstRuleIcon(upper, rules) != DefaultIcon <==> exists j :: 0 <= j < |rules| && RuleMatches(upper, rules[j])
  {
    if rules != [] {
      SomeRuleMatches(upper, rules[1..]);
      if !RuleMatches(upper, rules[0]) && exists j :: 0 <= j < |rules| && RuleMatches(upper, rules[j]) {
        var j :| 0 <= j < |rules| && RuleMatches(upper, rules[j]);
        assert rules[1..][j - 1] == rules[j];
      }
    }
  }

  /**
   * The icon of a location is the one of the first rule whose keyword its
   * upper-cased base includes; an empty base, or one no rule matches, gets
   * the default icon, and only those do.
   */
  lemma LocationIconChoice(base: string, i: nat)
    ensures i < |IconRules| && base != "" && RuleMatches(ToUpper(base), IconRules[i])
              && (forall j :: 0 <= j < i ==> !RuleMatches(ToUpper(base), IconRules[j]))
            ==> LocationIcon(base) == IconRules[i].icon
    ensures LocationIcon(base) == DefaultIcon
            <==> base == "" || forall j :: 0 <= j < |IconRules| ==> !RuleMatches(ToUpper(base), IconRules[j])
  {
    if i < |IconRules| && base != "" && RuleMatches(ToUpper(base), IconRules[i])
       && (forall j :: 0 <= j < i ==> !RuleMatches(ToUpper(base), IconRules[j])) {
      FirstRuleWins(ToUpper(base), IconRules, i);
    }
    if base != "" {
      SomeRuleMatches(ToUpper(base), IconRules);
    }
  }

  /** Upper-casing distributes over concatenation. */
  lemma {:induction false} ToUpperAppend(a: string, b: string)
    ensures ToUpper(a + b) == ToUpper(a) + ToUpper(b)
  {
    if a == [] {
      assert a + b == b;
    } else {
      assert (a + b)[1..] == a[1..] + b;
      ToUpperAppend(a[1..], b);
    }
  }

  /** Upper-casing twice is upper-casing once. */
  lemma {:induction false} ToUpperIdempotent(s: string)
    ensures ToUpper(ToUpper(s)) == ToUpper(s)
  {
    if s != [] {
      ToUpperIdempotent(s[1..]);
      ToUpperAppend(UpperChars(s[0]), ToUpper(s[1..]));
      var u := UpperChars(s[0]);
      if |u| == 1 {
        assert ToUpper(u) == UpperChars(u[0]) + ToUpper(u[1..]);
      } else {
        assert u == "SS";
        assert ToUpper(u) == UpperChars('S') + ToUpper("S");
      }
    }
  }

  /** Upper-casing never empties a string. */
  lemma ToUpperNonEmpty(s: string)
    requires s != ""
    ensures ToUpper(s) != ""
  {
    assert |UpperChars(s[0])| >= 1;
  }

  /** The classifier ignores case: an upper-cased base gets the same icon. */
  lemma IconIgnoresCase(base: string)
    ensures LocationIcon(ToUpper(base)) == LocationIcon(base)
  {
    if base != "" {
      ToUpperIdempotent(base);
      ToUpperNonEmpty(base);
    }
  }

  // ---------------------------------------------------------------------
  // getAreaColor

  /** `ToInt32`: the integer modulo 2^32, read as a signed 32-bit value. */
  function ToInt32(x: int): (r: int)
    ensures -0x8000_0000 <= r < 0x8000_0000
    ensures (r - x) % 0x1_0000_0000 == 0
  {
    var m := x % 0x1_0000_0000;
    if m >= 0x8000_0000 then m - 0x1_0000_0000 else m
  }

  /** JavaScript's `%` with a positive divisor: the remainder takes the sign of the dividend. */
  function JsRem(a: int, b: int): (r: int)
    requires b > 0
    ensures -b < r < b
    ensures a >= 0 ==> 0 <= r && a % b == r
    ensures a < 0 ==> r <= 0
  {
    if a >= 0 then a % b else -((-a) % b)
  }

  /** One step of the hash: `hash = code + ((hash << 5) - hash)`, where only the shift wraps to 32 bits. */
  function HashStep(hash: int, code: int): int
  {
    code + (ToInt32(hash * 32) - hash)
  }

  /** The hash of an area id, one character after another from the left. */
  function AreaHash(areaId: string): int
  {
    if areaId == [] then 0
    else HashStep(AreaHash(areaId[..|areaId| - 1]), areaId[|areaId| - 1] as int)
  }

  /** Hue, saturation and lightness derived from a hash, with JavaScript's remainder. */
  datatype Hsl = Hsl(h: int, s: int, l: int)

  function HslOf(hash: int): (c: Hsl)
    ensures -359 <= c.h <= 359 && 51 <= c.s <= 89 && 46 <= c.l <= 64
    ensures hash >= 0 ==> 0 <= c.h < 360 && 70 <= c.s < 90 && 55 <= c.l < 65
  {
    Hsl(JsRem(hash, 360), 70 + JsRem(hash, 20), 55 + JsRem(hash, 10))
  }

  /** The CSS text `hsl(h, s%, l%)`. */
  function HslText(c: Hsl): string
  {
    "hsl(" + IntToString(c.h) + ", " + IntToString(c.s) + "%, " + IntToString(c.l) + "%)"
  }

  /** The colour an area gets the first time it is asked for. */
  function ComputedColor(areaId: string): string
  {
    HslText(HslOf(AreaHash(areaId)))
  }

  /** The memo after `getAreaColor(areaId)` and the colour it returns. */
  function ColorMemo(colors: map<string, string>, areaId: string): (map<string, string>, string)
  {
    if areaId in colors && colors[areaId] != "" then (colors, colors[areaId])
    else (colors[areaId := ComputedColor(areaId)], ComputedColor(areaId))
  }

  /**
   * The returned colour is the one stored for the area; a stored, non-empty
   * colour is kept and nothing changes; otherwise only this area's entry is
   * written, with the computed colour. Asking again changes nothing and
   * returns the same colour.
   */
  lemma ColorMemoStable(colors: map<string, string>, areaId: string)
    ensures var (m, c) := ColorMemo(colors, areaId);
      areaId in m && m[areaId] == c && c != ""
      && (forall k :: k != areaId ==> (k in m <==> k in colors) && (k in m ==> m[k] == colors[k]))
      && (areaId in colors && colors[areaId] != "" ==> m == colors)
      && (areaId !in colors || colors[areaId] == "" ==> c == ComputedColor(areaId))
      && ColorMemo(m, areaId) == (m, c)
  {
  }

  /** Asking for an area's colour does not change the colour of any other area. */
  lemma ColorMemoCommutes(colors: map<string, string>, a: string, b: string)
    ensures var (m1, c1) := ColorMemo(colors, a);
      var (m2, c2) := ColorMemo(colors, b);
      ColorMemo(m1, b).1 == c2 && ColorMemo(m2, a).1 == c1
  {
  }

  /** `getAreaColor(areaId)`: the loop computes the hash, the memo is filled only when empty. */
  method GetAreaColor(s: Session, areaId: string) returns (color: string)
    modifies s`app
    ensures (s.app.layout.layoutItemColors, color) == ColorMemo(old(s.app.layout.layoutItemColors), areaId)
    ensures s.app == old(s.app).(layout := s.app.layout) && s.app.layout == old(s.app.layout).(layoutItemColors := s.app.layout.layoutItemColors)
  {
    var colors := s.app.layout.layoutItemColors;
    if areaId in colors && colors[areaId] != "" {
      return colors[areaId];
    }
    var hash := 0;
    var i := 0;
    while i < |areaId|
      invariant 0 <= i <= |areaId|
      invariant hash == AreaHash(areaId[..i])
    {
      assert areaId[..i + 1][..i] == areaId[..i];
      hash := HashStep(hash, areaId[i] as int);
      i := i + 1;
    }
    assert areaId[..i] == areaId;
    color := HslText(HslOf(hash));
    s.app := s.app.(layout := s.app.layout.(layoutItemColors := colors[areaId := color]));
  }

  // ---------------------------------------------------------------------
  // highlightText

  /** The characters the escaping prefixes with a backslash. */
  predicate IsRegexMeta(c: char)
  {
    c in ".*+?^${}()|[]\\"
  }

  /** `term.replace(/[.*+?^${}()|[\]\\]/g, '\\$&')`. */
  function EscapeRegex(term: string): (r: string)
    ensures |r| >= |term|
  {
    if term == [] then []
    else (if IsRegexMeta(term[0]) then ['\\', term[0]] else [term[0]]) + EscapeRegex(term[1..])
  }

  /** Reading an escaped term back: a backslash stands for the character after it. */
  function UnescapeRegex(e: string): string
  {
    if e == [] then []
    else if e[0] == '\\' && |e| >= 2 then [e[1]] + UnescapeRegex(e[2..])
    else [e[0]] + UnescapeRegex(e[1..])
  }

  /** No metacharacter of the term survives unescaped: reading the escaped term back gives the term. */
  lemma {:induction false} EscapeRoundTrip(term: string)
    ensures UnescapeRegex(EscapeRegex(term)) == term
  {
    if term != [] {
      EscapeRoundTrip(term[1..]);
      var e := EscapeRegex(term);
      if IsRegexMeta(term[0]) {
        assert e[2..] == EscapeRegex(term[1..]);
      } else {
        assert e[1..] == EscapeRegex(term[1..]);
      }
    }
  }

  /** Each metacharacter adds exactly one backslash; other characters are copied. */
  function MetaCount(term: string): nat
  {
    if term == [] then 0 else (if IsRegexMeta(term[0]) then 1 else 0) + MetaCount(term[1..])
  }

  lemma {:induction false} EscapeLength(term: string)
    ensures |EscapeRegex(term)| == |term| + MetaCount(term)
  {
    if term != [] {
      EscapeLength(term[1..]);
    }
  }

  /** What `highlightText` does: return the text untouched, or mark the matches of a case-insensitive pattern. */
  datatype Highlight = Unchanged | Marked(pattern: string, flags: string)

  /** `highlightText(text, searchTerm)`, up to the regular-expression replacement itself. */
  function HighlightText(text: string, term: string): Highlight
  {
    if Trim(term) == "" || text == "" then Unchanged
    else Marked("(" + EscapeRegex(term) + ")", "gi")
  }

  /**
   * The text is left as it is exactly when the term is blank or the text is
   * empty; otherwise the pattern is one group holding the escaped term.
   */
  lemma HighlightGuard(text: string, term: string)
    ensures HighlightText(text, term) == Unchanged <==> Trim(term) == "" || text == ""
    ensures HighlightText(text, term).Marked? ==>
      var p := HighlightText(text, term).pattern;
      p[0] == '(' && p[|p| - 1] == ')' && UnescapeRegex(p[1..|p| - 1]) == term
  {
    if HighlightText(text, term).Marked? {
      var p := HighlightText(text, term).pattern;
      assert p[1..|p| - 1] == EscapeRegex(term);
      EscapeRoundTrip(term);
    }
  }
}

=== FILE: wrappers.dfy ===
/** An optional value: JavaScript's `null`/`undefined` versus a present value. */
module Wrappers {

  datatype Option<T> = None | Some(value: T)
  {
    function GetOr(default: T): (r: T)
      ensures Some? ==> r == value
      ensures None? ==> r == default
    {
      match this
      case Some(v) => v
      case None => default
    }
  }
}
